=== FILE: README.md ===
# wasmparser: the streaming binary reader and the text disassembler

This project models the core of `wasmparser`, a streaming WebAssembly reader
(`BinaryReader`) and the small text disassembler (`WasmDisassembler`) built on it.

`BinaryReader` is modelled as an immutable `Reader` value with these fields:

- the buffer, the cursor, the valid length and the `eof` flag;
- the reader state and the current result;
- the error;
- the entry count of the current section, its id, and the ranges of the
  current section and function body.

Every `read()` is a pure function: `ReadAsWritten(r)` as the code stands,
and `Read(r)`, the corrected reader, which differs only in the `linking` and
relocation sections (see "## Findings"). Each returns
`Returned(ok, r')`, or `Threw(exception, r')` when the JavaScript code would
throw. Dereferencing a `null` range throws a `TypeError`; a `DataView`
outside the buffer throws a `RangeError`.

The byte-level sub-readers are functions from `(data, pos, length)` to a
decoded value and the next position. They cover the LEB128 readers, the
`Int64` literal, the entry readers, the function-body header and the
operator immediates. A sub-reader that can fall short reports
`NotEnough`. The caller then hands back the reader it was given, which is
how `read()` "returns false and leaves the cursor where it was".

The modules are:

- `Common`: bytes, `Option`, powers of two, bitwise or, and 32-bit
  truncation `ToInt32`.
- `Leb`: the LEB128 readers and their encoders.
- `I64`: `readVarInt64` and the `Int64` class.
- `ReaderTypes`: states, results and section codes.
- `Decode`: the entry and operator sub-readers.
- `DecodeProps` and `NameProps`: what the counted loops of the sub-readers
  read back from bytes written by LEB128 and string encoders.
- `EntryProps`: encoders for limits, table, global and function types,
  import and export entries, and the `linking` and relocation records, and
  the round trips of their sub-readers.
- `WasmReader`: the state machine.
- `ReaderProps` and `ReaderRetry`: properties of the corrected `read()`, and
  where and how it differs from `read()` as written.
- `Opcodes`: the `OperatorCode` enumeration and the `OperatorCodeNames`
  table.
- `Decimal`: how template strings print an integer.
- `Dis` and `DisProps`: the disassembler and its properties.

The disassembler is a fold over `read()`. `DisStep` handles one reader
state the way the `switch` in `disassemble` does. `Disassemble` repeats
`read()` and `DisStep` until the text is complete, `read()` returns false
(`null`), or an exception is thrown.

## Model

| member | source | states |
|---|---|---|
| Leb.ReadVarUint32 | src/WasmParser.ts:577-588 | the cursor moves past the whole LEB group, up to the first byte without the high bit; the value is the group's bits `\|`-combined at shifts 0, 7, 14, …, with JavaScript's shift count taken modulo 32 |
| Leb.ReadVarInt32 | src/WasmParser.ts:562-576 | the cursor moves past the group; the value is the 32-bit result of the source's or/shift loop, including the final sign-extending shift pair |
| Leb.VarInt7 | src/WasmParser.ts:556-558 | `(b << 25) >> 25` is the low seven bits of the byte read as a signed 7-bit number |
| Leb.VarInt7Examples | src/WasmParser.ts:556-558 | 0x7f, 0x7e, 0x7d and 0x7c read as -1, -2, -3 and -4; 0x40 as -64; 0x60 as -32; 0x01 as 1 |
| Leb.Uint32BitsMeaning | src/WasmParser.ts:577-588 | for groups of at most five bytes, the or/shift loop gives the unsigned LEB value modulo 2^32 |
| Leb.Int32ValueMeaning | src/WasmParser.ts:562-576 | for groups of at most five bytes, the signed reader gives the signed LEB value truncated to 32 bits |
| Leb.ReadVarUint32RoundTrip | src/WasmParser.ts:577-588 | reading the unsigned LEB encoding of any v < 2^32 gives v back and consumes exactly the encoding, whatever follows it |
| Leb.ReadVarInt32RoundTrip | src/WasmParser.ts:562-576 | reading the signed LEB encoding of any 32-bit v gives v back and consumes exactly the encoding |
| Leb.SlebFromUleb | src/WasmParser.ts:562-576 | a signed LEB group's value is its unsigned value less 2^(7n) exactly when bit 6 of the last group is set |
| I64.ReadVarInt64 | src/WasmParser.ts:589-613 | the cursor moves past the group; the eight bytes are what the source's byte-at-a-time accumulator writes, padded with the sign fill |
| I64.ReadVarInt64Meaning | src/WasmParser.ts:589-613 | for groups of up to ten bytes, the eight bytes read as little-endian two's complement are the signed LEB value wrapped to 64 bits |
| I64.ReadVarInt64RoundTrip | src/WasmParser.ts:589-613 | reading the signed LEB encoding of any 64-bit v gives bytes whose signed value is v, consuming exactly the encoding |
| I64.Int64ToInt32 | src/WasmParser.ts:432-434 | `toInt32` is the low 32 bits of the signed 64-bit value, as a signed 32-bit number |
| I64.Int64ToDouble | src/WasmParser.ts:435-449 | `toDouble` is the signed 64-bit value of the little-endian bytes, from both of its loops |
| I64.ToDoubleMeaning | src/WasmParser.ts:435-449 | the negative loop (`-1 - Σ 256^i·(0xff^b_i)`) and the positive loop (`Σ 256^i·b_i`) each equal the two's-complement value in their own case |
| I64.LowWord | src/WasmParser.ts:432-434 | the or of the four low bytes, truncated to 32 bits, equals the 64-bit value truncated to 32 bits |
| I64.AllOnesReadsMinusOne | src/WasmParser.ts:432-449 | eight 0xff bytes read as -1 through both `toDouble` and `toInt32` |
| I64.LowOneReadsOne | src/WasmParser.ts:435-449 | a 1 followed by seven zero bytes reads as 1 |
| Decode.HasVarIntBytes | src/WasmParser.ts:545-552 | the look-ahead holds exactly when some byte between the cursor and the length has its high bit clear; it is a function of the input, so the cursor does not move |
| Decode.VarIntWithin | src/WasmParser.ts:545-552 | when the look-ahead holds, the whole LEB group lies before the length |
| Decode.ReadVarUint32Signed | src/WasmParser.ts:796 | a LEB value used without `>>> 0` is the same 32 bits read as signed |
| Decode.HasStringBytes | src/WasmParser.ts:623-631 | when the look-ahead holds, both the length prefix and the string's bytes lie before the length |
| Decode.ReadStringBytes | src/WasmParser.ts:614-622 | the string is the bytes that follow its unsigned LEB length, as many as the length says, and the cursor stands after them |
| NameProps.ReadStringBytesRoundTrip | src/WasmParser.ts:614-631 | a string written as its LEB length and its bytes reads back whole, the look-ahead holds, and the cursor stands after it |
| Decode.ReadFuncType | src/WasmParser.ts:635-650 | the form is the signed 7-bit first byte; the parameter count is the LEB after it and each parameter type is the signed 7-bit byte at its place; the result count is the raw byte after the parameters, each result type is the byte at its place, and the cursor stands after the last one |
| EntryProps.ReadFuncTypeRoundTrip | src/WasmParser.ts:635-650 | a signature written as its form byte, the LEB parameter count, the parameter type bytes, the result count byte and the result type bytes reads back as that signature, with the cursor right after it |
| Decode.ReadResultTypes | src/WasmParser.ts:641-643 | as many result types as the raw count byte says, each the signed 7-bit byte at its place, with the cursor after the last |
| EntryProps.ReadResultTypesRoundTrip | src/WasmParser.ts:641-643 | a count byte below 256 followed by that many 7-bit type bytes reads back as those types, with the cursor after the last |
| Decode.ReadLimits | src/WasmParser.ts:651-659 | the flags and the initial size are the first two unsigned LEBs; a maximum, the third LEB, is present exactly when bit 0 of the flags is set; the cursor stands after the last LEB read |
| EntryProps.ReadLimitsRoundTrip | src/WasmParser.ts:651-659 | limits written as the flags, the initial size and, when bit 0 of the flags is set, the maximum, each an unsigned LEB, read back as those limits, with the cursor right after them |
| Decode.ReadTableType | src/WasmParser.ts:660-664 | the element type is the signed 7-bit first byte; the limits and the cursor are those `readResizableLimits()` reads from the next byte |
| EntryProps.ReadTableTypeRoundTrip | src/WasmParser.ts:660-664 | a table type written as its element type byte and its limits reads back as that table type, with the cursor right after it |
| Decode.ReadGlobalType | src/WasmParser.ts:668-680 | the global type is read exactly when both of its bytes are complete; the content type is the signed 7-bit first byte, the mutability the raw second byte, and the cursor moves two bytes |
| EntryProps.ReadGlobalTypeRoundTrip | src/WasmParser.ts:668-680 | a global type written as its content type byte and its mutability byte reads back as that global type when both bytes are within the valid length, with the cursor two bytes on |
| Decode.ReadImportEntry | src/WasmParser.ts:691-725 | the module and field names are the two length-prefixed strings and the kind the byte after them; a function import carries the unsigned LEB type index after the kind, a table, memory or global import the description read there, and each holds exactly for its kind; any other kind reads nothing more |
| EntryProps.ReadImportEntryRoundTrip | src/WasmParser.ts:691-725 | an import entry written as its two names, its kind byte and the description that kind calls for (a type index, a table type, limits, a global type, or nothing) reads back as that entry, with the cursor right after it |
| Decode.ReadExportEntry | src/WasmParser.ts:726-738 | the field is the length-prefixed string at the cursor, the kind the byte after it, and the index the unsigned LEB after the kind, with the cursor after it |
| EntryProps.ReadExportEntryRoundTrip | src/WasmParser.ts:726-738 | an export entry written as its field name, its kind byte and its LEB index reads back as that entry, with the cursor right after it |
| Decode.ReadNamings | src/WasmParser.ts:859-868 | the loop reads exactly the count of (index, name) pairs, none for a count of zero or less |
| Decode.ReadNameMap | src/WasmParser.ts:859-868 | a name map holds as many pairs as its signed LEB count, none for a count of zero or less |
| NameProps.ReadNamingsRoundTrip | src/WasmParser.ts:859-868 | pairs written as an unsigned LEB index and a string each read back as those pairs, with the cursor after the last |
| NameProps.ReadNameMapRoundTrip | src/WasmParser.ts:859-868 | a name map written as its count and its pairs reads back as those pairs, with the cursor after the last |
| Decode.ReadLocalNames | src/WasmParser.ts:904-910 | the loop of the local-names entry reads exactly the count of (function, name map) pairs |
| NameProps.ReadLocalNamesRoundTrip | src/WasmParser.ts:904-910 | functions written as an index and a name map each read back as those local names, with the cursor after the last |
| NameProps.LocalNameMapRoundTrip | src/WasmParser.ts:901-910 | a local-names payload written as its count and its functions reads the count back and then those local names |
| Decode.ReadNameEntry | src/WasmParser.ts:869-924 | types 0, 1 and 2 give module, function and local names; another type is invalid; nothing is read unless both header LEBs are complete |
| NameProps.ReadNameEntryRoundTrip | src/WasmParser.ts:869-924 | a name entry written as its type byte, its payload length and its payload reads back as that entry, with the cursor at the end of the payload |
| Decode.ReadRelocHeader | src/WasmParser.ts:925-946 | the header is read exactly when the id byte is complete and, for id 0, its name is all there; the id is that byte; the name, the length-prefixed string after it, is present exactly for id 0; the cursor stands after the last part read |
| EntryProps.ReadRelocHeaderRoundTrip | src/WasmParser.ts:925-946 | a relocation header written as its 7-bit id byte and, for id 0 only, the name of the section it applies to is read back as that header, with the cursor right after it |
| Decode.ReadLinkingEntry | src/WasmParser.ts:947-974 | the entry is read exactly when the type is the stack-pointer type 1 and both LEBs are complete, and then carries the signed index after the type; a complete type other than 1 is invalid and reported with its value |
| EntryProps.ReadLinkingEntryRoundTrip | src/WasmParser.ts:947-974 | a stack-pointer entry written as the type 1 and its signed 32-bit index as an LEB of the index's bit pattern is read back as that entry, with the cursor right after it |
| Decode.ReadRelocEntry | src/WasmParser.ts:983-1033 | the type is the first byte; the offset and the index are the two LEBs after it; an addend is read exactly for the memory-address types, as the third LEB, and the cursor follows the last LEB read; other types are invalid |
| EntryProps.ReadRelocEntryRoundTrip | src/WasmParser.ts:983-1033 | a relocation entry written as its type byte, its offset and index and, exactly for the memory-address types, its addend, each a signed 32-bit number as an LEB of its bit pattern, is read back as that entry, with the cursor right after it |
| Decode.ReadElements | src/WasmParser.ts:813-819 | the loop reads exactly the count of indices, each an unsigned 32-bit LEB, within the length; it cannot start without a complete first LEB |
| DecodeProps.ReadElementsRoundTrip | src/WasmParser.ts:813-819 | indices written as unsigned LEBs read back as those indices, with the cursor after the last |
| Decode.ReadElementBody | src/WasmParser.ts:802-823 | the body is the indices that the loop reads after the signed count; a `RangeError` is thrown exactly when the count is complete, passes the byte check and is negative |
| DecodeProps.ReadElementBodyRoundTrip | src/WasmParser.ts:802-823 | an element body written as its count and its indices reads back as those indices, with the cursor after the last |
| Decode.ReadLocals | src/WasmParser.ts:1161-1174 | the loop reads exactly the count of local runs, and the cursor does not move back and stays within the length |
| DecodeProps.ReadLocalsRoundTrip | src/WasmParser.ts:1160-1174 | local runs written as an unsigned LEB count and a type byte each read back as those runs, with the cursor after the last |
| Decode.ReadFunctionHeader | src/WasmParser.ts:1146-1183 | the body range ends at the body size past its LEB; the local-run count is the second LEB; the cursor stands at the range start |
| DecodeProps.ReadFunctionHeaderRoundTrip | src/WasmParser.ts:1146-1183 | a body header written as its size, its local-run count and its runs reads back as those runs, with the body range from after the runs to the size past its LEB |
| Decode.ReadBrTargets | src/WasmParser.ts:1072-1078 | the `br_table` loop reads exactly the count of depths, each an unsigned 32-bit LEB |
| DecodeProps.ReadBrTargetsRoundTrip | src/WasmParser.ts:1072-1078 | depths written as unsigned LEBs read back as those depths, with the cursor after the last |
| Decode.ReadImmediate | src/WasmParser.ts:1053-1138 | per opcode, the immediate and the cursor after it: block/loop/if a signed 7-bit block type; `br`/`br_if` a depth, `call` a function index, the local and global operators an index, each the unsigned LEB; `call_indirect` a type index and one reserved byte; loads and stores the flags and offset LEBs; `current_memory`/`grow_memory` one reserved byte; `i32.const`/`i64.const` the signed LEB; the float constants four or eight bytes, or a `RangeError` past the data; `br_table` falls short exactly when the count+1 bytes or a target are missing, and otherwise holds the targets its loop reads; any other opcode has no immediate |
| WasmReader.NewReader | src/WasmParser.ts:487-499 | a new reader is `INITIAL`, at position 0, with no data, not at the end of input |
| WasmReader.SetData | src/WasmParser.ts:500-510 | the buffer, position and length are replaced; `eof` defaults to true; the section and body ranges keep their offsets from the cursor |
| WasmReader.Int32At | src/WasmParser.ts:525-544 | the four bytes at the cursor are read little-endian as a signed 32-bit number |
| WasmReader.InitialStep | src/WasmParser.ts:1324-1342 | fewer than eight bytes: false and nothing moves; otherwise the magic number and a supported version give `BEGIN_WASM` eight bytes on, anything else gives `ERROR` |
| WasmReader.EndWasmStep | src/WasmParser.ts:1343-1350 | after `END_WASM`, no byte left gives false in `BEGIN_WASM`; another byte starts the next module's header in the same call |
| WasmReader.SectionHeaderStep | src/WasmParser.ts:1184-1226 | at the end of input the module ends; otherwise the id byte, the payload length and, for custom sections only, the name are read, and the section range runs to the end of the payload; a shortfall moves nothing |
| WasmReader.SkippingSectionStep | src/WasmParser.ts:1358-1367 | skipping ends at the section's end in `END_SECTION` once the payload is all there, and otherwise returns false unchanged |
| WasmReader.SkippingFunctionBodyStep | src/WasmParser.ts:1368-1373 | skipping a body lands at its end in `END_FUNCTION_BODY` and drops the body range; without a body range the `TypeError` is thrown after the state is already `END_FUNCTION_BODY`, with nothing else changed |
| WasmReader.SkipRestOfSection | src/WasmParser.ts:682-685 | `skipSection()` then `read()` from inside a section: `END_SECTION` at the payload's end when it is all there, false in `SKIPPING_SECTION` otherwise, a `TypeError` only without a section range; the input is kept |
| WasmReader.Entry | src/WasmParser.ts:681-769 | with entries left, one entry is taken: the given state and result, the cursor after it, one entry fewer, nothing else changed; with none left, the rest of the section is skipped as `SkipRestOfSection` states |
| WasmReader.TypeEntryStep | src/WasmParser.ts:681-690 | one function type per call, as `readFuncType` reads it, counting one off; none left skips the section |
| WasmReader.ImportEntryStep | src/WasmParser.ts:691-725 | one import entry per call, as `ReadImportEntry` reads it, counting one off; none left skips the section |
| WasmReader.ExportEntryStep | src/WasmParser.ts:726-738 | one export entry per call, as `ReadExportEntry` reads it, counting one off; none left skips the section |
| WasmReader.FunctionEntryStep | src/WasmParser.ts:739-749 | one unsigned LEB type index per call, counting one off; none left skips the section |
| WasmReader.TableEntryStep | src/WasmParser.ts:750-759 | one table type per call, counting one off; none left skips the section |
| WasmReader.MemoryEntryStep | src/WasmParser.ts:760-769 | one memory type (its limits) per call, counting one off; none left skips the section |
| WasmReader.GlobalEntryStep | src/WasmParser.ts:770-786 | a global entry succeeds exactly when its type is complete, and then gives `BEGIN_GLOBAL_SECTION_ENTRY` with that type, the cursor after it and one entry fewer; a shortfall returns false in `GLOBAL_SECTION_ENTRY`; none left skips the section |
| WasmReader.ElementEntryStep | src/WasmParser.ts:787-801 | an element entry succeeds exactly when its index LEB is complete, and then gives `BEGIN_ELEMENT_SECTION_ENTRY` with the signed table index, the cursor after it and one entry fewer; a shortfall returns false in `ELEMENT_SECTION_ENTRY`; none left skips the section |
| WasmReader.ElementEntryBodyStep | src/WasmParser.ts:802-823 | an element body gives `ELEMENT_SECTION_ENTRY_BODY` with the indices `ReadElementBody` reads and the cursor after them; it throws a `RangeError` exactly for a complete negative count that passes the byte check; otherwise it returns false unchanged |
| WasmReader.DataEntryStep | src/WasmParser.ts:824-838 | a data entry succeeds exactly when its index LEB is complete, and then gives `BEGIN_DATA_SECTION_ENTRY` with the signed memory index, the cursor after it and one entry fewer; a shortfall moves nothing; none left skips the section |
| WasmReader.DataEntryBodyStep | src/WasmParser.ts:839-848 | a data body is the length-prefixed bytes, read only when all of them are there |
| WasmReader.InitExpressionBodyStep | src/WasmParser.ts:849-853 | opening an init expression always succeeds, reads no byte, and changes only the state and the result |
| ReaderProps.InitExpressionOpens | src/WasmParser.ts:1389-1445 | after the header of a global, element or data entry, one `read()` opens the init expression without moving, and the next reads its first operator as `INIT_EXPRESSION_OPERATOR` |
| WasmReader.EndInitExpressionStep | src/WasmParser.ts:1409-1421 | the end of an init expression continues the global, data or element entry of the current section; any other section gives `ERROR` |
| WasmReader.NameEntryStep | src/WasmParser.ts:869-924 | at or past the payload's end the section is skipped; inside it, an entry that `ReadNameEntry` reads gives `NAME_SECTION_ENTRY` with that entry and the cursor after it, and `ERROR` with `BadNameEntryType` holds exactly when the type is invalid; a shortfall moves nothing |
| WasmReader.RelocHeaderStep | src/WasmParser.ts:925-946 | true exactly when `readRelocHeader()` reads a header; then the state is `RELOC_SECTION_HEADER`, the result is that header, the cursor follows it, and nothing else changes; a shortfall moves nothing |
| WasmReader.RelocEntryStep | src/WasmParser.ts:983-1033 | with entries left, an entry `ReadRelocEntry` reads gives `RELOC_SECTION_ENTRY` with one entry fewer, `ERROR` with `BadRelocationType` holds exactly when the type is invalid, and a shortfall moves nothing; none left skips the section |
| WasmReader.LinkingEntryStep | src/WasmParser.ts:947-974 | with entries left, an entry `ReadLinkingEntry` reads gives `LINKING_SECTION_ENTRY` with one entry fewer, `ERROR` with `BadLinkingType` holds exactly when the type is not 1, and a shortfall moves nothing; none left skips the section |
| WasmReader.CountThenEntry | src/WasmParser.ts:1302-1311 | the count is read only when its LEB is complete; when the first entry then falls short, the count stays consumed with the cursor after it, in the entry's state for the corrected reader and in the old state as written; a zero count skips the section |
| WasmReader.SourceMappingUrlStep | src/WasmParser.ts:975-982 | the URL is the length-prefixed string, read only when it is all there |
| WasmReader.SectionRawDataStep | src/WasmParser.ts:1227-1235 | the raw data is the payload bytes from the cursor; the step needs the section range |
| WasmReader.FunctionBodyStep | src/WasmParser.ts:1146-1183 | a body header succeeds exactly when `ReadFunctionHeader` reads it, and then gives `BEGIN_FUNCTION_BODY` with its locals, the body range from the cursor to the size past its LEB, and one entry fewer; a shortfall moves nothing; none left skips the section |
| WasmReader.ReadCodeOperator | src/WasmParser.ts:1034-1145 | at the end of the body range, `CODE_OPERATOR` turns into `END_FUNCTION_BODY` at the range's end; after `end` in an init expression, `END_INIT_EXPRESSION_BODY` with no result; otherwise false (nothing moved) exactly when fewer than 11 bytes remain before `eof` or the `br_table` targets fall short; true gives the operator whose code is the byte at the cursor and whose immediate and cursor are those `ReadImmediate` reads after it; otherwise a throw is the float constant's `RangeError`, with the cursor one byte on; with no body range `CODE_OPERATOR` throws a `TypeError` |
| WasmReader.FirstEntryStep | src/WasmParser.ts:1244-1297 | the first entry of a known section: none left skips the section; otherwise a read counts one off, and a false return leaves the cursor and the count where they were |
| WasmReader.CustomSectionStep | src/WasmParser.ts:1298-1315 | a custom section is read by its name: `name` gives name entries, a `reloc.` prefix the relocation header, `linking` its entries, `sourceMappingURL` the URL, any other name the raw payload; each false return keeps the reader |
| WasmReader.SectionBodyStep | src/WasmParser.ts:1236-1321 | at the section's end the reader reports `END_SECTION` and drops the range; inside it, an id that is neither custom nor a known section gives `ERROR` with `UnsupportedSection` |
| WasmReader.ReadStep | src/WasmParser.ts:1322-1460 | one `read()` keeps the buffer, length and `eof`; in `ERROR` it returns true and changes nothing |
| WasmReader.Read | src/WasmParser.ts:1322-1460 | the corrected `read()`, which records the count of `linking` and relocation sections in the state; it keeps the input, and `ERROR` is a fixed point |
| WasmReader.ReadAsWritten | src/WasmParser.ts:1322-1460 | `read()` as written; it keeps the input, and `ERROR` is a fixed point |
| ReaderRetry.ReadersAgree | src/WasmParser.ts:1322-1460 | the corrected and the as-written `read()` agree in every state except `RELOC_SECTION_HEADER` and the header of a `linking` section |
| WasmReader.SkipSection | src/WasmParser.ts:1461-1469 | no-op in `ERROR`, `INITIAL`, `END_SECTION`, `BEGIN_WASM` and `END_WASM`; otherwise only the state becomes `SKIPPING_SECTION` |
| WasmReader.SkipFunctionBody | src/WasmParser.ts:1470-1475 | only the state changes, to `SKIPPING_FUNCTION_BODY`, and only from `BEGIN_FUNCTION_BODY` or `CODE_OPERATOR` |
| WasmReader.FetchSectionRawData | src/WasmParser.ts:1480-1487 | from `BEGIN_SECTION` it asks for the raw data; from any other state it records an error and gives `ERROR` |
| WasmReader.SkipInitExpression | src/WasmParser.ts:1476-1479 | when it stops, the reader is no longer in `INIT_EXPRESSION_OPERATOR`; outside that state it does nothing |
| WasmReader.SkipInitExpressionOrStop | src/WasmParser.ts:1476-1479 | the corrected loop: a true result has left `INIT_EXPRESSION_OPERATOR`, a false one is still in it, and a short operator before `eof` gives false with the reader unchanged |
| ReaderProps.HeaderNeedsEightBytes | src/WasmParser.ts:1324-1327 | `read()` in `INITIAL` returns false, with nothing moved, exactly when fewer than eight bytes remain |
| ReaderProps.HeaderVerdict | src/WasmParser.ts:1326-1342 | with eight bytes: `BEGIN_WASM` exactly for the magic number with version 1 or 0xd; a bad magic number or a bad version gives `ERROR` with that error |
| ReaderProps.EndOfInputEndsModule | src/WasmParser.ts:1185-1192 | at the end of the last chunk, after the header or a section, `read()` reports `END_WASM` |
| ReaderProps.AfterEndWasm | src/WasmParser.ts:1343-1350 | after `END_WASM`: false when no byte is left, otherwise the next module's header is read |
| ReaderProps.ErrorIsSticky | src/WasmParser.ts:1351-1352 | any number of `read()` calls in `ERROR` return true and change nothing |
| ReaderProps.EntriesCountDown | src/WasmParser.ts:681-769 | in the type, import, export, function, table and memory sections each `read()` returns one entry in the same state with one fewer left; with none left it skips to the section's end |
| ReaderProps.SkipSectionThenRead | src/WasmParser.ts:1358-1367 | `skipSection()` then `read()` reaches `END_SECTION` at the section's end when the payload is there, and otherwise waits in `SKIPPING_SECTION` |
| ReaderProps.SkipFunctionBodyThenRead | src/WasmParser.ts:1368-1373 | `skipFunctionBody()` then `read()` reaches `END_FUNCTION_BODY` at the body's end |
| ReaderProps.CodeOperatorAtBodyEnd | src/WasmParser.ts:1035-1038 | `CODE_OPERATOR` at the end of the body range is followed by `END_FUNCTION_BODY` in one `read()` |
| ReaderProps.CodeOperatorInsideBody | src/WasmParser.ts:1046-1145 | inside the body, `read()` is the ordinary operator read of `ReadCodeOperator`; a successful one stays in `CODE_OPERATOR` with the operator whose code is the byte at the cursor |
| ReaderProps.NewReaderWf | src/WasmParser.ts:487-499 | a new reader satisfies the range invariant: in a section there is a section range, in a body there is a body range |
| ReaderProps.SetDataKeepsWf | src/WasmParser.ts:500-510 | `setData` keeps the range invariant |
| ReaderProps.SkipsKeepWf | src/WasmParser.ts:1461-1487 | `skipSection`, `skipFunctionBody` and `fetchSectionRawData` keep the range invariant |
| ReaderProps.ReadKeepsWf | src/WasmParser.ts:1322-1460 | for both readers: from a reader with the range invariant, `read()` never dereferences a missing range and keeps the invariant |
| ReaderProps.EmptyModuleRun | src/WasmParser.ts:1322-1350 | the eight-byte empty module reads as `BEGIN_WASM` version 1, then `END_WASM`, then false |
| ReaderProps.EmptyElementSectionRun | src/WasmParser.ts:1184-1350 | a module with an empty element section reads as `BEGIN_WASM`, `BEGIN_SECTION` (element), `END_SECTION`, `END_WASM`, then false |
| ReaderRetry.ShortReadIsIdempotent | src/WasmParser.ts:1322-1460 | whenever the corrected `read()` returns false (outside `END_WASM`), calling it again on the same data returns false again from the same reader |
| ReaderRetry.SectionBodyRetry | src/WasmParser.ts:1236-1321 | the same, for the first read of a section body |
| ReaderRetry.LinkingRetryAsWritten | src/WasmParser.ts:1306-1311 | as written, a short first `linking` entry leaves the count consumed in `BEGIN_SECTION`; the retry reads the entry type as a count and moves on; with more data the entry is misread |
| ReaderRetry.LinkingRetryCorrected | src/WasmParser.ts:1306-1311 | with the count kept in `LINKING_SECTION_ENTRY`, the retry waits in place, and with more data the entry is read as it should be |
| ReaderRetry.RelocRetryAsWritten | src/WasmParser.ts:1424-1428 | as written, a short first relocation entry leaves the count consumed in `RELOC_SECTION_HEADER`; the retry reads the entry as a new count |
| ReaderRetry.SkipInitExpressionHangs | src/WasmParser.ts:1476-1479 | as written, `skipInitExpression` on a short init expression loops for any amount of fuel |
| ReaderRetry.SkipInitExpressionStops | src/WasmParser.ts:1476-1479 | the corrected loop stops at the first false `readCodeOperator` and hands back the reader unchanged |
| Opcodes.EnumName | src/WasmParser.ts:34-207 | every named `OperatorCode` lies below 0xc0 |
| Opcodes.OperatorCodeNames | src/WasmParser.ts:209-211 | every entry of the mnemonic table lies below 0xc0 |
| Opcodes.DotAfterType | src/WasmDis.ts:164 | the first rewrite changes only position 3, into a dot, exactly when the name starts with i32/i64/f32/f64 and an underscore |
| Opcodes.SlashBeforeType | src/WasmDis.ts:164 | the second rewrite changes only the fourth-last position, into a slash, exactly when the name ends with an underscore and i32/i64/f32/f64 |
| Opcodes.MnemonicsMatchTable | src/WasmDis.ts:164 | the rewritten enumeration name of every code is the `OperatorCodeNames` entry, and the two have the same codes (src/WasmParser.ts:34-211) |
| Decimal.NatToStringRoundTrip | src/WasmDis.ts:118 | the decimal digits printed by a template string read back as the number |
| Decimal.IntToString | src/WasmDis.ts:137 | an integer prints as its digits, with a minus sign exactly when negative |
| Decimal.IntToStringInjective | src/WasmDis.ts:118 | different indices and literals print differently |
| Dis.TypeToString | src/WasmDis.ts:27-35 | exactly i32, i64, f32 and f64 have a name, three characters with the i/f prefix and 32/64 suffix that match the type; any other type throws |
| Dis.TypeNames | src/WasmDis.ts:27-35 | a list of types has names exactly when each has one, position by position |
| Dis.BinToString | src/WasmDis.ts:22-25 | one character per byte, with the byte's code |
| Dis.PrintFuncType | src/WasmDis.ts:61-76 | the signature prints exactly when every parameter and result type has a name |
| DisProps.PrintFuncTypeAddsReturn | src/WasmDis.ts:72-74 | one more result appends one ` (return T)` piece |
| DisProps.PrintFuncTypeAddsParam | src/WasmDis.ts:63-65 | one more parameter, with variables printed, appends ` (param $varN T)` with N its position |
| DisProps.ParamsListOnlyWithParams | src/WasmDis.ts:61-76 | without variables, ` (params` appears exactly when there are parameters; with no parameters both forms print the same |
| Dis.IncreaseIndent | src/WasmDis.ts:78-80 | two characters are added, and decreasing afterwards gives the indent back |
| Dis.DecreaseIndent | src/WasmDis.ts:82-84 | the last two characters are dropped, or all of them when fewer |
| DisProps.SpacesStep | src/WasmDis.ts:78-84 | on an indent of spaces, increase and decrease move one level in and out |
| DisProps.IndentFollowsDepth | src/WasmDis.ts:156-196 | over a properly nested run of operators the indent is two spaces per open block |
| DisProps.CloserAlignsWithOpener | src/WasmDis.ts:159-162 | an `end` or `else` after a balanced block body prints at the indent of its `block`, `loop` or `if` |
| DisProps.FinalEndAtTwoSpaces | src/WasmDis.ts:154 | after a balanced body, a function's final `end` prints at two spaces |
| Dis.NewDisassembler | src/WasmDis.ts:45-52 | the buffer, types and function types are empty, the counters are 0 and there is no indent |
| Dis.PrintType | src/WasmDis.ts:54-59 | a type prints exactly when its form is `func` and its signature prints |
| Dis.FunctionBodyEvent | src/WasmDis.ts:142-155 | a body adds to the buffer, sets the indent to four spaces, and increments the function index; nothing else changes |
| DisProps.LocalLinesNumbered | src/WasmDis.ts:147-152 | the locals print one line each, numbered consecutively from the given start |
| DisProps.FunctionBodyLines | src/WasmDis.ts:142-155 | a body prints `  (func $func{funcIndex+importCount}` with its signature, then one `(local $varN)` per local numbered from the parameter count |
| DisProps.FunctionBodyPrinted | src/WasmDis.ts:142-155 | in `BEGIN_FUNCTION_BODY` the disassembler performs that body event and keeps reading |
| Dis.OperatorEvent | src/WasmDis.ts:156-196 | an operator prints exactly when its code is named; the line starts with the indent after any `end`/`else` decrease, then the mnemonic, and the new indent is increased after `block`/`loop`/`if`/`else` |
| DisProps.OperatorPrintsTableName | src/WasmDis.ts:164-165 | the printed mnemonic is the `OperatorCodeNames` entry, and an unnamed code throws |
| DisProps.OperatorOperandsPrinted | src/WasmDis.ts:166-186 | after the mnemonic an operator line holds ` $var` and the local index, ` $func` and the function index, a space and the branch depth, or a space and the `i32.const` value, then the newline; block types, `br_table`, type, global and memory immediates print only the newline |
| DisProps.ReadOperatorPrinted | src/WasmDis.ts:166-186 | for a local, `call`, `br`/`br_if` or `i32.const` operator read from the bytes, the line prints and its operand is the LEB that follows the opcode |
| DisProps.I64ConstPrintsSignedValue | src/WasmDis.ts:182-184 | `i64.const` prints the signed value of its eight literal bytes |
| Dis.ExportLine | src/WasmDis.ts:118 | a function export prints as `  (export "<field>" $func<index>)` followed by a newline |
| Dis.ExportEvent | src/WasmDis.ts:114-126 | function exports print their line; memory exports print `  (export "memory" memory)`; any other kind throws |
| Dis.Push | src/WasmDis.ts:92 | a push appends exactly one piece to the buffer |
| Dis.DisStep | src/WasmDis.ts:90-204 | the buffer only grows; `END_WASM` finishes with `)` and the joined buffer; `ERROR` throws the reader's error; unhandled states throw; only function imports pass, and they count |
| DisProps.SectionFilter | src/WasmDis.ts:101-113 | sections 1, 2, 7, 3 and 10 are read; any other section is skipped, and the next `read()` lands at its end |
| Dis.Disassemble | src/WasmDis.ts:86-206 | a text result is the joined buffer ending in `)`, with the reader at `END_WASM`; a `null` result keeps the buffer and the data |
| Dis.Resume | src/WasmDis.ts:88-89 | a false `read()` gives `null` and keeps the disassembler; an exception from `read()` propagates |
| DisProps.EmptyModuleText | src/WasmDis.ts:86-98 | the empty module disassembles to `(module\n)\n`, and a further call gives `null` |

## Left out

- Floating-point literals are not decoded. `f32.const` and `f64.const` keep their 4 or 8 raw bytes, and the disassembler prints them through a `floatText` parameter that stands for `Number.prototype.toString`.
- I64.Int64ToDouble: gives the exact signed value. That equals the JavaScript double only below 2^53 in magnitude; the rounding of larger values, which `i64.const` prints, is not modelled.
- DisProps.I64ConstPrintsSignedValue: states that `i64.const` prints the exact signed value. The source prints the double that `toDouble` returns, so above 2^53 in magnitude it prints a rounded number (2^60 prints as `1152921504606847000`).
- Leb.Uint32BitsMeaning, Leb.Int32ValueMeaning, I64.ReadVarInt64Meaning: the arithmetic meaning is proved for groups of at most five (or ten) bytes. Longer groups are still read exactly as the source's loop does, but no meaning is stated for them.
- UTF-8 decoding is not modelled. Section names are compared as bytes with `name`, `linking`, `sourceMappingURL` and the `reloc.` prefix. `binToString` maps each byte to one character, as `String.fromCharCode` does.
- Reading a byte past the end of the buffer gives 0 in the model (`ByteAt`). In JavaScript it gives `undefined`. That behaves as 0 under `&`, `|` and shifts, but it differs when the byte is stored directly, as an operator code or a section id is.
- The recursive `return this.read()` calls are inlined. When entries run out the model calls the skipping step; at the end of a body it calls the body-skipping step; after `END_WASM` with more bytes it calls the header step.
- WasmReader.SkipInitExpression: the loop carries a `fuel` bound. `None` means the loop had not stopped when the fuel ran out. `ReaderRetry.SkipInitExpressionHangs` holds for every bound.
- Dis.Disassemble: it calls the corrected `Read`, not `ReadAsWritten`. The two differ only when the entry count of a `linking` or relocation section is read (`ReaderRetry.ReadersAgree`), and the disassembler skips those sections. The `while (true)` loop carries a `fuel` bound. Running out of fuel gives an `OutOfFuel` result. The state of the disassembler after a thrown exception is not kept.
- `br_table`, `call_indirect`, global and memory immediates are read but not printed, as in the source.
- Error message texts are represented by named error values, not strings.
- The opcode tables and the reverse lookup `OperatorCode[code]` cover the 0x00–0xbf codes of the MVP enumeration. The source's names come from that enumeration.
- Test files, the example driver and the newer APIs of later versions of the library are not part of this model.

## Findings

| source | as written | input that shows it | evidently intended | confidence | as-written member | corrected member |
|---|---|---|---|---|---|---|
| src/WasmParser.ts:1306-1311, 1424-1428 | the entry count of a `linking` section, or of `RELOC_SECTION_HEADER`, is read and the cursor moved before the first entry is tried; if that entry is short, `read()` returns false in the old state with the count consumed | a `linking` section whose payload so far is the count 1 and the first byte of a stack-pointer entry: the retry reads the entry type as the count, and once more data arrives the entry is misread (type 5 is rejected) | `read()` returning false leaves the reader where a later retry resumes correctly, as the data section does by changing state before reading the entry | not executed | ReaderRetry.LinkingRetryAsWritten, ReaderRetry.RelocRetryAsWritten | ReaderRetry.LinkingRetryCorrected, ReaderRetry.ShortReadIsIdempotent |
| src/WasmParser.ts:1476-1479 | `skipInitExpression` loops while the state is `INIT_EXPRESSION_OPERATOR`, ignoring the result of `readCodeOperator` | an init expression whose next operator is not yet in the buffer (`eof` false, fewer than 11 bytes left): `readCodeOperator` returns false without changing the state, so the loop never ends | stop when `readCodeOperator` returns false so the caller can supply more data | not executed | ReaderRetry.SkipInitExpressionHangs | ReaderRetry.SkipInitExpressionStops |

=== FILE: common.dfy ===
/** Shared vocabulary: bytes, optional values, powers of two, the bitwise OR
    of JavaScript's 32-bit operators on non-negative integers, and the
    integer conversions JavaScript applies to operands of bit operators. */
module Common {

  /** One element of a `Uint8Array`. */
  type Byte = x: int | 0 <= x < 256

  datatype Option<+T> = None | Some(value: T)

  const TWO31: int := 0x8000_0000
  const TWO32: int := 0x1_0000_0000

  function Pow2(n: nat): (r: nat)
    ensures r >= 1
  {
    if n == 0 then 1 else 2 * Pow2(n - 1)
  }

  lemma {:induction false} Pow2Add(a: nat, b: nat)
    ensures Pow2(a + b) == Pow2(a) * Pow2(b)
    decreases a
  {
    if a > 0 {
      Pow2Add(a - 1, b);
      assert Pow2(a + b) == 2 * Pow2(a - 1 + b);
    }
  }

  lemma Pow2Seven(k: nat)
    ensures Pow2(k + 7) == 128 * Pow2(k)
  {
    Pow2Add(7, k);
    assert Pow2(7) == 128;
  }

  lemma Pow2Eight(k: nat)
    ensures Pow2(k + 8) == 256 * Pow2(k)
  {
    Pow2Add(8, k);
    assert Pow2(8) == 256;
  }

  lemma Pow2Monotone(a: nat, b: nat)
    requires a <= b
    ensures Pow2(a) <= Pow2(b)
  {
    Pow2Add(a, b - a);
  }

  lemma Pow2Facts()
    ensures Pow2(6) == 64 && Pow2(7) == 128 && Pow2(8) == 256
    ensures Pow2(14) == 0x4000 && Pow2(21) == 0x20_0000 && Pow2(28) == 0x1000_0000
    ensures Pow2(24) == 0x100_0000 && Pow2(25) == 0x200_0000
    ensures Pow2(31) == TWO31 && Pow2(32) == TWO32 && Pow2(35) == 8 * TWO32
  {
    Pow2Seven(0);
    Pow2Seven(7);
    Pow2Seven(14);
    Pow2Seven(21);
    Pow2Seven(24);
    Pow2Seven(28);
    Pow2Seven(18);
    Pow2Seven(17);
    Pow2Seven(11);
    Pow2Seven(10);
    Pow2Seven(4);
    Pow2Seven(3);
  }

  /** `data[i]` of a `Uint8Array`. Outside the array JavaScript yields
      `undefined`, which every bit operator reads as 0. */
  function ByteAt(data: seq<Byte>, i: int): Byte
  {
    if 0 <= i < |data| then data[i] else 0
  }

  /** Bitwise OR of two non-negative integers, bit by bit. */
  function BitOr(a: nat, b: nat): nat
    decreases a + b
  {
    if a == 0 then b
    else if b == 0 then a
    else 2 * BitOr(a / 2, b / 2) + (if a % 2 == 1 || b % 2 == 1 then 1 else 0)
  }

  /** When the bits of `a` and `b` do not overlap, OR is addition. */
  lemma {:induction false} BitOrDisjoint(a: nat, b: nat, n: nat)
    requires a < Pow2(n)
    requires b % Pow2(n) == 0
    ensures BitOr(a, b) == a + b
    decreases n
  {
    if a != 0 && b != 0 {
      assert n > 0;
      var p := Pow2(n - 1);
      assert Pow2(n) == 2 * p;
      var q := b / Pow2(n);
      assert b == Pow2(n) * q;
      assert b == 2 * (p * q);
      MulMod(p, q);
      assert b / 2 == p * q;
      BitOrDisjoint(a / 2, b / 2, n - 1);
      assert BitOr(a, b) == 2 * (a / 2 + b / 2) + a % 2;
    }
  }

  lemma MulMod(p: int, q: int)
    requires p > 0
    ensures (p * q) % p == 0 && (p * q) / p == q
  {
    DivUnique(p * q, p, q, 0);
  }

  lemma MulSmall(p: int, k: int)
    requires p > 0 && -p < p * k < p
    ensures k == 0
  {
    if k > 0 {
      MulMonotone(p, 1, k);
    } else if k < 0 {
      MulMonotone(p, k, -1);
    }
  }

  lemma MulMonotone(p: int, a: int, b: int)
    requires p > 0 && a <= b
    ensures p * a <= p * b
  {
  }

  /** Euclidean division is determined by quotient and remainder. */
  lemma DivUnique(x: int, p: int, d: int, m: int)
    requires p > 0 && 0 <= m < p && x == p * d + m
    ensures x / p == d && x % p == m
  {
    var d' := x / p;
    var m' := x % p;
    assert x == p * d' + m';
    assert p * (d - d') == m' - m;
    MulSmall(p, d - d');
  }

  lemma {:induction false} BitOrBound(a: nat, b: nat, n: nat)
    requires a < Pow2(n) && b < Pow2(n)
    ensures BitOr(a, b) < Pow2(n)
    decreases a + b
  {
    if a != 0 && b != 0 {
      assert n > 0;
      assert Pow2(n) == 2 * Pow2(n - 1);
      BitOrBound(a / 2, b / 2, n - 1);
    }
  }

  /** JavaScript's ToInt32: the signed reading of the low 32 bits. */
  function ToInt32(x: int): (r: int)
    ensures -TWO31 <= r < TWO31
    ensures (r - x) % TWO32 == 0
  {
    var m := x % TWO32;
    if m >= TWO31 then m - TWO32 else m
  }

  lemma ToInt32Identity(x: int)
    requires -TWO31 <= x < TWO31
    ensures ToInt32(x) == x
  {
  }

  /** ToInt32 only depends on the value modulo 2^32. */
  lemma ToInt32Congruent(x: int, y: int)
    requires (x - y) % TWO32 == 0
    ensures ToInt32(x) == ToInt32(y)
  {
    assert x % TWO32 == y % TWO32 by {
      assert x == y + TWO32 * ((x - y) / TWO32);
    }
  }
}

=== FILE: decimal.dfy ===
/** How the disassembler's template strings print an integer: decimal
    digits, no leading zeros, a minus sign for negative values. */
module Decimal {
  predicate IsDigit(c: char)
  {
    '0' <= c <= '9'
  }

  function DigitChar(d: int): (c: char)
    requires 0 <= d < 10
    ensures IsDigit(c) && c as int - '0' as int == d
  {
    (d + '0' as int) as char
  }

  /** The decimal digits of `n`. */
  function NatToString(n: nat): (s: string)
    ensures |s| > 0
    ensures forall i :: 0 <= i < |s| ==> IsDigit(s[i])
    ensures |s| > 1 ==> s[0] != '0'
    decreases n
  {
    if n < 10 then [DigitChar(n)] else NatToString(n / 10) + [DigitChar(n % 10)]
  }

  /** The number a string of decimal digits stands for. */
  function DigitsValue(s: string): nat
    requires forall i :: 0 <= i < |s| ==> IsDigit(s[i])
    decreases |s|
  {
    if s == [] then 0
    else
      assert IsDigit(s[|s| - 1]);
      10 * DigitsValue(s[..|s| - 1]) + (s[|s| - 1] as int - '0' as int)
  }

  /** Reading the digits back gives the number. */
  lemma {:induction false} NatToStringRoundTrip(n: nat)
    ensures DigitsValue(NatToString(n)) == n
    decreases n
  {
    if n >= 10 {
      var s := NatToString(n);
      assert s[..|s| - 1] == NatToString(n / 10);
      NatToStringRoundTrip(n / 10);
    } else {
      var s := NatToString(n);
      assert s[..|s| - 1] == [];
    }
  }

  /** `${i}` for an integer `i`. */
  function IntToString(i: int): (s: string)
    ensures |s| > 0
    ensures i < 0 <==> s[0] == '-'
    ensures i < 0 ==> s[1..] == NatToString(-i)
    ensures i >= 0 ==> s == NatToString(i)
  {
    if i < 0 then "-" + NatToString(-i) else NatToString(i)
  }

  /** Different integers print differently, so a printed index or literal
      determines the value. */
  lemma IntToStringInjective(a: int, b: int)
    ensures IntToString(a) == IntToString(b) ==> a == b
  {
    if IntToString(a) == IntToString(b) {
      if a < 0 {
        assert b < 0;
        NatToStringInjective(-a, -b);
      } else {
        assert b >= 0;
        NatToStringInjective(a, b);
      }
    }
  }

  lemma NatToStringInjective(a: nat, b: nat)
    requires NatToString(a) == NatToString(b)
    ensures a == b
  {
    NatToStringRoundTrip(a);
    NatToStringRoundTrip(b);
  }
}

=== FILE: decode.dfy ===
/** The byte-level readers `BinaryReader` builds its steps from, as pure
    functions of the buffer and a position. A reader that the source guards
    with lookaheads returns `NotEnough` where the source restores `_pos` and
    returns `false`, so the caller keeps its old position. */
module Decode {
  import opened Common
  import opened Leb
  import opened I64
  import opened ReaderTypes

  /** What a guarded reader produced. */
  datatype Fetch<T> =
    | Got(value: T, next: int)
    | NotEnough
    /** a type code the source rejects with an error */
    | Invalid(code: int)
    /** an exception the source raises */
    | Fault(exception: JsError)

  // ---------------------------------------------------------------------------
  // Lookaheads

  /** `hasBytes(n)`. */
  predicate HasBytes(pos: int, length: int, n: int)
  {
    pos + n <= length
  }

  /** `hasVarIntBytes()`: a byte with bit 7 clear lies in `[pos, length)`. */
  function HasVarIntBytes(data: seq<Byte>, pos: int, length: int): (b: bool)
    ensures b <==> exists i :: pos <= i < length && ByteAt(data, i) < 128
    decreases length - pos
  {
    if pos >= length then false
    else if ByteAt(data, pos) < 128 then true
    else HasVarIntBytes(data, pos + 1, length)
  }

  /** When `hasVarIntBytes()` holds, the whole LEB128 encoding at `pos` lies
      before `length`. */
  lemma {:induction false} VarIntWithin(data: seq<Byte>, pos: int, length: int)
    requires HasVarIntBytes(data, pos, length)
    ensures pos + |Groups(data, pos)| <= length
    decreases length - pos
  {
    if ByteAt(data, pos) >= 128 {
      VarIntWithin(data, pos + 1, length);
    }
  }

  /** Without `hasVarIntBytes()` no byte up to `length` ends an encoding. */
  lemma NoVarIntBefore(data: seq<Byte>, pos: int, length: int, i: int)
    requires !HasVarIntBytes(data, pos, length) && pos <= i < length
    ensures ByteAt(data, i) >= 128
  {
  }

  // ---------------------------------------------------------------------------
  // Plain readers

  /** `readVarUint32()` without `>>> 0`: JavaScript's `|=` leaves a signed
      32-bit value. */
  function ReadVarUint32Signed(data: seq<Byte>, pos: int): (d: Decoded<int>)
    ensures d.next == ReadVarUint32(data, pos).next
    ensures -TWO31 <= d.value < TWO31
    ensures (d.value - ReadVarUint32(data, pos).value) % TWO32 == 0
  {
    var u := ReadVarUint32(data, pos);
    Decoded(ToInt32(u.value), u.next)
  }

  /** `subarray` clamps an index into `[0, n]`, counting a negative one from
      the end. */
  function ClampIndex(i: int, n: nat): (r: int)
    ensures 0 <= r <= n
    ensures 0 <= i <= n ==> r == i
  {
    if i < 0 then (if n + i < 0 then 0 else n + i) else if i > n then n else i
  }

  /** `readBytes(length)` copies `data.subarray(pos, pos + length)`. */
  function Subarray(data: seq<Byte>, begin: int, end: int): (s: seq<Byte>)
    ensures 0 <= begin <= end <= |data| ==> s == data[begin..end]
    ensures |s| <= |data|
  {
    var b := ClampIndex(begin, |data|);
    var e := ClampIndex(end, |data|);
    if e <= b then [] else data[b..e]
  }

  /** `readStringBytes()`: an unsigned LEB128 length, then that many bytes. */
  function ReadStringBytes(data: seq<Byte>, pos: int): (d: Decoded<seq<Byte>>)
    ensures var n := ReadVarUint32(data, pos);
      && d.next == n.next + n.value
      && (0 <= n.next && n.next + n.value <= |data| ==> d.value == data[n.next..n.next + n.value])
  {
    var n := ReadVarUint32(data, pos);
    Decoded(Subarray(data, n.next, n.next + n.value), n.next + n.value)
  }

  /** `hasStringBytes()`: the length is complete and so are the bytes. */
  function HasStringBytes(data: seq<Byte>, pos: int, length: int): (b: bool)
    ensures b ==> pos + |Groups(data, pos)| <= length && ReadStringBytes(data, pos).next <= length
    ensures b <==> HasVarIntBytes(data, pos, length) && ReadStringBytes(data, pos).next <= length
  {
    if !HasVarIntBytes(data, pos, length) then false
    else
      VarIntWithin(data, pos, length);
      var n := ReadVarUint32(data, pos);
      HasBytes(n.next, length, n.value)
  }

  // ---------------------------------------------------------------------------
  // Types and entries

  /** `n` consecutive `readVarInt7()` bytes. */
  function Int7Run(data: seq<Byte>, pos: int, n: nat): (s: seq<int>)
    ensures |s| == n
    ensures forall i :: 0 <= i < n ==> s[i] == VarInt7(ByteAt(data, pos + i))
  {
    seq(n, i requires 0 <= i < n => VarInt7(ByteAt(data, pos + i)))
  }

  /** `readFuncType()`: form, parameter types, then a one-byte return count
      (`readVarUint1` reads a raw byte) and the return types. */
  function ReadFuncType(data: seq<Byte>, pos: int): (d: Decoded<FuncType>)
    ensures d.value.form == VarInt7(ByteAt(data, pos))
    ensures var count := ReadVarUint32(data, pos + 1);
      && |d.value.params| == count.value
      && (forall i :: 0 <= i < |d.value.params| ==> d.value.params[i] == VarInt7(ByteAt(data, count.next + i)))
      && |d.value.results| == ByteAt(data, count.next + count.value)
      && (forall i :: 0 <= i < |d.value.results| ==>
            d.value.results[i] == VarInt7(ByteAt(data, count.next + count.value + 1 + i)))
      && d.next == count.next + count.value + 1 + |d.value.results|
  {
    var form := VarInt7(ByteAt(data, pos));
    var pc := ReadVarUint32(data, pos + 1);
    var params := Int7Run(data, pc.next, pc.value);
    var results := ReadResultTypes(data, pc.next + pc.value);
    Decoded(FuncType(form, params, results.value), results.next)
  }

  /** The return types of `readFuncType()`: a raw count byte, then that many
      types. */
  function ReadResultTypes(data: seq<Byte>, pos: int): (d: Decoded<seq<int>>)
    ensures |d.value| == ByteAt(data, pos)
    ensures forall i :: 0 <= i < |d.value| ==> d.value[i] == VarInt7(ByteAt(data, pos + 1 + i))
    ensures d.next == pos + 1 + |d.value|
  {
    var rc := ByteAt(data, pos);
    Decoded(Int7Run(data, pos + 1, rc), pos + 1 + rc)
  }

  /** `readResizableLimits()`: the maximum is present when bit 0 of the
      flags is set. */
  function ReadLimits(data: seq<Byte>, pos: int): (d: Decoded<Limits>)
    ensures d.value.flags == ReadVarUint32(data, pos).value
    ensures d.value.initial == ReadVarUint32(data, ReadVarUint32(data, pos).next).value
    ensures d.value.maximum.Some? <==> d.value.flags % 2 == 1
    ensures var afterInitial := ReadVarUint32(data, ReadVarUint32(data, pos).next).next;
      && (d.value.maximum.Some? ==> d.value.maximum == Some(ReadVarUint32(data, afterInitial).value)
                                    && d.next == ReadVarUint32(data, afterInitial).next)
      && (d.value.maximum.None? ==> d.next == afterInitial)
    ensures d.next > pos
  {
    var flags := ReadVarUint32(data, pos);
    var initial := ReadVarUint32(data, flags.next);
    if flags.value % 2 == 1 then
      var maximum := ReadVarUint32(data, initial.next);
      Decoded(Limits(flags.value, initial.value, Some(maximum.value)), maximum.next)
    else Decoded(Limits(flags.value, initial.value, None), initial.next)
  }

  /** `readTableType()`. */
  function ReadTableType(data: seq<Byte>, pos: int): (d: Decoded<TableType>)
    ensures d.value.elementType == VarInt7(ByteAt(data, pos))
    ensures d.value.limits.flags == ReadVarUint32(data, pos + 1).value
    ensures d.value.limits == ReadLimits(data, pos + 1).value && d.next == ReadLimits(data, pos + 1).next
    ensures d.next > pos + 1
  {
    var limits := ReadLimits(data, pos + 1);
    Decoded(TableType(VarInt7(ByteAt(data, pos)), limits.value), limits.next)
  }

  /** `readGlobalType()`: `null` (here `None`) unless both bytes are there. */
  function ReadGlobalType(data: seq<Byte>, pos: int, length: int): (o: Option<Decoded<GlobalType>>)
    ensures o.Some? <==> HasVarIntBytes(data, pos, length) && HasVarIntBytes(data, pos + 1, length)
    ensures o.Some? ==> o.value.value == GlobalType(VarInt7(ByteAt(data, pos)), ByteAt(data, pos + 1))
    ensures o.Some? ==> o.value.next == pos + 2 && o.value.next <= length
  {
    if !HasVarIntBytes(data, pos, length) then None
    else
      var contentType := VarInt7(ByteAt(data, pos));
      if !HasVarIntBytes(data, pos + 1, length) then None
      else Some(Decoded(GlobalType(contentType, ByteAt(data, pos + 1)), pos + 2))
  }

  /** `readImportEntry()` after its count check: module and field names, a
      raw kind byte, and the description that kind calls for. */
  function ReadImportEntry(data: seq<Byte>, pos: int, length: int): (d: Decoded<ReaderResult>)
    ensures d.value.ImportEntry?
    ensures var moduleName := ReadStringBytes(data, pos);
      var fieldName := ReadStringBytes(data, moduleName.next);
      && d.value.moduleName == moduleName.value
      && d.value.fieldName == fieldName.value
      && d.value.kind == ByteAt(data, fieldName.next)
      && (d.value.kind == KindFunction ==>
            d.value.funcTypeIndex == Some(ReadVarUint32(data, fieldName.next + 1).value))
      && (d.value.kind == KindTable ==> d.value.importType == TableImport(ReadTableType(data, fieldName.next + 1).value))
      && (d.value.kind == KindMemory ==> d.value.importType == MemoryImport(ReadLimits(data, fieldName.next + 1).value))
      && (d.value.kind == KindGlobal ==>
            var g := ReadGlobalType(data, fieldName.next + 1, length);
            d.value.importType == GlobalImport(if g.Some? then Some(g.value.value) else None))
      && (d.value.kind !in {KindFunction, KindTable, KindMemory, KindGlobal} ==>
            d.value.importType == NoImportType && d.next == fieldName.next + 1)
    ensures d.value.funcTypeIndex.Some? <==> d.value.kind == KindFunction
    ensures d.value.kind == KindTable <==> d.value.importType.TableImport?
    ensures d.value.kind == KindMemory <==> d.value.importType.MemoryImport?
    ensures d.value.kind == KindGlobal <==> d.value.importType.GlobalImport?
  {
    var moduleName := ReadStringBytes(data, pos);
    var fieldName := ReadStringBytes(data, moduleName.next);
    var description := ReadImportDescription(data, fieldName.next, length);
    Decoded(ImportEntry(moduleName.value, fieldName.value, ByteAt(data, fieldName.next), description.value.0, description.value.1), description.next)
  }

  /** The kind byte at `at` and what follows it: a function's type index, or
      the type of a table, memory or global; nothing for any other kind. */
  function ReadImportDescription(data: seq<Byte>, at: int, length: int): (d: Decoded<(Option<int>, ImportType)>)
    ensures var kind := ByteAt(data, at);
      && (kind == KindFunction ==> d.value.0 == Some(ReadVarUint32(data, at + 1).value))
      && (kind == KindTable ==> d.value.1 == TableImport(ReadTableType(data, at + 1).value))
      && (kind == KindMemory ==> d.value.1 == MemoryImport(ReadLimits(data, at + 1).value))
      && (kind == KindGlobal ==>
            var g := ReadGlobalType(data, at + 1, length);
            d.value.1 == GlobalImport(if g.Some? then Some(g.value.value) else None))
      && (kind !in {KindFunction, KindTable, KindMemory, KindGlobal} ==> d.value.1 == NoImportType && d.next == at + 1)
    ensures d.value.0.Some? <==> ByteAt(data, at) == KindFunction
    ensures ByteAt(data, at) == KindTable <==> d.value.1.TableImport?
    ensures ByteAt(data, at) == KindMemory <==> d.value.1.MemoryImport?
    ensures ByteAt(data, at) == KindGlobal <==> d.value.1.GlobalImport?
  {
    var kind := ByteAt(data, at);
    var p := at + 1;
    if kind == KindFunction then
      var index := ReadVarUint32(data, p);
      Decoded((Some(index.value), NoImportType), index.next)
    else if kind == KindTable then
      var table := ReadTableType(data, p);
      Decoded((None, TableImport(table.value)), table.next)
    else if kind == KindMemory then
      var memory := ReadLimits(data, p);
      Decoded((None, MemoryImport(memory.value)), memory.next)
    else if kind == KindGlobal then
      match ReadGlobalType(data, p, length)
      case None => Decoded((None, GlobalImport(None)), p)
      case Some(g) => Decoded((None, GlobalImport(Some(g.value))), g.next)
    else Decoded((None, NoImportType), p)
  }

  /** `readExportEntry()` after its count check. */
  function ReadExportEntry(data: seq<Byte>, pos: int): (d: Decoded<ReaderResult>)
    ensures d.value.ExportEntry?
    ensures d.value.exportField == ReadStringBytes(data, pos).value
    ensures d.value.exportKind == ByteAt(data, ReadStringBytes(data, pos).next)
    ensures d.value.index == ReadVarUint32(data, ReadStringBytes(data, pos).next + 1).value
    ensures d.next == ReadVarUint32(data, ReadStringBytes(data, pos).next + 1).next
    ensures 0 <= d.value.index < TWO32
  {
    var fieldName := ReadStringBytes(data, pos);
    var kind := ByteAt(data, fieldName.next);
    var index := ReadVarUint32(data, fieldName.next + 1);
    Decoded(ExportEntry(fieldName.value, kind, index.value), index.next)
  }

  // ---------------------------------------------------------------------------
  // The name section

  /** The loop of `readNameMap()`: `n` (index, name) pairs. */
  function ReadNamings(data: seq<Byte>, pos: int, n: int): (d: Decoded<seq<Naming>>)
    ensures |d.value| == if n <= 0 then 0 else n
    decreases n
  {
    if n <= 0 then Decoded([], pos)
    else
      var index := ReadVarUint32Signed(data, pos);
      var name := ReadStringBytes(data, index.next);
      var rest := ReadNamings(data, name.next, n - 1);
      Decoded([Naming(index.value, name.value)] + rest.value, rest.next)
  }

  /** `readNameMap()`: a signed count, then the pairs. */
  function ReadNameMap(data: seq<Byte>, pos: int): (d: Decoded<seq<Naming>>)
    ensures var n := ReadVarUint32Signed(data, pos).value;
      |d.value| == if n <= 0 then 0 else n
  {
    var count := ReadVarUint32Signed(data, pos);
    ReadNamings(data, count.next, count.value)
  }

  /** The loop of the local-names entry: `n` (function, name map) pairs. */
  function ReadLocalNames(data: seq<Byte>, pos: int, n: int): (d: Decoded<seq<LocalName>>)
    ensures |d.value| == if n <= 0 then 0 else n
    decreases n
  {
    if n <= 0 then Decoded([], pos)
    else
      var index := ReadVarUint32Signed(data, pos);
      var locals := ReadNameMap(data, index.next);
      var rest := ReadLocalNames(data, locals.next, n - 1);
      Decoded([LocalName(index.value, locals.value)] + rest.value, rest.next)
  }

  /** `readNameEntry()` once inside the payload: a raw type byte, a signed
      payload length that must fit, then one of the three entry kinds. A
      bad type is reported with the position after the payload length. */
  function ReadNameEntry(data: seq<Byte>, pos: int, length: int): (f: Fetch<NameEntry>)
    ensures f.Got? || f.Invalid? ==> HasVarIntBytes(data, pos, length) && HasVarIntBytes(data, pos + 1, length)
    ensures f.Invalid? <==> f != NotEnough && ByteAt(data, pos) > 2
    ensures f.Got? && ByteAt(data, pos) == 0 ==> f.value.ModuleNameEntry?
    ensures f.Got? && ByteAt(data, pos) == 1 ==> f.value.FunctionNameEntry?
    ensures f.Got? && ByteAt(data, pos) == 2 ==> f.value.LocalNameEntry?
    ensures !f.Fault?
  {
    if !HasVarIntBytes(data, pos, length) then NotEnough
    else
      var nameType := ByteAt(data, pos);
      if !HasVarIntBytes(data, pos + 1, length) then NotEnough
      else
        var payloadLength := ReadVarUint32Signed(data, pos + 1);
        var p := payloadLength.next;
        if !HasBytes(p, length, payloadLength.value) then NotEnough
        else if nameType == 0 then
          var name := ReadStringBytes(data, p);
          Got(ModuleNameEntry(name.value), name.next)
        else if nameType == 1 then
          var names := ReadNameMap(data, p);
          Got(FunctionNameEntry(names.value), names.next)
        else if nameType == 2 then
          var count := ReadVarUint32Signed(data, p);
          var funcs := ReadLocalNames(data, count.next, count.value);
          Got(LocalNameEntry(funcs.value), funcs.next)
        else Invalid(nameType)
  }

  // ---------------------------------------------------------------------------
  // Linking and relocation custom sections

  /** `readRelocHeader()`: a raw section id, and a name when it is 0. */
  function ReadRelocHeader(data: seq<Byte>, pos: int, length: int): (f: Fetch<ReaderResult>)
    ensures f.Got? ==> f.value.RelocHeader? && (f.value.relocName.Some? <==> f.value.relocId == 0)
    ensures f.Got? <==> HasVarIntBytes(data, pos, length) && (ByteAt(data, pos) != SectionCustom || HasStringBytes(data, pos + 1, length))
    ensures f.Got? ==> f.value.relocId == ByteAt(data, pos)
    ensures f.Got? && f.value.relocId == SectionCustom ==>
      f.value.relocName == Some(ReadStringBytes(data, pos + 1).value) && f.next == ReadStringBytes(data, pos + 1).next
    ensures f.Got? && f.value.relocId != SectionCustom ==> f.next == pos + 1
    ensures f.Got? || f.NotEnough?
  {
    if !HasVarIntBytes(data, pos, length) then NotEnough
    else
      var id := ByteAt(data, pos);
      if id == SectionCustom then
        if !HasStringBytes(data, pos + 1, length) then NotEnough
        else
          var name := ReadStringBytes(data, pos + 1);
          Got(RelocHeader(id, Some(name.value)), name.next)
      else Got(RelocHeader(id, None), pos + 1)
  }

  /** `readLinkingEntry()` after its count check: an unsigned type, and for
      `StackPointer` (1) a signed index; any other type is an error reported
      with the position after the type. */
  function ReadLinkingEntry(data: seq<Byte>, pos: int, length: int): (f: Fetch<ReaderResult>)
    ensures f.Got? ==> f.value == LinkingEntry(1, Some(ReadVarUint32Signed(data, ReadVarUint32(data, pos).next).value))
    ensures f.Got? ==> f.next <= length
    ensures f.Invalid? <==> f != NotEnough && ReadVarUint32(data, pos).value != 1
    ensures f.Invalid? ==> f.code == ReadVarUint32(data, pos).value
    ensures f.Got? <==> HasVarIntBytes(data, pos, length) && ReadVarUint32(data, pos).value == 1 &&
                        HasVarIntBytes(data, ReadVarUint32(data, pos).next, length)
    ensures !f.Fault?
  {
    if !HasVarIntBytes(data, pos, length) then NotEnough
    else
      var linkingType := ReadVarUint32(data, pos);
      if linkingType.value == 1 then
        if !HasVarIntBytes(data, linkingType.next, length) then NotEnough
        else
          VarIntWithin(data, linkingType.next, length);
          var index := ReadVarUint32Signed(data, linkingType.next);
          Got(LinkingEntry(1, Some(index.value)), index.next)
      else Invalid(linkingType.value)
  }

  /** Relocation types that carry an addend: `GlobalAddr_LEB`, `_SLEB`, `_I32`. */
  predicate HasAddend(t: int)
  {
    t == 3 || t == 4 || t == 5
  }

  /** Relocation types without an addend. */
  predicate NoAddend(t: int)
  {
    t == 0 || t == 1 || t == 2 || t == 6 || t == 7
  }

  /** `readRelocEntry()` after its count check: raw type byte, signed offset
      and index, and a signed addend for the `GlobalAddr` types. */
  function ReadRelocEntry(data: seq<Byte>, pos: int, length: int): (f: Fetch<ReaderResult>)
    ensures f.Got? ==> f.value.RelocEntry? && f.value.relocType == ByteAt(data, pos)
    ensures f.Got? ==> (f.value.addend.Some? <==> HasAddend(ByteAt(data, pos)))
    ensures f.Invalid? <==> f != NotEnough && !HasAddend(ByteAt(data, pos)) && !NoAddend(ByteAt(data, pos))
    ensures !f.Fault?
    ensures f.Got? ==>
      var offset := ReadVarUint32Signed(data, pos + 1);
      var index := ReadVarUint32Signed(data, offset.next);
      f.value.offset == offset.value && f.value.relocIndex == index.value
      && (f.value.addend.None? ==> f.next == index.next)
      && (f.value.addend.Some? ==> f.value.addend.value == ReadVarUint32Signed(data, index.next).value
                                   && f.next == ReadVarUint32Signed(data, index.next).next)
  {
    if !HasVarIntBytes(data, pos, length) then NotEnough
    else
      var relocType := ByteAt(data, pos);
      if !HasVarIntBytes(data, pos + 1, length) then NotEnough
      else
        var offset := ReadVarUint32Signed(data, pos + 1);
        if !HasVarIntBytes(data, offset.next, length) then NotEnough
        else
          var index := ReadVarUint32Signed(data, offset.next);
          if NoAddend(relocType) then
            Got(RelocEntry(relocType, offset.value, index.value, None), index.next)
          else if HasAddend(relocType) then
            if !HasVarIntBytes(data, index.next, length) then NotEnough
            else
              var addend := ReadVarUint32Signed(data, index.next);
              Got(RelocEntry(relocType, offset.value, index.value, Some(addend.value)), addend.next)
          else Invalid(relocType)
  }

  // ---------------------------------------------------------------------------
  // Element segments and function bodies

  /** The loop of `readElementEntryBody()`: `n` indices, each guarded by a
      lookahead. `Uint32Array` stores the unsigned pattern. */
  function ReadElements(data: seq<Byte>, pos: int, length: int, n: int): (o: Option<Decoded<seq<int>>>)
    ensures o.Some? ==> |o.value.value| == (if n <= 0 then 0 else n) && o.value.next <= length
    ensures o.Some? ==> forall i :: 0 <= i < |o.value.value| ==> 0 <= o.value.value[i] < TWO32
    ensures n > 0 && !HasVarIntBytes(data, pos, length) ==> o.None?
    decreases n
  {
    if n <= 0 then (if pos <= length then Some(Decoded([], pos)) else None)
    else if !HasVarIntBytes(data, pos, length) then None
    else
      VarIntWithin(data, pos, length);
      var e := ReadVarUint32(data, pos);
      match ReadElements(data, e.next, length, n - 1)
      case None => None
      case Some(rest) => Some(Decoded([e.value] + rest.value, rest.next))
  }

  /** `readElementEntryBody()`: a signed count that must not exceed the
      bytes left, then the indices. A negative count passes the byte check
      and makes `new Uint32Array` throw. */
  function ReadElementBody(data: seq<Byte>, pos: int, length: int): (f: Fetch<seq<int>>)
    ensures var count := ReadVarUint32Signed(data, pos);
      && (f.Fault? <==> HasVarIntBytes(data, pos, length) && HasBytes(count.next, length, count.value) && count.value < 0)
      && (f.Got? ==> |f.value| == count.value &&
                     Some(Decoded(f.value, f.next)) == ReadElements(data, count.next, length, count.value))
    ensures f.Fault? ==> f.exception == RangeError
    ensures f.Got? ==> f.next <= length
    ensures !f.Invalid?
  {
    if !HasVarIntBytes(data, pos, length) then NotEnough
    else
      var count := ReadVarUint32Signed(data, pos);
      if !HasBytes(count.next, length, count.value) then NotEnough
      else if count.value < 0 then Fault(RangeError)
      else
        match ReadElements(data, count.next, length, count.value)
        case None => NotEnough
        case Some(d) => Got(d.value, d.next)
  }

  /** The loop of `readFunctionBody()` over the local declarations: a count
      and a type per run, each guarded by a lookahead. */
  function ReadLocals(data: seq<Byte>, pos: int, length: int, n: int): (o: Option<Decoded<seq<Locals>>>)
    ensures o.Some? ==> |o.value.value| == (if n <= 0 then 0 else n)
    ensures o.Some? && n > 0 ==> o.value.next <= length
    ensures o.Some? ==> o.value.next >= pos
    decreases n
  {
    if n <= 0 then Some(Decoded([], pos))
    else if !HasVarIntBytes(data, pos, length) then None
    else
      var count := ReadVarUint32(data, pos);
      if !HasVarIntBytes(data, count.next, length) then None
      else
        VarIntWithin(data, count.next, length);
        var localType := VarInt7(ByteAt(data, count.next));
        match ReadLocals(data, count.next + 1, length, n - 1)
        case None => None
        case Some(rest) => Some(Decoded([Locals(count.value, localType)] + rest.value, rest.next))
  }

  /** The header of `readFunctionBody()`: body size, local declarations, and
      the range of the operators that follow. */
  function ReadFunctionHeader(data: seq<Byte>, pos: int, length: int): (f: Fetch<(seq<Locals>, DataRange)>)
    ensures f.Got? ==> f.next == f.value.1.start
    ensures f.Got? ==> f.value.1.end == pos + |Groups(data, pos)| + ReadVarUint32(data, pos).value
    ensures f.Got? ==> |f.value.0| == ReadVarUint32(data, pos + |Groups(data, pos)|).value
    ensures f.Got? || f.NotEnough?
  {
    if !HasVarIntBytes(data, pos, length) then NotEnough
    else
      var size := ReadVarUint32(data, pos);
      var bodyEnd := size.next + size.value;
      if !HasVarIntBytes(data, size.next, length) then NotEnough
      else
        var localCount := ReadVarUint32(data, size.next);
        match ReadLocals(data, localCount.next, length, localCount.value)
        case None => NotEnough
        case Some(locals) => Got((locals.value, DataRange(locals.next, bodyEnd)), locals.next)
  }

  // ---------------------------------------------------------------------------
  // Operators

  /** The opcodes of `OperatorCode` whose immediates `readCodeOperator` reads. */
  const OpBlock: int := 0x02
  const OpLoop: int := 0x03
  const OpIf: int := 0x04
  const OpElse: int := 0x05
  const OpEnd: int := 0x0b
  const OpBr: int := 0x0c
  const OpBrIf: int := 0x0d
  const OpBrTable: int := 0x0e
  const OpCall: int := 0x10
  const OpCallIndirect: int := 0x11
  const OpGetLocal: int := 0x20
  const OpTeeLocal: int := 0x22
  const OpGetGlobal: int := 0x23
  const OpSetGlobal: int := 0x24
  const OpI32Load: int := 0x28
  const OpI64Store32: int := 0x3e
  const OpCurrentMemory: int := 0x3f
  const OpGrowMemory: int := 0x40
  const OpI32Const: int := 0x41
  const OpI64Const: int := 0x42
  const OpF32Const: int := 0x43
  const OpF64Const: int := 0x44

  /** The `br_table` targets: `n` unsigned depths, each guarded. */
  function ReadBrTargets(data: seq<Byte>, pos: int, length: int, n: int): (o: Option<Decoded<seq<int>>>)
    ensures o.Some? ==> |o.value.value| == (if n <= 0 then 0 else n)
    ensures o.Some? ==> forall i :: 0 <= i < |o.value.value| ==> 0 <= o.value.value[i] < TWO32
    decreases n
  {
    if n <= 0 then Some(Decoded([], pos))
    else if !HasVarIntBytes(data, pos, length) then None
    else
      var depth := ReadVarUint32(data, pos);
      match ReadBrTargets(data, depth.next, length, n - 1)
      case None => None
      case Some(rest) => Some(Decoded([depth.value] + rest.value, rest.next))
  }

  /** The `switch` of `readCodeOperator()`: the immediates of opcode `code`,
      read from `pos` just after the opcode byte. */
  function ReadImmediate(code: int, data: seq<Byte>, pos: int, length: int): (f: Fetch<Immediate>)
    ensures f.NotEnough? ==> code == OpBrTable
    ensures f.Fault? ==> (code == OpF32Const || code == OpF64Const) && f.exception == RangeError
    ensures !f.Invalid?
    ensures f.Got? && (code == OpBlock || code == OpLoop || code == OpIf) ==>
      f == Got(BlockType(VarInt7(ByteAt(data, pos))), pos + 1)
    ensures f.Got? && code == OpI32Const ==> f.value == I32Literal(ReadVarInt32(data, pos).value)
    ensures f.Got? && code == OpI64Const ==> f.value == I64Literal(ReadVarInt64(data, pos).value)
    ensures f.Got? && code == OpBrTable ==> f.value.BrTable? && |f.value.brTable| == ReadVarUint32(data, pos).value + 1
    ensures code == OpBrTable ==>
      var count := ReadVarUint32(data, pos);
      var targets := ReadBrTargets(data, count.next, length, count.value + 1);
      && (f.NotEnough? <==> !HasBytes(count.next, length, count.value + 1) || targets.None?)
      && (f.Got? ==> targets == Some(Decoded(f.value.brTable, f.next)))
    ensures code == OpBr || code == OpBrIf ==>
      f == Got(BrDepth(ReadVarUint32(data, pos).value), ReadVarUint32(data, pos).next)
    ensures code == OpCall ==>
      f == Got(FuncIndex(ReadVarUint32(data, pos).value), ReadVarUint32(data, pos).next)
    ensures code == OpCallIndirect ==>
      f == Got(TypeIndex(ReadVarUint32(data, pos).value), ReadVarUint32(data, pos).next + 1)
    ensures OpGetLocal <= code <= OpTeeLocal ==>
      f == Got(LocalIndex(ReadVarUint32(data, pos).value), ReadVarUint32(data, pos).next)
    ensures code == OpGetGlobal || code == OpSetGlobal ==>
      f == Got(GlobalIndex(ReadVarUint32(data, pos).value), ReadVarUint32(data, pos).next)
    ensures OpI32Load <= code <= OpI64Store32 ==>
      var flags := ReadVarUint32(data, pos);
      var offset := ReadVarUint32(data, flags.next);
      f == Got(MemoryImmediate(MemoryAddress(flags.value, offset.value)), offset.next)
    ensures code == OpCurrentMemory || code == OpGrowMemory ==> f == Got(NoImmediate, pos + 1)
    ensures code == OpI32Const ==> f == Got(I32Literal(ReadVarInt32(data, pos).value), ReadVarInt32(data, pos).next)
    ensures code == OpI64Const ==> f == Got(I64Literal(ReadVarInt64(data, pos).value), ReadVarInt64(data, pos).next)
    ensures code == OpF32Const ==>
      if pos < 0 || pos + 4 > |data| then f == Fault(RangeError) else f == Got(F32Literal(data[pos..pos + 4]), pos + 4)
    ensures code == OpF64Const ==>
      if pos < 0 || pos + 8 > |data| then f == Fault(RangeError) else f == Got(F64Literal(data[pos..pos + 8]), pos + 8)
    ensures !(OpBlock <= code <= OpIf || OpBr <= code <= OpBrTable || code == OpCall || code == OpCallIndirect
              || OpGetLocal <= code <= OpSetGlobal || OpI32Load <= code <= OpF64Const) ==>
      f == Got(NoImmediate, pos)
  {
    if code == OpBlock || code == OpLoop || code == OpIf then
      Got(BlockType(VarInt7(ByteAt(data, pos))), pos + 1)
    else if code == OpBr || code == OpBrIf then
      var depth := ReadVarUint32(data, pos);
      Got(BrDepth(depth.value), depth.next)
    else if code == OpBrTable then
      var count := ReadVarUint32(data, pos);
      if !HasBytes(count.next, length, count.value + 1) then NotEnough
      else
        match ReadBrTargets(data, count.next, length, count.value + 1)
        case None => NotEnough
        case Some(targets) => Got(BrTable(targets.value), targets.next)
    else if code == OpCall then
      var index := ReadVarUint32(data, pos);
      Got(FuncIndex(index.value), index.next)
    else if code == OpCallIndirect then
      var index := ReadVarUint32(data, pos);
      Got(TypeIndex(index.value), index.next + 1)
    else if OpGetLocal <= code <= OpTeeLocal then
      var index := ReadVarUint32(data, pos);
      Got(LocalIndex(index.value), index.next)
    else if code == OpGetGlobal || code == OpSetGlobal then
      var index := ReadVarUint32(data, pos);
      Got(GlobalIndex(index.value), index.next)
    else if OpI32Load <= code <= OpI64Store32 then
      var flags := ReadVarUint32(data, pos);
      var offset := ReadVarUint32(data, flags.next);
      Got(MemoryImmediate(MemoryAddress(flags.value, offset.value)), offset.next)
    else if code == OpCurrentMemory || code == OpGrowMemory then
      Got(NoImmediate, pos + 1)
    else if code == OpI32Const then
      var literal := ReadVarInt32(data, pos);
      Got(I32Literal(literal.value), literal.next)
    else if code == OpI64Const then
      var literal := ReadVarInt64(data, pos);
      Got(I64Literal(literal.value), literal.next)
    else if code == OpF32Const then
      if pos < 0 || pos + 4 > |data| then Fault(RangeError)
      else Got(F32Literal(data[pos..pos + 4]), pos + 4)
    else if code == OpF64Const then
      if pos < 0 || pos + 8 > |data| then Fault(RangeError)
      else Got(F64Literal(data[pos..pos + 8]), pos + 8)
    else Got(NoImmediate, pos)
  }
}

=== FILE: decode_props.dfy ===
/** What the counted loops of the sub-readers read back: a run of unsigned
    LEB128 numbers written by the encoder is decoded element by element,
    and an element segment body written as a count and its indices is read
    back whole. */
module DecodeProps {
  import opened Common
  import opened Leb
  import opened ReaderTypes
  import opened Decode

  /** The unsigned LEB128 encodings of `xs`, one after the other. */
  function EncodeUlebs(xs: seq<int>): (e: seq<Byte>)
    requires Uint32s(xs)
    ensures |e| >= |xs|
  {
    if |xs| == 0 then [] else EncodeUleb(xs[0]) + EncodeUlebs(xs[1..])
  }

  /** Every element fits in 32 bits. */
  predicate Uint32s(xs: seq<int>)
  {
    |xs| == 0 || (0 <= xs[0] < TWO32 && Uint32s(xs[1..]))
  }

  /** The bytes of `data` from `pos` on are `e`, and they lie before
      `length`; stated byte by byte. */
  predicate BytesAt(data: seq<Byte>, pos: int, length: int, e: seq<Byte>)
    decreases |e|
  {
    && 0 <= pos && pos + |e| <= |data| && pos + |e| <= length
    && (|e| > 0 ==> data[pos] == e[0] && BytesAt(data, pos + 1, length, e[1..]))
  }

  /** `BytesAt` is the slice of `data` at `pos`. */
  lemma {:induction false} BytesAtSlice(data: seq<Byte>, pos: int, length: int, e: seq<Byte>)
    requires BytesAt(data, pos, length, e)
    ensures data[pos..pos + |e|] == e
    decreases |e|
  {
    if |e| > 0 {
      BytesAtSlice(data, pos + 1, length, e[1..]);
      assert data[pos..pos + |e|] == [data[pos]] + data[pos + 1..pos + |e|];
    }
  }

  /** The encoding of a 32-bit number placed at `pos` passes the
      `hasVarIntBytes()` lookahead and reads back as that number. */
  lemma UlebAt(data: seq<Byte>, pos: int, length: int, v: nat)
    requires v < TWO32
    requires BytesAt(data, pos, length, EncodeUleb(v))
    ensures HasVarIntBytes(data, pos, length)
    ensures ReadVarUint32(data, pos) == Decoded(v, pos + |EncodeUleb(v)|)
  {
    BytesAtSlice(data, pos, length, EncodeUleb(v));
    UlebInSlice(data, pos, length, v);
  }

  lemma UlebInSlice(data: seq<Byte>, pos: int, length: int, v: nat)
    requires v < TWO32
    requires 0 <= pos && pos + |EncodeUleb(v)| <= |data| && pos + |EncodeUleb(v)| <= length
    requires data[pos..pos + |EncodeUleb(v)|] == EncodeUleb(v)
    ensures HasVarIntBytes(data, pos, length)
    ensures ReadVarUint32(data, pos) == Decoded(v, pos + |EncodeUleb(v)|)
  {
    EncodeUleb32(v);
    GroupsOfEncoding(data, pos, EncodeUleb(v));
    GroupsWithin(data, pos, length);
    ReadGroupsOfEncoding(data, pos, v);
  }

  /** The encoding of a 32-bit number: well formed, at most five bytes,
      denoting the number. */
  lemma EncodeUleb32(v: nat)
    requires v < TWO32
    ensures IsEncoding(EncodeUleb(v)) && UlebValue(EncodeUleb(v)) == v && |EncodeUleb(v)| <= 5
  {
    Pow2Facts();
    Pow2Monotone(32, 35);
    EncodeUlebFacts(v, 5);
  }

  /** A group that ends before `length` passes the lookahead. */
  lemma GroupsWithin(data: seq<Byte>, pos: int, length: int)
    requires pos + |Groups(data, pos)| <= length
    ensures HasVarIntBytes(data, pos, length)
  {
    var g := Groups(data, pos);
    assert ByteAt(data, pos + |g| - 1) < 128;
  }

  /** Groups that are the encoding of a 32-bit number read as that number. */
  lemma ReadGroupsOfEncoding(data: seq<Byte>, pos: int, v: nat)
    requires v < TWO32 && |EncodeUleb(v)| <= 5 && UlebValue(EncodeUleb(v)) == v
    requires Groups(data, pos) == EncodeUleb(v)
    ensures ReadVarUint32(data, pos) == Decoded(v, pos + |EncodeUleb(v)|)
  {
    DivUnique(v, TWO32, 0, v);
  }

  /** Splitting the bytes at `pos` into a prefix and what follows it. */
  lemma {:induction false} BytesAtSplit(data: seq<Byte>, pos: int, length: int, a: seq<Byte>, b: seq<Byte>)
    requires BytesAt(data, pos, length, a + b)
    ensures BytesAt(data, pos, length, a)
    ensures BytesAt(data, pos + |a|, length, b)
    decreases |a|
  {
    if |a| > 0 {
      BytesAtTail(data, pos, length, a, b);
      BytesAtSplit(data, pos + 1, length, a[1..], b);
    } else {
      assert a + b == b;
    }
  }

  /** The first byte of a non-empty prefix and the bytes after it. */
  lemma BytesAtTail(data: seq<Byte>, pos: int, length: int, a: seq<Byte>, b: seq<Byte>)
    requires |a| > 0 && BytesAt(data, pos, length, a + b)
    ensures data[pos] == a[0] && BytesAt(data, pos + 1, length, a[1..] + b)
  {
    assert (a + b)[1..] == a[1..] + b;
  }

  /** One more encoded index in front of the indices the loop reads. */
  lemma ReadElementsStep(data: seq<Byte>, pos: int, length: int, n: int, v: int, next: int, rest: seq<int>, end: int)
    requires n > 0 && HasVarIntBytes(data, pos, length) && ReadVarUint32(data, pos) == Decoded(v, next)
    requires ReadElements(data, next, length, n - 1) == Some(Decoded(rest, end))
    ensures ReadElements(data, pos, length, n) == Some(Decoded([v] + rest, end))
  {
  }

  /** One more encoded depth in front of the depths the loop reads. */
  lemma ReadBrTargetsStep(data: seq<Byte>, pos: int, length: int, n: int, v: int, next: int, rest: seq<int>, end: int)
    requires n > 0 && HasVarIntBytes(data, pos, length) && ReadVarUint32(data, pos) == Decoded(v, next)
    requires ReadBrTargets(data, next, length, n - 1) == Some(Decoded(rest, end))
    ensures ReadBrTargets(data, pos, length, n) == Some(Decoded([v] + rest, end))
  {
  }

  /** Reading from `pos` passes the lookahead and gives `xs[0]`, reading on
      from where it ends gives the rest, and the last read ends at `end`. */
  predicate ReadsFrom(data: seq<Byte>, pos: int, length: int, xs: seq<int>, end: int)
    decreases |xs|
  {
    if |xs| == 0 then pos == end
    else
      var d := ReadVarUint32(data, pos);
      HasVarIntBytes(data, pos, length) && d.value == xs[0] && ReadsFrom(data, d.next, length, xs[1..], end)
  }

  /** `EncodeUlebs` of a non-empty list: the first encoding, then the rest. */
  lemma EncodeUlebsCons(xs: seq<int>, pos: int, q: int)
    requires |xs| > 0 && Uint32s(xs) && q == pos + |EncodeUleb(xs[0])|
    ensures Uint32s(xs[1..]) && pos + |EncodeUlebs(xs)| == q + |EncodeUlebs(xs[1..])|
    ensures EncodeUlebs(xs) == EncodeUleb(xs[0]) + EncodeUlebs(xs[1..])
    ensures |xs[1..]| == |xs| - 1 && 0 <= xs[0] < TWO32
  {
  }

  /** The first number read at `pos`, then the rest read from where it ends. */
  lemma ReadsFromCons(data: seq<Byte>, pos: int, length: int, xs: seq<int>, q: int, end: int)
    requires |xs| > 0 && HasVarIntBytes(data, pos, length) && ReadVarUint32(data, pos) == Decoded(xs[0], q)
    requires ReadsFrom(data, q, length, xs[1..], end)
    ensures ReadsFrom(data, pos, length, xs, end)
  {
  }

  /** Encodings placed one after the other are read one after the other. */
  lemma {:induction false} BytesReadsFrom(data: seq<Byte>, pos: int, length: int, xs: seq<int>, end: int)
    requires Uint32s(xs) && end == pos + |EncodeUlebs(xs)|
    requires BytesAt(data, pos, length, EncodeUlebs(xs))
    ensures ReadsFrom(data, pos, length, xs, end)
    decreases |xs|
  {
    if |xs| > 0 {
      var e := EncodeUleb(xs[0]);
      var q := pos + |e|;
      EncodeUlebsCons(xs, pos, q);
      BytesAtSplit(data, pos, length, e, EncodeUlebs(xs[1..]));
      UlebAt(data, pos, length, xs[0]);
      BytesReadsFrom(data, q, length, xs[1..], end);
      ReadsFromCons(data, pos, length, xs, q, end);
    }
  }

  /** `ReadElementsStep` for the first of `xs`. */
  lemma ElementsHead(data: seq<Byte>, pos: int, length: int, q: int, xs: seq<int>, end: int)
    requires |xs| > 0 && HasVarIntBytes(data, pos, length) && ReadVarUint32(data, pos) == Decoded(xs[0], q)
    requires ReadElements(data, q, length, |xs| - 1) == Some(Decoded(xs[1..], end))
    ensures ReadElements(data, pos, length, |xs|) == Some(Decoded(xs, end))
  {
    ReadElementsStep(data, pos, length, |xs|, xs[0], q, xs[1..], end);
    assert [xs[0]] + xs[1..] == xs;
  }

  /** `ReadBrTargetsStep` for the first of `xs`. */
  lemma BrTargetsHead(data: seq<Byte>, pos: int, length: int, q: int, xs: seq<int>, end: int)
    requires |xs| > 0 && HasVarIntBytes(data, pos, length) && ReadVarUint32(data, pos) == Decoded(xs[0], q)
    requires ReadBrTargets(data, q, length, |xs| - 1) == Some(Decoded(xs[1..], end))
    ensures ReadBrTargets(data, pos, length, |xs|) == Some(Decoded(xs, end))
  {
    ReadBrTargetsStep(data, pos, length, |xs|, xs[0], q, xs[1..], end);
    assert [xs[0]] + xs[1..] == xs;
  }

  /** The element loop reads numbers that read one after the other. */
  lemma {:induction false} ElementsFrom(data: seq<Byte>, pos: int, length: int, xs: seq<int>, end: int)
    requires ReadsFrom(data, pos, length, xs, end) && end <= length
    ensures ReadElements(data, pos, length, |xs|) == Some(Decoded(xs, end))
    decreases |xs|
  {
    if |xs| > 0 {
      var d := ReadVarUint32(data, pos);
      ElementsFrom(data, d.next, length, xs[1..], end);
      ElementsHead(data, pos, length, d.next, xs, end);
    } else {
      assert xs == [];
    }
  }

  /** The `br_table` loop reads numbers that read one after the other. */
  lemma {:induction false} BrTargetsFrom(data: seq<Byte>, pos: int, length: int, xs: seq<int>, end: int)
    requires ReadsFrom(data, pos, length, xs, end)
    ensures ReadBrTargets(data, pos, length, |xs|) == Some(Decoded(xs, end))
    decreases |xs|
  {
    if |xs| > 0 {
      var d := ReadVarUint32(data, pos);
      BrTargetsFrom(data, d.next, length, xs[1..], end);
      BrTargetsHead(data, pos, length, d.next, xs, end);
    } else {
      assert xs == [];
    }
  }

  /** The element loop of `readElementEntryBody()` reads back the indices
      the encoder wrote, and stops right after them. */
  lemma ReadElementsRoundTrip(data: seq<Byte>, pos: int, length: int, xs: seq<int>)
    requires Uint32s(xs)
    requires BytesAt(data, pos, length, EncodeUlebs(xs))
    ensures ReadElements(data, pos, length, |xs|) == Some(Decoded(xs, pos + |EncodeUlebs(xs)|))
  {
    var end := pos + |EncodeUlebs(xs)|;
    BytesReadsFrom(data, pos, length, xs, end);
    ElementsFrom(data, pos, length, xs, end);
  }

  /** The `br_table` loop of `readCodeOperator()` reads back the depths the
      encoder wrote. */
  lemma ReadBrTargetsRoundTrip(data: seq<Byte>, pos: int, length: int, xs: seq<int>)
    requires Uint32s(xs)
    requires BytesAt(data, pos, length, EncodeUlebs(xs))
    ensures ReadBrTargets(data, pos, length, |xs|) == Some(Decoded(xs, pos + |EncodeUlebs(xs)|))
  {
    var end := pos + |EncodeUlebs(xs)|;
    BytesReadsFrom(data, pos, length, xs, end);
    BrTargetsFrom(data, pos, length, xs, end);
  }

  /** A count in `[0, 2^31)` that the bytes left can hold, followed by
      that many readable indices, is an element segment body. */
  lemma ReadElementBodyStep(data: seq<Byte>, pos: int, length: int, n: int, next: int, xs: seq<int>, end: int)
    requires HasVarIntBytes(data, pos, length) && ReadVarUint32(data, pos) == Decoded(n, next)
    requires 0 <= n < TWO31 && next + n <= length
    requires ReadElements(data, next, length, n) == Some(Decoded(xs, end))
    ensures ReadElementBody(data, pos, length) == Got(xs, end)
  {
    ToInt32Identity(n);
  }

  /** An element segment body written as its count and then its indices is
      read back whole by `readElementEntryBody()`. */
  lemma ReadElementBodyRoundTrip(data: seq<Byte>, pos: int, length: int, xs: seq<int>)
    requires |xs| < TWO31 && Uint32s(xs)
    requires BytesAt(data, pos, length, EncodeUleb(|xs|) + EncodeUlebs(xs))
    ensures ReadElementBody(data, pos, length) == Got(xs, pos + |EncodeUleb(|xs|)| + |EncodeUlebs(xs)|)
  {
    ElementBodyAt(data, pos, length, xs, pos + |EncodeUleb(|xs|)|, pos + |EncodeUleb(|xs|)| + |EncodeUlebs(xs)|);
  }

  /** `ReadElementBodyRoundTrip` with the ends of the parts named. */
  lemma ElementBodyAt(data: seq<Byte>, pos: int, length: int, xs: seq<int>, next: int, end: int)
    requires |xs| < TWO31 && Uint32s(xs)
    requires next == pos + |EncodeUleb(|xs|)| && end == next + |EncodeUlebs(xs)|
    requires BytesAt(data, pos, length, EncodeUleb(|xs|) + EncodeUlebs(xs))
    ensures ReadElementBody(data, pos, length) == Got(xs, end)
  {
    ElementBodyBytes(data, pos, length, xs, next, end);
    ReadElementBodyStep(data, pos, length, |xs|, next, xs, end);
  }

  /** What the bytes of an element segment body read as, part by part. */
  lemma ElementBodyBytes(data: seq<Byte>, pos: int, length: int, xs: seq<int>, next: int, end: int)
    requires |xs| < TWO31 && Uint32s(xs)
    requires next == pos + |EncodeUleb(|xs|)| && end == next + |EncodeUlebs(xs)|
    requires BytesAt(data, pos, length, EncodeUleb(|xs|) + EncodeUlebs(xs))
    ensures HasVarIntBytes(data, pos, length) && ReadVarUint32(data, pos) == Decoded(|xs|, next)
    ensures next + |xs| <= length && ReadElements(data, next, length, |xs|) == Some(Decoded(xs, end))
  {
    BytesAtSplit(data, pos, length, EncodeUleb(|xs|), EncodeUlebs(xs));
    UlebAt(data, pos, length, |xs|);
    BytesReadsFrom(data, next, length, xs, end);
    ElementsFrom(data, next, length, xs, end);
  }

  // ---------------------------------------------------------------------------
  // Local declarations and the function body header

  /** The byte `readVarInt7()` reads as the type code `t`. */
  function TypeByte(t: int): (b: Byte)
    requires -64 <= t < 64
    ensures b < 128 && VarInt7(b) == t
  {
    if t < 0 then t + 128 else t
  }

  /** Every declaration has a 32-bit count and a seven-bit type code. */
  predicate LocalsInRange(ls: seq<Locals>)
  {
    |ls| == 0 || (0 <= ls[0].count < TWO32 && -64 <= ls[0].localType < 64 && LocalsInRange(ls[1..]))
  }

  /** The local declarations as a body lists them: each count, then its type. */
  function EncodeLocals(ls: seq<Locals>): (e: seq<Byte>)
    requires LocalsInRange(ls)
    ensures |e| >= 2 * |ls|
  {
    if |ls| == 0 then [] else EncodeUleb(ls[0].count) + ([TypeByte(ls[0].localType)] + EncodeLocals(ls[1..]))
  }

  /** One more declaration in front of those the loop reads. */
  lemma ReadLocalsStep(data: seq<Byte>, pos: int, length: int, n: int, l: Locals, c: int, rest: seq<Locals>, end: int)
    requires n > 0 && HasVarIntBytes(data, pos, length) && ReadVarUint32(data, pos) == Decoded(l.count, c)
    requires HasVarIntBytes(data, c, length) && VarInt7(ByteAt(data, c)) == l.localType
    requires ReadLocals(data, c + 1, length, n - 1) == Some(Decoded(rest, end))
    ensures ReadLocals(data, pos, length, n) == Some(Decoded([l] + rest, end))
  {
  }

  /** `ReadLocalsStep` for the declaration between `p` and `q`. */
  lemma ReadLocalsStepAt(data: seq<Byte>, p: int, q: int, length: int, ls: seq<Locals>, end: int)
    requires |ls| > 0 && LocalAt(data, p, q, length, ls[0])
    requires ReadLocals(data, q, length, |ls| - 1) == Some(Decoded(ls[1..], end))
    ensures ReadLocals(data, p, length, |ls|) == Some(Decoded(ls, end))
  {
    ReadLocalsStep(data, p, length, |ls|, ls[0], q - 1, ls[1..], end);
    assert [ls[0]] + ls[1..] == ls;
  }

  /** A type byte below `length` passes the lookahead and reads as its code. */
  lemma TypeByteAt(data: seq<Byte>, c: int, length: int, t: int)
    requires -64 <= t < 64 && BytesAt(data, c, length, [TypeByte(t)])
    ensures HasVarIntBytes(data, c, length) && VarInt7(ByteAt(data, c)) == t
  {
    SingleByteUleb(data, c);
    GroupsWithin(data, c, length);
  }

  /** The declaration at `p`: its count, read up to the type byte at `q - 1`. */
  predicate LocalAt(data: seq<Byte>, p: int, q: int, length: int, l: Locals)
  {
    && HasVarIntBytes(data, p, length) && ReadVarUint32(data, p) == Decoded(l.count, q - 1)
    && HasVarIntBytes(data, q - 1, length) && VarInt7(ByteAt(data, q - 1)) == l.localType
  }

  /** The first declaration of `ls` is read at `pos`, the rest from where it
      ends, and the last one ends at `end`. */
  predicate LocalsFrom(data: seq<Byte>, pos: int, length: int, ls: seq<Locals>, end: int)
    decreases |ls|
  {
    if |ls| == 0 then pos == end
    else
      var q := ReadVarUint32(data, pos).next + 1;
      LocalAt(data, pos, q, length, ls[0]) && LocalsFrom(data, q, length, ls[1..], end)
  }

  /** The first declaration read at `pos`, then the rest from where it ends. */
  lemma LocalsFromCons(data: seq<Byte>, pos: int, q: int, length: int, ls: seq<Locals>, end: int)
    requires |ls| > 0 && LocalAt(data, pos, q, length, ls[0])
    requires LocalsFrom(data, q, length, ls[1..], end)
    ensures LocalsFrom(data, pos, length, ls, end)
  {
  }

  /** The first declaration and the rest, from a run read from `pos`. */
  lemma LocalsFromTail(data: seq<Byte>, pos: int, q: int, length: int, ls: seq<Locals>, end: int)
    requires |ls| > 0 && LocalsFrom(data, pos, length, ls, end)
    requires q == ReadVarUint32(data, pos).next + 1
    ensures LocalAt(data, pos, q, length, ls[0]) && LocalsFrom(data, q, length, ls[1..], end)
  {
  }

  /** `EncodeLocals` of a non-empty list: the first declaration, then the rest. */
  lemma EncodeLocalsCons(ls: seq<Locals>, pos: int, q: int)
    requires |ls| > 0 && LocalsInRange(ls) && q == pos + |EncodeUleb(ls[0].count)| + 1
    ensures LocalsInRange(ls[1..]) && pos + |EncodeLocals(ls)| == q + |EncodeLocals(ls[1..])|
    ensures 0 <= ls[0].count < TWO32 && -64 <= ls[0].localType < 64
  {
  }

  /** The bytes of the first declaration, and those of the rest. */
  lemma LocalsHeadBytes(data: seq<Byte>, pos: int, length: int, ls: seq<Locals>)
    requires |ls| > 0 && LocalsInRange(ls)
    requires BytesAt(data, pos, length, EncodeLocals(ls))
    ensures var e := EncodeUleb(ls[0].count);
      && BytesAt(data, pos, length, e)
      && BytesAt(data, pos + |e|, length, [TypeByte(ls[0].localType)])
      && BytesAt(data, pos + |e| + 1, length, EncodeLocals(ls[1..]))
  {
    var e := EncodeUleb(ls[0].count);
    var b := TypeByte(ls[0].localType);
    var t := EncodeLocals(ls[1..]);
    assert EncodeLocals(ls) == e + ([b] + t);
    BytesAtSplit(data, pos, length, e, [b] + t);
    BytesAtSplit(data, pos + |e|, length, [b], t);
  }

  /** A count and a type byte read as the declaration they encode. */
  lemma LocalAtBytes(data: seq<Byte>, pos: int, q: int, length: int, l: Locals)
    requires 0 <= l.count < TWO32 && -64 <= l.localType < 64 && q == pos + |EncodeUleb(l.count)| + 1
    requires BytesAt(data, pos, length, EncodeUleb(l.count))
    requires BytesAt(data, q - 1, length, [TypeByte(l.localType)])
    ensures LocalAt(data, pos, q, length, l)
  {
    UlebAt(data, pos, length, l.count);
    TypeByteAt(data, q - 1, length, l.localType);
  }

  /** Declarations written one after the other are read one after the other. */
  lemma {:induction false} BytesLocalsFrom(data: seq<Byte>, pos: int, length: int, ls: seq<Locals>, end: int)
    requires LocalsInRange(ls) && end == pos + |EncodeLocals(ls)|
    requires BytesAt(data, pos, length, EncodeLocals(ls))
    ensures LocalsFrom(data, pos, length, ls, end)
    decreases |ls|
  {
    if |ls| > 0 {
      var q := pos + |EncodeUleb(ls[0].count)| + 1;
      LocalsHeadAt(data, pos, q, length, ls);
      BytesLocalsFrom(data, q, length, ls[1..], end);
      LocalsFromCons(data, pos, q, length, ls, end);
    }
  }

  /** The first declaration written at `pos` is read there and ends at `q`,
      where the bytes of the rest begin. */
  lemma LocalsHeadAt(data: seq<Byte>, pos: int, q: int, length: int, ls: seq<Locals>)
    requires |ls| > 0 && LocalsInRange(ls) && q == pos + |EncodeUleb(ls[0].count)| + 1
    requires BytesAt(data, pos, length, EncodeLocals(ls))
    ensures LocalAt(data, pos, q, length, ls[0])
    ensures LocalsInRange(ls[1..]) && BytesAt(data, q, length, EncodeLocals(ls[1..]))
    ensures q + |EncodeLocals(ls[1..])| == pos + |EncodeLocals(ls)|
  {
    EncodeLocalsCons(ls, pos, q);
    LocalsHeadBytes(data, pos, length, ls);
    LocalAtBytes(data, pos, q, length, ls[0]);
  }

  /** The declaration loop reads declarations that read one after the other. */
  lemma {:induction false} ReadLocalsFrom(data: seq<Byte>, pos: int, length: int, ls: seq<Locals>, end: int)
    requires LocalsFrom(data, pos, length, ls, end)
    ensures ReadLocals(data, pos, length, |ls|) == Some(Decoded(ls, end))
    decreases |ls|
  {
    if |ls| > 0 {
      var q := ReadVarUint32(data, pos).next + 1;
      LocalsFromTail(data, pos, q, length, ls, end);
      ReadLocalsFrom(data, q, length, ls[1..], end);
      ReadLocalsStepAt(data, pos, q, length, ls, end);
    } else {
      assert ls == [];
    }
  }

  /** The local declarations written by `EncodeLocals` are read back by the
      loop of `readFunctionBody()`, which ends right after them. */
  lemma ReadLocalsRoundTrip(data: seq<Byte>, pos: int, length: int, ls: seq<Locals>)
    requires LocalsInRange(ls)
    requires BytesAt(data, pos, length, EncodeLocals(ls))
    ensures ReadLocals(data, pos, length, |ls|) == Some(Decoded(ls, pos + |EncodeLocals(ls)|))
  {
    var end := pos + |EncodeLocals(ls)|;
    BytesLocalsFrom(data, pos, length, ls, end);
    ReadLocalsFrom(data, pos, length, ls, end);
  }

  /** A function body header written as its size, the number of local
      declarations and the declarations is read back by `readFunctionBody()`:
      the declarations, and the operators lying from the end of the header
      to `size` bytes after the size field. */
  lemma ReadFunctionHeaderRoundTrip(data: seq<Byte>, pos: int, length: int, size: nat, ls: seq<Locals>)
    requires size < TWO32 && |ls| < TWO32 && LocalsInRange(ls)
    requires BytesAt(data, pos, length, EncodeUleb(size))
    requires BytesAt(data, pos + |EncodeUleb(size)|, length, EncodeUleb(|ls|))
    requires BytesAt(data, pos + |EncodeUleb(size)| + |EncodeUleb(|ls|)|, length, EncodeLocals(ls))
    ensures var f := ReadFunctionHeader(data, pos, length);
      var bodyStart := pos + |EncodeUleb(size)| + |EncodeUleb(|ls|)| + |EncodeLocals(ls)|;
      && f.Got? && f.value.0 == ls && f.next == bodyStart
      && f.value.1 == DataRange(bodyStart, pos + |EncodeUleb(size)| + size)
  {
    FunctionHeaderAt(data, pos, length, size, ls, pos + |EncodeUleb(size)|,
                     pos + |EncodeUleb(size)| + |EncodeUleb(|ls|)|,
                     pos + |EncodeUleb(size)| + |EncodeUleb(|ls|)| + |EncodeLocals(ls)|);
  }

  /** `ReadFunctionHeaderRoundTrip` with the ends of the parts named. */
  lemma FunctionHeaderAt(data: seq<Byte>, pos: int, length: int, size: nat, ls: seq<Locals>, p1: int, p2: int, end: int)
    requires size < TWO32 && |ls| < TWO32 && LocalsInRange(ls)
    requires p1 == pos + |EncodeUleb(size)| && p2 == p1 + |EncodeUleb(|ls|)| && end == p2 + |EncodeLocals(ls)|
    requires BytesAt(data, pos, length, EncodeUleb(size))
    requires BytesAt(data, p1, length, EncodeUleb(|ls|))
    requires BytesAt(data, p2, length, EncodeLocals(ls))
    ensures var f := ReadFunctionHeader(data, pos, length);
      f.Got? && f.value.0 == ls && f.next == end && f.value.1 == DataRange(end, p1 + size)
  {
    FunctionHeaderBytes(data, pos, length, size, ls, p1, p2, end);
    ReadFunctionHeaderStep(data, pos, length, size, p1, |ls|, p2, ls, end);
  }

  /** What the bytes of a function body header read as, part by part. */
  lemma FunctionHeaderBytes(data: seq<Byte>, pos: int, length: int, size: nat, ls: seq<Locals>, p1: int, p2: int, end: int)
    requires size < TWO32 && |ls| < TWO32 && LocalsInRange(ls)
    requires p1 == pos + |EncodeUleb(size)| && p2 == p1 + |EncodeUleb(|ls|)| && end == p2 + |EncodeLocals(ls)|
    requires BytesAt(data, pos, length, EncodeUleb(size))
    requires BytesAt(data, p1, length, EncodeUleb(|ls|))
    requires BytesAt(data, p2, length, EncodeLocals(ls))
    ensures HasVarIntBytes(data, pos, length) && ReadVarUint32(data, pos) == Decoded(size, p1)
    ensures HasVarIntBytes(data, p1, length) && ReadVarUint32(data, p1) == Decoded(|ls|, p2)
    ensures ReadLocals(data, p2, length, |ls|) == Some(Decoded(ls, end))
  {
    UlebAt(data, pos, length, size);
    UlebAt(data, p1, length, |ls|);
    BytesLocalsFrom(data, p2, length, ls, end);
    ReadLocalsFrom(data, p2, length, ls, end);
  }

  /** The header read from its three parts. */
  lemma ReadFunctionHeaderStep(data: seq<Byte>, pos: int, length: int, size: int, p1: int, n: int, p2: int,
                               ls: seq<Locals>, end: int)
    requires HasVarIntBytes(data, pos, length) && ReadVarUint32(data, pos) == Decoded(size, p1)
    requires HasVarIntBytes(data, p1, length) && ReadVarUint32(data, p1) == Decoded(n, p2)
    requires ReadLocals(data, p2, length, n) == Some(Decoded(ls, end))
    ensures var f := ReadFunctionHeader(data, pos, length);
      f.Got? && f.value.0 == ls && f.next == end && f.value.1 == DataRange(end, p1 + size)
  {
  }
}

=== FILE: dis.dfy ===
/** `WasmDisassembler`: drives a `BinaryReader` and prints the text format
    of the functions, types, imports and exports it reads. */
module Dis {
  import opened Common
  import opened I64
  import opened ReaderTypes
  import opened Decode
  import opened WasmReader
  import opened Opcodes
  import opened Decimal

  /** `Type`: the value types and the function form. */
  const TypeI32: int := -0x01
  const TypeI64: int := -0x02
  const TypeF32: int := -0x03
  const TypeF64: int := -0x04
  const TypeFunc: int := -0x20

  /** `typeToString`; `None` is the `Unexpected type` exception. The names
      are exactly the ones the mnemonic rewrite recognises, and the letter
      and the width each tell two of the four types apart. */
  function TypeToString(t: int): (s: Option<string>)
    ensures s.Some? <==> t in {TypeI32, TypeI64, TypeF32, TypeF64}
    ensures s.Some? ==> |s.value| == 3 && NumTypeAt(s.value, 0)
    ensures s.Some? ==> (s.value[0] == 'i' <==> t in {TypeI32, TypeI64})
    ensures s.Some? ==> (s.value[1..] == "32" <==> t in {TypeI32, TypeF32})
  {
    if t == TypeI32 then Some("i32")
    else if t == TypeI64 then Some("i64")
    else if t == TypeF32 then Some("f32")
    else if t == TypeF64 then Some("f64")
    else None
  }

  /** `typeToString` applied to each type in turn; `None` if any throws. */
  function TypeNames(ts: seq<int>): (ns: Option<seq<string>>)
    ensures ns.Some? <==> forall i :: 0 <= i < |ts| ==> TypeToString(ts[i]).Some?
    ensures ns.Some? ==> |ns.value| == |ts| && forall i :: 0 <= i < |ts| ==> Some(ns.value[i]) == TypeToString(ts[i])
    decreases |ts|
  {
    if ts == [] then Some([])
    else
      match TypeToString(ts[0])
      case None => None
      case Some(first) =>
        match TypeNames(ts[1..])
        case None => None
        case Some(rest) => Some([first] + rest)
  }

  /** `Array.prototype.join('')`. */
  function Concat(ss: seq<string>): (s: string)
    decreases |ss|
  {
    if ss == [] then "" else ss[0] + Concat(ss[1..])
  }

  /** `binToString`: each byte becomes the character with that code. */
  function BinToString(b: seq<Byte>): (s: string)
    ensures |s| == |b| && forall i :: 0 <= i < |b| ==> s[i] as int == b[i]
  {
    seq(|b|, i requires 0 <= i < |b| => b[i] as char)
  }

  // ---------------------------------------------------------------------------
  // printFuncType

  function ParamVarPiece(i: nat, name: string): string
  {
    " (param $var" + NatToString(i) + " " + name + ")"
  }

  function ReturnPiece(name: string): string
  {
    " (return " + name + ")"
  }

  /** The pieces `printFuncType` pushes for the parameters. */
  function ParamPieces(ps: seq<string>, printVars: bool): seq<string>
  {
    if printVars then seq(|ps|, i requires 0 <= i < |ps| => ParamVarPiece(i, ps[i]))
    else if |ps| > 0 then [" (params"] + seq(|ps|, i requires 0 <= i < |ps| => " " + ps[i]) + [")"]
    else []
  }

  /** `printFuncType(type, printVars)`; `None` is a thrown `Unexpected type`,
      which happens exactly when a parameter or result type is not one of
      the four value types. */
  function PrintFuncType(t: FuncType, printVars: bool): (s: Option<string>)
    ensures s.Some? <==> (forall i :: 0 <= i < |t.params| ==> TypeToString(t.params[i]).Some?) &&
                         (forall i :: 0 <= i < |t.results| ==> TypeToString(t.results[i]).Some?)
  {
    match TypeNames(t.params)
    case None => None
    case Some(ps) =>
      match TypeNames(t.results)
      case None => None
      case Some(rs) => Some(Concat(ParamPieces(ps, printVars) + seq(|rs|, i requires 0 <= i < |rs| => ReturnPiece(rs[i]))))
  }

  // ---------------------------------------------------------------------------
  // Indentation

  /** `increaseIndent()` on a non-null indent. */
  function IncreaseIndent(s: string): (r: string)
    ensures |r| == |s| + 2 && r[..|s|] == s
    ensures DecreaseIndent(r) == s
  {
    s + "  "
  }

  /** `decreaseIndent()`: `slice(0, -2)`, which is empty for a string of
      fewer than two characters. */
  function DecreaseIndent(s: string): (r: string)
    ensures |r| == if |s| >= 2 then |s| - 2 else 0
    ensures r == s[..|r|]
  {
    if |s| >= 2 then s[..|s| - 2] else ""
  }

  /** `end` and `else` print one level out. */
  predicate ClosesBlock(code: int)
  {
    code == OpEnd || code == OpElse
  }

  /** `block`, `loop`, `if` and `else` indent what follows. */
  predicate OpensBlock(code: int)
  {
    code == OpBlock || code == OpLoop || code == OpIf || code == OpElse
  }

  /** The indent an operator prints at, given the indent before it. */
  function PrintIndent(indent: string, code: int): string
  {
    if ClosesBlock(code) then DecreaseIndent(indent) else indent
  }

  /** The indent after an operator. */
  function NextIndent(indent: string, code: int): string
  {
    var printed := PrintIndent(indent, code);
    if OpensBlock(code) then IncreaseIndent(printed) else printed
  }

  // ---------------------------------------------------------------------------
  // The disassembler

  /** The fields of `WasmDisassembler`; `buffer` holds the pushed pieces and
      `indent` is `None` while it is still `null`. */
  datatype WasmDisassembler = WasmDisassembler(
    buffer: seq<string>,
    types: seq<FuncType>,
    funcIndex: int,
    funcTypes: seq<int>,
    importCount: int,
    indent: Option<string>)

  /** The constructor. */
  function NewDisassembler(): (d: WasmDisassembler)
    ensures d.buffer == [] && d.types == [] && d.funcTypes == []
    ensures d.funcIndex == 0 && d.importCount == 0 && d.indent.None?
  {
    WasmDisassembler([], [], 0, [], 0, None)
  }

  /** What `disassemble` throws. */
  datatype DisError =
    /** `read()` itself threw */
    | ReaderException(exception: JsError)
    /** `throw reader.error` in the `ERROR` state */
    | ReaderFailed(error: Option<ReaderError>)
    | UnexpectedType
    | UnsupportedExport
    | NyiImportType
    | NyiFunctionForm
    | UnexpectedState(state: ReaderState)
    /** a property read on `undefined` or `null` in the disassembler */
    | HostTypeError

  /** The result of handling one event: carry on (with the reader, which
      `skipSection()` may have changed), return the text, or throw. */
  datatype Step =
    | Continue(dis: WasmDisassembler, reader: Reader)
    | Finish(text: string, dis: WasmDisassembler)
    | Fail(error: DisError)

  /** `printType(typeIndex)`. */
  function PrintType(t: FuncType): (s: Result<string>)
    ensures s.Ok? <==> t.form == TypeFunc && PrintFuncType(t, false).Some?
  {
    if t.form != TypeFunc then Err(NyiFunctionForm)
    else
      match PrintFuncType(t, false)
      case None => Err(UnexpectedType)
      case Some(text) => Ok("(func" + text + ")")
  }

  datatype Result<T> = Ok(value: T) | Err(error: DisError)

  function LocalLine(n: int): string
  {
    "    (local $var" + IntToString(n) + ")\n"
  }

  /** One `(local $varN)` line per local of a run of `count`, numbered from
      `next`. */
  function LocalRun(next: int, count: int): seq<string>
    decreases count
  {
    if count <= 0 then [] else [LocalLine(next)] + LocalRun(next + 1, count - 1)
  }

  /** The number of locals the runs declare. */
  function LocalCount(locals: seq<Locals>): nat
    decreases |locals|
  {
    if locals == [] then 0
    else (if locals[0].count > 0 then locals[0].count else 0) + LocalCount(locals[1..])
  }

  /** The local lines of a whole body, numbered on from `next`. */
  function LocalLines(next: int, locals: seq<Locals>): seq<string>
    decreases |locals|
  {
    if locals == [] then []
    else
      var count := if locals[0].count > 0 then locals[0].count else 0;
      LocalRun(next, count) + LocalLines(next + count, locals[1..])
  }

  function FunctionHeader(printIndex: int, signature: string): string
  {
    "  (func $func" + IntToString(printIndex) + signature + "\n"
  }

  /** The `BEGIN_FUNCTION_BODY` case. */
  function FunctionBodyEvent(d: WasmDisassembler, locals: seq<Locals>): (s: Result<WasmDisassembler>)
    ensures s.Ok? ==> s.value.funcIndex == d.funcIndex + 1 && s.value.indent == Some("    ")
    ensures s.Ok? ==> d.buffer <= s.value.buffer
    ensures s.Ok? ==> s.value.types == d.types && s.value.funcTypes == d.funcTypes && s.value.importCount == d.importCount
  {
    if !(0 <= d.funcIndex < |d.funcTypes| && 0 <= d.funcTypes[d.funcIndex] < |d.types|) then Err(HostTypeError)
    else
      var t := d.types[d.funcTypes[d.funcIndex]];
      match PrintFuncType(t, true)
      case None => Err(UnexpectedType)
      case Some(signature) =>
        var header := FunctionHeader(d.funcIndex + d.importCount, signature);
        Ok(d.(buffer := d.buffer + [header] + LocalLines(|t.params|, locals),
              funcIndex := d.funcIndex + 1, indent := Some("    ")))
  }

  /** The pieces pushed for the immediates `disassemble` prints: a local,
      a callee, a branch depth, or the literal of a `const`. Float literals
      are printed by `floatText`, standing for `Number.prototype.toString`. */
  function OperandPieces(op: OperatorInfo, floatText: seq<Byte> -> string): seq<string>
  {
    match op.imm
    case LocalIndex(i) => [" $var" + IntToString(i)]
    case FuncIndex(i) => [" $func" + IntToString(i)]
    case BrDepth(n) => [" " + IntToString(n)]
    case I32Literal(v) => if op.code == OpI32Const then [" " + IntToString(v)] else []
    case I64Literal(v) => if op.code == OpI64Const then [" " + IntToString(Int64ToDouble(v))] else []
    case F32Literal(b) => if op.code == OpF32Const then [" " + floatText(b)] else []
    case F64Literal(b) => if op.code == OpF64Const then [" " + floatText(b)] else []
    case _ => []
  }

  /** `null` pushed into the buffer joins as the empty string. */
  function IndentPiece(indent: Option<string>): string
  {
    if indent.Some? then indent.value else ""
  }

  /** The `CODE_OPERATOR` case. */
  function OperatorEvent(d: WasmDisassembler, op: OperatorInfo, floatText: seq<Byte> -> string): (s: Result<WasmDisassembler>)
    ensures s.Ok? <==> EnumName(op.code).Some? && (ClosesBlock(op.code) ==> d.indent.Some?)
    ensures s.Ok? && d.indent.Some? ==> s.value.indent == Some(NextIndent(d.indent.value, op.code))
    ensures s.Ok? && d.indent.Some? ==> |s.value.buffer| > |d.buffer| && s.value.buffer[|d.buffer|] == PrintIndent(d.indent.value, op.code)
    ensures s.Ok? ==> d.buffer <= s.value.buffer
    ensures s.Ok? ==> s.value == d.(buffer := s.value.buffer, indent := s.value.indent)
    ensures s.Ok? ==> |s.value.buffer| >= |d.buffer| + 3 && s.value.buffer[|d.buffer| + 1] == Mnemonic(EnumName(op.code).value)
  {
    if ClosesBlock(op.code) && d.indent.None? then Err(HostTypeError)
    else
      var indent := if ClosesBlock(op.code) then Some(DecreaseIndent(d.indent.value)) else d.indent;
      match EnumName(op.code)
      case None => Err(HostTypeError)
      case Some(name) =>
        var line := [IndentPiece(indent), Mnemonic(name)] + OperandPieces(op, floatText) + ["\n"];
        var after := if !OpensBlock(op.code) then indent
                     else if indent.Some? then Some(IncreaseIndent(indent.value))
                     else Some("null  ");
        Ok(d.(buffer := d.buffer + line, indent := after))
  }

  /** A function export's line: the field's bytes as characters between
      the quotes, then the function index. */
  function ExportLine(field: seq<Byte>, index: int): (line: string)
    ensures |line| == 11 + |field| + 7 + |IntToString(index)| + 2
    ensures line[..11] == "  (export \"" && line[11..11 + |field|] == BinToString(field)
    ensures line[11 + |field|..11 + |field| + 7] == "\" $func" && line[|line| - 2..] == ")\n"
    ensures line[11 + |field| + 7..|line| - 2] == IntToString(index)
  {
    "  (export \"" + BinToString(field) + "\" $func" + IntToString(index) + ")\n"
  }

  const MemoryExportLine: string := "  (export \"memory\" memory)\n"

  /** The `EXPORT_SECTION_ENTRY` case: functions and memories print, any
      other kind throws. */
  function ExportEvent(d: WasmDisassembler, field: seq<Byte>, kind: int, index: int): (s: Result<WasmDisassembler>)
    ensures kind == KindFunction ==> s == Ok(Push(d, ExportLine(field, index)))
    ensures kind == KindMemory ==> s == Ok(Push(d, MemoryExportLine))
    ensures kind != KindFunction && kind != KindMemory ==> s == Err(UnsupportedExport)
  {
    if kind == KindFunction then Ok(Push(d, ExportLine(field, index)))
    else if kind == KindMemory then Ok(Push(d, MemoryExportLine))
    else Err(UnsupportedExport)
  }

  /** The sections `disassemble` reads; it skips every other one. */
  predicate PrintedSection(id: int)
  {
    id in {SectionType, SectionImport, SectionExport, SectionFunction, SectionCode}
  }

  function Push(d: WasmDisassembler, piece: string): (d': WasmDisassembler)
    ensures d'.buffer == d.buffer + [piece]
    ensures d' == d.(buffer := d'.buffer)
  {
    d.(buffer := d.buffer + [piece])
  }

  /** The reader states `disassemble` handles; any other one throws. */
  const HandledStates: set<ReaderState> :=
    {EndWasm, Error, BeginWasm, EndSection, BeginSection, ExportSectionEntry, ImportSectionEntry,
     TypeSectionEntry, FunctionSectionEntry, BeginFunctionBody, CodeOperator, EndFunctionBody}

  /** One pass of the loop in `disassemble`, after `read()` returned true. */
  function DisStep(d: WasmDisassembler, r: Reader, floatText: seq<Byte> -> string): (s: Step)
    ensures s.Continue? ==> d.buffer <= s.dis.buffer
    ensures s.Continue? ==> s.reader == r || s.reader == SkipSection(r)
    ensures s.Finish? ==> s.dis.buffer == d.buffer + [")\n"] && s.text == Concat(s.dis.buffer)
    ensures s.Finish? <==> r.state == EndWasm
    ensures (s.Fail? && s.error.UnexpectedState?) <==> r.state !in HandledStates
    ensures r.state == Error ==> s == Fail(ReaderFailed(r.error))
    ensures r.state == ImportSectionEntry && r.result.ImportEntry? ==>
      (s.Continue? <==> r.result.kind == KindFunction) &&
      (s.Continue? ==> s.dis == d.(importCount := d.importCount + 1) && s.reader == r)
  {
    match r.state
    case EndWasm =>
      var d' := Push(d, ")\n");
      Finish(Concat(d'.buffer), d')
    case Error => Fail(ReaderFailed(r.error))
    case BeginWasm => Continue(Push(d, "(module\n"), r)
    case EndSection => Continue(d, r)
    case BeginSection =>
      if r.result.SectionInfo? && PrintedSection(r.result.id) then Continue(d, r)
      else if r.result.SectionInfo? then Continue(d, SkipSection(r))
      else Fail(HostTypeError)
    case ExportSectionEntry =>
      if !r.result.ExportEntry? then Fail(HostTypeError)
      else
        (match ExportEvent(d, r.result.exportField, r.result.exportKind, r.result.index)
         case Err(e) => Fail(e)
         case Ok(d') => Continue(d', r))
    case ImportSectionEntry =>
      if !r.result.ImportEntry? then Fail(HostTypeError)
      else if r.result.kind != KindFunction then Fail(NyiImportType)
      else Continue(d.(importCount := d.importCount + 1), r)
    case TypeSectionEntry =>
      if !r.result.TypeEntry? then Fail(HostTypeError)
      else
        var typeIndex := |d.types|;
        (match PrintType(r.result.funcType)
         case Err(e) => Fail(e)
         case Ok(text) =>
           Continue(Push(d.(types := d.types + [r.result.funcType]),
                         "  (type $type" + NatToString(typeIndex) + " " + text + ")\n"), r))
    case FunctionSectionEntry =>
      if !r.result.FunctionEntry? then Fail(HostTypeError)
      else Continue(d.(funcTypes := d.funcTypes + [r.result.typeIndex]), r)
    case BeginFunctionBody =>
      if !r.result.FunctionInfo? then Fail(HostTypeError)
      else
        (match FunctionBodyEvent(d, r.result.locals)
         case Err(e) => Fail(e)
         case Ok(d') => Continue(d', r))
    case CodeOperator =>
      if !r.result.Operator? then Fail(HostTypeError)
      else
        (match OperatorEvent(d, r.result.op, floatText)
         case Err(e) => Fail(e)
         case Ok(d') => Continue(d', r))
    case EndFunctionBody => Continue(Push(d, "  )\n"), r)
    case _ => Fail(UnexpectedState(r.state))
  }

  /** What `disassemble(reader)` does: return `null` (the reader ran out of
      bytes; what was printed so far stays in the buffer), return the text,
      or throw. `OutOfFuel` means the loop had not finished after `fuel`
      reads. */
  datatype DisResult =
    | Null(dis: WasmDisassembler, reader: Reader)
    | Text(text: string, dis: WasmDisassembler, reader: Reader)
    | Thrown(error: DisError)
    | OutOfFuel

  /** `disassemble(reader)`, with at most `fuel` calls of the corrected
      `read()`, `Read`. The buffer is only ever appended to, and the text
      returned is the whole buffer, which ends with `)\n`. */
  function Disassemble(d: WasmDisassembler, r: Reader, floatText: seq<Byte> -> string, fuel: nat): (res: DisResult)
    ensures res.Null? ==> d.buffer <= res.dis.buffer && res.reader.data == r.data
    ensures res.Text? ==> d.buffer <= res.dis.buffer && res.text == Concat(res.dis.buffer)
    ensures res.Text? ==> |res.dis.buffer| > 0 && res.dis.buffer[|res.dis.buffer| - 1] == ")\n"
    ensures res.Text? ==> res.reader.state == EndWasm
    decreases fuel, 0
  {
    if fuel == 0 then OutOfFuel else Resume(d, Read(r), floatText, fuel - 1)
  }

  /** The rest of one pass of the loop, once `read()` gave `o`: `null` when
      it returned false (the buffer is kept), the reader's exception when it
      threw, and otherwise the case for the reader's state; `fuel` reads
      remain. */
  function Resume(d: WasmDisassembler, o: ReadOutcome, floatText: seq<Byte> -> string, fuel: nat): (res: DisResult)
    ensures o.Returned? && !o.ok ==> res == Null(d, o.reader)
    ensures o.Threw? ==> res == Thrown(ReaderException(o.exception))
    ensures res.Null? ==> d.buffer <= res.dis.buffer && res.reader.data == o.reader.data
    ensures res.Text? ==> d.buffer <= res.dis.buffer && res.text == Concat(res.dis.buffer)
    ensures res.Text? ==> |res.dis.buffer| > 0 && res.dis.buffer[|res.dis.buffer| - 1] == ")\n"
    ensures res.Text? ==> res.reader.state == EndWasm
    decreases fuel, 1
  {
    match o
    case Threw(e, _) => Thrown(ReaderException(e))
    case Returned(false, r') => Null(d, r')
    case Returned(true, r') =>
      match DisStep(d, r', floatText)
      case Fail(e) => Thrown(e)
      case Finish(text, d') => Text(text, d', r')
      case Continue(d', r'') => Disassemble(d', r'', floatText, fuel)
  }
}

=== FILE: dis_props.dfy ===
/** Properties of the disassembler: the shape of a signature, indentation
    that follows block nesting, the numbering of locals, the section filter,
    the operator lines, and whole runs. */
module DisProps {
  import opened Common
  import opened I64
  import opened ReaderTypes
  import opened Decode
  import opened Leb
  import opened WasmReader
  import opened ReaderProps
  import opened Opcodes
  import opened Decimal
  import opened Dis

  // ---------------------------------------------------------------------------
  // Joining the buffer

  lemma {:induction false} ConcatAppend(a: seq<string>, b: seq<string>)
    ensures Concat(a + b) == Concat(a) + Concat(b)
    decreases |a|
  {
    if a == [] {
      assert a + b == b;
    } else {
      assert (a + b)[1..] == a[1..] + b;
      ConcatAppend(a[1..], b);
    }
  }

  lemma ConcatOne(x: string)
    ensures Concat([x]) == x
  {
    assert [x][1..] == [];
  }

  // ---------------------------------------------------------------------------
  // printFuncType

  /** Each further result type adds one ` (return T)` at the end. */
  lemma PrintFuncTypeAddsReturn(t: FuncType, x: int, printVars: bool)
    requires PrintFuncType(t, printVars).Some? && TypeToString(x).Some?
    ensures PrintFuncType(t.(results := t.results + [x]), printVars)
         == Some(PrintFuncType(t, printVars).value + ReturnPiece(TypeToString(x).value))
  {
    var t' := t.(results := t.results + [x]);
    assert forall i :: 0 <= i < |t'.results| ==> TypeToString(t'.results[i]).Some? by {
      forall i | 0 <= i < |t'.results|
        ensures TypeToString(t'.results[i]).Some?
      {
        if i < |t.results| { assert t'.results[i] == t.results[i]; }
      }
    }
    var ps := TypeNames(t.params).value;
    var rs := TypeNames(t.results).value;
    var rs' := TypeNames(t'.results).value;
    var name := TypeToString(x).value;
    assert rs' == rs + [name] by {
      forall i | 0 <= i < |rs'|
        ensures rs'[i] == (rs + [name])[i]
      {
        if i < |rs| { assert t'.results[i] == t.results[i]; }
      }
    }
    var head := ParamPieces(ps, printVars);
    var tail := seq(|rs|, i requires 0 <= i < |rs| => ReturnPiece(rs[i]));
    var tail' := seq(|rs'|, i requires 0 <= i < |rs'| => ReturnPiece(rs'[i]));
    assert tail' == tail + [ReturnPiece(name)];
    assert head + tail' == (head + tail) + [ReturnPiece(name)];
    ConcatAppend(head + tail, [ReturnPiece(name)]);
    ConcatOne(ReturnPiece(name));
  }

  /** With `printVars`, each further parameter adds ` (param $var{i} T)`,
      `i` being its position. */
  lemma PrintFuncTypeAddsParam(form: int, ps: seq<int>, x: int)
    requires PrintFuncType(FuncType(form, ps, []), true).Some? && TypeToString(x).Some?
    ensures PrintFuncType(FuncType(form, ps + [x], []), true)
         == Some(PrintFuncType(FuncType(form, ps, []), true).value + ParamVarPiece(|ps|, TypeToString(x).value))
  {
    var ps' := ps + [x];
    assert forall i :: 0 <= i < |ps'| ==> TypeToString(ps'[i]).Some? by {
      forall i | 0 <= i < |ps'|
        ensures TypeToString(ps'[i]).Some?
      {
        if i < |ps| { assert ps'[i] == ps[i]; }
      }
    }
    var ns := TypeNames(ps).value;
    var ns' := TypeNames(ps').value;
    var name := TypeToString(x).value;
    assert ns' == ns + [name] by {
      forall i | 0 <= i < |ns'|
        ensures ns'[i] == (ns + [name])[i]
      {
        if i < |ns| { assert ps'[i] == ps[i]; }
      }
    }
    var rs := TypeNames([]).value;
    assert rs == [];
    var noReturns := seq(|rs|, i requires 0 <= i < |rs| => ReturnPiece(rs[i]));
    assert noReturns == [];
    assert ParamPieces(ns', true) == ParamPieces(ns, true) + [ParamVarPiece(|ns|, name)];
    assert ParamPieces(ns', true) + noReturns == (ParamPieces(ns, true) + noReturns) + [ParamVarPiece(|ps|, name)];
    ConcatAppend(ParamPieces(ns, true) + noReturns, [ParamVarPiece(|ps|, name)]);
    ConcatOne(ParamVarPiece(|ps|, name));
  }

  /** Without `printVars`, the ` (params ...)` list is printed exactly when
      there are parameters; without parameters both modes print the same. */
  lemma ParamsListOnlyWithParams(t: FuncType)
    requires PrintFuncType(t, false).Some?
    ensures |t.params| > 0 <==> " (params" <= PrintFuncType(t, false).value
    ensures |t.params| == 0 ==> PrintFuncType(t, true) == PrintFuncType(t, false)
  {
    var ps := TypeNames(t.params).value;
    var rs := TypeNames(t.results).value;
    var tail := seq(|rs|, i requires 0 <= i < |rs| => ReturnPiece(rs[i]));
    var text := PrintFuncType(t, false).value;
    if |t.params| > 0 {
      var pieces := ParamPieces(ps, false) + tail;
      assert pieces[0] == " (params";
      assert text == pieces[0] + Concat(pieces[1..]);
    } else {
      assert ParamPieces(ps, false) == [] && ParamPieces(ps, true) == [];
      assert ParamPieces(ps, false) + tail == tail;
      assert text == Concat(tail);
      if |tail| > 0 {
        assert text == tail[0] + Concat(tail[1..]);
        assert text[2] == 'r';
      }
    }
  }

  // ---------------------------------------------------------------------------
  // Indentation

  /** `n` levels of indentation. */
  function Spaces(n: nat): (s: string)
    ensures |s| == 2 * n && forall i :: 0 <= i < |s| ==> s[i] == ' '
  {
    seq(2 * n, _ => ' ')
  }

  lemma SpacesStep(base: string, n: nat)
    ensures IncreaseIndent(base + Spaces(n)) == base + Spaces(n + 1)
    ensures DecreaseIndent(base + Spaces(n + 1)) == base + Spaces(n)
  {
    assert base + Spaces(n) + "  " == base + Spaces(n + 1);
  }

  /** The nesting depth before an operator's own effect on it. */
  function DepthInside(depth: int, code: int): int
  {
    depth - (if ClosesBlock(code) then 1 else 0)
  }

  function DepthNext(depth: int, code: int): int
  {
    DepthInside(depth, code) + (if OpensBlock(code) then 1 else 0)
  }

  /** No `end` or `else` closes more blocks than are open. */
  predicate NestedFrom(depth: int, codes: seq<int>)
    decreases |codes|
  {
    codes == [] || (DepthInside(depth, codes[0]) >= 0 && NestedFrom(DepthNext(depth, codes[0]), codes[1..]))
  }

  function DepthAfter(depth: int, codes: seq<int>): int
    decreases |codes|
  {
    if codes == [] then depth else DepthAfter(DepthNext(depth, codes[0]), codes[1..])
  }

  /** The indent after a run of operators. */
  function IndentAfter(indent: string, codes: seq<int>): string
    decreases |codes|
  {
    if codes == [] then indent else IndentAfter(NextIndent(indent, codes[0]), codes[1..])
  }

  /** Over properly nested operators the indent is the starting indent plus
      one level per open block. */
  lemma {:induction false} IndentFollowsDepth(base: string, depth: nat, codes: seq<int>)
    requires NestedFrom(depth, codes)
    ensures DepthAfter(depth, codes) >= 0
    ensures IndentAfter(base + Spaces(depth), codes) == base + Spaces(DepthAfter(depth, codes))
    decreases |codes|
  {
    if codes != [] {
      var c := codes[0];
      var inner: nat := DepthInside(depth, c);
      var next: nat := DepthNext(depth, c);
      assert PrintIndent(base + Spaces(depth), c) == base + Spaces(inner) by {
        if ClosesBlock(c) { SpacesStep(base, inner); }
      }
      assert NextIndent(base + Spaces(depth), c) == base + Spaces(next) by {
        if OpensBlock(c) { SpacesStep(base, inner); }
      }
      IndentFollowsDepth(base, next, codes[1..]);
    }
  }

  /** The `end` or `else` that closes a `block`, `loop` or `if` prints at the
      opener's indent, whatever properly nested operators lie between. */
  lemma CloserAlignsWithOpener(indent: string, opener: int, body: seq<int>, closer: int)
    requires opener == OpBlock || opener == OpLoop || opener == OpIf
    requires ClosesBlock(closer)
    requires NestedFrom(0, body) && DepthAfter(0, body) == 0
    ensures PrintIndent(IndentAfter(indent, [opener] + body), closer) == PrintIndent(indent, opener) == indent
  {
    assert ([opener] + body)[1..] == body;
    var inside := IncreaseIndent(indent);
    assert IndentAfter(indent, [opener] + body) == IndentAfter(inside, body);
    assert inside + Spaces(0) == inside;
    IndentFollowsDepth(inside, 0, body);
  }

  /** A body's operators start at four spaces, so the `end` that closes the
      body prints at two. */
  lemma FinalEndAtTwoSpaces(body: seq<int>)
    requires NestedFrom(0, body) && DepthAfter(0, body) == 0
    ensures PrintIndent(IndentAfter("    ", body), OpEnd) == "  "
  {
    assert "    " + Spaces(0) == "    ";
    IndentFollowsDepth("    ", 0, body);
  }

  // ---------------------------------------------------------------------------
  // Function bodies

  lemma {:induction false} LocalRunNumbered(next: int, count: int)
    ensures |LocalRun(next, count)| == if count > 0 then count else 0
    ensures forall k :: 0 <= k < |LocalRun(next, count)| ==> LocalRun(next, count)[k] == LocalLine(next + k)
    decreases count
  {
    if count > 0 {
      var rest := LocalRun(next + 1, count - 1);
      LocalRunNumbered(next + 1, count - 1);
      assert LocalRun(next, count) == [LocalLine(next)] + rest;
      forall k | 0 <= k < |LocalRun(next, count)|
        ensures LocalRun(next, count)[k] == LocalLine(next + k)
      {
        if k > 0 {
          assert LocalRun(next, count)[k] == rest[k - 1];
        }
      }
    }
  }

  /** The locals print one line per local, numbered on without gaps. */
  lemma LocalLinesNumbered(next: int, locals: seq<Locals>)
    ensures LocalLines(next, locals) == LocalRun(next, LocalCount(locals))
    ensures |LocalLines(next, locals)| == LocalCount(locals)
    ensures forall k :: 0 <= k < LocalCount(locals) ==> LocalLines(next, locals)[k] == LocalLine(next + k)
  {
    LocalLinesAreOneRun(next, locals);
    LocalRunNumbered(next, LocalCount(locals));
  }

  lemma {:induction false} LocalLinesAreOneRun(next: int, locals: seq<Locals>)
    ensures LocalLines(next, locals) == LocalRun(next, LocalCount(locals))
    decreases |locals|
  {
    if locals != [] {
      var count := if locals[0].count > 0 then locals[0].count else 0;
      LocalLinesAreOneRun(next + count, locals[1..]);
      RunConcat(next, count, LocalCount(locals[1..]));
    }
  }

  lemma SingletonConcatAssoc(x: string, s: seq<string>, t: seq<string>)
    ensures [x] + s + t == [x] + (s + t)
  {
  }

  /** A run of `a` locals followed by a run of `b` numbered on from it is one
      run of `a + b`. */
  lemma {:induction false} RunConcat(next: int, a: nat, b: nat)
    ensures LocalRun(next, a) + LocalRun(next + a, b) == LocalRun(next, a + b)
    decreases a, 1
  {
    if a > 0 {
      RunConcatStep(next, a, b);
    } else {
      assert LocalRun(next, a) == [];
    }
  }

  lemma {:induction false} RunConcatStep(next: int, a: nat, b: nat)
    requires a > 0
    ensures LocalRun(next, a) + LocalRun(next + a, b) == LocalRun(next, a + b)
    decreases a, 0
  {
    var line := LocalLine(next);
    var rest := LocalRun(next + 1, a - 1);
    var more := LocalRun(next + a, b);
    RunConcat(next + 1, a - 1, b);
    assert LocalRun(next, a) == [line] + rest;
    assert LocalRun(next, a + b) == [line] + (rest + more);
    SingletonConcatAssoc(line, rest, more);
  }

  /** `BEGIN_FUNCTION_BODY` prints the header `$func{funcIndex + importCount}`
      with the parameters as variables, then one `(local $varN)` line per
      local, numbered from the parameter count; the next body gets the next
      function index and starts at four spaces. */
  lemma FunctionBodyLines(d: WasmDisassembler, locals: seq<Locals>)
    requires 0 <= d.funcIndex < |d.funcTypes| && 0 <= d.funcTypes[d.funcIndex] < |d.types|
    requires PrintFuncType(d.types[d.funcTypes[d.funcIndex]], true).Some?
    ensures var t := d.types[d.funcTypes[d.funcIndex]];
            var s := FunctionBodyEvent(d, locals);
            var lines := LocalLines(|t.params|, locals);
            && s.Ok?
            && s.value.funcIndex == d.funcIndex + 1 && s.value.indent == Some("    ")
            && s.value.buffer == d.buffer + [FunctionHeader(d.funcIndex + d.importCount, PrintFuncType(t, true).value)] + lines
            && |lines| == LocalCount(locals)
            && forall k :: 0 <= k < |lines| ==> lines[k] == LocalLine(|t.params| + k)
  {
    var t := d.types[d.funcTypes[d.funcIndex]];
    var header := FunctionHeader(d.funcIndex + d.importCount, PrintFuncType(t, true).value);
    assert FunctionBodyEvent(d, locals)
        == Ok(d.(buffer := d.buffer + [header] + LocalLines(|t.params|, locals), funcIndex := d.funcIndex + 1, indent := Some("    ")));
    LocalLinesNumbered(|t.params|, locals);
  }

  /** In the loop, `BEGIN_FUNCTION_BODY` does what `FunctionBodyLines`
      describes and keeps the reader. */
  lemma FunctionBodyPrinted(d: WasmDisassembler, r: Reader, floatText: seq<Byte> -> string)
    requires r.state == BeginFunctionBody && r.result.FunctionInfo?
    requires 0 <= d.funcIndex < |d.funcTypes| && 0 <= d.funcTypes[d.funcIndex] < |d.types|
    requires PrintFuncType(d.types[d.funcTypes[d.funcIndex]], true).Some?
    ensures DisStep(d, r, floatText) == Continue(FunctionBodyEvent(d, r.result.locals).value, r)
  {
    FunctionBodyLines(d, r.result.locals);
  }

  // ---------------------------------------------------------------------------
  // Sections

  /** At `BEGIN_SECTION` the Type, Import, Export, Function and Code
      sections are read on; any other section is skipped, and the next read
      lands on its `END_SECTION` once the whole payload is there. */
  lemma SectionFilter(d: WasmDisassembler, r: Reader, floatText: seq<Byte> -> string)
    requires r.state == BeginSection && r.result.SectionInfo?
    ensures PrintedSection(r.result.id) ==> DisStep(d, r, floatText) == Continue(d, r)
    ensures !PrintedSection(r.result.id) ==> DisStep(d, r, floatText) == Continue(d, r.(state := SkippingSection))
    ensures !PrintedSection(r.result.id) && r.sectionRange.Some? ==>
      var next := Read(r.(state := SkippingSection));
      next.Returned? && (next.ok <==> r.sectionRange.value.end <= r.length) &&
      (next.ok ==> next.reader.state == EndSection && next.reader.pos == r.sectionRange.value.end)
  {
    DisStepAtBeginSection(d, r, floatText);
    if !PrintedSection(r.result.id) && r.sectionRange.Some? {
      SkippedSectionRead(r.(state := SkippingSection));
    }
  }

  lemma DisStepAtBeginSection(d: WasmDisassembler, r: Reader, floatText: seq<Byte> -> string)
    requires r.state == BeginSection && r.result.SectionInfo?
    ensures DisStep(d, r, floatText)
         == if PrintedSection(r.result.id) then Continue(d, r) else Continue(d, SkipSection(r))
  {
  }

  /** A reader left in `SKIPPING_SECTION` reaches `END_SECTION` at the end of
      the payload once the payload is all there. */
  lemma SkippedSectionRead(r: Reader)
    requires r.state == SkippingSection && r.sectionRange.Some?
    ensures var next := Read(r);
      next.Returned? && (next.ok <==> r.sectionRange.value.end <= r.length) &&
      (next.ok ==> next.reader.state == EndSection && next.reader.pos == r.sectionRange.value.end)
  {
  }

  // ---------------------------------------------------------------------------
  // Operators

  /** Every operator the enumeration names prints as the mnemonic the
      `OperatorCodeNames` table lists; any other code throws. */
  lemma OperatorPrintsTableName(d: WasmDisassembler, op: OperatorInfo, floatText: seq<Byte> -> string)
    requires ClosesBlock(op.code) ==> d.indent.Some?
    ensures OperatorCodeNames(op.code).None? ==> OperatorEvent(d, op, floatText) == Err(HostTypeError)
    ensures OperatorCodeNames(op.code).Some? ==>
      var s := OperatorEvent(d, op, floatText);
      s.Ok? && |s.value.buffer| >= |d.buffer| + 3 && s.value.buffer[|d.buffer| + 1] == OperatorCodeNames(op.code).value
  {
    MnemonicsMatchTable(op.code);
  }

  /** `i64.const` prints the signed value of its eight literal bytes. */
  lemma I64ConstPrintsSignedValue(d: WasmDisassembler, v: Int64, floatText: seq<Byte> -> string)
    requires d.indent.Some?
    ensures OperatorEvent(d, OperatorInfo(OpI64Const, I64Literal(v)), floatText)
         == Ok(d.(buffer := d.buffer + [d.indent.value, "i64.const", " " + IntToString(Signed64(v)), "\n"]))
  {
    var op := OperatorInfo(OpI64Const, I64Literal(v));
    I64ConstName();
    I64ConstOperand(v, floatText);
    var line := [IndentPiece(d.indent), Mnemonic("i64_const")] + OperandPieces(op, floatText) + ["\n"];
    assert line == [d.indent.value, "i64.const", " " + IntToString(Signed64(v)), "\n"];
  }

  lemma I64ConstName()
    ensures !ClosesBlock(OpI64Const) && !OpensBlock(OpI64Const)
    ensures EnumName(OpI64Const) == Some("i64_const") && Mnemonic("i64_const") == "i64.const"
  {
    assert DotAfterType("i64_const") == "i64.const";
  }

  lemma I64ConstOperand(v: Int64, floatText: seq<Byte> -> string)
    ensures OperandPieces(OperatorInfo(OpI64Const, I64Literal(v)), floatText) == [" " + IntToString(Signed64(v))]
  {
  }

  /** After the indent and the mnemonic, an operator line holds the
      operand `disassemble` prints for its immediate, then the newline:
      `br_table`, global and memory immediates print nothing. */
  lemma OperatorOperandsPrinted(d: WasmDisassembler, op: OperatorInfo, floatText: seq<Byte> -> string)
    ensures var s := OperatorEvent(d, op, floatText);
      && (s.Ok? && op.imm.LocalIndex? ==> s.value.buffer[|d.buffer| + 2..] == [" $var" + IntToString(op.imm.localIndex), "\n"])
      && (s.Ok? && op.imm.FuncIndex? ==> s.value.buffer[|d.buffer| + 2..] == [" $func" + IntToString(op.imm.funcIndex), "\n"])
      && (s.Ok? && op.imm.BrDepth? ==> s.value.buffer[|d.buffer| + 2..] == [" " + IntToString(op.imm.brDepth), "\n"])
      && (s.Ok? && op.imm.I32Literal? ==>
            s.value.buffer[|d.buffer| + 2..] == (if op.code == OpI32Const then [" " + IntToString(op.imm.i32), "\n"] else ["\n"]))
      && (s.Ok? && (op.imm.NoImmediate? || op.imm.BlockType? || op.imm.BrTable? || op.imm.TypeIndex?
                    || op.imm.GlobalIndex? || op.imm.MemoryImmediate?) ==>
            s.value.buffer[|d.buffer| + 2..] == ["\n"])
  {
    OperatorLineTail(d, op, floatText);
  }

  lemma OperatorLineTail(d: WasmDisassembler, op: OperatorInfo, floatText: seq<Byte> -> string)
    ensures var s := OperatorEvent(d, op, floatText);
      s.Ok? ==> s.value.buffer[|d.buffer| + 2..] == OperandPieces(op, floatText) + ["\n"]
  {
    var s := OperatorEvent(d, op, floatText);
    if s.Ok? {
      var indent := if ClosesBlock(op.code) then Some(DecreaseIndent(d.indent.value)) else d.indent;
      var line := [IndentPiece(indent), Mnemonic(EnumName(op.code).value)] + OperandPieces(op, floatText) + ["\n"];
      assert s.value.buffer == d.buffer + line;
      assert (d.buffer + line)[|d.buffer| + 2..] == line[2..];
    }
  }

  /** The operand a local, call, branch or `i32.const` operator prints is the
      value its immediate decodes to from the bytes after the opcode. */
  lemma ReadOperatorPrinted(d: WasmDisassembler, r: Reader, floatText: seq<Byte> -> string)
    requires AtOperator(r) && ReadCodeOperator(r).Returned? && ReadCodeOperator(r).ok
    ensures var code := ByteAt(r.data, r.pos);
      var s := OperatorEvent(d, ReadCodeOperator(r).reader.result.op, floatText);
      var index := ReadVarUint32(r.data, r.pos + 1);
      && (OpGetLocal <= code <= OpTeeLocal ==> s.Ok? && s.value.buffer[|d.buffer| + 2..] == [" $var" + IntToString(index.value), "\n"])
      && (code == OpCall ==> s.Ok? && s.value.buffer[|d.buffer| + 2..] == [" $func" + IntToString(index.value), "\n"])
      && (code == OpBr || code == OpBrIf ==> s.Ok? && s.value.buffer[|d.buffer| + 2..] == [" " + IntToString(index.value), "\n"])
      && (code == OpI32Const ==>
            s.Ok? && s.value.buffer[|d.buffer| + 2..] == [" " + IntToString(ReadVarInt32(r.data, r.pos + 1).value), "\n"])
  {
    var code := ByteAt(r.data, r.pos);
    var op := ReadCodeOperator(r).reader.result.op;
    OperatorOperandsPrinted(d, op, floatText);
    if OpGetLocal <= code <= OpTeeLocal || code == OpCall || code == OpBr || code == OpBrIf || code == OpI32Const {
      OperandCodeNamed(code);
    }
  }

  lemma OperandCodeNamed(code: int)
    requires OpGetLocal <= code <= OpTeeLocal || code == OpCall || code == OpBr || code == OpBrIf || code == OpI32Const
    ensures EnumName(code).Some? && !ClosesBlock(code)
  {
  }

  // ---------------------------------------------------------------------------
  // Whole runs

  /** The empty module prints as `(module\n)\n`; asked again, the
      disassembler returns `null`. The three passes of the loop are
      `EmptyModuleOpens`, `EmptyModuleCloses` and `EmptyModuleThenNull`. */
  lemma EmptyModuleText(floatText: seq<Byte> -> string)
    ensures var r0 := SetData(NewReader(), EmptyModule, 0, |EmptyModule|, None);
            var res := Disassemble(NewDisassembler(), r0, floatText, 2);
            && res.Text? && res.text == "(module\n)\n"
            && Disassemble(res.dis, res.reader, floatText, 1).Null?
  {
    EmptyModuleOpens(floatText);
    EmptyModuleCloses(floatText);
    EmptyModuleThenNull(floatText);
  }

  /** The reader after the empty module's header. */
  function EmptyModuleAtHeader(): (r: Reader)
    ensures r.state == BeginWasm && r.pos == 8 && r.data == EmptyModule
  {
    SetData(NewReader(), EmptyModule, 0, |EmptyModule|, None).(pos := 8, result := ModuleHeader(WasmMagicNumber, 1), state := BeginWasm)
  }

  /** `BEGIN_WASM` prints `(module\n)`. */
  lemma EmptyModuleOpens(floatText: seq<Byte> -> string)
    ensures var r0 := SetData(NewReader(), EmptyModule, 0, |EmptyModule|, None);
            Disassemble(NewDisassembler(), r0, floatText, 2)
              == Disassemble(Push(NewDisassembler(), "(module\n"), EmptyModuleAtHeader(), floatText, 1)
  {
    var r0 := SetData(NewReader(), EmptyModule, 0, |EmptyModule|, None);
    EmptyModuleHeader(r0);
    assert r0.(pos := 8, result := ModuleHeader(WasmMagicNumber, 1), state := BeginWasm) == EmptyModuleAtHeader();
    DisassembleOnce(NewDisassembler(), r0, floatText, 2);
    DisStepAtBeginWasm(NewDisassembler(), EmptyModuleAtHeader(), floatText);
    ResumeContinues(NewDisassembler(), EmptyModuleAtHeader(), floatText, 1);
  }

  lemma DisassembleOnce(d: WasmDisassembler, r: Reader, floatText: seq<Byte> -> string, fuel: nat)
    requires fuel > 0
    ensures Disassemble(d, r, floatText, fuel) == Resume(d, Read(r), floatText, fuel - 1)
  {
  }

  lemma DisStepAtBeginWasm(d: WasmDisassembler, r: Reader, floatText: seq<Byte> -> string)
    requires r.state == BeginWasm
    ensures DisStep(d, r, floatText) == Continue(Push(d, "(module\n"), r)
  {
  }

  lemma ResumeContinues(d: WasmDisassembler, r: Reader, floatText: seq<Byte> -> string, fuel: nat)
    requires DisStep(d, r, floatText).Continue?
    ensures Resume(d, Returned(true, r), floatText, fuel)
         == Disassemble(DisStep(d, r, floatText).dis, DisStep(d, r, floatText).reader, floatText, fuel)
  {
  }

  /** `END_WASM` closes the module with `)\n` and returns the text. */
  lemma EmptyModuleCloses(floatText: seq<Byte> -> string)
    ensures Disassemble(Push(NewDisassembler(), "(module\n"), EmptyModuleAtHeader(), floatText, 1)
         == Text("(module\n)\n", Push(Push(NewDisassembler(), "(module\n"), ")\n"), AtEndWasm(EmptyModuleAtHeader()))
  {
    var d1 := Push(NewDisassembler(), "(module\n");
    var r1 := EmptyModuleAtHeader();
    var d2 := Push(d1, ")\n");
    EndOfInputEndsModule(r1);
    DisassembleOnce(d1, r1, floatText, 1);
    DisStepAtEndWasm(d1, AtEndWasm(r1), floatText);
    assert d2.buffer == ["(module\n", ")\n"];
    assert Concat(d2.buffer) == "(module\n)\n" by {
      assert d2.buffer[1..] == [")\n"];
      ConcatOne(")\n");
    }
  }

  lemma DisStepAtEndWasm(d: WasmDisassembler, r: Reader, floatText: seq<Byte> -> string)
    requires r.state == EndWasm
    ensures DisStep(d, r, floatText) == Finish(Concat(Push(d, ")\n").buffer), Push(d, ")\n"))
  {
  }

  /** After `END_WASM` no byte is left, so the next call returns `null`. */
  lemma EmptyModuleThenNull(floatText: seq<Byte> -> string)
    ensures Disassemble(Push(Push(NewDisassembler(), "(module\n"), ")\n"), AtEndWasm(EmptyModuleAtHeader()), floatText, 1).Null?
  {
    AfterEndWasm(AtEndWasm(EmptyModuleAtHeader()));
  }
}

=== FILE: entry_props.dfy ===
/** What the entry readers read back: limits, table and global types,
    function signatures, import and export entries, and the header and
    entries of the relocation and `linking` sections, each written by an
    encoder in the layout of the binary format. */
module EntryProps {
  import opened Common
  import opened Leb
  import opened ReaderTypes
  import opened Decode
  import opened DecodeProps
  import opened NameProps

  // ---------------------------------------------------------------------------
  // Limits, table types and global types

  /** 32-bit fields, and a maximum exactly when bit 0 of the flags is set. */
  predicate LimitsInRange(l: Limits)
  {
    && 0 <= l.flags < TWO32 && 0 <= l.initial < TWO32
    && (l.maximum.Some? <==> l.flags % 2 == 1)
    && (l.maximum.Some? ==> 0 <= l.maximum.value < TWO32)
  }

  /** `resizable_limits`: the flags, the initial size, then the maximum when
      the flags announce one. */
  function EncodeLimits(l: Limits): (e: seq<Byte>)
    requires LimitsInRange(l)
  {
    EncodeUleb(l.flags) + EncodeUleb(l.initial) + (if l.maximum.Some? then EncodeUleb(l.maximum.value) else [])
  }

  /** `readResizableLimits()` reads back the limits the encoder writes. */
  lemma ReadLimitsRoundTrip(data: seq<Byte>, pos: int, length: int, l: Limits)
    requires LimitsInRange(l)
    requires BytesAt(data, pos, length, EncodeLimits(l))
    ensures ReadLimits(data, pos) == Decoded(l, pos + |EncodeLimits(l)|)
  {
    var p1 := pos + |EncodeUleb(l.flags)|;
    var p2 := p1 + |EncodeUleb(l.initial)|;
    var end := pos + |EncodeLimits(l)|;
    LimitsBytes(data, pos, length, l, p1, p2);
    UlebAt(data, pos, length, l.flags);
    UlebAt(data, p1, length, l.initial);
    if l.maximum.Some? {
      UlebAt(data, p2, length, l.maximum.value);
    }
    LimitsStep(data, pos, l, p1, p2, end);
  }

  /** The LEBs of the limits, each at its place. */
  lemma LimitsBytes(data: seq<Byte>, pos: int, length: int, l: Limits, p1: int, p2: int)
    requires LimitsInRange(l)
    requires p1 == pos + |EncodeUleb(l.flags)| && p2 == p1 + |EncodeUleb(l.initial)|
    requires BytesAt(data, pos, length, EncodeLimits(l))
    ensures BytesAt(data, pos, length, EncodeUleb(l.flags))
    ensures BytesAt(data, p1, length, EncodeUleb(l.initial))
    ensures l.maximum.Some? ==>
      BytesAt(data, p2, length, EncodeUleb(l.maximum.value)) && p2 + |EncodeUleb(l.maximum.value)| == pos + |EncodeLimits(l)|
    ensures l.maximum.None? ==> p2 == pos + |EncodeLimits(l)|
  {
    var a := EncodeUleb(l.flags);
    var b := EncodeUleb(l.initial);
    var c := if l.maximum.Some? then EncodeUleb(l.maximum.value) else [];
    assert EncodeLimits(l) == a + (b + c);
    BytesAtSplit(data, pos, length, a, b + c);
    BytesAtSplit(data, p1, length, b, c);
  }

  /** Limits whose LEBs read back at their places read back whole. */
  lemma LimitsStep(data: seq<Byte>, pos: int, l: Limits, p1: int, p2: int, end: int)
    requires LimitsInRange(l)
    requires ReadVarUint32(data, pos) == Decoded(l.flags, p1)
    requires ReadVarUint32(data, p1) == Decoded(l.initial, p2)
    requires l.maximum.Some? ==> ReadVarUint32(data, p2) == Decoded(l.maximum.value, end)
    requires l.maximum.None? ==> p2 == end
    ensures ReadLimits(data, pos) == Decoded(l, end)
  {
  }

  predicate TableTypeInRange(t: TableType)
  {
    -64 <= t.elementType < 64 && LimitsInRange(t.limits)
  }

  /** `table_type`: the element type byte, then the limits. */
  function EncodeTableType(t: TableType): (e: seq<Byte>)
    requires TableTypeInRange(t)
  {
    [TypeByte(t.elementType)] + EncodeLimits(t.limits)
  }

  /** `readTableType()` reads back the table type the encoder writes. */
  lemma ReadTableTypeRoundTrip(data: seq<Byte>, pos: int, length: int, t: TableType)
    requires TableTypeInRange(t)
    requires BytesAt(data, pos, length, EncodeTableType(t))
    ensures ReadTableType(data, pos) == Decoded(t, pos + |EncodeTableType(t)|)
  {
    BytesAtSplit(data, pos, length, [TypeByte(t.elementType)], EncodeLimits(t.limits));
    ReadLimitsRoundTrip(data, pos + 1, length, t.limits);
  }

  /** A seven-bit content type and a mutability byte that ends its group. */
  predicate GlobalTypeInRange(g: GlobalType)
  {
    -64 <= g.contentType < 64 && 0 <= g.mutability < 128
  }

  /** `global_type`: the content type byte, then the mutability byte. */
  function EncodeGlobalType(g: GlobalType): (e: seq<Byte>)
    requires GlobalTypeInRange(g)
    ensures |e| == 2
  {
    [TypeByte(g.contentType), g.mutability]
  }

  /** `readGlobalType()` reads back the global type the encoder writes, and
      both lookaheads pass. */
  lemma ReadGlobalTypeRoundTrip(data: seq<Byte>, pos: int, length: int, g: GlobalType)
    requires GlobalTypeInRange(g)
    requires BytesAt(data, pos, length, EncodeGlobalType(g))
    ensures ReadGlobalType(data, pos, length) == Some(Decoded(g, pos + 2))
  {
    BytesAtSplit(data, pos, length, [TypeByte(g.contentType)], [g.mutability]);
    KindByteAt(data, pos, length, TypeByte(g.contentType));
    KindByteAt(data, pos + 1, length, g.mutability);
  }

  // ---------------------------------------------------------------------------
  // Function signatures

  predicate TypesInRange(ts: seq<int>)
  {
    forall i :: 0 <= i < |ts| ==> -64 <= ts[i] < 64
  }

  /** One type byte per type. */
  function TypeBytes(ts: seq<int>): (e: seq<Byte>)
    requires TypesInRange(ts)
    ensures |e| == |ts|
  {
    seq(|ts|, i requires 0 <= i < |ts| => TypeByte(ts[i]))
  }

  /** A run of type bytes reads back as the types. */
  lemma TypesAt(data: seq<Byte>, pos: int, length: int, ts: seq<int>)
    requires TypesInRange(ts)
    requires BytesAt(data, pos, length, TypeBytes(ts))
    ensures Int7Run(data, pos, |ts|) == ts
  {
    BytesAtSlice(data, pos, length, TypeBytes(ts));
    forall i | 0 <= i < |ts|
      ensures Int7Run(data, pos, |ts|)[i] == ts[i]
    {
      assert ByteAt(data, pos + i) == data[pos..pos + |ts|][i] == TypeByte(ts[i]);
    }
  }

  /** Seven-bit types, a 32-bit parameter count, and a result count that
      fits the one raw byte `readFuncType()` reads for it. */
  predicate FuncTypeInRange(t: FuncType)
  {
    && -64 <= t.form < 64
    && TypesInRange(t.params) && |t.params| < TWO32
    && TypesInRange(t.results) && |t.results| < 256
  }

  /** The results of a signature: the count byte, then the types. */
  function EncodeResults(rs: seq<int>): (e: seq<Byte>)
    requires TypesInRange(rs) && |rs| < 256
    ensures |e| == 1 + |rs|
  {
    [|rs|] + TypeBytes(rs)
  }

  /** `func_type`: the form, the parameter count and types, then the
      results. */
  function EncodeFuncType(t: FuncType): (e: seq<Byte>)
    requires FuncTypeInRange(t)
  {
    [TypeByte(t.form)] + (EncodeUleb(|t.params|) + (TypeBytes(t.params) + EncodeResults(t.results)))
  }

  /** The results' count byte and types read back. */
  lemma ReadResultTypesRoundTrip(data: seq<Byte>, pos: int, length: int, rs: seq<int>)
    requires TypesInRange(rs) && |rs| < 256
    requires BytesAt(data, pos, length, EncodeResults(rs))
    ensures ReadResultTypes(data, pos) == Decoded(rs, pos + 1 + |rs|)
  {
    BytesAtSplit(data, pos, length, [|rs|], TypeBytes(rs));
    TypesAt(data, pos + 1, length, rs);
  }

  /** `readFuncType()` reads back the signature the encoder writes. */
  lemma ReadFuncTypeRoundTrip(data: seq<Byte>, pos: int, length: int, t: FuncType)
    requires FuncTypeInRange(t)
    requires BytesAt(data, pos, length, EncodeFuncType(t))
    ensures ReadFuncType(data, pos) == Decoded(t, pos + |EncodeFuncType(t)|)
  {
    var q := pos + 1 + |EncodeUleb(|t.params|)|;
    var end := q + |t.params| + 1 + |t.results|;
    FuncTypeParts(data, pos, length, t, q);
    FuncTypeStep(data, pos, t, q, end);
  }

  /** Each part of a signature reads back at its place. */
  lemma FuncTypeParts(data: seq<Byte>, pos: int, length: int, t: FuncType, q: int)
    requires FuncTypeInRange(t)
    requires q == pos + 1 + |EncodeUleb(|t.params|)|
    requires BytesAt(data, pos, length, EncodeFuncType(t))
    ensures 0 <= pos < |data| && data[pos] == TypeByte(t.form)
    ensures ReadVarUint32(data, pos + 1) == Decoded(|t.params|, q)
    ensures Int7Run(data, q, |t.params|) == t.params
    ensures ReadResultTypes(data, q + |t.params|) == Decoded(t.results, q + |t.params| + 1 + |t.results|)
    ensures q + |t.params| + 1 + |t.results| == pos + |EncodeFuncType(t)|
  {
    FuncTypeBytes(data, pos, length, t, q);
    ParamCountAt(data, pos, length, t, q);
    ParamsAt(data, pos, length, t, q);
    ResultsAt(data, pos, length, t, q);
  }

  lemma ParamCountAt(data: seq<Byte>, pos: int, length: int, t: FuncType, q: int)
    requires FuncTypeInRange(t)
    requires q == pos + 1 + |EncodeUleb(|t.params|)|
    requires BytesAt(data, pos, length, EncodeFuncType(t))
    ensures ReadVarUint32(data, pos + 1) == Decoded(|t.params|, q)
  {
    FuncTypeBytes(data, pos, length, t, q);
    UlebAt(data, pos + 1, length, |t.params|);
  }

  lemma ParamsAt(data: seq<Byte>, pos: int, length: int, t: FuncType, q: int)
    requires FuncTypeInRange(t)
    requires q == pos + 1 + |EncodeUleb(|t.params|)|
    requires BytesAt(data, pos, length, EncodeFuncType(t))
    ensures Int7Run(data, q, |t.params|) == t.params
  {
    FuncTypeBytes(data, pos, length, t, q);
    TypesAt(data, q, length, t.params);
  }

  lemma ResultsAt(data: seq<Byte>, pos: int, length: int, t: FuncType, q: int)
    requires FuncTypeInRange(t)
    requires q == pos + 1 + |EncodeUleb(|t.params|)|
    requires BytesAt(data, pos, length, EncodeFuncType(t))
    ensures ReadResultTypes(data, q + |t.params|) == Decoded(t.results, q + |t.params| + 1 + |t.results|)
  {
    FuncTypeBytes(data, pos, length, t, q);
    ReadResultTypesRoundTrip(data, q + |t.params|, length, t.results);
  }

  /** The parts of a signature, each at its place. */
  lemma FuncTypeBytes(data: seq<Byte>, pos: int, length: int, t: FuncType, q: int)
    requires FuncTypeInRange(t)
    requires q == pos + 1 + |EncodeUleb(|t.params|)|
    requires BytesAt(data, pos, length, EncodeFuncType(t))
    ensures 0 <= pos < |data| && data[pos] == TypeByte(t.form)
    ensures BytesAt(data, pos + 1, length, EncodeUleb(|t.params|))
    ensures BytesAt(data, q, length, TypeBytes(t.params))
    ensures BytesAt(data, q + |t.params|, length, EncodeResults(t.results))
    ensures q + |t.params| + 1 + |t.results| == pos + |EncodeFuncType(t)|
  {
    var c := EncodeUleb(|t.params|);
    var ps := TypeBytes(t.params);
    var rs := EncodeResults(t.results);
    BytesAtSplit(data, pos, length, [TypeByte(t.form)], c + (ps + rs));
    BytesAtSplit(data, pos + 1, length, c, ps + rs);
    BytesAtSplit(data, q, length, ps, rs);
  }

  /** A signature whose parts read back at their places reads back whole. */
  lemma FuncTypeStep(data: seq<Byte>, pos: int, t: FuncType, q: int, end: int)
    requires FuncTypeInRange(t)
    requires 0 <= pos < |data| && data[pos] == TypeByte(t.form)
    requires ReadVarUint32(data, pos + 1) == Decoded(|t.params|, q)
    requires Int7Run(data, q, |t.params|) == t.params
    requires ReadResultTypes(data, q + |t.params|) == Decoded(t.results, end)
    ensures ReadFuncType(data, pos) == Decoded(t, end)
  {
  }

  // ---------------------------------------------------------------------------
  // Import and export entries

  /** Names of 32-bit length, a raw kind byte, and the description that kind
      calls for: a 32-bit type index, a table type, limits or a global type;
      any other kind has none. */
  predicate ImportInRange(e: ReaderResult)
  {
    && e.ImportEntry? && |e.moduleName| < TWO32 && |e.fieldName| < TWO32 && 0 <= e.kind < 256
    && (e.funcTypeIndex.Some? <==> e.kind == KindFunction)
    && (e.kind == KindFunction ==> 0 <= e.funcTypeIndex.value < TWO32 && e.importType == NoImportType)
    && (e.kind == KindTable ==> e.importType.TableImport? && TableTypeInRange(e.importType.table))
    && (e.kind == KindMemory ==> e.importType.MemoryImport? && LimitsInRange(e.importType.memory))
    && (e.kind == KindGlobal ==>
          e.importType.GlobalImport? && e.importType.global.Some? && GlobalTypeInRange(e.importType.global.value))
    && (e.kind !in {KindFunction, KindTable, KindMemory, KindGlobal} ==> e.importType == NoImportType)
  }

  /** The bytes after the kind of an import entry. */
  function ImportDescription(e: ReaderResult): (d: seq<Byte>)
    requires ImportInRange(e)
  {
    if e.kind == KindFunction then EncodeUleb(e.funcTypeIndex.value)
    else if e.kind == KindTable then EncodeTableType(e.importType.table)
    else if e.kind == KindMemory then EncodeLimits(e.importType.memory)
    else if e.kind == KindGlobal then EncodeGlobalType(e.importType.global.value)
    else []
  }

  /** `import_entry`: the module name, the field name, the kind byte, then
      its description. */
  function EncodeImportEntry(e: ReaderResult): (b: seq<Byte>)
    requires ImportInRange(e)
  {
    EncodeString(e.moduleName) + (EncodeString(e.fieldName) + ([e.kind] + ImportDescription(e)))
  }

  /** `readImportEntry()` reads back each kind of entry the encoder writes,
      and ends right after its description. */
  lemma ReadImportEntryRoundTrip(data: seq<Byte>, pos: int, length: int, e: ReaderResult)
    requires ImportInRange(e)
    requires BytesAt(data, pos, length, EncodeImportEntry(e))
    ensures ReadImportEntry(data, pos, length) == Decoded(e, pos + |EncodeImportEntry(e)|)
  {
    var m := pos + |EncodeString(e.moduleName)|;
    var f := m + |EncodeString(e.fieldName)|;
    var end := pos + |EncodeImportEntry(e)|;
    ImportBytes(data, pos, length, e, m, f);
    ReadStringBytesRoundTrip(data, pos, length, e.moduleName);
    ReadStringBytesRoundTrip(data, m, length, e.fieldName);
    ImportDescriptionAt(data, f, length, e, end);
    ImportEntryParts(data, pos, length, e.moduleName, e.fieldName, m, f, Decoded((e.funcTypeIndex, e.importType), end));
  }

  /** The parts of an import entry, each at its place. */
  lemma ImportBytes(data: seq<Byte>, pos: int, length: int, e: ReaderResult, m: int, f: int)
    requires ImportInRange(e)
    requires m == pos + |EncodeString(e.moduleName)| && f == m + |EncodeString(e.fieldName)|
    requires BytesAt(data, pos, length, EncodeImportEntry(e))
    ensures BytesAt(data, pos, length, EncodeString(e.moduleName))
    ensures BytesAt(data, m, length, EncodeString(e.fieldName))
    ensures 0 <= f < |data| && data[f] == e.kind
    ensures BytesAt(data, f + 1, length, ImportDescription(e))
    ensures f + 1 + |ImportDescription(e)| == pos + |EncodeImportEntry(e)|
  {
    var a := EncodeString(e.moduleName);
    var b := EncodeString(e.fieldName);
    var d := ImportDescription(e);
    BytesAtSplit(data, pos, length, a, b + ([e.kind] + d));
    BytesAtSplit(data, m, length, b, [e.kind] + d);
    BytesAtSplit(data, f, length, [e.kind], d);
  }

  /** The kind byte at `at` and the description after it read back as the
      entry's type index or type. */
  lemma ImportDescriptionAt(data: seq<Byte>, at: int, length: int, e: ReaderResult, end: int)
    requires ImportInRange(e)
    requires 0 <= at < |data| && data[at] == e.kind
    requires BytesAt(data, at + 1, length, ImportDescription(e))
    requires end == at + 1 + |ImportDescription(e)|
    ensures ReadImportDescription(data, at, length) == Decoded((e.funcTypeIndex, e.importType), end)
  {
    var k := e.kind;
    assert ByteAt(data, at) == k;
    if k == KindFunction {
      UlebAt(data, at + 1, length, e.funcTypeIndex.value);
      FunctionDescription(data, at, length, e.funcTypeIndex.value, end);
    } else if k == KindTable {
      ReadTableTypeRoundTrip(data, at + 1, length, e.importType.table);
      TableDescription(data, at, length, e.importType.table, end);
    } else if k == KindMemory {
      ReadLimitsRoundTrip(data, at + 1, length, e.importType.memory);
      MemoryDescription(data, at, length, e.importType.memory, end);
    } else if k == KindGlobal {
      ReadGlobalTypeRoundTrip(data, at + 1, length, e.importType.global.value);
      GlobalDescription(data, at, length, e.importType.global.value, end);
    } else {
      OtherDescription(data, at, length);
    }
  }

  /** The whole entry is the two names, the kind byte and the description
      read from that byte on. */
  lemma ImportEntryParts(data: seq<Byte>, pos: int, length: int, mn: seq<Byte>, fn: seq<Byte>, m: int, f: int, d: Decoded<(Option<int>, ImportType)>)
    requires ReadStringBytes(data, pos) == Decoded(mn, m) && ReadStringBytes(data, m) == Decoded(fn, f)
    requires ReadImportDescription(data, f, length) == d
    ensures ReadImportEntry(data, pos, length) == Decoded(ImportEntry(mn, fn, ByteAt(data, f), d.value.0, d.value.1), d.next)
  {
  }

  lemma FunctionDescription(data: seq<Byte>, at: int, length: int, index: int, end: int)
    requires ByteAt(data, at) == KindFunction
    requires ReadVarUint32(data, at + 1) == Decoded(index, end)
    ensures ReadImportDescription(data, at, length) == Decoded((Some(index), NoImportType), end)
  {
  }

  lemma TableDescription(data: seq<Byte>, at: int, length: int, t: TableType, end: int)
    requires ByteAt(data, at) == KindTable
    requires ReadTableType(data, at + 1) == Decoded(t, end)
    ensures ReadImportDescription(data, at, length) == Decoded((None, TableImport(t)), end)
  {
  }

  lemma MemoryDescription(data: seq<Byte>, at: int, length: int, l: Limits, end: int)
    requires ByteAt(data, at) == KindMemory
    requires ReadLimits(data, at + 1) == Decoded(l, end)
    ensures ReadImportDescription(data, at, length) == Decoded((None, MemoryImport(l)), end)
  {
  }

  lemma GlobalDescription(data: seq<Byte>, at: int, length: int, g: GlobalType, end: int)
    requires ByteAt(data, at) == KindGlobal
    requires ReadGlobalType(data, at + 1, length) == Some(Decoded(g, end))
    ensures ReadImportDescription(data, at, length) == Decoded((None, GlobalImport(Some(g))), end)
  {
  }

  lemma OtherDescription(data: seq<Byte>, at: int, length: int)
    requires ByteAt(data, at) !in {KindFunction, KindTable, KindMemory, KindGlobal}
    ensures ReadImportDescription(data, at, length) == Decoded((None, NoImportType), at + 1)
  {
  }

  predicate ExportInRange(e: ReaderResult)
  {
    e.ExportEntry? && |e.exportField| < TWO32 && 0 <= e.exportKind < 256 && 0 <= e.index < TWO32
  }

  /** `export_entry`: the field name, the kind byte, then the index. */
  function EncodeExportEntry(e: ReaderResult): (b: seq<Byte>)
    requires ExportInRange(e)
  {
    EncodeString(e.exportField) + ([e.exportKind] + EncodeUleb(e.index))
  }

  /** `readExportEntry()` reads back the entry the encoder writes. */
  lemma ReadExportEntryRoundTrip(data: seq<Byte>, pos: int, length: int, e: ReaderResult)
    requires ExportInRange(e)
    requires BytesAt(data, pos, length, EncodeExportEntry(e))
    ensures ReadExportEntry(data, pos) == Decoded(e, pos + |EncodeExportEntry(e)|)
  {
    var f := pos + |EncodeString(e.exportField)|;
    ExportBytes(data, pos, length, e, f);
    ReadStringBytesRoundTrip(data, pos, length, e.exportField);
    UlebAt(data, f + 1, length, e.index);
    ExportStep(data, pos, e, f, pos + |EncodeExportEntry(e)|);
  }

  /** The parts of an export entry, each at its place. */
  lemma ExportBytes(data: seq<Byte>, pos: int, length: int, e: ReaderResult, f: int)
    requires ExportInRange(e)
    requires f == pos + |EncodeString(e.exportField)|
    requires BytesAt(data, pos, length, EncodeExportEntry(e))
    ensures BytesAt(data, pos, length, EncodeString(e.exportField))
    ensures 0 <= f < |data| && data[f] == e.exportKind
    ensures BytesAt(data, f + 1, length, EncodeUleb(e.index))
    ensures f + 1 + |EncodeUleb(e.index)| == pos + |EncodeExportEntry(e)|
  {
    BytesAtSplit(data, pos, length, EncodeString(e.exportField), [e.exportKind] + EncodeUleb(e.index));
    BytesAtSplit(data, f, length, [e.exportKind], EncodeUleb(e.index));
  }

  /** An export entry whose parts read back at their places reads back whole. */
  lemma ExportStep(data: seq<Byte>, pos: int, e: ReaderResult, f: int, end: int)
    requires ExportInRange(e)
    requires ReadStringBytes(data, pos) == Decoded(e.exportField, f)
    requires 0 <= f < |data| && data[f] == e.exportKind
    requires ReadVarUint32(data, f + 1) == Decoded(e.index, end)
    ensures ReadExportEntry(data, pos) == Decoded(e, end)
  {
  }

  // ---------------------------------------------------------------------------
  // Relocation and `linking` sections

  /** A signed 32-bit number as `readVarUint32()` without `>>> 0` reads it:
      the LEB128 encoding of its unsigned bit pattern. */
  function EncodeSigned32(v: int): (e: seq<Byte>)
    requires -TWO31 <= v < TWO31
  {
    EncodeUleb(v % TWO32)
  }

  /** The pattern of a signed 32-bit number passes the lookahead and reads
      back as that number. */
  lemma SignedAt(data: seq<Byte>, pos: int, length: int, v: int)
    requires -TWO31 <= v < TWO31
    requires BytesAt(data, pos, length, EncodeSigned32(v))
    ensures HasVarIntBytes(data, pos, length)
    ensures ReadVarUint32Signed(data, pos) == Decoded(v, pos + |EncodeSigned32(v)|)
  {
    SignedPattern(v);
    UlebAt(data, pos, length, v % TWO32);
  }

  /** The unsigned pattern of a signed 32-bit number reads back as it. */
  lemma SignedPattern(v: int)
    requires -TWO31 <= v < TWO31
    ensures 0 <= v % TWO32 < TWO32 && ToInt32(v % TWO32) == v
  {
    ToInt32Congruent(v % TWO32, v);
    ToInt32Identity(v);
  }

  /** A section id that ends its group, and a name of 32-bit length exactly
      for id 0. */
  predicate RelocHeaderInRange(h: ReaderResult)
  {
    && h.RelocHeader? && 0 <= h.relocId < 128
    && (h.relocName.Some? <==> h.relocId == SectionCustom)
    && (h.relocName.Some? ==> |h.relocName.value| < TWO32)
  }

  /** The header of a relocation section: the id, then the name of the
      custom section it applies to. */
  function EncodeRelocHeader(h: ReaderResult): (b: seq<Byte>)
    requires RelocHeaderInRange(h)
  {
    [h.relocId] + (if h.relocName.Some? then EncodeString(h.relocName.value) else [])
  }

  /** `readRelocHeader()` reads back the header the encoder writes. */
  lemma ReadRelocHeaderRoundTrip(data: seq<Byte>, pos: int, length: int, h: ReaderResult)
    requires RelocHeaderInRange(h)
    requires BytesAt(data, pos, length, EncodeRelocHeader(h))
    ensures ReadRelocHeader(data, pos, length) == Got(h, pos + |EncodeRelocHeader(h)|)
  {
    var rest := if h.relocName.Some? then EncodeString(h.relocName.value) else [];
    BytesAtSplit(data, pos, length, [h.relocId], rest);
    KindByteAt(data, pos, length, h.relocId);
    if h.relocName.Some? {
      var name := h.relocName.value;
      ReadStringBytesRoundTrip(data, pos + 1, length, name);
    }
  }

  /** A `StackPointer` entry with a signed 32-bit index. */
  predicate LinkingInRange(e: ReaderResult)
  {
    e.LinkingEntry? && e.linkingType == 1 && e.linkingIndex.Some? && -TWO31 <= e.linkingIndex.value < TWO31
  }

  /** A `linking` entry: the type, then the index. */
  function EncodeLinkingEntry(e: ReaderResult): (b: seq<Byte>)
    requires LinkingInRange(e)
  {
    EncodeUleb(1) + EncodeSigned32(e.linkingIndex.value)
  }

  /** `readLinkingEntry()` reads back the entry the encoder writes. */
  lemma ReadLinkingEntryRoundTrip(data: seq<Byte>, pos: int, length: int, e: ReaderResult)
    requires LinkingInRange(e)
    requires BytesAt(data, pos, length, EncodeLinkingEntry(e))
    ensures ReadLinkingEntry(data, pos, length) == Got(e, pos + |EncodeLinkingEntry(e)|)
  {
    assert EncodeUleb(1) == [1];
    BytesAtSplit(data, pos, length, [1], EncodeSigned32(e.linkingIndex.value));
    UlebAt(data, pos, length, 1);
    SignedAt(data, pos + 1, length, e.linkingIndex.value);
  }

  /** A known relocation type, an addend exactly for the memory-address
      types, and signed 32-bit numbers. */
  predicate RelocEntryInRange(e: ReaderResult)
  {
    && e.RelocEntry? && (HasAddend(e.relocType) || NoAddend(e.relocType))
    && (e.addend.Some? <==> HasAddend(e.relocType))
    && -TWO31 <= e.offset < TWO31 && -TWO31 <= e.relocIndex < TWO31
    && (e.addend.Some? ==> -TWO31 <= e.addend.value < TWO31)
  }

  /** The numbers after the type of a relocation entry. */
  function RelocNumbers(e: ReaderResult): (b: seq<Byte>)
    requires RelocEntryInRange(e)
  {
    EncodeSigned32(e.offset) + (EncodeSigned32(e.relocIndex) + (if e.addend.Some? then EncodeSigned32(e.addend.value) else []))
  }

  /** A relocation entry: the type byte, the offset, the index, then the
      addend when the type has one. */
  function EncodeRelocEntry(e: ReaderResult): (b: seq<Byte>)
    requires RelocEntryInRange(e)
  {
    [e.relocType] + RelocNumbers(e)
  }

  /** `readRelocEntry()` reads back each entry the encoder writes. */
  lemma ReadRelocEntryRoundTrip(data: seq<Byte>, pos: int, length: int, e: ReaderResult)
    requires RelocEntryInRange(e)
    requires BytesAt(data, pos, length, EncodeRelocEntry(e))
    ensures ReadRelocEntry(data, pos, length) == Got(e, pos + |EncodeRelocEntry(e)|)
  {
    var p1 := pos + 1 + |EncodeSigned32(e.offset)|;
    var p2 := p1 + |EncodeSigned32(e.relocIndex)|;
    BytesAtSplit(data, pos, length, [e.relocType], RelocNumbers(e));
    KindByteAt(data, pos, length, e.relocType);
    RelocParts(data, pos + 1, length, e, p1, p2);
    SignedAt(data, pos + 1, length, e.offset);
    SignedAt(data, p1, length, e.relocIndex);
    if e.addend.Some? {
      SignedAt(data, p2, length, e.addend.value);
    }
    RelocStep(data, pos, length, e, p1, p2, pos + |EncodeRelocEntry(e)|);
  }

  /** The numbers of a relocation entry, each at its place. */
  lemma RelocParts(data: seq<Byte>, p: int, length: int, e: ReaderResult, p1: int, p2: int)
    requires RelocEntryInRange(e)
    requires p1 == p + |EncodeSigned32(e.offset)| && p2 == p1 + |EncodeSigned32(e.relocIndex)|
    requires BytesAt(data, p, length, RelocNumbers(e))
    ensures BytesAt(data, p, length, EncodeSigned32(e.offset))
    ensures BytesAt(data, p1, length, EncodeSigned32(e.relocIndex))
    ensures e.addend.Some? ==>
      BytesAt(data, p2, length, EncodeSigned32(e.addend.value)) && p2 + |EncodeSigned32(e.addend.value)| == p + |RelocNumbers(e)|
    ensures e.addend.None? ==> p2 == p + |RelocNumbers(e)|
  {
    var a := EncodeSigned32(e.offset);
    var b := EncodeSigned32(e.relocIndex);
    var c := if e.addend.Some? then EncodeSigned32(e.addend.value) else [];
    BytesAtSplit(data, p, length, a, b + c);
    BytesAtSplit(data, p1, length, b, c);
  }

  /** A relocation entry whose numbers read back at their places reads back
      whole. */
  lemma RelocStep(data: seq<Byte>, pos: int, length: int, e: ReaderResult, p1: int, p2: int, end: int)
    requires RelocEntryInRange(e)
    requires HasVarIntBytes(data, pos, length) && ByteAt(data, pos) == e.relocType
    requires HasVarIntBytes(data, pos + 1, length) && ReadVarUint32Signed(data, pos + 1) == Decoded(e.offset, p1)
    requires HasVarIntBytes(data, p1, length) && ReadVarUint32Signed(data, p1) == Decoded(e.relocIndex, p2)
    requires e.addend.Some? ==>
      HasVarIntBytes(data, p2, length) && ReadVarUint32Signed(data, p2) == Decoded(e.addend.value, end)
    requires e.addend.None? ==> p2 == end
    ensures ReadRelocEntry(data, pos, length) == Got(e, end)
  {
  }
}

=== FILE: int64.dfy ===
/** `readVarInt64` and the `Int64` value it builds: an 8-byte little-endian
    two's-complement buffer. The reader folds 7-bit groups into a small
    carry `c` of `shift` pending bits and writes out a byte whenever more
    than eight are pending; the carry never exceeds 15 bits, so no JavaScript
    shift wraps and the model is exact for encodings of any length. Writes
    past the eighth byte of the `Uint8Array(8)` are dropped, as typed arrays
    do. */
module I64 {
  import opened Common
  import opened Leb

  /** The `Uint8Array(8)` inside an `Int64`. */
  type Int64 = s: seq<Byte> | |s| == 8 witness [0, 0, 0, 0, 0, 0, 0, 0]

  const TWO63: int := 0x8000_0000_0000_0000
  const TWO64: int := 0x1_0000_0000_0000_0000

  lemma Pow2SixtyFour()
    ensures Pow2(63) == TWO63 && Pow2(64) == TWO64
  {
    Pow2Facts();
    Pow2Add(31, 32);
    Pow2Add(32, 32);
  }

  /** The unsigned little-endian number `s[0] + 256 * s[1] + ...`. */
  function LeValue(s: seq<Byte>): nat
  {
    if |s| == 0 then 0 else s[0] + 256 * LeValue(s[1..])
  }

  /** The two's-complement reading of the eight bytes. */
  function Signed64(x: Int64): int
  {
    LeValue(x) - (if x[7] >= 128 then TWO64 else 0)
  }

  /** `v` reduced to a signed 64-bit integer. */
  function Wrap64(v: int): int
  {
    var m := v % TWO64;
    if m >= TWO63 then m - TWO64 else m
  }

  // ---------------------------------------------------------------------------
  // readVarInt64

  /** The reader's locals: the bytes written so far (`result[0..i)`, of which
      the array keeps the first eight), the carry `c` and its width `shift`. */
  datatype Int64Acc = Int64Acc(written: seq<Byte>, c: int, shift: int)

  /** The carry holds `shift <= 8` bits. */
  predicate AccOk(a: Int64Acc)
  {
    0 <= a.shift <= 8 && 0 <= a.c < Pow2(a.shift)
  }

  /** The number the written bytes and the carry stand for. */
  function Pending(a: Int64Acc): int
  {
    LeValue(a.written) + a.c * Pow2(8 * |a.written|)
  }

  /** One turn of the first loop: `c |= (byte & 0x7F) << shift; shift += 7;`
      and, when more than eight bits are pending, `result[i++] = c & 0xFF;
      c >>= 8; shift -= 8`. The new group lands just above every bit read. */
  function Int64Step(a: Int64Acc, b: Byte): (r: Int64Acc)
    requires AccOk(a)
    ensures AccOk(r) && r.shift >= 1
    ensures 8 * |r.written| + r.shift == 8 * |a.written| + a.shift + 7
    ensures Pending(r) == Pending(a) + (b % 128) * Pow2(8 * |a.written| + a.shift)
  {
    var x := BitOr(a.c, (b % 128) * Pow2(a.shift));
    CarryOr(a.c, b % 128, a.shift);
    assert a.shift + 7 > 8 ==> 0 <= x / 256 < Pow2(a.shift - 1) by {
      if a.shift + 7 > 8 { CarryBelow(x, a.shift); }
    }
    var r := if a.shift + 7 > 8 then Int64Acc(a.written + [x % 256], x / 256, a.shift - 1)
             else Int64Acc(a.written, x, a.shift + 7);
    StepPending(a, b % 128, x, r);
    r
  }

  /** Either outcome of a turn keeps the pending number plus the new group. */
  lemma StepPending(a: Int64Acc, d: int, x: int, r: Int64Acc)
    requires a.shift >= 0 && x >= 0 && x == a.c + d * Pow2(a.shift)
    requires r == Int64Acc(a.written + [x % 256], x / 256, a.shift - 1) || r == Int64Acc(a.written, x, a.shift + 7)
    ensures Pending(r) == Pending(a) + d * Pow2(8 * |a.written| + a.shift)
  {
    PendingAdd(a.written, a.c, d, a.shift);
    if r == Int64Acc(a.written + [x % 256], x / 256, a.shift - 1) {
      PendingSplit(a.written, x);
    }
  }

  /** The first loop over the groups of the encoding. */
  function Int64Loop(g: seq<Byte>, a: Int64Acc): (r: Int64Acc)
    requires AccOk(a)
    ensures AccOk(r)
    ensures |g| >= 1 ==> r.shift >= 1
    ensures 8 * |r.written| + r.shift == 8 * |a.written| + a.shift + 7 * |g|
    ensures Pending(r) == Pending(a) + UlebValue(g) * Pow2(8 * |a.written| + a.shift)
    decreases |g|
  {
    if |g| == 0 then a
    else
      var a' := Int64Step(a, g[0]);
      var r := Int64Loop(g[1..], a');
      var e := 8 * |a.written| + a.shift;
      Pow2Seven(e);
      Regroup7(Pending(r), Pending(a'), Pending(a), UlebValue(g[1..]), Pow2(e + 7),
               g[0] % 128, Pow2(e), UlebValue(g));
      r
  }

  /** The second loop: `result[i++] = c & 0xFF; c >>= 8` for the `m`
      remaining bytes; `&` and `>>` on a negative carry take the Euclidean
      remainder and the floor quotient. */
  function FillBytes(c: int, m: nat): (r: seq<Byte>)
    ensures |r| == m
    ensures LeValue(r) == c % Pow2(8 * m)
    decreases m
  {
    if m == 0 then []
    else
      var t := FillBytes(c / 256, m - 1);
      Pow2Eight(8 * (m - 1));
      ModNest(c, Pow2(8 * (m - 1)));
      [c % 256] + t
  }

  /** `readVarInt64()`: the eight bytes and the position after the groups.
      Its two's-complement value is the signed LEB128 value reduced to
      64 bits, whatever the number of groups. */
  function ReadVarInt64(data: seq<Byte>, pos: int): (d: Decoded<Int64>)
    ensures d.next == pos + |Groups(data, pos)|
    ensures Signed64(d.value) == Wrap64(SlebValue(Groups(data, pos)))
  {
    var g := Groups(data, pos);
    var a := Int64Loop(g, Int64Acc([], 0, 0));
    var c := ShiftPair(a.c, 32 - a.shift);
    var bytes: Int64 :=
      if |a.written| >= 8 then a.written[..8] else a.written + FillBytes(c, 8 - |a.written|);
    LoopFromStart(g);
    ReadVarInt64Meaning(g, a, c, bytes);
    Decoded(bytes, pos + |g|)
  }

  /** From an empty accumulator the first loop leaves `7|g|` bits pending,
      holding the unsigned value of the groups. */
  lemma LoopFromStart(g: seq<Byte>)
    requires |g| >= 1
    ensures var a := Int64Loop(g, Int64Acc([], 0, 0));
      && AccOk(a) && a.shift >= 1 && 8 * |a.written| + a.shift == 7 * |g| && Pending(a) == UlebValue(g)
  {
    var a0 := Int64Acc([], 0, 0);
    assert Pow2(0) == 1;
    assert AccOk(a0) && Pending(a0) == 0;
    var a := Int64Loop(g, a0);
    assert Pending(a) == UlebValue(g) * Pow2(0);
  }

  // ---------------------------------------------------------------------------
  // Int64.toInt32 and Int64.toDouble

  /** `b0 | (b1 << 8) | (b2 << 16) | (b3 << 24)`: the OR of the four byte
      fields as a 32-bit pattern, read as a signed 32-bit integer. This is
      also `readInt32`/`peekInt32` of the reader. */
  function Int32Le(b0: Byte, b1: Byte, b2: Byte, b3: Byte): (r: int)
    ensures r == ToInt32(LeValue([b0, b1, b2, b3]))
  {
    Int32LeMeaning(b0, b1, b2, b3);
    ToInt32(BitOr(BitOr(BitOr(b0, b1 * 256), b2 * 0x1_0000), b3 * 0x100_0000))
  }

  /** `Int64.toInt32()`: the signed low 32 bits. */
  function Int64ToInt32(x: Int64): (r: int)
    ensures r == ToInt32(Signed64(x))
  {
    LowWord(x);
    Int32Le(x[0], x[1], x[2], x[3])
  }

  /** `sum += power * data[i]` for `i` in `[0, |s|)`, `power` running
      through `1, 256, 256^2, ...`. */
  function PowerSum(s: seq<Byte>): nat
  {
    if |s| == 0 then 0 else PowerSum(s[..|s| - 1]) + Pow2(8 * (|s| - 1)) * s[|s| - 1]
  }

  /** `sum -= power * (0xFF ^ data[i])`, as the amount subtracted. */
  function ComplementSum(s: seq<Byte>): nat
  {
    if |s| == 0 then 0 else ComplementSum(s[..|s| - 1]) + Pow2(8 * (|s| - 1)) * (255 - s[|s| - 1])
  }

  /** `Int64.toDouble()`, computed exactly: the positive branch sums the
      bytes, the negative one starts at -1 and subtracts the complemented
      bytes. Either way the result is the two's-complement value. */
  function Int64ToDouble(x: Int64): (r: int)
    ensures r == Signed64(x)
    ensures -TWO63 <= r < TWO63
  {
    ToDoubleMeaning(x);
    if x[7] >= 128 then -1 - ComplementSum(x) else PowerSum(x)
  }

  // ---------------------------------------------------------------------------
  // Lemmas

  lemma ModNest(c: int, p: int)
    requires p >= 1
    ensures c % 256 + 256 * ((c / 256) % p) == c % (256 * p)
  {
    var q := (c / 256) / p;
    var r := (c / 256) % p;
    assert c / 256 == p * q + r;
    assert c == 256 * (c / 256) + c % 256;
    assert c == (256 * p) * q + (256 * r + c % 256);
    MulMonotone(256, r, p - 1);
    DivUnique(c, 256 * p, q, 256 * r + c % 256);
  }

  /** The new group does not overlap the carry, so OR adds. */
  lemma CarryOr(c: int, d: int, s: int)
    requires 0 <= s <= 8 && 0 <= c < Pow2(s) && 0 <= d < 128
    ensures BitOr(c, d * Pow2(s)) == c + d * Pow2(s)
    ensures c + d * Pow2(s) < Pow2(s + 7)
  {
    var S := Pow2(s);
    MulMod(S, d);
    BitOrDisjoint(c, d * S, s);
    MulMonotone(S, d, 127);
    Pow2Seven(s);
  }

  /** Adding the group at bit `8n + s` is adding it to the carry. */
  lemma PendingAdd(w: seq<Byte>, c: int, d: int, s: int)
    requires 0 <= s
    ensures LeValue(w) + c * Pow2(8 * |w|) + d * Pow2(8 * |w| + s)
         == LeValue(w) + (c + d * Pow2(s)) * Pow2(8 * |w|)
  {
    var Q := Pow2(8 * |w|);
    var S := Pow2(s);
    Pow2Add(8 * |w|, s);
    assert d * Pow2(8 * |w| + s) == d * (Q * S);
    assert (c + d * S) * Q == c * Q + d * (S * Q);
  }

  /** Writing out the low byte of the carry keeps the pending number. */
  lemma PendingSplit(w: seq<Byte>, x: int)
    requires x >= 0
    ensures LeValue(w + [x % 256]) + (x / 256) * Pow2(8 * (|w| + 1))
         == LeValue(w) + x * Pow2(8 * |w|)
  {
    var lo: Byte := x % 256;
    var n := 8 * |w|;
    assert 8 * (|w| + 1) == n + 8;
    LeSnoc(w, lo);
    Pow2Eight(n);
    SplitArith(LeValue(w), Pow2(n), lo, x / 256, x, Pow2(n + 8), LeValue(w + [lo]));
  }

  lemma SplitArith(l: int, q: int, lo: int, hi: int, x: int, p: int, lw: int)
    requires lw == l + q * lo && p == 256 * q && x == 256 * hi + lo
    ensures lw + hi * p == l + x * q
  {
    assert x * q == (256 * hi) * q + lo * q;
    assert hi * p == (256 * hi) * q;
  }

  lemma LeSnoc(w: seq<Byte>, v: Byte)
    ensures LeValue(w + [v]) == LeValue(w) + Pow2(8 * |w|) * v
  {
    assert LeValue([v]) == v by { assert [v][1..] == []; }
    LeAppend(w, [v]);
  }

  lemma CarryBelow(x: int, s: int)
    requires 2 <= s && 0 <= x < Pow2(s + 7)
    ensures 0 <= x / 256 < Pow2(s - 1)
  {
    Pow2Add(8, s - 1);
    Pow2Facts();
    DivBelow(x, 256, Pow2(s - 1));
  }

  lemma DivBelow(x: int, d: int, p: int)
    requires d > 0 && 0 <= x < d * p
    ensures 0 <= x / d < p
  {
    if x / d >= p {
      MulMonotone(d, p, x / d);
    }
  }

  /** Arithmetic of one loop turn: the group at bit `e` followed by the
      rest at bit `e + 7`. */
  lemma Regroup7(pr: int, pb: int, pa: int, u: int, p7: int, d: int, p: int, v: int)
    requires pr == pb + u * p7 && pb == pa + d * p && p7 == 128 * p && v == d + 128 * u
    ensures pr == pa + v * p
  {
    assert u * p7 == (128 * u) * p;
    assert v * p == d * p + (128 * u) * p;
  }

  lemma {:induction false} LeAppend(s: seq<Byte>, t: seq<Byte>)
    ensures LeValue(s + t) == LeValue(s) + Pow2(8 * |s|) * LeValue(t)
    decreases |s|
  {
    if |s| > 0 {
      var u := s[1..];
      LeAppend(u, t);
      assert (s + t)[1..] == u + t;
      var P := Pow2(8 * |u|);
      var Ps := Pow2(8 * |s|);
      assert Ps == 256 * P by { Pow2Eight(8 * |u|); }
      var lu := LeValue(u);
      var lt := LeValue(t);
      var lut := LeValue(u + t);
      assert LeValue(s + t) == s[0] + 256 * lut;
      assert LeValue(s) == s[0] + 256 * lu;
      AppendArith(s[0], lu, lt, lut, P, Ps);
    } else {
      assert s + t == t;
    }
  }

  lemma AppendArith(b: int, lu: int, lt: int, lut: int, p: int, ps: int)
    requires lut == lu + p * lt && ps == 256 * p
    ensures b + 256 * lut == (b + 256 * lu) + ps * lt
  {
    assert 256 * (p * lt) == (256 * p) * lt;
  }

  lemma {:induction false} LeBound(s: seq<Byte>)
    ensures LeValue(s) < Pow2(8 * |s|)
    decreases |s|
  {
    if |s| > 0 {
      LeBound(s[1..]);
      Pow2Eight(8 * (|s| - 1));
      var P := Pow2(8 * (|s| - 1));
      assert 256 * LeValue(s[1..]) <= 256 * P - 256;
    }
  }

  /** The last byte's top bit is the top bit of the whole number. */
  lemma SignBit(x: Int64)
    ensures x[7] >= 128 <==> LeValue(x) >= TWO63
    ensures LeValue(x) < TWO64
  {
    var s := x[..7];
    var P := Pow2(56);
    var l := LeValue(s);
    var t := x[7];
    assert LeValue(x) == l + P * t by {
      assert x == s + [t];
      LeSnoc(s, t);
    }
    assert l < P by { LeBound(s); }
    assert TWO63 == 128 * P by { Pow2Seven(56); Pow2SixtyFour(); }
    assert TWO64 == 256 * P by { Pow2Eight(56); Pow2SixtyFour(); }
    if t >= 128 {
      MulMonotone(P, 128, t);
    } else {
      MulMonotone(P, t, 127);
    }
    MulMonotone(P, t, 255);
  }

  lemma ShiftMod(a: int, m: int, k: int)
    requires m > 0
    ensures (a + m * k) % m == a % m
  {
    DivUnique(a + m * k, m, a / m + k, a % m);
  }

  /** The eight bytes are the signed value of the groups modulo 2^64. */
  lemma ReadVarInt64Meaning(g: seq<Byte>, a: Int64Acc, c: int, bytes: Int64)
    requires |g| >= 1 && AccOk(a) && a.shift >= 1
    requires 8 * |a.written| + a.shift == 7 * |g|
    requires Pending(a) == UlebValue(g)
    requires c == ShiftPair(a.c, 32 - a.shift)
    requires bytes == if |a.written| >= 8 then a.written[..8] else a.written + FillBytes(c, 8 - |a.written|)
    ensures Signed64(bytes) == Wrap64(SlebValue(g))
  {
    var v := SlebValue(g);
    assert v == LeValue(a.written) + c * Pow2(8 * |a.written|) by { SignedCarry(g, a, c); }
    if |a.written| >= 8 {
      KeepLow8(a.written, c);
      assert LeValue(bytes) == v % TWO64;
    } else {
      FillLow(a.written, c);
      assert LeValue(bytes) == v % TWO64;
    }
    WrapOfBytes(bytes, v);
  }

  /** After the first loop, sign-extending the carry gives the signed value. */
  lemma SignedCarry(g: seq<Byte>, a: Int64Acc, c: int)
    requires |g| >= 1 && AccOk(a) && a.shift >= 1
    requires 8 * |a.written| + a.shift == 7 * |g|
    requires Pending(a) == UlebValue(g)
    requires c == ShiftPair(a.c, 32 - a.shift)
    ensures SlebValue(g) == LeValue(a.written) + c * Pow2(8 * |a.written|)
  {
    var w := a.written;
    var Q := Pow2(8 * |w|);
    var s := a.shift;
    var H := Pow2(s - 1);
    var S := Pow2(s);
    assert c == if a.c >= H then a.c - S else a.c by { ShiftPairMeaning(a.c, s); }
    assert LeValue(w) < Q by { LeBound(w); }
    assert S == 2 * H by { Pow2Add(1, s - 1); }
    assert Pow2(7 * |g| - 1) == H * Q by { Pow2Add(s - 1, 8 * |w|); }
    assert Pow2(7 * |g|) == S * Q by { Pow2Add(s, 8 * |w|); }
    var top := g[|g| - 1] % 128 >= 64;
    assert UlebValue(g) >= H * Q <==> top by { UlebTopBit(g); }
    assert SlebValue(g) == UlebValue(g) - (if top then S * Q else 0) by { SlebFromUleb(g); }
    SignCarryArith(LeValue(w), Q, a.c, H, S, UlebValue(g), top, SlebValue(g), c);
  }

  lemma SignCarryArith(l: int, q: int, ac: int, h: int, s: int, u: int, top: bool, sv: int, c: int)
    requires 0 <= l < q && h >= 1 && s == 2 * h && 0 <= ac < s
    requires u == l + ac * q
    requires u >= h * q <==> top
    requires sv == u - (if top then s * q else 0)
    requires c == if ac >= h then ac - s else ac
    ensures sv == l + c * q
  {
    if ac >= h {
      MulMonotone(q, h, ac);
      assert (ac - s) * q == ac * q - s * q;
    } else {
      MulMonotone(q, ac, h - 1);
      assert (h - 1) * q == h * q - q;
    }
  }

  /** With eight or more bytes written the array keeps the low 64 bits. */
  lemma KeepLow8(w: seq<Byte>, c: int)
    requires |w| >= 8
    ensures LeValue(w[..8]) == (LeValue(w) + c * Pow2(8 * |w|)) % TWO64
  {
    KeepLow(w, 8, c);
    Pow2SixtyFour();
  }

  /** Reducing modulo 2^(8n) keeps the low `n` bytes. */
  lemma KeepLow(w: seq<Byte>, n: nat, c: int)
    requires |w| >= n
    ensures LeValue(w[..n]) == (LeValue(w) + c * Pow2(8 * |w|)) % Pow2(8 * n)
  {
    var M := Pow2(8 * n);
    assert LeValue(w) == LeValue(w[..n]) + M * LeValue(w[n..]) by {
      assert w == w[..n] + w[n..];
      LeAppend(w[..n], w[n..]);
    }
    var E := Pow2(8 * |w| - 8 * n);
    assert Pow2(8 * |w|) == M * E by { Pow2Add(8 * n, 8 * |w| - 8 * n); }
    LeBound(w[..n]);
    KeepArith(LeValue(w[..n]), LeValue(w[n..]), LeValue(w), M, E, c, Pow2(8 * |w|));
  }

  lemma KeepArith(lo: int, hi: int, l: int, m: int, e: int, c: int, p: int)
    requires 0 <= lo < m && l == lo + m * hi && p == m * e
    ensures lo == (l + c * p) % m
  {
    assert c * p == m * (c * e);
    DivUnique(l + c * p, m, hi + c * e, lo);
  }

  /** With fewer than eight bytes written the second loop fills the rest
      from the sign-extended carry. */
  lemma FillLow(w: seq<Byte>, c: int)
    requires |w| < 8
    ensures LeValue(w + FillBytes(c, 8 - |w|)) == (LeValue(w) + c * Pow2(8 * |w|)) % TWO64
  {
    var m := 8 - |w|;
    var Q := Pow2(8 * |w|);
    var R := Pow2(8 * m);
    var M := TWO64;
    var bytes := w + FillBytes(c, m);
    assert LeValue(bytes) == LeValue(w) + Q * (c % R) by { LeAppend(w, FillBytes(c, m)); }
    assert M == Q * R by { Pow2Add(8 * |w|, 8 * m); Pow2SixtyFour(); }
    assert LeValue(bytes) < M by { LeBound(bytes); Pow2SixtyFour(); }
    FillArith(LeValue(w), Q, R, M, c, LeValue(bytes));
  }

  lemma FillArith(l: int, q: int, r: int, m: int, c: int, b: int)
    requires r >= 1 && q >= 1 && m == q * r && b == l + q * (c % r) && 0 <= b < m
    ensures b == (l + c * q) % m
  {
    assert c == r * (c / r) + c % r;
    assert c * q == q * (c % r) + m * (c / r);
    DivUnique(l + c * q, m, c / r, b);
  }

  /** Eight bytes holding `v` modulo 2^64 read back as `v` wrapped to 64 bits. */
  lemma WrapOfBytes(x: Int64, v: int)
    requires LeValue(x) == v % TWO64
    ensures Signed64(x) == Wrap64(v)
  {
    SignBit(x);
  }

  lemma Int32LeMeaning(b0: Byte, b1: Byte, b2: Byte, b3: Byte)
    ensures BitOr(BitOr(BitOr(b0, b1 * 256), b2 * 0x1_0000), b3 * 0x100_0000)
      == LeValue([b0, b1, b2, b3])
  {
    Pow2Facts();
    assert Pow2(16) == 0x1_0000 by { Pow2Eight(8); }
    OrShiftedByte(b0, b1, 8);
    var lo := b0 + b1 * 256;
    OrShiftedByte(lo, b2, 16);
    var mid := lo + b2 * 0x1_0000;
    OrShiftedByte(mid, b3, 24);
    LeFourBytes(b0, b1, b2, b3);
  }

  /** `lo | (b << n)` adds when `lo` fits in `n` bits. */
  lemma OrShiftedByte(lo: nat, b: Byte, n: nat)
    requires lo < Pow2(n)
    ensures BitOr(lo, b * Pow2(n)) == lo + b * Pow2(n)
  {
    MulMod(Pow2(n), b);
    BitOrDisjoint(lo, b * Pow2(n), n);
  }

  lemma LeFourBytes(b0: Byte, b1: Byte, b2: Byte, b3: Byte)
    ensures LeValue([b0, b1, b2, b3]) == b0 + b1 * 256 + b2 * 0x1_0000 + b3 * 0x100_0000
  {
    assert LeValue([b3]) == b3 by { assert [b3][1..] == []; }
    assert LeValue([b2, b3]) == b2 + 256 * b3 by { assert [b2, b3][1..] == [b3]; }
    assert LeValue([b1, b2, b3]) == b1 + 256 * (b2 + 256 * b3) by { assert [b1, b2, b3][1..] == [b2, b3]; }
    assert [b0, b1, b2, b3][1..] == [b1, b2, b3];
  }

  /** The low four bytes carry the signed value modulo 2^32. */
  lemma LowWord(x: Int64)
    ensures ToInt32(LeValue([x[0], x[1], x[2], x[3]])) == ToInt32(Signed64(x))
  {
    var lo := x[..4];
    var hi := x[4..];
    assert lo == [x[0], x[1], x[2], x[3]];
    assert x == lo + hi;
    var l := LeValue(lo);
    var h := LeValue(hi);
    assert LeValue(x) == l + TWO32 * h by {
      LeAppend(lo, hi);
      Pow2Facts();
    }
    var k := h - (if x[7] >= 128 then TWO32 else 0);
    HighWordArith(l, h, x[7] >= 128, k, LeValue(x), Signed64(x));
    MulMod(TWO32, k);
    ToInt32Congruent(l, Signed64(x));
  }

  lemma HighWordArith(l: int, h: int, neg: bool, k: int, u: int, sv: int)
    requires u == l + TWO32 * h
    requires k == h - (if neg then TWO32 else 0)
    requires sv == u - (if neg then TWO32 * TWO32 else 0)
    ensures sv == l + TWO32 * k
  {
  }

  lemma {:induction false} PowerSumIsLe(s: seq<Byte>)
    ensures PowerSum(s) == LeValue(s)
    decreases |s|
  {
    if |s| > 0 {
      var t := s[..|s| - 1];
      var v := s[|s| - 1];
      PowerSumIsLe(t);
      assert LeValue(s) == LeValue(t) + Pow2(8 * |t|) * v by {
        assert s == t + [v];
        LeSnoc(t, v);
      }
    }
  }

  lemma {:induction false} ComplementSumFacts(s: seq<Byte>)
    ensures ComplementSum(s) + LeValue(s) == Pow2(8 * |s|) - 1
    decreases |s|
  {
    if |s| > 0 {
      var t := s[..|s| - 1];
      var v := s[|s| - 1];
      var P := Pow2(8 * |t|);
      ComplementSumFacts(t);
      assert LeValue(s) == LeValue(t) + P * v by {
        assert s == t + [v];
        LeSnoc(t, v);
      }
      assert Pow2(8 * |s|) == 256 * P by { Pow2Eight(8 * |t|); }
      assert ComplementSum(s) == ComplementSum(t) + P * (255 - v);
      ComplementStep(ComplementSum(t), LeValue(t), P, v);
    }
  }

  lemma ComplementStep(ct: int, lt: int, p: int, v: int)
    requires ct + lt == p - 1
    ensures (ct + p * (255 - v)) + (lt + p * v) == 256 * p - 1
  {
    assert p * (255 - v) + p * v == 255 * p;
  }

  lemma ToDoubleMeaning(x: Int64)
    ensures (if x[7] >= 128 then -1 - ComplementSum(x) else PowerSum(x)) == Signed64(x)
    ensures -TWO63 <= Signed64(x) < TWO63
  {
    PowerSumIsLe(x);
    ComplementSumFacts(x);
    Pow2SixtyFour();
    SignBit(x);
  }


  /** A signed 64-bit value is its own 64-bit wrap. */
  lemma Wrap64Identity(v: int)
    requires -TWO63 <= v < TWO63
    ensures Wrap64(v) == v
  {
    var M := TWO64;
    if v >= 0 {
      DivUnique(v, M, 0, v);
    } else {
      DivUnique(v, M, -1, v + M);
    }
  }

  /** `readVarInt64` inverts the signed encoder on every 64-bit value, whose
      encoding has at most ten bytes. */
  lemma ReadVarInt64RoundTrip(v: int, rest: seq<Byte>)
    requires -TWO63 <= v < TWO63
    ensures |EncodeSleb(v)| <= 10
    ensures ReadVarInt64(EncodeSleb(v) + rest, 0).next == |EncodeSleb(v)|
    ensures Signed64(ReadVarInt64(EncodeSleb(v) + rest, 0).value) == v
  {
    var e := EncodeSleb(v);
    SlebEncoding64(v);
    GroupsOfPrefix(e, rest);
    Wrap64Identity(v);
  }

  /** A signed 64-bit value encodes in at most ten well-formed groups. */
  lemma SlebEncoding64(v: int)
    requires -TWO63 <= v < TWO63
    ensures IsEncoding(EncodeSleb(v)) && SlebValue(EncodeSleb(v)) == v && |EncodeSleb(v)| <= 10
  {
    Pow2Monotone(63, 69);
    Pow2SixtyFour();
    EncodeSlebFacts(v, 9);
  }

  /** The groups read at the start of an encoding followed by anything are
      the encoding's. */
  lemma GroupsOfPrefix(e: seq<Byte>, rest: seq<Byte>)
    requires IsEncoding(e)
    ensures Groups(e + rest, 0) == e
  {
    assert (e + rest)[0..|e|] == e;
    GroupsOfEncoding(e + rest, 0, e);
  }

  /** The negative branch of `toDouble`, and `toInt32`, on all-ones bytes. */
  lemma AllOnesReadsMinusOne(ones: Int64)
    requires forall k :: 0 <= k < 8 ==> ones[k] == 0xFF
    ensures Int64ToDouble(ones) == -1 && Int64ToInt32(ones) == -1
  {
    ComplementZero(ones);
    assert Int64ToDouble(ones) == -1 - ComplementSum(ones);
    assert Signed64(ones) == -1;
    assert ToInt32(-1) == -1 by { assert (-1) % TWO32 == TWO32 - 1; }
  }

  /** The positive branch of `toDouble` on the bytes of 1. */
  lemma LowOneReadsOne(x: Int64)
    requires x[0] == 1 && forall k :: 1 <= k < 8 ==> x[k] == 0
    ensures Int64ToDouble(x) == 1
  {
    PowerSumIsLe(x);
    assert x[1..] == [0, 0, 0, 0, 0, 0, 0];
    LeZeros([0, 0, 0, 0, 0, 0, 0]);
  }

  lemma {:induction false} LeZeros(s: seq<Byte>)
    requires forall k :: 0 <= k < |s| ==> s[k] == 0
    ensures LeValue(s) == 0
    decreases |s|
  {
    if |s| > 0 {
      LeZeros(s[1..]);
    }
  }

  lemma {:induction false} ComplementZero(s: seq<Byte>)
    requires forall k :: 0 <= k < |s| ==> s[k] == 0xFF
    ensures ComplementSum(s) == 0
    decreases |s|
  {
    if |s| > 0 {
      ComplementZero(s[..|s| - 1]);
    }
  }
}

=== FILE: leb.dfy ===
/** LEB128 decoding as `BinaryReader` performs it (section 5.2.2 of the
    WebAssembly Core Specification): 7-bit groups, least significant first,
    bit 7 set on every group but the last. The readers are modelled with the
    JavaScript operators they are written with, including the 32-bit shift
    count that wraps modulo 32; the lemmas say what they compute for
    encodings of at most five bytes, and that they invert the encoders. */
module Leb {
  import opened Common

  /** A decoded value and the position just after it. */
  datatype Decoded<T> = Decoded(value: T, next: int)

  /** The groups of the LEB128 encoding at `pos`: the bytes up to and
      including the first one whose bit 7 is clear. */
  function Groups(data: seq<Byte>, pos: int): (g: seq<Byte>)
    ensures |g| >= 1 && g[|g| - 1] < 128
    ensures forall k :: 0 <= k < |g| - 1 ==> g[k] >= 128
    ensures forall k :: 0 <= k < |g| ==> g[k] == ByteAt(data, pos + k)
    decreases |data| - pos
  {
    var b := ByteAt(data, pos);
    if b < 128 then [b] else [b] + Groups(data, pos + 1)
  }

  /** A well-formed encoding: continuation bit on every group but the last. */
  predicate IsEncoding(e: seq<Byte>)
  {
    && |e| >= 1
    && e[|e| - 1] < 128
    && forall k :: 0 <= k < |e| - 1 ==> e[k] >= 128
  }

  /** The unsigned number the groups denote: the sum of `(g[k] & 0x7F) * 128^k`. */
  function UlebValue(g: seq<Byte>): nat
  {
    if |g| == 0 then 0 else g[0] % 128 + 128 * UlebValue(g[1..])
  }

  /** The signed number the groups denote: bit 6 of the last group is the sign. */
  function SlebValue(g: seq<Byte>): int
    requires |g| >= 1
  {
    if |g| == 1 then (if g[0] % 128 >= 64 then g[0] % 128 - 128 else g[0] % 128)
    else g[0] % 128 + 128 * SlebValue(g[1..])
  }

  // ---------------------------------------------------------------------------
  // readVarUint32

  /** `(byte & 0x7F) << shift` on 32-bit integers, for the k-th group; the
      shift count is taken modulo 32 and the result keeps the low 32 bits. */
  function GroupBits(b: Byte, k: nat): nat
  {
    ((b % 128) * Pow2((7 * k) % 32)) % TWO32
  }

  /** The accumulator of `result |= (byte & 0x7F) << shift`, group by group,
      as an unsigned 32-bit pattern. */
  function Uint32Bits(g: seq<Byte>): nat
  {
    if |g| == 0 then 0 else BitOr(Uint32Bits(g[..|g| - 1]), GroupBits(g[|g| - 1], |g| - 1))
  }

  /** `readVarUint32() >>> 0`: the 32-bit pattern of the accumulated groups
      and the position after the last group. */
  function ReadVarUint32(data: seq<Byte>, pos: int): (d: Decoded<int>)
    ensures d.next == pos + |Groups(data, pos)|
    ensures 0 <= d.value < TWO32
    ensures |Groups(data, pos)| <= 5 ==> d.value == UlebValue(Groups(data, pos)) % TWO32
  {
    var g := Groups(data, pos);
    Uint32BitsBound(g);
    Uint32BitsMeaning(g);
    Decoded(Uint32Bits(g), pos + |g|)
  }

  // ---------------------------------------------------------------------------
  // readVarInt32 and readVarInt7

  /** `(x << a) >> a` on 32-bit integers, for a shift count below 32:
      keeps the low `32 - a` bits of `x` and sign-extends from the highest. */
  function ShiftPair(x: int, a: nat): int
    requires a < 32
  {
    ToInt32(x * Pow2(a)) / Pow2(a)
  }

  /** The value `readVarInt32` returns for the given groups: the accumulated
      pattern, sign-extended from the last group when fewer than 32 bits were
      read, and read as a signed 32-bit integer otherwise. */
  function Int32Value(g: seq<Byte>): int
    requires |g| >= 1
  {
    var bits := Uint32Bits(g);
    var shift := 7 * |g|;
    if shift >= 32 then ToInt32(bits) else ShiftPair(bits, 32 - shift)
  }

  /** `readVarInt32()`. */
  function ReadVarInt32(data: seq<Byte>, pos: int): (d: Decoded<int>)
    ensures d.next == pos + |Groups(data, pos)|
    ensures |Groups(data, pos)| <= 5 ==> d.value == ToInt32(SlebValue(Groups(data, pos)))
  {
    var g := Groups(data, pos);
    Int32ValueMeaning(g);
    Decoded(Int32Value(g), pos + |g|)
  }

  /** `readVarInt7()`: one raw byte, `(b << 25) >> 25`, which keeps bits
      0..6 and sign-extends from bit 6. */
  function VarInt7(b: Byte): (r: int)
    ensures r == if b % 128 >= 64 then b % 128 - 128 else b % 128
    ensures -64 <= r < 64
  {
    VarInt7Meaning(b);
    ShiftPair(b, 25)
  }

  // ---------------------------------------------------------------------------
  // Encoders

  /** The shortest unsigned LEB128 encoding of `v`. */
  function EncodeUleb(v: nat): (e: seq<Byte>)
  {
    if v < 128 then [v] else [v % 128 + 128] + EncodeUleb(v / 128)
  }

  /** The shortest signed LEB128 encoding of `v`. */
  function EncodeSleb(v: int): (e: seq<Byte>)
    decreases if v < 0 then -v else v
  {
    if -64 <= v < 64 then [v % 128] else [v % 128 + 128] + EncodeSleb(v / 128)
  }

  // ---------------------------------------------------------------------------
  // Lemmas

  lemma {:induction false} UlebSnoc(g: seq<Byte>)
    requires |g| >= 1
    ensures UlebValue(g) == UlebValue(g[..|g| - 1]) + (g[|g| - 1] % 128) * Pow2(7 * (|g| - 1))
    decreases |g|
  {
    var n := |g|;
    if n == 1 {
      assert g[..0] == [];
      assert g[1..] == [];
    } else {
      var t := g[1..];
      var c := g[n - 1] % 128;
      UlebSnoc(t);
      assert t[..n - 2] == g[..n - 1][1..];
      assert t[n - 2] == g[n - 1];
      var p := Pow2(7 * (n - 2));
      var pn := Pow2(7 * (n - 1));
      assert pn == 128 * p by { Pow2Seven(7 * (n - 2)); }
      var a := UlebValue(t[..n - 2]);
      var ut := UlebValue(t);
      assert ut == a + c * p;
      assert UlebValue(g[..n - 1]) == g[0] % 128 + 128 * a;
      assert UlebValue(g) == g[0] % 128 + 128 * ut;
      SnocArith(g[0] % 128, a, c, ut, p, pn);
    }
  }

  lemma SnocArith(b: int, a: int, c: int, ut: int, p: int, pn: int)
    requires ut == a + c * p && pn == 128 * p
    ensures b + 128 * ut == (b + 128 * a) + c * pn
  {
    assert 128 * (c * p) == c * (128 * p);
  }

  lemma {:induction false} UlebBound(g: seq<Byte>)
    ensures UlebValue(g) < Pow2(7 * |g|)
    decreases |g|
  {
    if |g| > 0 {
      var p := Pow2(7 * (|g| - 1));
      UlebBound(g[1..]);
      Pow2Seven(7 * (|g| - 1));
      assert UlebValue(g[1..]) <= p - 1;
      assert 128 * UlebValue(g[1..]) <= 128 * p - 128;
    }
  }

  /** The sign of the signed reading is bit `7n - 1` of the unsigned one. */
  lemma UlebTopBit(g: seq<Byte>)
    requires |g| >= 1
    ensures UlebValue(g) >= Pow2(7 * |g| - 1) <==> g[|g| - 1] % 128 >= 64
  {
    var n := |g|;
    var p := Pow2(7 * (n - 1));
    var c := g[n - 1] % 128;
    UlebSnoc(g);
    UlebBound(g[..n - 1]);
    assert Pow2(7 * n - 1) == 64 * p by {
      Pow2Add(6, 7 * (n - 1));
      assert Pow2(6) == 64;
    }
    TopBitArith(UlebValue(g), UlebValue(g[..n - 1]), c, p);
  }

  lemma TopBitArith(u: int, lo: int, c: int, p: int)
    requires u == lo + c * p && 0 <= lo < p && 0 <= c < 128
    ensures u >= 64 * p <==> c >= 64
  {
    if c >= 64 {
      MulMonotone(p, 64, c);
    } else {
      MulMonotone(p, c, 63);
    }
  }

  lemma {:induction false} SlebFromUleb(g: seq<Byte>)
    requires |g| >= 1
    ensures SlebValue(g) == UlebValue(g) - (if g[|g| - 1] % 128 >= 64 then Pow2(7 * |g|) else 0)
    decreases |g|
  {
    var n := |g|;
    if n == 1 {
      assert g[1..] == [];
      Pow2Facts();
    } else {
      var t := g[1..];
      SlebFromUleb(t);
      assert t[n - 2] == g[n - 1];
      Pow2Seven(7 * (n - 1));
      var s := if g[n - 1] % 128 >= 64 then Pow2(7 * (n - 1)) else 0;
      assert SlebValue(t) == UlebValue(t) - s;
      assert 128 * (UlebValue(t) - s) == 128 * UlebValue(t) - 128 * s;
    }
  }

  lemma {:induction false} Uint32BitsBound(g: seq<Byte>)
    ensures Uint32Bits(g) < TWO32
    decreases |g|
  {
    if |g| > 0 {
      Pow2Facts();
      Uint32BitsBound(g[..|g| - 1]);
      BitOrBound(Uint32Bits(g[..|g| - 1]), GroupBits(g[|g| - 1], |g| - 1), 32);
    }
  }

  /** The first four groups are shifted by less than 32 and lose no bit. */
  lemma GroupBitsLow(b: Byte, k: nat)
    requires k <= 3
    ensures GroupBits(b, k) == (b % 128) * Pow2(7 * k)
    ensures GroupBits(b, k) % Pow2(7 * k) == 0
    ensures GroupBits(b, k) < Pow2(7 * k + 7)
  {
    var c := b % 128;
    var s := 7 * k;
    assert s % 32 == s;
    var p := Pow2(s);
    Pow2Monotone(s, 21);
    Pow2Facts();
    MulMonotone(p, c, 127);
    assert c * p < TWO32;
    DivUnique(c * p, TWO32, 0, c * p);
    MulMod(p, c);
    Pow2Seven(s);
  }

  /** For at most four groups no bit is lost: the OR is the plain sum. */
  lemma {:induction false} Uint32BitsShort(g: seq<Byte>)
    requires |g| <= 4
    ensures Uint32Bits(g) == UlebValue(g)
    decreases |g|
  {
    if |g| > 0 {
      var n := |g|;
      var p := g[..n - 1];
      var b := g[n - 1];
      Uint32BitsShort(p);
      UlebBound(p);
      UlebSnoc(g);
      GroupBitsLow(b, n - 1);
      BitOrDisjoint(UlebValue(p), GroupBits(b, n - 1), 7 * (n - 1));
    }
  }

  /** Up to five groups, the accumulated pattern is the LEB128 value modulo 2^32. */
  lemma Uint32BitsMeaning(g: seq<Byte>)
    ensures |g| <= 5 ==> Uint32Bits(g) == UlebValue(g) % TWO32
  {
    if |g| <= 4 {
      Uint32BitsShort(g);
      UlebBound(g);
      Pow2Monotone(7 * |g|, 32);
      Pow2Facts();
      DivUnique(UlebValue(g), TWO32, 0, UlebValue(g));
    } else if |g| == 5 {
      Uint32BitsFive(g);
    }
  }

  /** The fifth group lands at bit 28; its top three bits leave the word. */
  lemma GroupBitsFifth(b: Byte)
    ensures GroupBits(b, 4) == (b % 128 % 16) * Pow2(28)
    ensures (b % 128) * Pow2(28) == (b % 128 / 16) * TWO32 + GroupBits(b, 4)
    ensures GroupBits(b, 4) % Pow2(28) == 0
  {
    Pow2Facts();
    var c := b % 128;
    var t := (c % 16) * 0x1000_0000;
    assert c * 0x1000_0000 == (c / 16) * TWO32 + t;
    DivUnique(c * 0x1000_0000, TWO32, c / 16, t);
    MulMod(0x1000_0000, c % 16);
  }

  lemma Uint32BitsFive(g: seq<Byte>)
    requires |g| == 5
    ensures Uint32Bits(g) == UlebValue(g) % TWO32
  {
    var p := g[..4];
    var hi := g[4] % 128 / 16;
    var t := GroupBits(g[4], 4);
    var low := UlebValue(p);
    Uint32BitsShort(p);
    UlebBound(p);
    UlebSnoc(g);
    GroupBitsFifth(g[4]);
    BitOrDisjoint(low, t, 28);
    assert Uint32Bits(g) == low + t;
    Pow2Add(28, 4);
    Pow2Facts();
    assert t <= 15 * 0x1000_0000;
    assert UlebValue(g) == hi * TWO32 + (low + t);
    DivUnique(UlebValue(g), TWO32, hi, low + t);
  }

  /** Sign extension with the powers of two as plain numbers:
      `pa = 2^a`, `ph = 2^(w-1)`, `pw = 2^w`, `w + a = 32`. */
  lemma SignExtend(x: int, pa: int, ph: int, pw: int)
    requires pa > 0 && ph * pa == TWO31 && pw == 2 * ph
    requires 0 <= x < pw
    ensures ToInt32(x * pa) / pa == if x >= ph then x - pw else x
  {
    var y := x * pa;
    assert pw * pa == TWO32;
    MulMonotone(pa, x, pw - 1);
    assert y <= TWO32 - pa;
    DivUnique(y, TWO32, 0, y);
    if x >= ph {
      MulMonotone(pa, ph, x);
      assert ToInt32(y) == y - TWO32;
      assert y - TWO32 == (x - pw) * pa;
      DivUnique((x - pw) * pa, pa, x - pw, 0);
    } else {
      MulMonotone(pa, x, ph - 1);
      assert ToInt32(y) == y;
      DivUnique(y, pa, x, 0);
    }
  }

  /** `(x << (32 - w)) >> (32 - w)` sign-extends a `w`-bit pattern. */
  lemma ShiftPairMeaning(x: int, w: int)
    requires 1 <= w <= 31 && 0 <= x < Pow2(w)
    ensures ShiftPair(x, 32 - w) == if x >= Pow2(w - 1) then x - Pow2(w) else x
  {
    var a := 32 - w;
    Pow2Add(w - 1, a);
    Pow2Add(1, w - 1);
    Pow2Facts();
    SignExtend(x, Pow2(a), Pow2(w - 1), Pow2(w));
  }

  /** Bit 7 of the byte is shifted out of the 32-bit word by `<< 25`. */
  lemma VarInt7Meaning(b: Byte)
    ensures ShiftPair(b, 25) == if b % 128 >= 64 then b % 128 - 128 else b % 128
  {
    Pow2Facts();
    var c := b % 128;
    var q := b / 128;
    assert b * 0x200_0000 - c * 0x200_0000 == q * TWO32;
    MulMod(TWO32, q);
    ToInt32Congruent(b * 0x200_0000, c * 0x200_0000);
    ShiftPairMeaning(c, 7);
  }

  /** Up to five groups, `readVarInt32` returns the signed LEB128 value
      reduced to 32 bits. */
  lemma Int32ValueMeaning(g: seq<Byte>)
    requires 1 <= |g|
    ensures |g| <= 5 ==> Int32Value(g) == ToInt32(SlebValue(g))
  {
    if |g| <= 4 {
      Int32ValueShort(g);
    } else if |g| == 5 {
      Int32ValueFive(g);
    }
  }

  /** Fewer than 32 bits: the shift pair sign-extends from bit `7n - 1`. */
  lemma Int32ValueShort(g: seq<Byte>)
    requires 1 <= |g| <= 4
    ensures Int32Value(g) == ToInt32(SlebValue(g))
  {
    var n := |g|;
    var u := UlebValue(g);
    var w := 7 * n;
    Uint32BitsShort(g);
    UlebBound(g);
    UlebTopBit(g);
    SlebFromUleb(g);
    ShiftPairMeaning(u, w);
    assert Int32Value(g) == SlebValue(g);
    Pow2Monotone(w, 31);
    Pow2Facts();
    ToInt32Identity(SlebValue(g));
  }

  /** 35 bits read: the pattern is reinterpreted as a signed 32-bit value,
      which agrees with the signed value modulo 2^32. */
  lemma Int32ValueFive(g: seq<Byte>)
    requires |g| == 5
    ensures Int32Value(g) == ToInt32(SlebValue(g))
  {
    var u := UlebValue(g);
    Uint32BitsFive(g);
    SlebFromUleb(g);
    Pow2Facts();
    var q := u / TWO32;
    assert u % TWO32 - u == TWO32 * -q;
    MulMod(TWO32, -q);
    ToInt32Congruent(u % TWO32, u);
    if g[4] % 128 >= 64 {
      assert SlebValue(g) == u - 8 * TWO32;
      MulMod(TWO32, 8);
      ToInt32Congruent(u, u - 8 * TWO32);
    }
  }

  /** A well-formed encoding placed at `pos` is read back whole. */
  lemma {:induction false} GroupsOfEncoding(data: seq<Byte>, pos: int, e: seq<Byte>)
    requires IsEncoding(e)
    requires 0 <= pos && pos + |e| <= |data| && data[pos..pos + |e|] == e
    ensures Groups(data, pos) == e
    decreases |e|
  {
    assert data[pos] == e[0];
    if |e| > 1 {
      var e' := e[1..];
      assert data[pos + 1..pos + 1 + |e'|] == e';
      GroupsOfEncoding(data, pos + 1, e');
    }
  }

  lemma {:induction false} EncodeUlebFacts(v: nat, k: nat)
    requires v < Pow2(7 * k)
    ensures IsEncoding(EncodeUleb(v))
    ensures UlebValue(EncodeUleb(v)) == v
    ensures |EncodeUleb(v)| <= if k == 0 then 1 else k
    decreases v
  {
    if v >= 128 {
      UlebQuotientBound(v, k);
      EncodeUlebFacts(v / 128, k - 1);
      var e := EncodeUleb(v);
      assert e == [v % 128 + 128] + EncodeUleb(v / 128);
      assert e[1..] == EncodeUleb(v / 128);
      assert UlebValue(e) == v % 128 + 128 * (v / 128);
    } else {
      assert EncodeUleb(v) == [v];
      assert [v][1..] == [];
    }
  }

  /** Dropping the low group of a `7k`-bit value of two or more groups
      leaves a `7(k - 1)`-bit one. */
  lemma UlebQuotientBound(v: nat, k: nat)
    requires 128 <= v < Pow2(7 * k)
    ensures k >= 2 && v / 128 < Pow2(7 * (k - 1))
  {
    Pow2Facts();
    Pow2Monotone(if k <= 1 then 7 * k else 7, 7);
    assert k >= 2;
    Pow2Add(7, 7 * (k - 1));
    DivBelowPow(v, Pow2(7 * (k - 1)));
  }

  lemma DivBelowPow(v: nat, p: nat)
    requires v < 128 * p
    ensures v / 128 < p
  {
    var q := v / 128;
    MulMonotone(128, if q >= p then p else q, q);
  }

  /** A value of `7k + 7` signed bits encodes in at most `k + 1` groups. */
  lemma {:induction false} EncodeSlebFacts(v: int, k: nat)
    requires -v <= Pow2(7 * k + 6) && v < Pow2(7 * k + 6)
    ensures IsEncoding(EncodeSleb(v))
    ensures SlebValue(EncodeSleb(v)) == v
    ensures |EncodeSleb(v)| <= k + 1
    decreases k
  {
    var e := EncodeSleb(v);
    if -64 <= v < 64 {
      assert e == [v % 128];
      if v < 0 {
        DivUnique(v, 128, -1, v + 128);
      } else {
        DivUnique(v, 128, 0, v);
      }
    } else {
      assert k > 0 by {
        assert Pow2(6) == 64;
      }
      SlebQuotientBound(v, k);
      EncodeSlebFacts(v / 128, k - 1);
      SlebGroupInFront(v);
    }
  }

  /** A value outside `[-64, 64)` encodes as its low seven bits with the
      continuation bit, then the encoding of the rest. */
  lemma SlebGroupInFront(v: int)
    requires !(-64 <= v < 64)
    requires IsEncoding(EncodeSleb(v / 128)) && SlebValue(EncodeSleb(v / 128)) == v / 128
    ensures IsEncoding(EncodeSleb(v)) && SlebValue(EncodeSleb(v)) == v
    ensures |EncodeSleb(v)| == |EncodeSleb(v / 128)| + 1
  {
    var t := EncodeSleb(v / 128);
    assert EncodeSleb(v) == [v % 128 + 128] + t;
    EncodingCons(v % 128 + 128, t);
    SlebCons(v % 128, t);
  }

  lemma EncodingCons(b: Byte, t: seq<Byte>)
    requires b >= 128 && IsEncoding(t)
    ensures IsEncoding([b] + t)
  {
    var e := [b] + t;
    forall k | 0 <= k < |e| - 1
      ensures e[k] >= 128
    {
      if k > 0 {
        assert e[k] == t[k - 1];
      }
    }
  }

  lemma SlebCons(m: int, t: seq<Byte>)
    requires 0 <= m < 128 && |t| >= 1
    ensures SlebValue([m + 128] + t) == m + 128 * SlebValue(t)
  {
    assert ([m + 128] + t)[1..] == t;
    DivUnique(m + 128, 128, 1, m);
  }

  /** Dropping the low group of a `7k + 6`-bit signed value leaves a
      `7(k - 1) + 6`-bit one. */
  lemma SlebQuotientBound(v: int, k: nat)
    requires k > 0 && -v <= Pow2(7 * k + 6) && v < Pow2(7 * k + 6)
    ensures -(v / 128) <= Pow2(7 * (k - 1) + 6) && v / 128 < Pow2(7 * (k - 1) + 6)
  {
    var q := v / 128;
    var p: int := Pow2(7 * (k - 1) + 6);
    assert Pow2(7 * k + 6) == 128 * p by { Pow2Seven(7 * (k - 1) + 6); }
    assert v == 128 * q + v % 128;
    if q >= p {
      MulMonotone(128, p, q);
    }
    if q < -p {
      MulMonotone(128, q, -p - 1);
    }
  }

  /** `readVarUint32` inverts the unsigned encoder on every 32-bit value,
      whose encoding has at most five bytes. */
  lemma ReadVarUint32RoundTrip(v: nat, rest: seq<Byte>)
    requires v < TWO32
    ensures |EncodeUleb(v)| <= 5
    ensures ReadVarUint32(EncodeUleb(v) + rest, 0) == Decoded(v, |EncodeUleb(v)|)
  {
    var e := EncodeUleb(v);
    Pow2Facts();
    Pow2Monotone(32, 35);
    EncodeUlebFacts(v, 5);
    assert (e + rest)[0..|e|] == e;
    GroupsOfEncoding(e + rest, 0, e);
    DivUnique(v, TWO32, 0, v);
  }

  /** `readVarInt32` inverts the signed encoder on every 32-bit value. */
  lemma ReadVarInt32RoundTrip(v: int, rest: seq<Byte>)
    requires -TWO31 <= v < TWO31
    ensures |EncodeSleb(v)| <= 5
    ensures ReadVarInt32(EncodeSleb(v) + rest, 0) == Decoded(v, |EncodeSleb(v)|)
  {
    var e := EncodeSleb(v);
    Pow2Facts();
    Pow2Monotone(31, 34);
    EncodeSlebFacts(v, 4);
    assert (e + rest)[0..|e|] == e;
    GroupsOfEncoding(e + rest, 0, e);
    ToInt32Identity(v);
  }

  /** `readVarInt7` maps the block-type bytes to the source's `Type` codes. */
  lemma VarInt7Examples()
    ensures VarInt7(0x7F) == -1 && VarInt7(0x7E) == -2
    ensures VarInt7(0x7D) == -3 && VarInt7(0x7C) == -4
    ensures VarInt7(0x40) == -64 && VarInt7(0x60) == -32
    ensures VarInt7(0x01) == 1
  {
  }

  /** A byte below 128 is a complete one-byte encoding of itself. */
  lemma SingleByteUleb(data: seq<Byte>, pos: int)
    requires ByteAt(data, pos) < 128
    ensures Groups(data, pos) == [ByteAt(data, pos)]
    ensures ReadVarUint32(data, pos) == Decoded(ByteAt(data, pos), pos + 1)
  {
    var b := ByteAt(data, pos);
    var g := Groups(data, pos);
    assert g == [b];
    assert UlebValue(g) == b by {
      assert g[1..] == [];
    }
    assert |g| <= 5;
    assert b % TWO32 == b;
  }
}

=== FILE: name_props.dfy ===
/** What the readers of strings and of the `name` custom section read back:
    a string written as its length and bytes, a name map written as a count
    and its (index, name) pairs, the local names of each function, and a
    whole name entry written as its type, its payload length and its
    payload. */
module NameProps {
  import opened Common
  import opened Leb
  import opened ReaderTypes
  import opened Decode
  import opened DecodeProps

  // ---------------------------------------------------------------------------
  // Strings

  /** A string as the binary format writes it: its length, then its bytes. */
  function EncodeString(s: seq<Byte>): (e: seq<Byte>)
    requires |s| < TWO32
    ensures |e| == |EncodeUleb(|s|)| + |s|
  {
    EncodeUleb(|s|) + s
  }

  /** `readStringBytes()` reads back a string written by `EncodeString`, and
      `hasStringBytes()` sees all of it. */
  lemma ReadStringBytesRoundTrip(data: seq<Byte>, pos: int, length: int, s: seq<Byte>)
    requires |s| < TWO32
    requires BytesAt(data, pos, length, EncodeString(s))
    ensures ReadStringBytes(data, pos) == Decoded(s, pos + |EncodeString(s)|)
    ensures HasStringBytes(data, pos, length)
  {
    StringAt(data, pos, length, s, pos + |EncodeUleb(|s|)|, pos + |EncodeUleb(|s|)| + |s|);
  }

  /** `ReadStringBytesRoundTrip` with the ends of the parts named. */
  lemma StringAt(data: seq<Byte>, pos: int, length: int, s: seq<Byte>, m: int, end: int)
    requires |s| < TWO32 && m == pos + |EncodeUleb(|s|)| && end == m + |s|
    requires BytesAt(data, pos, length, EncodeString(s))
    ensures ReadStringBytes(data, pos) == Decoded(s, end)
    ensures HasStringBytes(data, pos, length)
  {
    BytesAtSplit(data, pos, length, EncodeUleb(|s|), s);
    StringParts(data, pos, length, s, m, end);
  }

  /** `StringAt` with the length and the bytes at their places. */
  lemma StringParts(data: seq<Byte>, pos: int, length: int, s: seq<Byte>, m: int, end: int)
    requires |s| < TWO32 && m == pos + |EncodeUleb(|s|)| && end == m + |s|
    requires BytesAt(data, pos, length, EncodeUleb(|s|))
    requires BytesAt(data, m, length, s)
    ensures ReadStringBytes(data, pos) == Decoded(s, end)
    ensures HasStringBytes(data, pos, length)
  {
    UlebAt(data, pos, length, |s|);
    BytesAtSlice(data, m, length, s);
    StringStep(data, pos, length, m, s, end);
  }

  /** A length that reads to `m`, followed by that many bytes before
      `length`, is a complete string. */
  lemma StringStep(data: seq<Byte>, pos: int, length: int, m: int, s: seq<Byte>, end: int)
    requires HasVarIntBytes(data, pos, length) && ReadVarUint32(data, pos) == Decoded(|s|, m)
    requires 0 <= m && end == m + |s| && end <= |data| && end <= length && data[m..end] == s
    ensures ReadStringBytes(data, pos) == Decoded(s, end)
    ensures HasStringBytes(data, pos, length)
  {
  }

  // ---------------------------------------------------------------------------
  // Name maps

  /** Every index is a non-negative 32-bit signed number and every name has
      a 32-bit length. */
  predicate NamingsInRange(ns: seq<Naming>)
  {
    |ns| == 0 || (0 <= ns[0].index < TWO31 && |ns[0].name| < TWO32 && NamingsInRange(ns[1..]))
  }

  /** One (index, name) pair: the index, then the name as a string. */
  function EncodeNaming(nm: Naming): (e: seq<Byte>)
    requires 0 <= nm.index < TWO31 && |nm.name| < TWO32
    ensures |e| > |nm.name|
  {
    EncodeUleb(nm.index) + EncodeString(nm.name)
  }

  /** The pairs one after the other, without the count. */
  function EncodeNamings(ns: seq<Naming>): (e: seq<Byte>)
    requires NamingsInRange(ns)
    ensures |e| >= |ns|
  {
    if |ns| == 0 then [] else EncodeNaming(ns[0]) + EncodeNamings(ns[1..])
  }

  /** A name map: the count, then the pairs. */
  function EncodeNameMap(ns: seq<Naming>): (e: seq<Byte>)
    requires NamingsInRange(ns) && |ns| < TWO31
    ensures |e| > |ns|
  {
    EncodeUleb(|ns|) + EncodeNamings(ns)
  }

  /** The pair read at `p` is `nm`, and reading it ends at `q`. */
  predicate NamingAt(data: seq<Byte>, p: int, q: int, nm: Naming)
  {
    var index := ReadVarUint32(data, p);
    0 <= nm.index < TWO31 && index.value == nm.index && ReadStringBytes(data, index.next) == Decoded(nm.name, q)
  }

  /** The first pair of `ns` is read at `pos`, the rest from where it ends,
      and the last one ends at `end`. */
  predicate NamingsFrom(data: seq<Byte>, pos: int, ns: seq<Naming>, end: int)
    decreases |ns|
  {
    if |ns| == 0 then pos == end
    else
      var q := ReadStringBytes(data, ReadVarUint32(data, pos).next).next;
      NamingAt(data, pos, q, ns[0]) && NamingsFrom(data, q, ns[1..], end)
  }

  /** The first pair read at `pos`, then the rest from where it ends. */
  lemma NamingsFromCons(data: seq<Byte>, pos: int, q: int, ns: seq<Naming>, end: int)
    requires |ns| > 0 && NamingAt(data, pos, q, ns[0])
    requires NamingsFrom(data, q, ns[1..], end)
    ensures NamingsFrom(data, pos, ns, end)
  {
  }

  /** The first pair and the rest, from a run read from `pos`. */
  lemma NamingsFromTail(data: seq<Byte>, pos: int, q: int, ns: seq<Naming>, end: int)
    requires |ns| > 0 && NamingsFrom(data, pos, ns, end)
    requires q == ReadStringBytes(data, ReadVarUint32(data, pos).next).next
    ensures NamingAt(data, pos, q, ns[0]) && NamingsFrom(data, q, ns[1..], end)
  {
  }

  /** A pair written by `EncodeNaming` at `pos` reads back as itself, up to `q`. */
  lemma NamingParts(data: seq<Byte>, pos: int, length: int, nm: Naming, m: int, q: int)
    requires 0 <= nm.index < TWO31 && |nm.name| < TWO32
    requires m == pos + |EncodeUleb(nm.index)| && q == m + |EncodeString(nm.name)|
    requires BytesAt(data, pos, length, EncodeNaming(nm))
    ensures NamingAt(data, pos, q, nm)
  {
    BytesAtSplit(data, pos, length, EncodeUleb(nm.index), EncodeString(nm.name));
    NamingPieces(data, pos, length, nm, m, q);
  }

  /** `NamingParts` with the index and the name at their places. */
  lemma NamingPieces(data: seq<Byte>, pos: int, length: int, nm: Naming, m: int, q: int)
    requires 0 <= nm.index < TWO31 && |nm.name| < TWO32
    requires m == pos + |EncodeUleb(nm.index)| && q == m + |EncodeString(nm.name)|
    requires BytesAt(data, pos, length, EncodeUleb(nm.index))
    requires BytesAt(data, m, length, EncodeString(nm.name))
    ensures NamingAt(data, pos, q, nm)
  {
    UlebAt(data, pos, length, nm.index);
    ReadStringBytesRoundTrip(data, m, length, nm.name);
    NamingAtOf(data, pos, m, q, nm);
  }

  /** The index read up to `m` and the name read from there make the pair. */
  lemma NamingAtOf(data: seq<Byte>, pos: int, m: int, q: int, nm: Naming)
    requires 0 <= nm.index < TWO31 && ReadVarUint32(data, pos) == Decoded(nm.index, m)
    requires ReadStringBytes(data, m) == Decoded(nm.name, q)
    ensures NamingAt(data, pos, q, nm)
  {
  }

  /** `EncodeNamings` of a non-empty list: the first pair, then the rest. */
  lemma EncodeNamingsCons(ns: seq<Naming>, pos: int, q: int)
    requires |ns| > 0 && NamingsInRange(ns) && q == pos + |EncodeNaming(ns[0])|
    ensures NamingsInRange(ns[1..]) && pos + |EncodeNamings(ns)| == q + |EncodeNamings(ns[1..])|
    ensures EncodeNamings(ns) == EncodeNaming(ns[0]) + EncodeNamings(ns[1..])
    ensures 0 <= ns[0].index < TWO31 && |ns[0].name| < TWO32
  {
  }

  /** The first pair written at `pos` is read there and ends at `q`, where
      the bytes of the rest begin. */
  lemma NamingsHeadAt(data: seq<Byte>, pos: int, q: int, length: int, ns: seq<Naming>)
    requires |ns| > 0 && NamingsInRange(ns) && q == pos + |EncodeNaming(ns[0])|
    requires BytesAt(data, pos, length, EncodeNamings(ns))
    ensures NamingAt(data, pos, q, ns[0])
    ensures NamingsInRange(ns[1..]) && BytesAt(data, q, length, EncodeNamings(ns[1..]))
    ensures q + |EncodeNamings(ns[1..])| == pos + |EncodeNamings(ns)|
  {
    EncodeNamingsCons(ns, pos, q);
    BytesAtSplit(data, pos, length, EncodeNaming(ns[0]), EncodeNamings(ns[1..]));
    NamingParts(data, pos, length, ns[0], pos + |EncodeUleb(ns[0].index)|, q);
  }

  /** Pairs written one after the other are read one after the other. */
  lemma {:induction false} BytesNamingsFrom(data: seq<Byte>, pos: int, length: int, ns: seq<Naming>, end: int)
    requires NamingsInRange(ns) && end == pos + |EncodeNamings(ns)|
    requires BytesAt(data, pos, length, EncodeNamings(ns))
    ensures NamingsFrom(data, pos, ns, end)
    decreases |ns|
  {
    if |ns| > 0 {
      var q := pos + |EncodeNaming(ns[0])|;
      NamingsHeadAt(data, pos, q, length, ns);
      BytesNamingsFrom(data, q, length, ns[1..], end);
      NamingsFromCons(data, pos, q, ns, end);
    }
  }

  /** One unfolding of the pair loop. */
  lemma ReadNamingsOne(data: seq<Byte>, p: int, q: int, n: int, nm: Naming, rest: seq<Naming>, end: int)
    requires n > 0 && NamingAt(data, p, q, nm)
    requires ReadNamings(data, q, n - 1) == Decoded(rest, end)
    ensures ReadNamings(data, p, n) == Decoded([nm] + rest, end)
  {
    ToInt32Identity(nm.index);
  }

  /** `ReadNamingsOne` for the first of `ns`. */
  lemma NamingsHead(data: seq<Byte>, p: int, q: int, ns: seq<Naming>, end: int)
    requires |ns| > 0 && NamingAt(data, p, q, ns[0])
    requires ReadNamings(data, q, |ns| - 1) == Decoded(ns[1..], end)
    ensures ReadNamings(data, p, |ns|) == Decoded(ns, end)
  {
    ReadNamingsOne(data, p, q, |ns|, ns[0], ns[1..], end);
    assert [ns[0]] + ns[1..] == ns;
  }

  /** The pair loop reads pairs that read one after the other. */
  lemma {:induction false} ReadNamingsFrom(data: seq<Byte>, pos: int, ns: seq<Naming>, end: int)
    requires NamingsFrom(data, pos, ns, end)
    ensures ReadNamings(data, pos, |ns|) == Decoded(ns, end)
    decreases |ns|
  {
    if |ns| > 0 {
      var q := ReadStringBytes(data, ReadVarUint32(data, pos).next).next;
      NamingsFromTail(data, pos, q, ns, end);
      ReadNamingsFrom(data, q, ns[1..], end);
      NamingsHead(data, pos, q, ns, end);
    } else {
      assert ns == [];
    }
  }

  /** The pairs written by `EncodeNamings` are read back by the loop of
      `readNameMap()`, which ends right after them. */
  lemma ReadNamingsRoundTrip(data: seq<Byte>, pos: int, length: int, ns: seq<Naming>)
    requires NamingsInRange(ns)
    requires BytesAt(data, pos, length, EncodeNamings(ns))
    ensures ReadNamings(data, pos, |ns|) == Decoded(ns, pos + |EncodeNamings(ns)|)
  {
    var end := pos + |EncodeNamings(ns)|;
    BytesNamingsFrom(data, pos, length, ns, end);
    ReadNamingsFrom(data, pos, ns, end);
  }

  /** `readNameMap()` reads back a name map written by `EncodeNameMap`. */
  lemma ReadNameMapRoundTrip(data: seq<Byte>, pos: int, length: int, ns: seq<Naming>)
    requires NamingsInRange(ns) && |ns| < TWO31
    requires BytesAt(data, pos, length, EncodeNameMap(ns))
    ensures ReadNameMap(data, pos) == Decoded(ns, pos + |EncodeNameMap(ns)|)
  {
    NameMapAt(data, pos, length, ns, pos + |EncodeUleb(|ns|)|, pos + |EncodeUleb(|ns|)| + |EncodeNamings(ns)|);
  }

  /** `ReadNameMapRoundTrip` with the ends of the parts named. */
  lemma NameMapAt(data: seq<Byte>, pos: int, length: int, ns: seq<Naming>, q: int, end: int)
    requires NamingsInRange(ns) && |ns| < TWO31
    requires q == pos + |EncodeUleb(|ns|)| && end == q + |EncodeNamings(ns)|
    requires BytesAt(data, pos, length, EncodeNameMap(ns))
    ensures ReadNameMap(data, pos) == Decoded(ns, end)
  {
    BytesAtSplit(data, pos, length, EncodeUleb(|ns|), EncodeNamings(ns));
    NameMapParts(data, pos, length, ns, q, end);
  }

  /** `NameMapAt` with the count and the pairs at their places. */
  lemma NameMapParts(data: seq<Byte>, pos: int, length: int, ns: seq<Naming>, q: int, end: int)
    requires NamingsInRange(ns) && |ns| < TWO31
    requires q == pos + |EncodeUleb(|ns|)| && end == q + |EncodeNamings(ns)|
    requires BytesAt(data, pos, length, EncodeUleb(|ns|))
    requires BytesAt(data, q, length, EncodeNamings(ns))
    ensures ReadNameMap(data, pos) == Decoded(ns, end)
  {
    UlebAt(data, pos, length, |ns|);
    ReadNamingsRoundTrip(data, q, length, ns);
    NameMapStep(data, pos, |ns|, q, ns, end);
  }

  /** A count in `[0, 2^31)` followed by that many pairs is a name map. */
  lemma NameMapStep(data: seq<Byte>, pos: int, n: int, next: int, ns: seq<Naming>, end: int)
    requires ReadVarUint32(data, pos) == Decoded(n, next) && 0 <= n < TWO31
    requires ReadNamings(data, next, n) == Decoded(ns, end)
    ensures ReadNameMap(data, pos) == Decoded(ns, end)
  {
    ToInt32Identity(n);
  }

  // ---------------------------------------------------------------------------
  // Local names

  /** Every function index is a non-negative 32-bit signed number and every
      name map is in range and has a 31-bit count. */
  predicate LocalNamesInRange(fs: seq<LocalName>)
  {
    |fs| == 0
    || (&& 0 <= fs[0].index < TWO31 && NamingsInRange(fs[0].locals) && |fs[0].locals| < TWO31
        && LocalNamesInRange(fs[1..]))
  }

  /** One function's local names: its index, then its name map. */
  function EncodeLocalName(f: LocalName): (e: seq<Byte>)
    requires 0 <= f.index < TWO31 && NamingsInRange(f.locals) && |f.locals| < TWO31
    ensures |e| > |f.locals|
  {
    EncodeUleb(f.index) + EncodeNameMap(f.locals)
  }

  /** The functions one after the other, without the count. */
  function EncodeLocalNames(fs: seq<LocalName>): (e: seq<Byte>)
    requires LocalNamesInRange(fs)
    ensures |e| >= |fs|
  {
    if |fs| == 0 then [] else EncodeLocalName(fs[0]) + EncodeLocalNames(fs[1..])
  }

  /** The function read at `p` is `f`, and reading it ends at `q`. */
  predicate LocalNameAt(data: seq<Byte>, p: int, q: int, f: LocalName)
  {
    var index := ReadVarUint32(data, p);
    0 <= f.index < TWO31 && index.value == f.index && ReadNameMap(data, index.next) == Decoded(f.locals, q)
  }

  /** The first function of `fs` is read at `pos`, the rest from where it
      ends, and the last one ends at `end`. */
  predicate LocalNamesFrom(data: seq<Byte>, pos: int, fs: seq<LocalName>, end: int)
    decreases |fs|
  {
    if |fs| == 0 then pos == end
    else
      var q := ReadNameMap(data, ReadVarUint32(data, pos).next).next;
      LocalNameAt(data, pos, q, fs[0]) && LocalNamesFrom(data, q, fs[1..], end)
  }

  /** The first function read at `pos`, then the rest from where it ends. */
  lemma LocalNamesFromCons(data: seq<Byte>, pos: int, q: int, fs: seq<LocalName>, end: int)
    requires |fs| > 0 && LocalNameAt(data, pos, q, fs[0])
    requires LocalNamesFrom(data, q, fs[1..], end)
    ensures LocalNamesFrom(data, pos, fs, end)
  {
  }

  /** The first function and the rest, from a run read from `pos`. */
  lemma LocalNamesFromTail(data: seq<Byte>, pos: int, q: int, fs: seq<LocalName>, end: int)
    requires |fs| > 0 && LocalNamesFrom(data, pos, fs, end)
    requires q == ReadNameMap(data, ReadVarUint32(data, pos).next).next
    ensures LocalNameAt(data, pos, q, fs[0]) && LocalNamesFrom(data, q, fs[1..], end)
  {
  }

  /** A function written by `EncodeLocalName` at `pos` reads back as itself,
      up to `q`. */
  lemma LocalNameParts(data: seq<Byte>, pos: int, length: int, f: LocalName, m: int, q: int)
    requires 0 <= f.index < TWO31 && NamingsInRange(f.locals) && |f.locals| < TWO31
    requires m == pos + |EncodeUleb(f.index)| && q == m + |EncodeNameMap(f.locals)|
    requires BytesAt(data, pos, length, EncodeLocalName(f))
    ensures LocalNameAt(data, pos, q, f)
  {
    BytesAtSplit(data, pos, length, EncodeUleb(f.index), EncodeNameMap(f.locals));
    LocalNamePieces(data, pos, length, f, m, q);
  }

  /** `LocalNameParts` with the index and the name map at their places. */
  lemma LocalNamePieces(data: seq<Byte>, pos: int, length: int, f: LocalName, m: int, q: int)
    requires 0 <= f.index < TWO31 && NamingsInRange(f.locals) && |f.locals| < TWO31
    requires m == pos + |EncodeUleb(f.index)| && q == m + |EncodeNameMap(f.locals)|
    requires BytesAt(data, pos, length, EncodeUleb(f.index))
    requires BytesAt(data, m, length, EncodeNameMap(f.locals))
    ensures LocalNameAt(data, pos, q, f)
  {
    UlebAt(data, pos, length, f.index);
    ReadNameMapRoundTrip(data, m, length, f.locals);
    LocalNameAtOf(data, pos, m, q, f);
  }

  /** The index read up to `m` and the name map read from there make the
      function's local names. */
  lemma LocalNameAtOf(data: seq<Byte>, pos: int, m: int, q: int, f: LocalName)
    requires 0 <= f.index < TWO31 && ReadVarUint32(data, pos) == Decoded(f.index, m)
    requires ReadNameMap(data, m) == Decoded(f.locals, q)
    ensures LocalNameAt(data, pos, q, f)
  {
  }

  /** `EncodeLocalNames` of a non-empty list: the first function, then the rest. */
  lemma EncodeLocalNamesCons(fs: seq<LocalName>, pos: int, q: int)
    requires |fs| > 0 && LocalNamesInRange(fs) && q == pos + |EncodeLocalName(fs[0])|
    ensures LocalNamesInRange(fs[1..]) && pos + |EncodeLocalNames(fs)| == q + |EncodeLocalNames(fs[1..])|
    ensures EncodeLocalNames(fs) == EncodeLocalName(fs[0]) + EncodeLocalNames(fs[1..])
    ensures 0 <= fs[0].index < TWO31 && NamingsInRange(fs[0].locals) && |fs[0].locals| < TWO31
  {
  }

  /** The first function written at `pos` is read there and ends at `q`,
      where the bytes of the rest begin. */
  lemma LocalNamesHeadAt(data: seq<Byte>, pos: int, q: int, length: int, fs: seq<LocalName>)
    requires |fs| > 0 && LocalNamesInRange(fs) && q == pos + |EncodeLocalName(fs[0])|
    requires BytesAt(data, pos, length, EncodeLocalNames(fs))
    ensures LocalNameAt(data, pos, q, fs[0])
    ensures LocalNamesInRange(fs[1..]) && BytesAt(data, q, length, EncodeLocalNames(fs[1..]))
    ensures q + |EncodeLocalNames(fs[1..])| == pos + |EncodeLocalNames(fs)|
  {
    LocalNamesHeadBytes(data, pos, q, length, fs);
    LocalNameParts(data, pos, length, fs[0], pos + |EncodeUleb(fs[0].index)|, q);
  }

  /** The bytes of the first function, and those of the rest. */
  lemma LocalNamesHeadBytes(data: seq<Byte>, pos: int, q: int, length: int, fs: seq<LocalName>)
    requires |fs| > 0 && LocalNamesInRange(fs) && q == pos + |EncodeLocalName(fs[0])|
    requires BytesAt(data, pos, length, EncodeLocalNames(fs))
    ensures 0 <= fs[0].index < TWO31 && NamingsInRange(fs[0].locals) && |fs[0].locals| < TWO31
    ensures BytesAt(data, pos, length, EncodeLocalName(fs[0]))
    ensures LocalNamesInRange(fs[1..]) && BytesAt(data, q, length, EncodeLocalNames(fs[1..]))
    ensures q + |EncodeLocalNames(fs[1..])| == pos + |EncodeLocalNames(fs)|
  {
    EncodeLocalNamesCons(fs, pos, q);
    BytesAtSplit(data, pos, length, EncodeLocalName(fs[0]), EncodeLocalNames(fs[1..]));
  }

  /** Functions written one after the other are read one after the other. */
  lemma {:induction false} BytesLocalNamesFrom(data: seq<Byte>, pos: int, length: int, fs: seq<LocalName>, end: int)
    requires LocalNamesInRange(fs) && end == pos + |EncodeLocalNames(fs)|
    requires BytesAt(data, pos, length, EncodeLocalNames(fs))
    ensures LocalNamesFrom(data, pos, fs, end)
    decreases |fs|
  {
    if |fs| > 0 {
      var q := pos + |EncodeLocalName(fs[0])|;
      LocalNamesHeadAt(data, pos, q, length, fs);
      BytesLocalNamesFrom(data, q, length, fs[1..], end);
      LocalNamesFromCons(data, pos, q, fs, end);
    }
  }

  /** One unfolding of the local-names loop. */
  lemma ReadLocalNamesOne(data: seq<Byte>, p: int, q: int, n: int, f: LocalName, rest: seq<LocalName>, end: int)
    requires n > 0 && LocalNameAt(data, p, q, f)
    requires ReadLocalNames(data, q, n - 1) == Decoded(rest, end)
    ensures ReadLocalNames(data, p, n) == Decoded([f] + rest, end)
  {
    ToInt32Identity(f.index);
  }

  /** `ReadLocalNamesOne` for the first of `fs`. */
  lemma LocalNamesHead(data: seq<Byte>, p: int, q: int, fs: seq<LocalName>, end: int)
    requires |fs| > 0 && LocalNameAt(data, p, q, fs[0])
    requires ReadLocalNames(data, q, |fs| - 1) == Decoded(fs[1..], end)
    ensures ReadLocalNames(data, p, |fs|) == Decoded(fs, end)
  {
    ReadLocalNamesOne(data, p, q, |fs|, fs[0], fs[1..], end);
    assert [fs[0]] + fs[1..] == fs;
  }

  /** The local-names loop reads functions that read one after the other. */
  lemma {:induction false} ReadLocalNamesFrom(data: seq<Byte>, pos: int, fs: seq<LocalName>, end: int)
    requires LocalNamesFrom(data, pos, fs, end)
    ensures ReadLocalNames(data, pos, |fs|) == Decoded(fs, end)
    decreases |fs|
  {
    if |fs| > 0 {
      var q := ReadNameMap(data, ReadVarUint32(data, pos).next).next;
      LocalNamesFromTail(data, pos, q, fs, end);
      ReadLocalNamesFrom(data, q, fs[1..], end);
      LocalNamesHead(data, pos, q, fs, end);
    } else {
      assert fs == [];
    }
  }

  /** The functions written by `EncodeLocalNames` are read back by the loop
      of the local-names entry of `readNameEntry()`, which ends right after
      them. */
  lemma ReadLocalNamesRoundTrip(data: seq<Byte>, pos: int, length: int, fs: seq<LocalName>)
    requires LocalNamesInRange(fs)
    requires BytesAt(data, pos, length, EncodeLocalNames(fs))
    ensures ReadLocalNames(data, pos, |fs|) == Decoded(fs, pos + |EncodeLocalNames(fs)|)
  {
    var end := pos + |EncodeLocalNames(fs)|;
    BytesLocalNamesFrom(data, pos, length, fs, end);
    ReadLocalNamesFrom(data, pos, fs, end);
  }

  // ---------------------------------------------------------------------------
  // Name entries

  /** The values each kind of entry can carry in the binary format. */
  predicate NameEntryInRange(e: NameEntry)
  {
    match e
    case ModuleNameEntry(s) => |s| < TWO32
    case FunctionNameEntry(ns) => NamingsInRange(ns) && |ns| < TWO31
    case LocalNameEntry(fs) => LocalNamesInRange(fs) && |fs| < TWO31
  }

  /** The type byte of each kind: 0 module, 1 function, 2 local. */
  function NameKind(e: NameEntry): (k: Byte)
    ensures k <= 2
    ensures k == 0 <==> e.ModuleNameEntry?
    ensures k == 1 <==> e.FunctionNameEntry?
  {
    match e
    case ModuleNameEntry(_) => 0
    case FunctionNameEntry(_) => 1
    case LocalNameEntry(_) => 2
  }

  /** The payload of each kind: a string, a name map, or a count followed by
      each function's name map. */
  function NamePayload(e: NameEntry): (p: seq<Byte>)
    requires NameEntryInRange(e)
    ensures |p| > 0
  {
    match e
    case ModuleNameEntry(s) => EncodeString(s)
    case FunctionNameEntry(ns) => EncodeNameMap(ns)
    case LocalNameEntry(fs) => EncodeUleb(|fs|) + EncodeLocalNames(fs)
  }

  /** A whole name entry: its type, its payload length, its payload. */
  function EncodeNameEntry(e: NameEntry): (b: seq<Byte>)
    requires NameEntryInRange(e) && |NamePayload(e)| < TWO31
    ensures |b| > |NamePayload(e)| + 1
  {
    [NameKind(e)] + (EncodeUleb(|NamePayload(e)|) + NamePayload(e))
  }

  /** The payload read at `q` is the payload of `e`, ending at `end`. */
  predicate PayloadAt(data: seq<Byte>, q: int, e: NameEntry, end: int)
  {
    match e
    case ModuleNameEntry(s) => ReadStringBytes(data, q) == Decoded(s, end)
    case FunctionNameEntry(ns) => ReadNameMap(data, q) == Decoded(ns, end)
    case LocalNameEntry(fs) =>
      var count := ReadVarUint32(data, q);
      |fs| < TWO31 && count.value == |fs| && ReadLocalNames(data, count.next, |fs|) == Decoded(fs, end)
  }

  /** A payload written by `NamePayload` reads back as its entry. */
  lemma PayloadAtBytes(data: seq<Byte>, q: int, length: int, e: NameEntry)
    requires NameEntryInRange(e)
    requires BytesAt(data, q, length, NamePayload(e))
    ensures PayloadAt(data, q, e, q + |NamePayload(e)|)
  {
    match e
    case ModuleNameEntry(s) =>
      ReadStringBytesRoundTrip(data, q, length, s);
    case FunctionNameEntry(ns) =>
      ReadNameMapRoundTrip(data, q, length, ns);
    case LocalNameEntry(fs) =>
      LocalNameMapRoundTrip(data, q, length, fs);
  }

  /** The payload of a local-names entry: the count of functions, then
      each function's name map. */
  lemma LocalNameMapRoundTrip(data: seq<Byte>, q: int, length: int, fs: seq<LocalName>)
    requires LocalNamesInRange(fs) && |fs| < TWO31
    requires BytesAt(data, q, length, EncodeUleb(|fs|) + EncodeLocalNames(fs))
    ensures var count := ReadVarUint32(data, q);
      && count.value == |fs|
      && ReadLocalNames(data, count.next, |fs|) == Decoded(fs, q + |EncodeUleb(|fs|) + EncodeLocalNames(fs)|)
  {
    LocalNameMapAt(data, q, length, fs, q + |EncodeUleb(|fs|)|, q + |EncodeUleb(|fs|)| + |EncodeLocalNames(fs)|);
  }

  /** `LocalNameMapRoundTrip` with the ends of the parts named. */
  lemma LocalNameMapAt(data: seq<Byte>, q: int, length: int, fs: seq<LocalName>, m: int, end: int)
    requires LocalNamesInRange(fs) && |fs| < TWO31
    requires m == q + |EncodeUleb(|fs|)| && end == m + |EncodeLocalNames(fs)|
    requires BytesAt(data, q, length, EncodeUleb(|fs|) + EncodeLocalNames(fs))
    ensures ReadVarUint32(data, q) == Decoded(|fs|, m)
    ensures ReadLocalNames(data, m, |fs|) == Decoded(fs, end)
  {
    BytesAtSplit(data, q, length, EncodeUleb(|fs|), EncodeLocalNames(fs));
    LocalNameMapParts(data, q, length, fs, m, end);
  }

  /** `LocalNameMapAt` with the count and the functions at their places. */
  lemma LocalNameMapParts(data: seq<Byte>, q: int, length: int, fs: seq<LocalName>, m: int, end: int)
    requires LocalNamesInRange(fs) && |fs| < TWO31
    requires m == q + |EncodeUleb(|fs|)| && end == m + |EncodeLocalNames(fs)|
    requires BytesAt(data, q, length, EncodeUleb(|fs|))
    requires BytesAt(data, m, length, EncodeLocalNames(fs))
    ensures ReadVarUint32(data, q) == Decoded(|fs|, m)
    ensures ReadLocalNames(data, m, |fs|) == Decoded(fs, end)
  {
    UlebAt(data, q, length, |fs|);
    ReadLocalNamesRoundTrip(data, m, length, fs);
  }

  /** A type byte of at most 2, a payload length in `[0, 2^31)` that the
      bytes left can hold, and the payload of `e` make the entry `e`. */
  lemma NameEntryStep(data: seq<Byte>, pos: int, length: int, e: NameEntry, n: int, q: int, end: int)
    requires HasVarIntBytes(data, pos, length) && ByteAt(data, pos) == NameKind(e)
    requires HasVarIntBytes(data, pos + 1, length) && ReadVarUint32(data, pos + 1) == Decoded(n, q)
    requires 0 <= n < TWO31 && q + n <= length
    requires PayloadAt(data, q, e, end)
    ensures ReadNameEntry(data, pos, length) == Got(e, end)
  {
    ToInt32Identity(n);
    if e.LocalNameEntry? {
      ToInt32Identity(|e.funcs|);
    }
  }

  /** `readNameEntry()` reads back each kind of entry the encoder writes,
      and ends right after its payload. */
  lemma ReadNameEntryRoundTrip(data: seq<Byte>, pos: int, length: int, e: NameEntry)
    requires NameEntryInRange(e) && |NamePayload(e)| < TWO31
    requires BytesAt(data, pos, length, EncodeNameEntry(e))
    ensures ReadNameEntry(data, pos, length) == Got(e, pos + |EncodeNameEntry(e)|)
  {
    NameEntryAt(data, pos, length, e, |NamePayload(e)|, pos + 1 + |EncodeUleb(|NamePayload(e)|)|, pos + |EncodeNameEntry(e)|);
  }

  /** `ReadNameEntryRoundTrip` with the payload length and the ends of the
      parts named. */
  lemma NameEntryAt(data: seq<Byte>, pos: int, length: int, e: NameEntry, n: int, q: int, end: int)
    requires NameEntryInRange(e) && n == |NamePayload(e)| && n < TWO31
    requires q == pos + 1 + |EncodeUleb(n)| && end == q + n
    requires BytesAt(data, pos, length, EncodeNameEntry(e))
    ensures ReadNameEntry(data, pos, length) == Got(e, end)
  {
    NameEntryBytes(data, pos, length, e, n, q, end);
    NameEntryStep(data, pos, length, e, n, q, end);
  }

  /** What the bytes of a name entry read as, part by part. */
  lemma NameEntryBytes(data: seq<Byte>, pos: int, length: int, e: NameEntry, n: int, q: int, end: int)
    requires NameEntryInRange(e) && n == |NamePayload(e)| && n < TWO31
    requires q == pos + 1 + |EncodeUleb(n)| && end == q + n
    requires BytesAt(data, pos, length, EncodeNameEntry(e))
    ensures HasVarIntBytes(data, pos, length) && ByteAt(data, pos) == NameKind(e)
    ensures HasVarIntBytes(data, pos + 1, length) && ReadVarUint32(data, pos + 1) == Decoded(n, q)
    ensures 0 <= n < TWO31 && q + n <= length
    ensures PayloadAt(data, q, e, end)
  {
    NameEntryParts(data, pos, length, e, n, q);
    KindByteAt(data, pos, length, NameKind(e));
    UlebAt(data, pos + 1, length, n);
    PayloadAtBytes(data, q, length, e);
  }

  /** The type byte, the payload length and the payload of an entry, each
      at its own place. */
  lemma NameEntryParts(data: seq<Byte>, pos: int, length: int, e: NameEntry, n: int, q: int)
    requires NameEntryInRange(e) && n == |NamePayload(e)| && n < TWO31
    requires q == pos + 1 + |EncodeUleb(n)|
    requires BytesAt(data, pos, length, EncodeNameEntry(e))
    ensures BytesAt(data, pos, length, [NameKind(e)])
    ensures BytesAt(data, pos + 1, length, EncodeUleb(n))
    ensures BytesAt(data, q, length, NamePayload(e))
  {
    var c := EncodeUleb(n);
    var p := NamePayload(e);
    BytesAtSplit(data, pos, length, [NameKind(e)], c + p);
    BytesAtSplit(data, pos + 1, length, c, p);
  }

  /** A type byte below 128 passes the lookahead and reads as itself. */
  lemma KindByteAt(data: seq<Byte>, pos: int, length: int, k: Byte)
    requires k < 128 && BytesAt(data, pos, length, [k])
    ensures HasVarIntBytes(data, pos, length) && ByteAt(data, pos) == k
  {
    SingleByteUleb(data, pos);
    GroupsWithin(data, pos, length);
  }
}

=== FILE: opcodes.dfy ===
/** The names of the opcodes: the `OperatorCode` enumeration, whose
    identifiers the disassembler looks up and rewrites into mnemonics, and the
    `OperatorCodeNames` table that spells every mnemonic out. */
module Opcodes {
  import opened Common

  /** `OperatorCode[code]`: the identifier the enumeration gives `code`, or
      `None` where the enumeration has no member. Written out sixteen codes
      at a time, by the high hex digit of the code. */
  function EnumName(code: int): (n: Option<string>)
    ensures n.Some? ==> 0 <= code < 0xc0
  {
    if code < 0 || code >= 0xc0 then None
    else match code / 16
    case 0 => EnumName0(code % 16)
    case 1 => EnumName1(code % 16)
    case 2 => EnumName2(code % 16)
    case 3 => EnumName3(code % 16)
    case 4 => EnumName4(code % 16)
    case 5 => EnumName5(code % 16)
    case 6 => EnumName6(code % 16)
    case 7 => EnumName7(code % 16)
    case 8 => EnumName8(code % 16)
    case 9 => EnumName9(code % 16)
    case 10 => EnumNameA(code % 16)
    case 11 => EnumNameB(code % 16)
    case _ => None
  }

  function EnumName0(low: int): Option<string>
  {
    match low
    case 0x0 => Some("unreachable")
    case 0x1 => Some("nop")
    case 0x2 => Some("block")
    case 0x3 => Some("loop")
    case 0x4 => Some("if")
    case 0x5 => Some("else")
    case 0xb => Some("end")
    case 0xc => Some("br")
    case 0xd => Some("br_if")
    case 0xe => Some("br_table")
    case 0xf => Some("return")
    case _ => None
  }

  function EnumName1(low: int): Option<string>
  {
    match low
    case 0x0 => Some("call")
    case 0x1 => Some("call_indirect")
    case 0xa => Some("drop")
    case 0xb => Some("select")
    case _ => None
  }

  function EnumName2(low: int): Option<string>
  {
    match low
    case 0x0 => Some("get_local")
    case 0x1 => Some("set_local")
    case 0x2 => Some("tee_local")
    case 0x3 => Some("get_global")
    case 0x4 => Some("set_global")
    case 0x8 => Some("i32_load")
    case 0x9 => Some("i64_load")
    case 0xa => Some("f32_load")
    case 0xb => Some("f64_load")
    case 0xc => Some("i32_load8_s")
    case 0xd => Some("i32_load8_u")
    case 0xe => Some("i32_load16_s")
    case 0xf => Some("i32_load16_u")
    case _ => None
  }

  function EnumName3(low: int): Option<string>
  {
    match low
    case 0x0 => Some("i64_load8_s")
    case 0x1 => Some("i64_load8_u")
    case 0x2 => Some("i64_load16_s")
    case 0x3 => Some("i64_load16_u")
    case 0x4 => Some("i64_load32_s")
    case 0x5 => Some("i64_load32_u")
    case 0x6 => Some("i32_store")
    case 0x7 => Some("i64_store")
    case 0x8 => Some("f32_store")
    case 0x9 => Some("f64_store")
    case 0xa => Some("i32_store8")
    case 0xb => Some("i32_store16")
    case 0xc => Some("i64_store8")
    case 0xd => Some("i64_store16")
    case 0xe => Some("i64_store32")
    case 0xf => Some("current_memory")
    case _ => None
  }

  function EnumName4(low: int): Option<string>
  {
    match low
    case 0x0 => Some("grow_memory")
    case 0x1 => Some("i32_const")
    case 0x2 => Some("i64_const")
    case 0x3 => Some("f32_const")
    case 0x4 => Some("f64_const")
    case 0x5 => Some("i32_eqz")
    case 0x6 => Some("i32_eq")
    case 0x7 => Some("i32_ne")
    case 0x8 => Some("i32_lt_s")
    case 0x9 => Some("i32_lt_u")
    case 0xa => Some("i32_gt_s")
    case 0xb => Some("i32_gt_u")
    case 0xc => Some("i32_le_s")
    case 0xd => Some("i32_le_u")
    case 0xe => Some("i32_ge_s")
    case 0xf => Some("i32_ge_u")
    case _ => None
  }

  function EnumName5(low: int): Option<string>
  {
    match low
    case 0x0 => Some("i64_eqz")
    case 0x1 => Some("i64_eq")
    case 0x2 => Some("i64_ne")
    case 0x3 => Some("i64_lt_s")
    case 0x4 => Some("i64_lt_u")
    case 0x5 => Some("i64_gt_s")
    case 0x6 => Some("i64_gt_u")
    case 0x7 => Some("i64_le_s")
    case 0x8 => Some("i64_le_u")
    case 0x9 => Some("i64_ge_s")
    case 0xa => Some("i64_ge_u")
    case 0xb => Some("f32_eq")
    case 0xc => Some("f32_ne")
    case 0xd => Some("f32_lt")
    case 0xe => Some("f32_gt")
    case 0xf => Some("f32_le")
    case _ => None
  }

  function EnumName6(low: int): Option<string>
  {
    match low
    case 0x0 => Some("f32_ge")
    case 0x1 => Some("f64_eq")
    case 0x2 => Some("f64_ne")
    case 0x3 => Some("f64_lt")
    case 0x4 => Some("f64_gt")
    case 0x5 => Some("f64_le")
    case 0x6 => Some("f64_ge")
    case 0x7 => Some("i32_clz")
    case 0x8 => Some("i32_ctz")
    case 0x9 => Some("i32_popcnt")
    case 0xa => Some("i32_add")
    case 0xb => Some("i32_sub")
    case 0xc => Some("i32_mul")
    case 0xd => Some("i32_div_s")
    case 0xe => Some("i32_div_u")
    case 0xf => Some("i32_rem_s")
    case _ => None
  }

  function EnumName7(low: int): Option<string>
  {
    match low
    case 0x0 => Some("i32_rem_u")
    case 0x1 => Some("i32_and")
    case 0x2 => Some("i32_or")
    case 0x3 => Some("i32_xor")
    case 0x4 => Some("i32_shl")
    case 0x5 => Some("i32_shr_s")
    case 0x6 => Some("i32_shr_u")
    case 0x7 => Some("i32_rotl")
    case 0x8 => Some("i32_rotr")
    case 0x9 => Some("i64_clz")
    case 0xa => Some("i64_ctz")
    case 0xb => Some("i64_popcnt")
    case 0xc => Some("i64_add")
    case 0xd => Some("i64_sub")
    case 0xe => Some("i64_mul")
    case 0xf => Some("i64_div_s")
    case _ => None
  }

  function EnumName8(low: int): Option<string>
  {
    match low
    case 0x0 => Some("i64_div_u")
    case 0x1 => Some("i64_rem_s")
    case 0x2 => Some("i64_rem_u")
    case 0x3 => Some("i64_and")
    case 0x4 => Some("i64_or")
    case 0x5 => Some("i64_xor")
    case 0x6 => Some("i64_shl")
    case 0x7 => Some("i64_shr_s")
    case 0x8 => Some("i64_shr_u")
    case 0x9 => Some("i64_rotl")
    case 0xa => Some("i64_rotr")
    case 0xb => Some("f32_abs")
    case 0xc => Some("f32_neg")
    case 0xd => Some("f32_ceil")
    case 0xe => Some("f32_floor")
    case 0xf => Some("f32_trunc")
    case _ => None
  }

  function EnumName9(low: int): Option<string>
  {
    match low
    case 0x0 => Some("f32_nearest")
    case 0x1 => Some("f32_sqrt")
    case 0x2 => Some("f32_add")
    case 0x3 => Some("f32_sub")
    case 0x4 => Some("f32_mul")
    case 0x5 => Some("f32_div")
    case 0x6 => Some("f32_min")
    case 0x7 => Some("f32_max")
    case 0x8 => Some("f32_copysign")
    case 0x9 => Some("f64_abs")
    case 0xa => Some("f64_neg")
    case 0xb => Some("f64_ceil")
    case 0xc => Some("f64_floor")
    case 0xd => Some("f64_trunc")
    case 0xe => Some("f64_nearest")
    case 0xf => Some("f64_sqrt")
    case _ => None
  }

  function EnumNameA(low: int): Option<string>
  {
    match low
    case 0x0 => Some("f64_add")
    case 0x1 => Some("f64_sub")
    case 0x2 => Some("f64_mul")
    case 0x3 => Some("f64_div")
    case 0x4 => Some("f64_min")
    case 0x5 => Some("f64_max")
    case 0x6 => Some("f64_copysign")
    case 0x7 => Some("i32_wrap_i64")
    case 0x8 => Some("i32_trunc_s_f32")
    case 0x9 => Some("i32_trunc_u_f32")
    case 0xa => Some("i32_trunc_s_f64")
    case 0xb => Some("i32_trunc_u_f64")
    case 0xc => Some("i64_extend_s_i32")
    case 0xd => Some("i64_extend_u_i32")
    case 0xe => Some("i64_trunc_s_f32")
    case 0xf => Some("i64_trunc_u_f32")
    case _ => None
  }

  function EnumNameB(low: int): Option<string>
  {
    match low
    case 0x0 => Some("i64_trunc_s_f64")
    case 0x1 => Some("i64_trunc_u_f64")
    case 0x2 => Some("f32_convert_s_i32")
    case 0x3 => Some("f32_convert_u_i32")
    case 0x4 => Some("f32_convert_s_i64")
    case 0x5 => Some("f32_convert_u_i64")
    case 0x6 => Some("f32_demote_f64")
    case 0x7 => Some("f64_convert_s_i32")
    case 0x8 => Some("f64_convert_u_i32")
    case 0x9 => Some("f64_convert_s_i64")
    case 0xa => Some("f64_convert_u_i64")
    case 0xb => Some("f64_promote_f32")
    case 0xc => Some("i32_reinterpret_f32")
    case 0xd => Some("i64_reinterpret_f64")
    case 0xe => Some("f32_reinterpret_i32")
    case 0xf => Some("f64_reinterpret_i64")
    case _ => None
  }

  /** `OperatorCodeNames[code]`: the mnemonic the table lists for `code`,
      `None` for its holes and past its 256 entries (the table's last
      sixty-four entries are all holes). */
  function OperatorCodeNames(code: int): (n: Option<string>)
    ensures n.Some? ==> 0 <= code < 0xc0
  {
    if code < 0 || code >= 0xc0 then None
    else match code / 16
    case 0 => OperatorCodeNames0(code % 16)
    case 1 => OperatorCodeNames1(code % 16)
    case 2 => OperatorCodeNames2(code % 16)
    case 3 => OperatorCodeNames3(code % 16)
    case 4 => OperatorCodeNames4(code % 16)
    case 5 => OperatorCodeNames5(code % 16)
    case 6 => OperatorCodeNames6(code % 16)
    case 7 => OperatorCodeNames7(code % 16)
    case 8 => OperatorCodeNames8(code % 16)
    case 9 => OperatorCodeNames9(code % 16)
    case 10 => OperatorCodeNamesA(code % 16)
    case 11 => OperatorCodeNamesB(code % 16)
    case _ => None
  }

  function OperatorCodeNames0(low: int): Option<string>
  {
    match low
    case 0x0 => Some("unreachable")
    case 0x1 => Some("nop")
    case 0x2 => Some("block")
    case 0x3 => Some("loop")
    case 0x4 => Some("if")
    case 0x5 => Some("else")
    case 0xb => Some("end")
    case 0xc => Some("br")
    case 0xd => Some("br_if")
    case 0xe => Some("br_table")
    case 0xf => Some("return")
    case _ => None
  }

  function OperatorCodeNames1(low: int): Option<string>
  {
    match low
    case 0x0 => Some("call")
    case 0x1 => Some("call_indirect")
    case 0xa => Some("drop")
    case 0xb => Some("select")
    case _ => None
  }

  function OperatorCodeNames2(low: int): Option<string>
  {
    match low
    case 0x0 => Some("get_local")
    case 0x1 => Some("set_local")
    case 0x2 => Some("tee_local")
    case 0x3 => Some("get_global")
    case 0x4 => Some("set_global")
    case 0x8 => Some("i32.load")
    case 0x9 => Some("i64.load")
    case 0xa => Some("f32.load")
    case 0xb => Some("f64.load")
    case 0xc => Some("i32.load8_s")
    case 0xd => Some("i32.load8_u")
    case 0xe => Some("i32.load16_s")
    case 0xf => Some("i32.load16_u")
    case _ => None
  }

  function OperatorCodeNames3(low: int): Option<string>
  {
    match low
    case 0x0 => Some("i64.load8_s")
    case 0x1 => Some("i64.load8_u")
    case 0x2 => Some("i64.load16_s")
    case 0x3 => Some("i64.load16_u")
    case 0x4 => Some("i64.load32_s")
    case 0x5 => Some("i64.load32_u")
    case 0x6 => Some("i32.store")
    case 0x7 => Some("i64.store")
    case 0x8 => Some("f32.store")
    case 0x9 => Some("f64.store")
    case 0xa => Some("i32.store8")
    case 0xb => Some("i32.store16")
    case 0xc => Some("i64.store8")
    case 0xd => Some("i64.store16")
    case 0xe => Some("i64.store32")
    case 0xf => Some("current_memory")
    case _ => None
  }

  function OperatorCodeNames4(low: int): Option<string>
  {
    match low
    case 0x0 => Some("grow_memory")
    case 0x1 => Some("i32.const")
    case 0x2 => Some("i64.const")
    case 0x3 => Some("f32.const")
    case 0x4 => Some("f64.const")
    case 0x5 => Some("i32.eqz")
    case 0x6 => Some("i32.eq")
    case 0x7 => Some("i32.ne")
    case 0x8 => Some("i32.lt_s")
    case 0x9 => Some("i32.lt_u")
    case 0xa => Some("i32.gt_s")
    case 0xb => Some("i32.gt_u")
    case 0xc => Some("i32.le_s")
    case 0xd => Some("i32.le_u")
    case 0xe => Some("i32.ge_s")
    case 0xf => Some("i32.ge_u")
    case _ => None
  }

  function OperatorCodeNames5(low: int): Option<string>
  {
    match low
    case 0x0 => Some("i64.eqz")
    case 0x1 => Some("i64.eq")
    case 0x2 => Some("i64.ne")
    case 0x3 => Some("i64.lt_s")
    case 0x4 => Some("i64.lt_u")
    case 0x5 => Some("i64.gt_s")
    case 0x6 => Some("i64.gt_u")
    case 0x7 => Some("i64.le_s")
    case 0x8 => Some("i64.le_u")
    case 0x9 => Some("i64.ge_s")
    case 0xa => Some("i64.ge_u")
    case 0xb => Some("f32.eq")
    case 0xc => Some("f32.ne")
    case 0xd => Some("f32.lt")
    case 0xe => Some("f32.gt")
    case 0xf => Some("f32.le")
    case _ => None
  }

  function OperatorCodeNames6(low: int): Option<string>
  {
    match low
    case 0x0 => Some("f32.ge")
    case 0x1 => Some("f64.eq")
    case 0x2 => Some("f64.ne")
    case 0x3 => Some("f64.lt")
    case 0x4 => Some("f64.gt")
    case 0x5 => Some("f64.le")
    case 0x6 => Some("f64.ge")
    case 0x7 => Some("i32.clz")
    case 0x8 => Some("i32.ctz")
    case 0x9 => Some("i32.popcnt")
    case 0xa => Some("i32.add")
    case 0xb => Some("i32.sub")
    case 0xc => Some("i32.mul")
    case 0xd => Some("i32.div_s")
    case 0xe => Some("i32.div_u")
    case 0xf => Some("i32.rem_s")
    case _ => None
  }

  function OperatorCodeNames7(low: int): Option<string>
  {
    match low
    case 0x0 => Some("i32.rem_u")
    case 0x1 => Some("i32.and")
    case 0x2 => Some("i32.or")
    case 0x3 => Some("i32.xor")
    case 0x4 => Some("i32.shl")
    case 0x5 => Some("i32.shr_s")
    case 0x6 => Some("i32.shr_u")
    case 0x7 => Some("i32.rotl")
    case 0x8 => Some("i32.rotr")
    case 0x9 => Some("i64.clz")
    case 0xa => Some("i64.ctz")
    case 0xb => Some("i64.popcnt")
    case 0xc => Some("i64.add")
    case 0xd => Some("i64.sub")
    case 0xe => Some("i64.mul")
    case 0xf => Some("i64.div_s")
    case _ => None
  }

  function OperatorCodeNames8(low: int): Option<string>
  {
    match low
    case 0x0 => Some("i64.div_u")
    case 0x1 => Some("i64.rem_s")
    case 0x2 => Some("i64.rem_u")
    case 0x3 => Some("i64.and")
    case 0x4 => Some("i64.or")
    case 0x5 => Some("i64.xor")
    case 0x6 => Some("i64.shl")
    case 0x7 => Some("i64.shr_s")
    case 0x8 => Some("i64.shr_u")
    case 0x9 => Some("i64.rotl")
    case 0xa => Some("i64.rotr")
    case 0xb => Some("f32.abs")
    case 0xc => Some("f32.neg")
    case 0xd => Some("f32.ceil")
    case 0xe => Some("f32.floor")
    case 0xf => Some("f32.trunc")
    case _ => None
  }

  function OperatorCodeNames9(low: int): Option<string>
  {
    match low
    case 0x0 => Some("f32.nearest")
    case 0x1 => Some("f32.sqrt")
    case 0x2 => Some("f32.add")
    case 0x3 => Some("f32.sub")
    case 0x4 => Some("f32.mul")
    case 0x5 => Some("f32.div")
    case 0x6 => Some("f32.min")
    case 0x7 => Some("f32.max")
    case 0x8 => Some("f32.copysign")
    case 0x9 => Some("f64.abs")
    case 0xa => Some("f64.neg")
    case 0xb => Some("f64.ceil")
    case 0xc => Some("f64.floor")
    case 0xd => Some("f64.trunc")
    case 0xe => Some("f64.nearest")
    case 0xf => Some("f64.sqrt")
    case _ => None
  }

  function OperatorCodeNamesA(low: int): Option<string>
  {
    match low
    case 0x0 => Some("f64.add")
    case 0x1 => Some("f64.sub")
    case 0x2 => Some("f64.mul")
    case 0x3 => Some("f64.div")
    case 0x4 => Some("f64.min")
    case 0x5 => Some("f64.max")
    case 0x6 => Some("f64.copysign")
    case 0x7 => Some("i32.wrap/i64")
    case 0x8 => Some("i32.trunc_s/f32")
    case 0x9 => Some("i32.trunc_u/f32")
    case 0xa => Some("i32.trunc_s/f64")
    case 0xb => Some("i32.trunc_u/f64")
    case 0xc => Some("i64.extend_s/i32")
    case 0xd => Some("i64.extend_u/i32")
    case 0xe => Some("i64.trunc_s/f32")
    case 0xf => Some("i64.trunc_u/f32")
    case _ => None
  }

  function OperatorCodeNamesB(low: int): Option<string>
  {
    match low
    case 0x0 => Some("i64.trunc_s/f64")
    case 0x1 => Some("i64.trunc_u/f64")
    case 0x2 => Some("f32.convert_s/i32")
    case 0x3 => Some("f32.convert_u/i32")
    case 0x4 => Some("f32.convert_s/i64")
    case 0x5 => Some("f32.convert_u/i64")
    case 0x6 => Some("f32.demote/f64")
    case 0x7 => Some("f64.convert_s/i32")
    case 0x8 => Some("f64.convert_u/i32")
    case 0x9 => Some("f64.convert_s/i64")
    case 0xa => Some("f64.convert_u/i64")
    case 0xb => Some("f64.promote/f32")
    case 0xc => Some("i32.reinterpret/f32")
    case 0xd => Some("i64.reinterpret/f64")
    case 0xe => Some("f32.reinterpret/i32")
    case 0xf => Some("f64.reinterpret/i64")
    case _ => None
  }

  /** `[if](32|64)` at `s[k..k + 3]`. */
  predicate NumTypeAt(s: string, k: int)
    requires 0 <= k && k + 3 <= |s|
  {
    (s[k] == 'i' || s[k] == 'f') && ((s[k + 1] == '3' && s[k + 2] == '2') || (s[k + 1] == '6' && s[k + 2] == '4'))
  }

  /** `replace(/^([if](32|64))_/, "$1.")`: a leading `i32_`, `i64_`,
      `f32_` or `f64_` has its underscore turned into a dot. */
  function DotAfterType(s: string): (r: string)
    ensures |r| == |s|
    ensures forall k :: 0 <= k < |s| && k != 3 ==> r[k] == s[k]
    ensures 3 < |s| ==> (r[3] == '.' <==> (NumTypeAt(s, 0) && s[3] == '_') || s[3] == '.')
  {
    if |s| >= 4 && NumTypeAt(s, 0) && s[3] == '_' then s[3 := '.'] else s
  }

  /** `replace(/_([if](32|64))$/, "\/$1")`: a trailing `_i32`, `_i64`,
      `_f32` or `_f64` has its underscore turned into a slash. */
  function SlashBeforeType(s: string): (r: string)
    ensures |r| == |s|
    ensures forall k :: 0 <= k < |s| && k != |s| - 4 ==> r[k] == s[k]
    ensures 3 < |s| ==> (r[|s| - 4] == '/' <==> (NumTypeAt(s, |s| - 3) && s[|s| - 4] == '_') || s[|s| - 4] == '/')
  {
    if |s| >= 4 && NumTypeAt(s, |s| - 3) && s[|s| - 4] == '_' then s[|s| - 4 := '/'] else s
  }

  /** The mnemonic the disassembler prints for an enumeration identifier. */
  function Mnemonic(name: string): (m: string)
    ensures |m| == |name|
  {
    SlashBeforeType(DotAfterType(name))
  }

  /** At `code`, the table holds the rewritten identifier, or a hole where
      the enumeration has none. */
  predicate NameAgrees(code: int)
  {
    match EnumName(code)
    case None => OperatorCodeNames(code).None?
    case Some(n) => OperatorCodeNames(code) == Some(Mnemonic(n))
  }

  /** The mnemonic the disassembler derives from the enumeration is, for
      every code, the one `OperatorCodeNames` lists, and the two have the
      same holes. */
  lemma MnemonicsMatchTable(code: int)
    ensures EnumName(code).Some? <==> OperatorCodeNames(code).Some?
    ensures EnumName(code).Some? ==> Mnemonic(EnumName(code).value) == OperatorCodeNames(code).value
  {
    if code < 0 || code >= 0xc0 {
    } else {
      if code < 0x08 { NamesAgreeFrom00(code); }
      else if code < 0x10 { NamesAgreeFrom08(code); }
      else if code < 0x18 { NamesAgreeFrom10(code); }
      else if code < 0x20 { NamesAgreeFrom18(code); }
      else if code < 0x28 { NamesAgreeFrom20(code); }
      else if code < 0x30 { NamesAgreeFrom28(code); }
      else if code < 0x38 { NamesAgreeFrom30(code); }
      else if code < 0x40 { NamesAgreeFrom38(code); }
      else if code < 0x48 { NamesAgreeFrom40(code); }
      else if code < 0x50 { NamesAgreeFrom48(code); }
      else if code < 0x58 { NamesAgreeFrom50(code); }
      else if code < 0x60 { NamesAgreeFrom58(code); }
      else if code < 0x68 { NamesAgreeFrom60(code); }
      else if code < 0x70 { NamesAgreeFrom68(code); }
      else if code < 0x78 { NamesAgreeFrom70(code); }
      else if code < 0x80 { NamesAgreeFrom78(code); }
      else if code < 0x88 { NamesAgreeFrom80(code); }
      else if code < 0x90 { NamesAgreeFrom88(code); }
      else if code < 0x98 { NamesAgreeFrom90(code); }
      else if code < 0xa0 { NamesAgreeFrom98(code); }
      else if code < 0xa8 { NamesAgreeFromA0(code); }
      else if code < 0xb0 { NamesAgreeFromA8(code); }
      else if code < 0xb8 { NamesAgreeFromB0(code); }
      else { NamesAgreeFromB8(code); }
    }
    assert NameAgrees(code);
  }

  // The agreement, eight codes at a time, each code checked on its own.

  lemma NamesAgreeFrom00(code: int)
    requires 0x00 <= code < 0x08
    ensures NameAgrees(code)
  {
    if code == 0x00 { NameAgreesAt00(); }
    else if code == 0x01 { NameAgreesAt01(); }
    else if code == 0x02 { NameAgreesAt02(); }
    else if code == 0x03 { NameAgreesAt03(); }
    else if code == 0x04 { NameAgreesAt04(); }
    else if code == 0x05 { NameAgreesAt05(); }
    else if code == 0x06 { NameAgreesAt06(); }
    else { NameAgreesAt07(); }
  }

  lemma NamesAgreeFrom08(code: int)
    requires 0x08 <= code < 0x10
    ensures NameAgrees(code)
  {
    if code == 0x08 { NameAgreesAt08(); }
    else if code == 0x09 { NameAgreesAt09(); }
    else if code == 0x0a { NameAgreesAt0A(); }
    else if code == 0x0b { NameAgreesAt0B(); }
    else if code == 0x0c { NameAgreesAt0C(); }
    else if code == 0x0d { NameAgreesAt0D(); }
    else if code == 0x0e { NameAgreesAt0E(); }
    else { NameAgreesAt0F(); }
  }

  lemma NamesAgreeFrom10(code: int)
    requires 0x10 <= code < 0x18
    ensures NameAgrees(code)
  {
    if code == 0x10 { NameAgreesAt10(); }
    else if code == 0x11 { NameAgreesAt11(); }
    else if code == 0x12 { NameAgreesAt12(); }
    else if code == 0x13 { NameAgreesAt13(); }
    else if code == 0x14 { NameAgreesAt14(); }
    else if code == 0x15 { NameAgreesAt15(); }
    else if code == 0x16 { NameAgreesAt16(); }
    else { NameAgreesAt17(); }
  }

  lemma NamesAgreeFrom18(code: int)
    requires 0x18 <= code < 0x20
    ensures NameAgrees(code)
  {
    if code == 0x18 { NameAgreesAt18(); }
    else if code == 0x19 { NameAgreesAt19(); }
    else if code == 0x1a { NameAgreesAt1A(); }
    else if code == 0x1b { NameAgreesAt1B(); }
    else if code == 0x1c { NameAgreesAt1C(); }
    else if code == 0x1d { NameAgreesAt1D(); }
    else if code == 0x1e { NameAgreesAt1E(); }
    else { NameAgreesAt1F(); }
  }

  lemma NamesAgreeFrom20(code: int)
    requires 0x20 <= code < 0x28
    ensures NameAgrees(code)
  {
    if code == 0x20 { NameAgreesAt20(); }
    else if code == 0x21 { NameAgreesAt21(); }
    else if code == 0x22 { NameAgreesAt22(); }
    else if code == 0x23 { NameAgreesAt23(); }
    else if code == 0x24 { NameAgreesAt24(); }
    else if code == 0x25 { NameAgreesAt25(); }
    else if code == 0x26 { NameAgreesAt26(); }
    else { NameAgreesAt27(); }
  }

  lemma NamesAgreeFrom28(code: int)
    requires 0x28 <= code < 0x30
    ensures NameAgrees(code)
  {
    if code == 0x28 { NameAgreesAt28(); }
    else if code == 0x29 { NameAgreesAt29(); }
    else if code == 0x2a { NameAgreesAt2A(); }
    else if code == 0x2b { NameAgreesAt2B(); }
    else if code == 0x2c { NameAgreesAt2C(); }
    else if code == 0x2d { NameAgreesAt2D(); }
    else if code == 0x2e { NameAgreesAt2E(); }
    else { NameAgreesAt2F(); }
  }

  lemma NamesAgreeFrom30(code: int)
    requires 0x30 <= code < 0x38
    ensures NameAgrees(code)
  {
    if code == 0x30 { NameAgreesAt30(); }
    else if code == 0x31 { NameAgreesAt31(); }
    else if code == 0x32 { NameAgreesAt32(); }
    else if code == 0x33 { NameAgreesAt33(); }
    else if code == 0x34 { NameAgreesAt34(); }
    else if code == 0x35 { NameAgreesAt35(); }
    else if code == 0x36 { NameAgreesAt36(); }
    else { NameAgreesAt37(); }
  }

  lemma NamesAgreeFrom38(code: int)
    requires 0x38 <= code < 0x40
    ensures NameAgrees(code)
  {
    if code == 0x38 { NameAgreesAt38(); }
    else if code == 0x39 { NameAgreesAt39(); }
    else if code == 0x3a { NameAgreesAt3A(); }
    else if code == 0x3b { NameAgreesAt3B(); }
    else if code == 0x3c { NameAgreesAt3C(); }
    else if code == 0x3d { NameAgreesAt3D(); }
    else if code == 0x3e { NameAgreesAt3E(); }
    else { NameAgreesAt3F(); }
  }

  lemma NamesAgreeFrom40(code: int)
    requires 0x40 <= code < 0x48
    ensures NameAgrees(code)
  {
    if code == 0x40 { NameAgreesAt40(); }
    else if code == 0x41 { NameAgreesAt41(); }
    else if code == 0x42 { NameAgreesAt42(); }
    else if code == 0x43 { NameAgreesAt43(); }
    else if code == 0x44 { NameAgreesAt44(); }
    else if code == 0x45 { NameAgreesAt45(); }
    else if code == 0x46 { NameAgreesAt46(); }
    else { NameAgreesAt47(); }
  }

  lemma NamesAgreeFrom48(code: int)
    requires 0x48 <= code < 0x50
    ensures NameAgrees(code)
  {
    if code == 0x48 { NameAgreesAt48(); }
    else if code == 0x49 { NameAgreesAt49(); }
    else if code == 0x4a { NameAgreesAt4A(); }
    else if code == 0x4b { NameAgreesAt4B(); }
    else if code == 0x4c { NameAgreesAt4C(); }
    else if code == 0x4d { NameAgreesAt4D(); }
    else if code == 0x4e { NameAgreesAt4E(); }
    else { NameAgreesAt4F(); }
  }

  lemma NamesAgreeFrom50(code: int)
    requires 0x50 <= code < 0x58
    ensures NameAgrees(code)
  {
    if code == 0x50 { NameAgreesAt50(); }
    else if code == 0x51 { NameAgreesAt51(); }
    else if code == 0x52 { NameAgreesAt52(); }
    else if code == 0x53 { NameAgreesAt53(); }
    else if code == 0x54 { NameAgreesAt54(); }
    else if code == 0x55 { NameAgreesAt55(); }
    else if code == 0x56 { NameAgreesAt56(); }
    else { NameAgreesAt57(); }
  }

  lemma NamesAgreeFrom58(code: int)
    requires 0x58 <= code < 0x60
    ensures NameAgrees(code)
  {
    if code == 0x58 { NameAgreesAt58(); }
    else if code == 0x59 { NameAgreesAt59(); }
    else if code == 0x5a { NameAgreesAt5A(); }
    else if code == 0x5b { NameAgreesAt5B(); }
    else if code == 0x5c { NameAgreesAt5C(); }
    else if code == 0x5d { NameAgreesAt5D(); }
    else if code == 0x5e { NameAgreesAt5E(); }
    else { NameAgreesAt5F(); }
  }

  lemma NamesAgreeFrom60(code: int)
    requires 0x60 <= code < 0x68
    ensures NameAgrees(code)
  {
    if code == 0x60 { NameAgreesAt60(); }
    else if code == 0x61 { NameAgreesAt61(); }
    else if code == 0x62 { NameAgreesAt62(); }
    else if code == 0x63 { NameAgreesAt63(); }
    else if code == 0x64 { NameAgreesAt64(); }
    else if code == 0x65 { NameAgreesAt65(); }
    else if code == 0x66 { NameAgreesAt66(); }
    else { NameAgreesAt67(); }
  }

  lemma NamesAgreeFrom68(code: int)
    requires 0x68 <= code < 0x70
    ensures NameAgrees(code)
  {
    if code == 0x68 { NameAgreesAt68(); }
    else if code == 0x69 { NameAgreesAt69(); }
    else if code == 0x6a { NameAgreesAt6A(); }
    else if code == 0x6b { NameAgreesAt6B(); }
    else if code == 0x6c { NameAgreesAt6C(); }
    else if code == 0x6d { NameAgreesAt6D(); }
    else if code == 0x6e { NameAgreesAt6E(); }
    else { NameAgreesAt6F(); }
  }

  lemma NamesAgreeFrom70(code: int)
    requires 0x70 <= code < 0x78
    ensures NameAgrees(code)
  {
    if code == 0x70 { NameAgreesAt70(); }
    else if code == 0x71 { NameAgreesAt71(); }
    else if code == 0x72 { NameAgreesAt72(); }
    else if code == 0x73 { NameAgreesAt73(); }
    else if code == 0x74 { NameAgreesAt74(); }
    else if code == 0x75 { NameAgreesAt75(); }
    else if code == 0x76 { NameAgreesAt76(); }
    else { NameAgreesAt77(); }
  }

  lemma NamesAgreeFrom78(code: int)
    requires 0x78 <= code < 0x80
    ensures NameAgrees(code)
  {
    if code == 0x78 { NameAgreesAt78(); }
    else if code == 0x79 { NameAgreesAt79(); }
    else if code == 0x7a { NameAgreesAt7A(); }
    else if code == 0x7b { NameAgreesAt7B(); }
    else if code == 0x7c { NameAgreesAt7C(); }
    else if code == 0x7d { NameAgreesAt7D(); }
    else if code == 0x7e { NameAgreesAt7E(); }
    else { NameAgreesAt7F(); }
  }

  lemma NamesAgreeFrom80(code: int)
    requires 0x80 <= code < 0x88
    ensures NameAgrees(code)
  {
    if code == 0x80 { NameAgreesAt80(); }
    else if code == 0x81 { NameAgreesAt81(); }
    else if code == 0x82 { NameAgreesAt82(); }
    else if code == 0x83 { NameAgreesAt83(); }
    else if code == 0x84 { NameAgreesAt84(); }
    else if code == 0x85 { NameAgreesAt85(); }
    else if code == 0x86 { NameAgreesAt86(); }
    else { NameAgreesAt87(); }
  }

  lemma NamesAgreeFrom88(code: int)
    requires 0x88 <= code < 0x90
    ensures NameAgrees(code)
  {
    if code == 0x88 { NameAgreesAt88(); }
    else if code == 0x89 { NameAgreesAt89(); }
    else if code == 0x8a { NameAgreesAt8A(); }
    else if code == 0x8b { NameAgreesAt8B(); }
    else if code == 0x8c { NameAgreesAt8C(); }
    else if code == 0x8d { NameAgreesAt8D(); }
    else if code == 0x8e { NameAgreesAt8E(); }
    else { NameAgreesAt8F(); }
  }

  lemma NamesAgreeFrom90(code: int)
    requires 0x90 <= code < 0x98
    ensures NameAgrees(code)
  {
    if code == 0x90 { NameAgreesAt90(); }
    else if code == 0x91 { NameAgreesAt91(); }
    else if code == 0x92 { NameAgreesAt92(); }
    else if code == 0x93 { NameAgreesAt93(); }
    else if code == 0x94 { NameAgreesAt94(); }
    else if code == 0x95 { NameAgreesAt95(); }
    else if code == 0x96 { NameAgreesAt96(); }
    else { NameAgreesAt97(); }
  }

  lemma NamesAgreeFrom98(code: int)
    requires 0x98 <= code < 0xa0
    ensures NameAgrees(code)
  {
    if code == 0x98 { NameAgreesAt98(); }
    else if code == 0x99 { NameAgreesAt99(); }
    else if code == 0x9a { NameAgreesAt9A(); }
    else if code == 0x9b { NameAgreesAt9B(); }
    else if code == 0x9c { NameAgreesAt9C(); }
    else if code == 0x9d { NameAgreesAt9D(); }
    else if code == 0x9e { NameAgreesAt9E(); }
    else { NameAgreesAt9F(); }
  }

  lemma NamesAgreeFromA0(code: int)
    requires 0xa0 <= code < 0xa8
    ensures NameAgrees(code)
  {
    if code == 0xa0 { NameAgreesAtA0(); }
    else if code == 0xa1 { NameAgreesAtA1(); }
    else if code == 0xa2 { NameAgreesAtA2(); }
    else if code == 0xa3 { NameAgreesAtA3(); }
    else if code == 0xa4 { NameAgreesAtA4(); }
    else if code == 0xa5 { NameAgreesAtA5(); }
    else if code == 0xa6 { NameAgreesAtA6(); }
    else { NameAgreesAtA7(); }
  }

  lemma NamesAgreeFromA8(code: int)
    requires 0xa8 <= code < 0xb0
    ensures NameAgrees(code)
  {
    if code == 0xa8 { NameAgreesAtA8(); }
    else if code == 0xa9 { NameAgreesAtA9(); }
    else if code == 0xaa { NameAgreesAtAA(); }
    else if code == 0xab { NameAgreesAtAB(); }
    else if code == 0xac { NameAgreesAtAC(); }
    else if code == 0xad { NameAgreesAtAD(); }
    else if code == 0xae { NameAgreesAtAE(); }
    else { NameAgreesAtAF(); }
  }

  lemma NamesAgreeFromB0(code: int)
    requires 0xb0 <= code < 0xb8
    ensures NameAgrees(code)
  {
    if code == 0xb0 { NameAgreesAtB0(); }
    else if code == 0xb1 { NameAgreesAtB1(); }
    else if code == 0xb2 { NameAgreesAtB2(); }
    else if code == 0xb3 { NameAgreesAtB3(); }
    else if code == 0xb4 { NameAgreesAtB4(); }
    else if code == 0xb5 { NameAgreesAtB5(); }
    else if code == 0xb6 { NameAgreesAtB6(); }
    else { NameAgreesAtB7(); }
  }

  lemma NamesAgreeFromB8(code: int)
    requires 0xb8 <= code < 0xc0
    ensures NameAgrees(code)
  {
    if code == 0xb8 { NameAgreesAtB8(); }
    else if code == 0xb9 { NameAgreesAtB9(); }
    else if code == 0xba { NameAgreesAtBA(); }
    else if code == 0xbb { NameAgreesAtBB(); }
    else if code == 0xbc { NameAgreesAtBC(); }
    else if code == 0xbd { NameAgreesAtBD(); }
    else if code == 0xbe { NameAgreesAtBE(); }
    else { NameAgreesAtBF(); }
  }

  lemma NameAgreesAt00() ensures NameAgrees(0x00) { assert Mnemonic("unreachable") == "unreachable"; }
  lemma NameAgreesAt01() ensures NameAgrees(0x01) { assert Mnemonic("nop") == "nop"; }
  lemma NameAgreesAt02() ensures NameAgrees(0x02) { assert Mnemonic("block") == "block"; }
  lemma NameAgreesAt03() ensures NameAgrees(0x03) { assert Mnemonic("loop") == "loop"; }
  lemma NameAgreesAt04() ensures NameAgrees(0x04) { assert Mnemonic("if") == "if"; }
  lemma NameAgreesAt05() ensures NameAgrees(0x05) { assert Mnemonic("else") == "else"; }
  lemma NameAgreesAt06() ensures NameAgrees(0x06) { }
  lemma NameAgreesAt07() ensures NameAgrees(0x07) { }
  lemma NameAgreesAt08() ensures NameAgrees(0x08) { }
  lemma NameAgreesAt09() ensures NameAgrees(0x09) { }
  lemma NameAgreesAt0A() ensures NameAgrees(0x0a) { }
  lemma NameAgreesAt0B() ensures NameAgrees(0x0b) { assert Mnemonic("end") == "end"; }
  lemma NameAgreesAt0C() ensures NameAgrees(0x0c) { assert Mnemonic("br") == "br"; }
  lemma NameAgreesAt0D() ensures NameAgrees(0x0d) { assert Mnemonic("br_if") == "br_if"; }
  lemma NameAgreesAt0E() ensures NameAgrees(0x0e) { assert Mnemonic("br_table") == "br_table"; }
  lemma NameAgreesAt0F() ensures NameAgrees(0x0f) { assert Mnemonic("return") == "return"; }
  lemma NameAgreesAt10() ensures NameAgrees(0x10) { assert Mnemonic("call") == "call"; }
  lemma NameAgreesAt11() ensures NameAgrees(0x11) { assert Mnemonic("call_indirect") == "call_indirect"; }
  lemma NameAgreesAt12() ensures NameAgrees(0x12) { }
  lemma NameAgreesAt13() ensures NameAgrees(0x13) { }
  lemma NameAgreesAt14() ensures NameAgrees(0x14) { }
  lemma NameAgreesAt15() ensures NameAgrees(0x15) { }
  lemma NameAgreesAt16() ensures NameAgrees(0x16) { }
  lemma NameAgreesAt17() ensures NameAgrees(0x17) { }
  lemma NameAgreesAt18() ensures NameAgrees(0x18) { }
  lemma NameAgreesAt19() ensures NameAgrees(0x19) { }
  lemma NameAgreesAt1A() ensures NameAgrees(0x1a) { assert Mnemonic("drop") == "drop"; }
  lemma NameAgreesAt1B() ensures NameAgrees(0x1b) { assert Mnemonic("select") == "select"; }
  lemma NameAgreesAt1C() ensures NameAgrees(0x1c) { }
  lemma NameAgreesAt1D() ensures NameAgrees(0x1d) { }
  lemma NameAgreesAt1E() ensures NameAgrees(0x1e) { }
  lemma NameAgreesAt1F() ensures NameAgrees(0x1f) { }
  lemma NameAgreesAt20() ensures NameAgrees(0x20) { assert Mnemonic("get_local") == "get_local"; }
  lemma NameAgreesAt21() ensures NameAgrees(0x21) { assert Mnemonic("set_local") == "set_local"; }
  lemma NameAgreesAt22() ensures NameAgrees(0x22) { assert Mnemonic("tee_local") == "tee_local"; }
  lemma NameAgreesAt23() ensures NameAgrees(0x23) { assert Mnemonic("get_global") == "get_global"; }
  lemma NameAgreesAt24() ensures NameAgrees(0x24) { assert Mnemonic("set_global") == "set_global"; }
  lemma NameAgreesAt25() ensures NameAgrees(0x25) { }
  lemma NameAgreesAt26() ensures NameAgrees(0x26) { }
  lemma NameAgreesAt27() ensures NameAgrees(0x27) { }
  lemma NameAgreesAt28() ensures NameAgrees(0x28) { assert Mnemonic("i32_load") == "i32.load"; }
  lemma NameAgreesAt29() ensures NameAgrees(0x29) { assert Mnemonic("i64_load") == "i64.load"; }
  lemma NameAgreesAt2A() ensures NameAgrees(0x2a) { assert Mnemonic("f32_load") == "f32.load"; }
  lemma NameAgreesAt2B() ensures NameAgrees(0x2b) { assert Mnemonic("f64_load") == "f64.load"; }
  lemma NameAgreesAt2C() ensures NameAgrees(0x2c) { assert Mnemonic("i32_load8_s") == "i32.load8_s"; }
  lemma NameAgreesAt2D() ensures NameAgrees(0x2d) { assert Mnemonic("i32_load8_u") == "i32.load8_u"; }
  lemma NameAgreesAt2E() ensures NameAgrees(0x2e) { assert Mnemonic("i32_load16_s") == "i32.load16_s"; }
  lemma NameAgreesAt2F() ensures NameAgrees(0x2f) { assert Mnemonic("i32_load16_u") == "i32.load16_u"; }
  lemma NameAgreesAt30() ensures NameAgrees(0x30) { assert Mnemonic("i64_load8_s") == "i64.load8_s"; }
  lemma NameAgreesAt31() ensures NameAgrees(0x31) { assert Mnemonic("i64_load8_u") == "i64.load8_u"; }
  lemma NameAgreesAt32() ensures NameAgrees(0x32) { assert Mnemonic("i64_load16_s") == "i64.load16_s"; }
  lemma NameAgreesAt33() ensures NameAgrees(0x33) { assert Mnemonic("i64_load16_u") == "i64.load16_u"; }
  lemma NameAgreesAt34() ensures NameAgrees(0x34) { assert Mnemonic("i64_load32_s") == "i64.load32_s"; }
  lemma NameAgreesAt35() ensures NameAgrees(0x35) { assert Mnemonic("i64_load32_u") == "i64.load32_u"; }
  lemma NameAgreesAt36() ensures NameAgrees(0x36) { assert Mnemonic("i32_store") == "i32.store"; }
  lemma NameAgreesAt37() ensures NameAgrees(0x37) { assert Mnemonic("i64_store") == "i64.store"; }
  lemma NameAgreesAt38() ensures NameAgrees(0x38) { assert Mnemonic("f32_store") == "f32.store"; }
  lemma NameAgreesAt39() ensures NameAgrees(0x39) { assert Mnemonic("f64_store") == "f64.store"; }
  lemma NameAgreesAt3A() ensures NameAgrees(0x3a) { assert Mnemonic("i32_store8") == "i32.store8"; }
  lemma NameAgreesAt3B() ensures NameAgrees(0x3b) { assert Mnemonic("i32_store16") == "i32.store16"; }
  lemma NameAgreesAt3C() ensures NameAgrees(0x3c) { assert Mnemonic("i64_store8") == "i64.store8"; }
  lemma NameAgreesAt3D() ensures NameAgrees(0x3d) { assert Mnemonic("i64_store16") == "i64.store16"; }
  lemma NameAgreesAt3E() ensures NameAgrees(0x3e) { assert Mnemonic("i64_store32") == "i64.store32"; }
  lemma NameAgreesAt3F() ensures NameAgrees(0x3f) { assert Mnemonic("current_memory") == "current_memory"; }
  lemma NameAgreesAt40() ensures NameAgrees(0x40) { assert Mnemonic("grow_memory") == "grow_memory"; }
  lemma NameAgreesAt41() ensures NameAgrees(0x41) { assert Mnemonic("i32_const") == "i32.const"; }
  lemma NameAgreesAt42() ensures NameAgrees(0x42) { assert Mnemonic("i64_const") == "i64.const"; }
  lemma NameAgreesAt43() ensures NameAgrees(0x43) { assert Mnemonic("f32_const") == "f32.const"; }
  lemma NameAgreesAt44() ensures NameAgrees(0x44) { assert Mnemonic("f64_const") == "f64.const"; }
  lemma NameAgreesAt45() ensures NameAgrees(0x45) { assert Mnemonic("i32_eqz") == "i32.eqz"; }
  lemma NameAgreesAt46() ensures NameAgrees(0x46) { assert Mnemonic("i32_eq") == "i32.eq"; }
  lemma NameAgreesAt47() ensures NameAgrees(0x47) { assert Mnemonic("i32_ne") == "i32.ne"; }
  lemma NameAgreesAt48() ensures NameAgrees(0x48) { assert Mnemonic("i32_lt_s") == "i32.lt_s"; }
  lemma NameAgreesAt49() ensures NameAgrees(0x49) { assert Mnemonic("i32_lt_u") == "i32.lt_u"; }
  lemma NameAgreesAt4A() ensures NameAgrees(0x4a) { assert Mnemonic("i32_gt_s") == "i32.gt_s"; }
  lemma NameAgreesAt4B() ensures NameAgrees(0x4b) { assert Mnemonic("i32_gt_u") == "i32.gt_u"; }
  lemma NameAgreesAt4C() ensures NameAgrees(0x4c) { assert Mnemonic("i32_le_s") == "i32.le_s"; }
  lemma NameAgreesAt4D() ensures NameAgrees(0x4d) { assert Mnemonic("i32_le_u") == "i32.le_u"; }
  lemma NameAgreesAt4E() ensures NameAgrees(0x4e) { assert Mnemonic("i32_ge_s") == "i32.ge_s"; }
  lemma NameAgreesAt4F() ensures NameAgrees(0x4f) { assert Mnemonic("i32_ge_u") == "i32.ge_u"; }
  lemma NameAgreesAt50() ensures NameAgrees(0x50) { assert Mnemonic("i64_eqz") == "i64.eqz"; }
  lemma NameAgreesAt51() ensures NameAgrees(0x51) { assert Mnemonic("i64_eq") == "i64.eq"; }
  lemma NameAgreesAt52() ensures NameAgrees(0x52) { assert Mnemonic("i64_ne") == "i64.ne"; }
  lemma NameAgreesAt53() ensures NameAgrees(0x53) { assert Mnemonic("i64_lt_s") == "i64.lt_s"; }
  lemma NameAgreesAt54() ensures NameAgrees(0x54) { assert Mnemonic("i64_lt_u") == "i64.lt_u"; }
  lemma NameAgreesAt55() ensures NameAgrees(0x55) { assert Mnemonic("i64_gt_s") == "i64.gt_s"; }
  lemma NameAgreesAt56() ensures NameAgrees(0x56) { assert Mnemonic("i64_gt_u") == "i64.gt_u"; }
  lemma NameAgreesAt57() ensures NameAgrees(0x57) { assert Mnemonic("i64_le_s") == "i64.le_s"; }
  lemma NameAgreesAt58() ensures NameAgrees(0x58) { assert Mnemonic("i64_le_u") == "i64.le_u"; }
  lemma NameAgreesAt59() ensures NameAgrees(0x59) { assert Mnemonic("i64_ge_s") == "i64.ge_s"; }
  lemma NameAgreesAt5A() ensures NameAgrees(0x5a) { assert Mnemonic("i64_ge_u") == "i64.ge_u"; }
  lemma NameAgreesAt5B() ensures NameAgrees(0x5b) { assert Mnemonic("f32_eq") == "f32.eq"; }
  lemma NameAgreesAt5C() ensures NameAgrees(0x5c) { assert Mnemonic("f32_ne") == "f32.ne"; }
  lemma NameAgreesAt5D() ensures NameAgrees(0x5d) { assert Mnemonic("f32_lt") == "f32.lt"; }
  lemma NameAgreesAt5E() ensures NameAgrees(0x5e) { assert Mnemonic("f32_gt") == "f32.gt"; }
  lemma NameAgreesAt5F() ensures NameAgrees(0x5f) { assert Mnemonic("f32_le") == "f32.le"; }
  lemma NameAgreesAt60() ensures NameAgrees(0x60) { assert Mnemonic("f32_ge") == "f32.ge"; }
  lemma NameAgreesAt61() ensures NameAgrees(0x61) { assert Mnemonic("f64_eq") == "f64.eq"; }
  lemma NameAgreesAt62() ensures NameAgrees(0x62) { assert Mnemonic("f64_ne") == "f64.ne"; }
  lemma NameAgreesAt63() ensures NameAgrees(0x63) { assert Mnemonic("f64_lt") == "f64.lt"; }
  lemma NameAgreesAt64() ensures NameAgrees(0x64) { assert Mnemonic("f64_gt") == "f64.gt"; }
  lemma NameAgreesAt65() ensures NameAgrees(0x65) { assert Mnemonic("f64_le") == "f64.le"; }
  lemma NameAgreesAt66() ensures NameAgrees(0x66) { assert Mnemonic("f64_ge") == "f64.ge"; }
  lemma NameAgreesAt67() ensures NameAgrees(0x67) { assert Mnemonic("i32_clz") == "i32.clz"; }
  lemma NameAgreesAt68() ensures NameAgrees(0x68) { assert Mnemonic("i32_ctz") == "i32.ctz"; }
  lemma NameAgreesAt69() ensures NameAgrees(0x69) { assert Mnemonic("i32_popcnt") == "i32.popcnt"; }
  lemma NameAgreesAt6A() ensures NameAgrees(0x6a) { assert Mnemonic("i32_add") == "i32.add"; }
  lemma NameAgreesAt6B() ensures NameAgrees(0x6b) { assert Mnemonic("i32_sub") == "i32.sub"; }
  lemma NameAgreesAt6C() ensures NameAgrees(0x6c) { assert Mnemonic("i32_mul") == "i32.mul"; }
  lemma NameAgreesAt6D() ensures NameAgrees(0x6d) { assert Mnemonic("i32_div_s") == "i32.div_s"; }
  lemma NameAgreesAt6E() ensures NameAgrees(0x6e) { assert Mnemonic("i32_div_u") == "i32.div_u"; }
  lemma NameAgreesAt6F() ensures NameAgrees(0x6f) { assert Mnemonic("i32_rem_s") == "i32.rem_s"; }
  lemma NameAgreesAt70() ensures NameAgrees(0x70) { assert Mnemonic("i32_rem_u") == "i32.rem_u"; }
  lemma NameAgreesAt71() ensures NameAgrees(0x71) { assert Mnemonic("i32_and") == "i32.and"; }
  lemma NameAgreesAt72() ensures NameAgrees(0x72) { assert Mnemonic("i32_or") == "i32.or"; }
  lemma NameAgreesAt73() ensures NameAgrees(0x73) { assert Mnemonic("i32_xor") == "i32.xor"; }
  lemma NameAgreesAt74() ensures NameAgrees(0x74) { assert Mnemonic("i32_shl") == "i32.shl"; }
  lemma NameAgreesAt75() ensures NameAgrees(0x75) { assert Mnemonic("i32_shr_s") == "i32.shr_s"; }
  lemma NameAgreesAt76() ensures NameAgrees(0x76) { assert Mnemonic("i32_shr_u") == "i32.shr_u"; }
  lemma NameAgreesAt77() ensures NameAgrees(0x77) { assert Mnemonic("i32_rotl") == "i32.rotl"; }
  lemma NameAgreesAt78() ensures NameAgrees(0x78) { assert Mnemonic("i32_rotr") == "i32.rotr"; }
  lemma NameAgreesAt79() ensures NameAgrees(0x79) { assert Mnemonic("i64_clz") == "i64.clz"; }
  lemma NameAgreesAt7A() ensures NameAgrees(0x7a) { assert Mnemonic("i64_ctz") == "i64.ctz"; }
  lemma NameAgreesAt7B() ensures NameAgrees(0x7b) { assert Mnemonic("i64_popcnt") == "i64.popcnt"; }
  lemma NameAgreesAt7C() ensures NameAgrees(0x7c) { assert Mnemonic("i64_add") == "i64.add"; }
  lemma NameAgreesAt7D() ensures NameAgrees(0x7d) { assert Mnemonic("i64_sub") == "i64.sub"; }
  lemma NameAgreesAt7E() ensures NameAgrees(0x7e) { assert Mnemonic("i64_mul") == "i64.mul"; }
  lemma NameAgreesAt7F() ensures NameAgrees(0x7f) { assert Mnemonic("i64_div_s") == "i64.div_s"; }
  lemma NameAgreesAt80() ensures NameAgrees(0x80) { assert Mnemonic("i64_div_u") == "i64.div_u"; }
  lemma NameAgreesAt81() ensures NameAgrees(0x81) { assert Mnemonic("i64_rem_s") == "i64.rem_s"; }
  lemma NameAgreesAt82() ensures NameAgrees(0x82) { assert Mnemonic("i64_rem_u") == "i64.rem_u"; }
  lemma NameAgreesAt83() ensures NameAgrees(0x83) { assert Mnemonic("i64_and") == "i64.and"; }
  lemma NameAgreesAt84() ensures NameAgrees(0x84) { assert Mnemonic("i64_or") == "i64.or"; }
  lemma NameAgreesAt85() ensures NameAgrees(0x85) { assert Mnemonic("i64_xor") == "i64.xor"; }
  lemma NameAgreesAt86() ensures NameAgrees(0x86) { assert Mnemonic("i64_shl") == "i64.shl"; }
  lemma NameAgreesAt87() ensures NameAgrees(0x87) { assert Mnemonic("i64_shr_s") == "i64.shr_s"; }
  lemma NameAgreesAt88() ensures NameAgrees(0x88) { assert Mnemonic("i64_shr_u") == "i64.shr_u"; }
  lemma NameAgreesAt89() ensures NameAgrees(0x89) { assert Mnemonic("i64_rotl") == "i64.rotl"; }
  lemma NameAgreesAt8A() ensures NameAgrees(0x8a) { assert Mnemonic("i64_rotr") == "i64.rotr"; }
  lemma NameAgreesAt8B() ensures NameAgrees(0x8b) { assert Mnemonic("f32_abs") == "f32.abs"; }
  lemma NameAgreesAt8C() ensures NameAgrees(0x8c) { assert Mnemonic("f32_neg") == "f32.neg"; }
  lemma NameAgreesAt8D() ensures NameAgrees(0x8d) { assert Mnemonic("f32_ceil") == "f32.ceil"; }
  lemma NameAgreesAt8E() ensures NameAgrees(0x8e) { assert Mnemonic("f32_floor") == "f32.floor"; }
  lemma NameAgreesAt8F() ensures NameAgrees(0x8f) { assert Mnemonic("f32_trunc") == "f32.trunc"; }
  lemma NameAgreesAt90() ensures NameAgrees(0x90) { assert Mnemonic("f32_nearest") == "f32.nearest"; }
  lemma NameAgreesAt91() ensures NameAgrees(0x91) { assert Mnemonic("f32_sqrt") == "f32.sqrt"; }
  lemma NameAgreesAt92() ensures NameAgrees(0x92) { assert Mnemonic("f32_add") == "f32.add"; }
  lemma NameAgreesAt93() ensures NameAgrees(0x93) { assert Mnemonic("f32_sub") == "f32.sub"; }
  lemma NameAgreesAt94() ensures NameAgrees(0x94) { assert Mnemonic("f32_mul") == "f32.mul"; }
  lemma NameAgreesAt95() ensures NameAgrees(0x95) { assert Mnemonic("f32_div") == "f32.div"; }
  lemma NameAgreesAt96() ensures NameAgrees(0x96) { assert Mnemonic("f32_min") == "f32.min"; }
  lemma NameAgreesAt97() ensures NameAgrees(0x97) { assert Mnemonic("f32_max") == "f32.max"; }
  lemma NameAgreesAt98() ensures NameAgrees(0x98) { assert Mnemonic("f32_copysign") == "f32.copysign"; }
  lemma NameAgreesAt99() ensures NameAgrees(0x99) { assert Mnemonic("f64_abs") == "f64.abs"; }
  lemma NameAgreesAt9A() ensures NameAgrees(0x9a) { assert Mnemonic("f64_neg") == "f64.neg"; }
  lemma NameAgreesAt9B() ensures NameAgrees(0x9b) { assert Mnemonic("f64_ceil") == "f64.ceil"; }
  lemma NameAgreesAt9C() ensures NameAgrees(0x9c) { assert Mnemonic("f64_floor") == "f64.floor"; }
  lemma NameAgreesAt9D() ensures NameAgrees(0x9d) { assert Mnemonic("f64_trunc") == "f64.trunc"; }
  lemma NameAgreesAt9E() ensures NameAgrees(0x9e) { assert Mnemonic("f64_nearest") == "f64.nearest"; }
  lemma NameAgreesAt9F() ensures NameAgrees(0x9f) { assert Mnemonic("f64_sqrt") == "f64.sqrt"; }
  lemma NameAgreesAtA0() ensures NameAgrees(0xa0) { assert Mnemonic("f64_add") == "f64.add"; }
  lemma NameAgreesAtA1() ensures NameAgrees(0xa1) { assert Mnemonic("f64_sub") == "f64.sub"; }
  lemma NameAgreesAtA2() ensures NameAgrees(0xa2) { assert Mnemonic("f64_mul") == "f64.mul"; }
  lemma NameAgreesAtA3() ensures NameAgrees(0xa3) { assert Mnemonic("f64_div") == "f64.div"; }
  lemma NameAgreesAtA4() ensures NameAgrees(0xa4) { assert Mnemonic("f64_min") == "f64.min"; }
  lemma NameAgreesAtA5() ensures NameAgrees(0xa5) { assert Mnemonic("f64_max") == "f64.max"; }
  lemma NameAgreesAtA6() ensures NameAgrees(0xa6) { assert Mnemonic("f64_copysign") == "f64.copysign"; }
  lemma NameAgreesAtA7() ensures NameAgrees(0xa7) { assert DotAfterType("i32_wrap_i64") == "i32.wrap_i64"; assert SlashBeforeType("i32.wrap_i64") == "i32.wrap/i64"; }
  lemma NameAgreesAtA8() ensures NameAgrees(0xa8) { assert DotAfterType("i32_trunc_s_f32") == "i32.trunc_s_f32"; assert SlashBeforeType("i32.trunc_s_f32") == "i32.trunc_s/f32"; }
  lemma NameAgreesAtA9() ensures NameAgrees(0xa9) { assert DotAfterType("i32_trunc_u_f32") == "i32.trunc_u_f32"; assert SlashBeforeType("i32.trunc_u_f32") == "i32.trunc_u/f32"; }
  lemma NameAgreesAtAA() ensures NameAgrees(0xaa) { assert DotAfterType("i32_trunc_s_f64") == "i32.trunc_s_f64"; assert SlashBeforeType("i32.trunc_s_f64") == "i32.trunc_s/f64"; }
  lemma NameAgreesAtAB() ensures NameAgrees(0xab) { assert DotAfterType("i32_trunc_u_f64") == "i32.trunc_u_f64"; assert SlashBeforeType("i32.trunc_u_f64") == "i32.trunc_u/f64"; }
  lemma NameAgreesAtAC() ensures NameAgrees(0xac) { assert DotAfterType("i64_extend_s_i32") == "i64.extend_s_i32"; assert SlashBeforeType("i64.extend_s_i32") == "i64.extend_s/i32"; }
  lemma NameAgreesAtAD() ensures NameAgrees(0xad) { assert DotAfterType("i64_extend_u_i32") == "i64.extend_u_i32"; assert SlashBeforeType("i64.extend_u_i32") == "i64.extend_u/i32"; }
  lemma NameAgreesAtAE() ensures NameAgrees(0xae) { assert DotAfterType("i64_trunc_s_f32") == "i64.trunc_s_f32"; assert SlashBeforeType("i64.trunc_s_f32") == "i64.trunc_s/f32"; }
  lemma NameAgreesAtAF() ensures NameAgrees(0xaf) { assert DotAfterType("i64_trunc_u_f32") == "i64.trunc_u_f32"; assert SlashBeforeType("i64.trunc_u_f32") == "i64.trunc_u/f32"; }
  lemma NameAgreesAtB0() ensures NameAgrees(0xb0) { assert DotAfterType("i64_trunc_s_f64") == "i64.trunc_s_f64"; assert SlashBeforeType("i64.trunc_s_f64") == "i64.trunc_s/f64"; }
  lemma NameAgreesAtB1() ensures NameAgrees(0xb1) { assert DotAfterType("i64_trunc_u_f64") == "i64.trunc_u_f64"; assert SlashBeforeType("i64.trunc_u_f64") == "i64.trunc_u/f64"; }
  lemma NameAgreesAtB2() ensures NameAgrees(0xb2) { assert DotAfterType("f32_convert_s_i32") == "f32.convert_s_i32"; assert SlashBeforeType("f32.convert_s_i32") == "f32.convert_s/i32"; }
  lemma NameAgreesAtB3() ensures NameAgrees(0xb3) { assert DotAfterType("f32_convert_u_i32") == "f32.convert_u_i32"; assert SlashBeforeType("f32.convert_u_i32") == "f32.convert_u/i32"; }
  lemma NameAgreesAtB4() ensures NameAgrees(0xb4) { assert DotAfterType("f32_convert_s_i64") == "f32.convert_s_i64"; assert SlashBeforeType("f32.convert_s_i64") == "f32.convert_s/i64"; }
  lemma NameAgreesAtB5() ensures NameAgrees(0xb5) { assert DotAfterType("f32_convert_u_i64") == "f32.convert_u_i64"; assert SlashBeforeType("f32.convert_u_i64") == "f32.convert_u/i64"; }
  lemma NameAgreesAtB6() ensures NameAgrees(0xb6) { assert DotAfterType("f32_demote_f64") == "f32.demote_f64"; assert SlashBeforeType("f32.demote_f64") == "f32.demote/f64"; }
  lemma NameAgreesAtB7() ensures NameAgrees(0xb7) { assert DotAfterType("f64_convert_s_i32") == "f64.convert_s_i32"; assert SlashBeforeType("f64.convert_s_i32") == "f64.convert_s/i32"; }
  lemma NameAgreesAtB8() ensures NameAgrees(0xb8) { assert DotAfterType("f64_convert_u_i32") == "f64.convert_u_i32"; assert SlashBeforeType("f64.convert_u_i32") == "f64.convert_u/i32"; }
  lemma NameAgreesAtB9() ensures NameAgrees(0xb9) { assert DotAfterType("f64_convert_s_i64") == "f64.convert_s_i64"; assert SlashBeforeType("f64.convert_s_i64") == "f64.convert_s/i64"; }
  lemma NameAgreesAtBA() ensures NameAgrees(0xba) { assert DotAfterType("f64_convert_u_i64") == "f64.convert_u_i64"; assert SlashBeforeType("f64.convert_u_i64") == "f64.convert_u/i64"; }
  lemma NameAgreesAtBB() ensures NameAgrees(0xbb) { assert DotAfterType("f64_promote_f32") == "f64.promote_f32"; assert SlashBeforeType("f64.promote_f32") == "f64.promote/f32"; }
  lemma NameAgreesAtBC() ensures NameAgrees(0xbc) { assert DotAfterType("i32_reinterpret_f32") == "i32.reinterpret_f32"; assert SlashBeforeType("i32.reinterpret_f32") == "i32.reinterpret/f32"; }
  lemma NameAgreesAtBD() ensures NameAgrees(0xbd) { assert DotAfterType("i64_reinterpret_f64") == "i64.reinterpret_f64"; assert SlashBeforeType("i64.reinterpret_f64") == "i64.reinterpret/f64"; }
  lemma NameAgreesAtBE() ensures NameAgrees(0xbe) { assert DotAfterType("f32_reinterpret_i32") == "f32.reinterpret_i32"; assert SlashBeforeType("f32.reinterpret_i32") == "f32.reinterpret/i32"; }
  lemma NameAgreesAtBF() ensures NameAgrees(0xbf) { assert DotAfterType("f64_reinterpret_i64") == "f64.reinterpret_i64"; assert SlashBeforeType("f64.reinterpret_i64") == "f64.reinterpret/i64"; }
}

=== FILE: reader.dfy ===
/** `BinaryReader`: the pull parser. `ReadAsWritten` is one call of `read()`
    as the code stands and `Read` one call of the corrected `read()`
    described below; every private reader they call is a step function here. Each step returns the
    boolean `read()` would return, or the exception it would raise, together
    with the reader's fields afterwards.

    `read()` has one defect in the custom `linking` section and in the
    `RELOC_SECTION_HEADER` state: the entry count is consumed before the
    state records that it was, so a short read leaves a reader that reads
    the count again. `ReadStep` takes a flag: `resumable == false` is the
    code as written, `resumable == true` records the state first, as every
    other section does. */
module WasmReader {
  import opened Common
  import opened Leb
  import opened I64
  import opened ReaderTypes
  import opened Decode

  /** `new BinaryReader()`. */
  function NewReader(): (r: Reader)
    ensures r.state == Initial && r.pos == 0 && r.length == 0 && !r.eof
    ensures r.sectionRange.None? && r.functionRange.None? && r.error.None?
  {
    Reader([], 0, 0, false, Initial, NoResult, None, 0, SectionUnknown, None, None)
  }

  /** The fields `read()` never writes: the buffer and how much of it is valid. */
  predicate SameInput(a: Reader, b: Reader)
  {
    a.data == b.data && a.length == b.length && a.eof == b.eof
  }

  /** `setData(buffer, pos, length, eof)`: a new buffer, with the open ranges
      moved by as much as the position moved. An omitted `eof` means `true`. */
  function SetData(r: Reader, data: seq<Byte>, pos: int, length: int, eof: Option<bool>): (r': Reader)
    ensures r'.data == data && r'.pos == pos && r'.length == length
    ensures r'.eof <==> eof != Some(false)
    ensures r'.state == r.state && r'.result == r.result && r'.error == r.error
    ensures r'.sectionEntriesLeft == r.sectionEntriesLeft && r'.sectionId == r.sectionId
    ensures r'.sectionRange.Some? <==> r.sectionRange.Some?
    ensures r'.functionRange.Some? <==> r.functionRange.Some?
    ensures r.sectionRange.Some? ==>
      r'.sectionRange.value.start - r'.pos == r.sectionRange.value.start - r.pos &&
      r'.sectionRange.value.end - r'.pos == r.sectionRange.value.end - r.pos
    ensures r.functionRange.Some? ==>
      r'.functionRange.value.start - r'.pos == r.functionRange.value.start - r.pos &&
      r'.functionRange.value.end - r'.pos == r.functionRange.value.end - r.pos
  {
    var delta := pos - r.pos;
    var eofFlag := match eof case None => true case Some(b) => b;
    var sectionRange := match r.sectionRange case None => None case Some(s) => Some(s.Offset(delta));
    var functionRange := match r.functionRange case None => None case Some(f) => Some(f.Offset(delta));
    r.(data := data, pos := pos, length := length, eof := eofFlag,
       sectionRange := sectionRange, functionRange := functionRange)
  }

  // ---------------------------------------------------------------------------
  // The module header

  /** The four bytes at `pos` as `readInt32()`/`peekInt32()` combine them. */
  function Int32At(data: seq<Byte>, pos: int): (v: int)
    ensures v == ToInt32(LeValue([ByteAt(data, pos), ByteAt(data, pos + 1), ByteAt(data, pos + 2), ByteAt(data, pos + 3)]))
  {
    Int32Le(ByteAt(data, pos), ByteAt(data, pos + 1), ByteAt(data, pos + 2), ByteAt(data, pos + 3))
  }

  /** The `INITIAL` case: eight bytes, the magic number, a supported version. */
  function InitialStep(r: Reader): (o: ReadOutcome)
    ensures o.Returned? && SameInput(o.reader, r)
    ensures !o.ok <==> r.pos + 8 > r.length
    ensures !o.ok ==> o.reader == r
    ensures o.ok ==> o.reader.state == BeginWasm || o.reader.state == Error
    ensures o.ok && o.reader.state == BeginWasm ==>
      Int32At(r.data, r.pos) == WasmMagicNumber &&
      o.reader.result == ModuleHeader(WasmMagicNumber, Int32At(r.data, r.pos + 4)) &&
      (o.reader.result.version == WasmSupportedVersion || o.reader.result.version == WasmSupportedExperimentalVersion) &&
      o.reader.pos == r.pos + 8
  {
    if !HasBytes(r.pos, r.length, 8) then Returned(false, r)
    else
      var magicNumber := Int32At(r.data, r.pos);
      if magicNumber != WasmMagicNumber then
        Returned(true, r.(pos := r.pos + 4, error := Some(BadMagicNumber), state := Error))
      else
        var version := Int32At(r.data, r.pos + 4);
        if version != WasmSupportedVersion && version != WasmSupportedExperimentalVersion then
          Returned(true, r.(pos := r.pos + 8, error := Some(BadVersionNumber(version)), state := Error))
        else Returned(true, r.(pos := r.pos + 8, result := ModuleHeader(magicNumber, version), state := BeginWasm))
  }

  /** The `END_WASM` case: with another byte the next module starts at
      `INITIAL` within the same call; otherwise the call returns false. */
  function EndWasmStep(r: Reader): (o: ReadOutcome)
    ensures o.Returned? && SameInput(o.reader, r)
    ensures r.pos + 1 > r.length ==> o == Returned(false, r.(result := NoResult, state := BeginWasm))
    ensures r.pos + 1 <= r.length ==> o == InitialStep(r.(result := NoResult, state := Initial))
  {
    var r1 := r.(result := NoResult, state := BeginWasm);
    if HasBytes(r.pos, r.length, 1) then InitialStep(r1.(state := Initial))
    else Returned(false, r1)
  }

  /** The reader once the module is over. */
  function AtEndWasm(r: Reader): (r': Reader)
    ensures r'.state == EndWasm && r'.sectionRange.None? && r'.result == NoResult
  {
    r.(sectionId := SectionUnknown, sectionRange := None, result := NoResult, state := EndWasm)
  }

  /** `readSectionHeader()`: the end of the input or the magic number of a
      following module ends this one; otherwise a raw id byte, an unsigned
      payload length, and for custom sections the name. */
  function SectionHeaderStep(r: Reader): (o: ReadOutcome)
    ensures o.Returned? && SameInput(o.reader, r)
    ensures !o.ok ==> o.reader == r
    ensures r.pos >= r.length && r.eof ==> o == Returned(true, AtEndWasm(r))
    ensures o.ok ==> o.reader.state == EndWasm || o.reader.state == BeginSection
    ensures o.ok && o.reader.state == BeginSection ==>
      && o.reader.result.SectionInfo?
      && o.reader.result.id == ByteAt(r.data, r.pos)
      && o.reader.sectionId == o.reader.result.id
      && (o.reader.result.name.Some? <==> o.reader.result.id == SectionCustom)
      && o.reader.sectionRange == Some(DataRange(o.reader.pos,
           r.pos + 1 + |Groups(r.data, r.pos + 1)| + ReadVarUint32(r.data, r.pos + 1).value))
  {
    if r.pos >= r.length && r.eof then Returned(true, AtEndWasm(r))
    else if r.pos < r.length - 4 && Int32At(r.data, r.pos) == WasmMagicNumber then Returned(true, AtEndWasm(r))
    else if !HasVarIntBytes(r.data, r.pos, r.length) then Returned(false, r)
    else
      var id := ByteAt(r.data, r.pos);
      if !HasVarIntBytes(r.data, r.pos + 1, r.length) then Returned(false, r)
      else
        var payloadLength := ReadVarUint32(r.data, r.pos + 1);
        var payloadEnd := payloadLength.next + payloadLength.value;
        if id == SectionCustom then
          if !HasStringBytes(r.data, payloadLength.next, r.length) then Returned(false, r)
          else
            var name := ReadStringBytes(r.data, payloadLength.next);
            Returned(true, r.(pos := name.next, result := SectionInfo(id, Some(name.value)), sectionId := id,
                              sectionRange := Some(DataRange(name.next, payloadEnd)), state := BeginSection))
        else
          Returned(true, r.(pos := payloadLength.next, result := SectionInfo(id, None), sectionId := id,
                            sectionRange := Some(DataRange(payloadLength.next, payloadEnd)), state := BeginSection))
  }

  // ---------------------------------------------------------------------------
  // Skipping

  /** The reader once the current section is over. */
  function AtEndSection(r: Reader, end: int): (r': Reader)
    ensures r'.state == EndSection && r'.pos == end && r'.sectionRange.None? && r'.result == NoResult
  {
    r.(state := EndSection, pos := end, sectionId := SectionUnknown, sectionRange := None, result := NoResult)
  }

  /** The `SKIPPING_SECTION` case: wait for the whole payload, then jump to
      its end. */
  function SkippingSectionStep(r: Reader): (o: ReadOutcome)
    ensures SameInput(o.reader, r)
    ensures o.Threw? <==> r.sectionRange.None?
    ensures o.Returned? && !o.ok ==> o.reader == r
    ensures o.Returned? && o.ok ==> o.reader == AtEndSection(r, r.sectionRange.value.end)
    ensures o.Returned? ==> (o.ok <==> r.sectionRange.value.end <= r.length)
  {
    match r.sectionRange
    case None => Threw(TypeError, r)
    case Some(range) =>
      if !HasBytes(r.pos, r.length, range.end - r.pos) then Returned(false, r)
      else Returned(true, AtEndSection(r, range.end))
  }

  /** What an entry reader does once no entries are left: with the whole
      payload there, `END_SECTION` at the end of the payload; without it,
      false in `SKIPPING_SECTION`, so that the next call waits for it; with
      no section range, a TypeError. */
  predicate SkippedRest(r: Reader, o: ReadOutcome)
  {
    match r.sectionRange
    case None => o == Threw(TypeError, r.(state := SkippingSection))
    case Some(range) =>
      if range.end <= r.length then
        o == Returned(true, r.(state := EndSection, pos := range.end, sectionId := SectionUnknown,
                               sectionRange := None, result := NoResult))
      else o == Returned(false, r.(state := SkippingSection))
  }

  /** `skipSection()` followed by `read()`, as an entry reader does when no
      entries are left. Every such caller is in a state inside a section,
      which `skipSection()` turns into `SKIPPING_SECTION`. */
  function SkipRestOfSection(r: Reader): (o: ReadOutcome)
    ensures SameInput(o.reader, r)
    ensures SkippedRest(r, o)
    ensures o.Returned? && !o.ok ==> o.reader == r.(state := SkippingSection)
    ensures o.Returned? && o.ok ==> o.reader.state == EndSection
    ensures o.Threw? <==> r.sectionRange.None?
    ensures o.Threw? ==> o.exception == TypeError
  {
    SkippingSectionStep(r.(state := SkippingSection))
  }

  /** The `SKIPPING_FUNCTION_BODY` case: jump to the end of the body. The
      state is set before the range is dereferenced, so without a range the
      `TypeError` leaves the reader in `END_FUNCTION_BODY`. */
  function SkippingFunctionBodyStep(r: Reader): (o: ReadOutcome)
    ensures SameInput(o.reader, r)
    ensures o.Threw? <==> r.functionRange.None?
    ensures o.Threw? ==> o == Threw(TypeError, r.(state := EndFunctionBody))
    ensures o.Returned? ==> o.ok && o.reader.state == EndFunctionBody
    ensures o.Returned? ==> o.reader.pos == r.functionRange.value.end && o.reader.functionRange.None?
    ensures o.Returned? ==> o.reader.sectionRange == r.sectionRange
  {
    match r.functionRange
    case None => Threw(TypeError, r.(state := EndFunctionBody))
    case Some(range) =>
      Returned(true, r.(state := EndFunctionBody, pos := range.end, functionRange := None, result := NoResult))
  }

  // ---------------------------------------------------------------------------
  // Entries of the known sections

  /** `o` returns one entry: state `s`, result `v`, position `next`, one
      entry fewer left, and nothing else changed. */
  predicate TookEntry(r: Reader, o: ReadOutcome, s: ReaderState, v: ReaderResult, next: int)
  {
    o == Returned(true, r.(state := s, result := v, pos := next, sectionEntriesLeft := r.sectionEntriesLeft - 1))
  }

  /** The shape every entry reader shares: no entries left means skip the
      rest of the section; otherwise one entry read in state `s`. */
  function Entry(r: Reader, s: ReaderState, d: Decoded<ReaderResult>): (o: ReadOutcome)
    ensures r.sectionEntriesLeft != 0 ==> TookEntry(r, o, s, d.value, d.next)
    ensures r.sectionEntriesLeft == 0 ==> SkippedRest(r, o)
    ensures SameInput(o.reader, r)
  {
    if r.sectionEntriesLeft == 0 then SkipRestOfSection(r)
    else Returned(true, r.(state := s, result := d.value, pos := d.next, sectionEntriesLeft := r.sectionEntriesLeft - 1))
  }

  function TypeEntryStep(r: Reader): (o: ReadOutcome)
    ensures SameInput(o.reader, r)
    ensures r.sectionEntriesLeft != 0 ==>
      TookEntry(r, o, TypeSectionEntry, TypeEntry(ReadFuncType(r.data, r.pos).value), ReadFuncType(r.data, r.pos).next)
    ensures r.sectionEntriesLeft == 0 ==> SkippedRest(r, o)
  {
    var ft := ReadFuncType(r.data, r.pos);
    Entry(r, TypeSectionEntry, Decoded(TypeEntry(ft.value), ft.next))
  }

  function ImportEntryStep(r: Reader): (o: ReadOutcome)
    ensures SameInput(o.reader, r)
    ensures r.sectionEntriesLeft != 0 ==>
      TookEntry(r, o, ImportSectionEntry, ReadImportEntry(r.data, r.pos, r.length).value, ReadImportEntry(r.data, r.pos, r.length).next)
    ensures r.sectionEntriesLeft != 0 ==> o.reader.result.ImportEntry?
    ensures r.sectionEntriesLeft == 0 ==> SkippedRest(r, o)
  {
    Entry(r, ImportSectionEntry, ReadImportEntry(r.data, r.pos, r.length))
  }

  function ExportEntryStep(r: Reader): (o: ReadOutcome)
    ensures SameInput(o.reader, r)
    ensures r.sectionEntriesLeft != 0 ==>
      TookEntry(r, o, ExportSectionEntry, ReadExportEntry(r.data, r.pos).value, ReadExportEntry(r.data, r.pos).next)
    ensures r.sectionEntriesLeft != 0 ==> o.reader.result.ExportEntry?
    ensures r.sectionEntriesLeft == 0 ==> SkippedRest(r, o)
  {
    Entry(r, ExportSectionEntry, ReadExportEntry(r.data, r.pos))
  }

  function FunctionEntryStep(r: Reader): (o: ReadOutcome)
    ensures SameInput(o.reader, r)
    ensures r.sectionEntriesLeft != 0 ==>
      TookEntry(r, o, FunctionSectionEntry, FunctionEntry(ReadVarUint32(r.data, r.pos).value), ReadVarUint32(r.data, r.pos).next)
    ensures r.sectionEntriesLeft == 0 ==> SkippedRest(r, o)
  {
    var index := ReadVarUint32(r.data, r.pos);
    Entry(r, FunctionSectionEntry, Decoded(FunctionEntry(index.value), index.next))
  }

  function TableEntryStep(r: Reader): (o: ReadOutcome)
    ensures SameInput(o.reader, r)
    ensures r.sectionEntriesLeft != 0 ==>
      TookEntry(r, o, TableSectionEntry, TableEntry(ReadTableType(r.data, r.pos).value), ReadTableType(r.data, r.pos).next)
    ensures r.sectionEntriesLeft == 0 ==> SkippedRest(r, o)
  {
    var table := ReadTableType(r.data, r.pos);
    Entry(r, TableSectionEntry, Decoded(TableEntry(table.value), table.next))
  }

  function MemoryEntryStep(r: Reader): (o: ReadOutcome)
    ensures SameInput(o.reader, r)
    ensures r.sectionEntriesLeft != 0 ==>
      TookEntry(r, o, MemorySectionEntry, MemoryEntry(ReadLimits(r.data, r.pos).value), ReadLimits(r.data, r.pos).next)
    ensures r.sectionEntriesLeft == 0 ==> SkippedRest(r, o)
  {
    var memory := ReadLimits(r.data, r.pos);
    Entry(r, MemorySectionEntry, Decoded(MemoryEntry(memory.value), memory.next))
  }

  /** `readGlobalEntry()`: a short type leaves the reader in
      `GLOBAL_SECTION_ENTRY` so that the next call retries the entry. */
  function GlobalEntryStep(r: Reader): (o: ReadOutcome)
    ensures SameInput(o.reader, r)
    ensures r.sectionEntriesLeft != 0 && o.Returned? && !o.ok ==> o.reader == r.(state := GlobalSectionEntry)
    ensures r.sectionEntriesLeft != 0 && o.Returned? && o.ok ==> o.reader.state == BeginGlobalSectionEntry
    ensures r.sectionEntriesLeft != 0 ==> (o.Returned? && o.ok <==> ReadGlobalType(r.data, r.pos, r.length).Some?)
    ensures r.sectionEntriesLeft != 0 && ReadGlobalType(r.data, r.pos, r.length).Some? ==>
      TookEntry(r, o, BeginGlobalSectionEntry, GlobalVariable(ReadGlobalType(r.data, r.pos, r.length).value.value),
                ReadGlobalType(r.data, r.pos, r.length).value.next)
    ensures r.sectionEntriesLeft == 0 ==> SkippedRest(r, o)
  {
    if r.sectionEntriesLeft == 0 then SkipRestOfSection(r)
    else
      match ReadGlobalType(r.data, r.pos, r.length)
      case None => Returned(false, r.(state := GlobalSectionEntry))
      case Some(g) =>
        Returned(true, r.(state := BeginGlobalSectionEntry, result := GlobalVariable(g.value), pos := g.next,
                          sectionEntriesLeft := r.sectionEntriesLeft - 1))
  }

  /** `readElementEntry()`: the signed table index. */
  function ElementEntryStep(r: Reader): (o: ReadOutcome)
    ensures SameInput(o.reader, r)
    ensures r.sectionEntriesLeft != 0 && o.Returned? && !o.ok ==> o.reader == r.(state := ElementSectionEntry)
    ensures r.sectionEntriesLeft != 0 && o.Returned? && o.ok ==>
      o.reader.state == BeginElementSectionEntry && o.reader.result == ElementSegment(ReadVarUint32Signed(r.data, r.pos).value)
    ensures r.sectionEntriesLeft != 0 ==> (o.Returned? && o.ok <==> HasVarIntBytes(r.data, r.pos, r.length))
    ensures r.sectionEntriesLeft != 0 && o.Returned? && o.ok ==>
      TookEntry(r, o, BeginElementSectionEntry, ElementSegment(ReadVarUint32Signed(r.data, r.pos).value),
                ReadVarUint32Signed(r.data, r.pos).next)
    ensures r.sectionEntriesLeft == 0 ==> SkippedRest(r, o)
  {
    if r.sectionEntriesLeft == 0 then SkipRestOfSection(r)
    else if !HasVarIntBytes(r.data, r.pos, r.length) then Returned(false, r.(state := ElementSectionEntry))
    else
      var index := ReadVarUint32Signed(r.data, r.pos);
      Returned(true, r.(state := BeginElementSectionEntry, result := ElementSegment(index.value), pos := index.next,
                        sectionEntriesLeft := r.sectionEntriesLeft - 1))
  }

  /** `readElementEntryBody()`. A negative count throws with the position
      after the count. */
  function ElementEntryBodyStep(r: Reader): (o: ReadOutcome)
    ensures SameInput(o.reader, r)
    ensures o.Returned? && !o.ok ==> o.reader == r
    ensures o.Returned? && o.ok ==> o.reader.state == ElementSectionEntryBody && o.reader.result.ElementSegmentBody?
    ensures o.Threw? ==> o.exception == RangeError
    ensures o.Returned? && o.ok ==>
      && ReadElementBody(r.data, r.pos, r.length).Got?
      && o.reader.result == ElementSegmentBody(ReadElementBody(r.data, r.pos, r.length).value)
      && o.reader.pos == ReadElementBody(r.data, r.pos, r.length).next
    ensures
      var count := ReadVarUint32Signed(r.data, r.pos);
      o.Threw? <==> HasVarIntBytes(r.data, r.pos, r.length) && HasBytes(count.next, r.length, count.value) && count.value < 0
  {
    match ReadElementBody(r.data, r.pos, r.length)
    case Got(elements, next) =>
      Returned(true, r.(state := ElementSectionEntryBody, result := ElementSegmentBody(elements), pos := next))
    case Fault(e) => Threw(e, r.(pos := ReadVarUint32(r.data, r.pos).next))
    case NotEnough => Returned(false, r)
    case Invalid(_) => Returned(false, r)
  }

  /** `readDataEntry()`: the signed memory index. */
  function DataEntryStep(r: Reader): (o: ReadOutcome)
    ensures SameInput(o.reader, r)
    ensures r.sectionEntriesLeft != 0 && o.Returned? && !o.ok ==> o.reader == r
    ensures r.sectionEntriesLeft != 0 && o.Returned? && o.ok ==>
      o.reader.state == BeginDataSectionEntry && o.reader.result == DataSegment(ReadVarUint32Signed(r.data, r.pos).value)
    ensures r.sectionEntriesLeft != 0 ==> (o.Returned? && o.ok <==> HasVarIntBytes(r.data, r.pos, r.length))
    ensures r.sectionEntriesLeft != 0 && o.Returned? && o.ok ==>
      TookEntry(r, o, BeginDataSectionEntry, DataSegment(ReadVarUint32Signed(r.data, r.pos).value),
                ReadVarUint32Signed(r.data, r.pos).next)
    ensures r.sectionEntriesLeft == 0 ==> SkippedRest(r, o)
  {
    if r.sectionEntriesLeft == 0 then SkipRestOfSection(r)
    else if !HasVarIntBytes(r.data, r.pos, r.length) then Returned(false, r)
    else
      var index := ReadVarUint32Signed(r.data, r.pos);
      Returned(true, r.(state := BeginDataSectionEntry, result := DataSegment(index.value), pos := index.next,
                        sectionEntriesLeft := r.sectionEntriesLeft - 1))
  }

  /** `readDataEntryBody()`: the segment's bytes, once all are there. */
  function DataEntryBodyStep(r: Reader): (o: ReadOutcome)
    ensures o.Returned? && SameInput(o.reader, r)
    ensures !o.ok <==> !HasStringBytes(r.data, r.pos, r.length)
    ensures !o.ok ==> o.reader == r
    ensures o.ok ==> o.reader.state == DataSectionEntryBody && o.reader.result == DataSegmentBody(ReadStringBytes(r.data, r.pos).value)
  {
    if !HasStringBytes(r.data, r.pos, r.length) then Returned(false, r)
    else
      var bytes := ReadStringBytes(r.data, r.pos);
      Returned(true, r.(state := DataSectionEntryBody, result := DataSegmentBody(bytes.value), pos := bytes.next))
  }

  /** `readInitExpressionBody()`. */
  function InitExpressionBodyStep(r: Reader): (o: ReadOutcome)
    ensures o.Returned? && o.ok && o.reader.state == BeginInitExpressionBody && o.reader.result == NoResult
    ensures o.reader.pos == r.pos && o.reader.sectionEntriesLeft == r.sectionEntriesLeft
    ensures o.reader.sectionRange == r.sectionRange && o.reader.functionRange == r.functionRange
    ensures SameInput(o.reader, r) && o.reader.error == r.error
  {
    Returned(true, r.(state := BeginInitExpressionBody, result := NoResult))
  }

  /** The `END_INIT_EXPRESSION_BODY` case: what follows the expression
      depends on the section. */
  function EndInitExpressionStep(r: Reader): (o: ReadOutcome)
    ensures SameInput(o.reader, r)
    ensures r.sectionId == SectionGlobal ==> o == Returned(true, r.(state := EndGlobalSectionEntry))
    ensures r.sectionId == SectionData ==> o == DataEntryBodyStep(r)
    ensures r.sectionId == SectionElement ==> o == ElementEntryBodyStep(r)
    ensures r.sectionId !in {SectionGlobal, SectionData, SectionElement} ==>
      o == Returned(true, r.(error := Some(UnexpectedSectionType(r.sectionId)), state := Error))
  {
    if r.sectionId == SectionGlobal then Returned(true, r.(state := EndGlobalSectionEntry))
    else if r.sectionId == SectionData then DataEntryBodyStep(r)
    else if r.sectionId == SectionElement then ElementEntryBodyStep(r)
    else Returned(true, r.(error := Some(UnexpectedSectionType(r.sectionId)), state := Error))
  }

  // ---------------------------------------------------------------------------
  // Custom sections

  /** The section names `readSectionBody()` recognises, as ASCII bytes. */
  const NameSectionName: seq<Byte> := [0x6e, 0x61, 0x6d, 0x65]
  const RelocPrefix: seq<Byte> := [0x72, 0x65, 0x6c, 0x6f, 0x63, 0x2e]
  const LinkingSectionName: seq<Byte> := [0x6c, 0x69, 0x6e, 0x6b, 0x69, 0x6e, 0x67]
  const SourceMappingUrlName: seq<Byte> :=
    [0x73, 0x6f, 0x75, 0x72, 0x63, 0x65, 0x4d, 0x61, 0x70, 0x70, 0x69, 0x6e, 0x67, 0x55, 0x52, 0x4c]

  /** `readNameEntry()`: at the end of the payload, skip; a bad entry type
      is an error reported with the position after the payload length. */
  function NameEntryStep(r: Reader): (o: ReadOutcome)
    ensures SameInput(o.reader, r)
    ensures o.Threw? ==> o.exception == TypeError
    ensures o.Returned? && !o.ok ==> o.reader == r || o.reader == r.(state := SkippingSection)
    ensures o.Returned? && o.ok ==> o.reader.state in {NameSectionEntry, Error, EndSection}
    ensures o.Returned? && o.ok && o.reader.state == NameSectionEntry ==> o.reader.result.NameResult?
    ensures r.sectionRange.Some? && r.pos >= r.sectionRange.value.end ==> SkippedRest(r, o)
    ensures r.sectionRange.Some? && r.pos < r.sectionRange.value.end ==>
      (ReadNameEntry(r.data, r.pos, r.length).Invalid? <==> o.Returned? && o.ok && o.reader.state == Error)
    ensures r.sectionRange.Some? && r.pos < r.sectionRange.value.end && ReadNameEntry(r.data, r.pos, r.length).Invalid? ==>
      o.reader.error == Some(BadNameEntryType(ReadNameEntry(r.data, r.pos, r.length).code))
    ensures r.sectionRange.Some? && r.pos < r.sectionRange.value.end && ReadNameEntry(r.data, r.pos, r.length).Got? ==>
      o == Returned(true, r.(state := NameSectionEntry, result := NameResult(ReadNameEntry(r.data, r.pos, r.length).value),
                             pos := ReadNameEntry(r.data, r.pos, r.length).next))
  {
    match r.sectionRange
    case None => Threw(TypeError, r)
    case Some(range) =>
      if r.pos >= range.end then SkipRestOfSection(r)
      else
        match ReadNameEntry(r.data, r.pos, r.length)
        case Got(entry, next) => Returned(true, r.(state := NameSectionEntry, result := NameResult(entry), pos := next))
        case Invalid(t) =>
          Returned(true, r.(pos := ReadVarUint32(r.data, r.pos + 1).next, error := Some(BadNameEntryType(t)), state := Error))
        case NotEnough => Returned(false, r)
        case Fault(_) => Returned(false, r)
  }

  /** `readRelocHeader()`. */
  function RelocHeaderStep(r: Reader): (o: ReadOutcome)
    ensures o.Returned? && SameInput(o.reader, r)
    ensures !o.ok ==> o.reader == r
    ensures o.ok ==> o.reader.state == RelocSectionHeader && o.reader.result.RelocHeader?
    ensures o.ok <==> ReadRelocHeader(r.data, r.pos, r.length).Got?
    ensures o.ok ==> var h := ReadRelocHeader(r.data, r.pos, r.length);
      o.reader == r.(state := RelocSectionHeader, result := h.value, pos := h.next)
  {
    match ReadRelocHeader(r.data, r.pos, r.length)
    case Got(header, next) => Returned(true, r.(state := RelocSectionHeader, result := header, pos := next))
    case _ => Returned(false, r)
  }

  /** `readRelocEntry()`: a bad type is an error reported with the position
      after the index. */
  function RelocEntryStep(r: Reader): (o: ReadOutcome)
    ensures SameInput(o.reader, r)
    ensures r.sectionEntriesLeft != 0 ==> o.Returned?
    ensures r.sectionEntriesLeft != 0 && !o.ok ==> o.reader == r
    ensures r.sectionEntriesLeft != 0 && o.ok ==>
      (o.reader.state == RelocSectionEntry && o.reader.result.RelocEntry?) || o.reader.state == Error
    ensures r.sectionEntriesLeft != 0 && ReadRelocEntry(r.data, r.pos, r.length).Got? ==>
      TookEntry(r, o, RelocSectionEntry, ReadRelocEntry(r.data, r.pos, r.length).value, ReadRelocEntry(r.data, r.pos, r.length).next)
    ensures r.sectionEntriesLeft != 0 ==>
      (ReadRelocEntry(r.data, r.pos, r.length).Invalid? <==> o.ok && o.reader.state == Error)
    ensures r.sectionEntriesLeft != 0 && ReadRelocEntry(r.data, r.pos, r.length).Invalid? ==>
      o.reader.error == Some(BadRelocationType(ReadRelocEntry(r.data, r.pos, r.length).code))
    ensures r.sectionEntriesLeft == 0 ==> SkippedRest(r, o)
  {
    if r.sectionEntriesLeft == 0 then SkipRestOfSection(r)
    else
      match ReadRelocEntry(r.data, r.pos, r.length)
      case Got(entry, next) =>
        Returned(true, r.(state := RelocSectionEntry, result := entry, pos := next,
                          sectionEntriesLeft := r.sectionEntriesLeft - 1))
      case Invalid(t) =>
        var offset := ReadVarUint32(r.data, r.pos + 1);
        Returned(true, r.(pos := ReadVarUint32(r.data, offset.next).next, error := Some(BadRelocationType(t)), state := Error))
      case NotEnough => Returned(false, r)
      case Fault(_) => Returned(false, r)
  }

  /** `readLinkingEntry()`: a bad type is an error reported with the position
      after the type. */
  function LinkingEntryStep(r: Reader): (o: ReadOutcome)
    ensures SameInput(o.reader, r)
    ensures r.sectionEntriesLeft != 0 ==> o.Returned?
    ensures r.sectionEntriesLeft != 0 && !o.ok ==> o.reader == r
    ensures r.sectionEntriesLeft != 0 && o.ok && o.reader.state != Error ==>
      o.reader.state == LinkingSectionEntry && o.reader.result.LinkingEntry? &&
      o.reader.sectionEntriesLeft == r.sectionEntriesLeft - 1
    ensures r.sectionEntriesLeft != 0 && ReadLinkingEntry(r.data, r.pos, r.length).Got? ==>
      TookEntry(r, o, LinkingSectionEntry, ReadLinkingEntry(r.data, r.pos, r.length).value, ReadLinkingEntry(r.data, r.pos, r.length).next)
    ensures r.sectionEntriesLeft != 0 ==>
      (ReadLinkingEntry(r.data, r.pos, r.length).Invalid? <==> o.ok && o.reader.state == Error)
    ensures r.sectionEntriesLeft != 0 && ReadLinkingEntry(r.data, r.pos, r.length).Invalid? ==>
      o.reader.error == Some(BadLinkingType(ReadLinkingEntry(r.data, r.pos, r.length).code))
    ensures r.sectionEntriesLeft == 0 ==> SkippedRest(r, o)
  {
    if r.sectionEntriesLeft == 0 then SkipRestOfSection(r)
    else
      match ReadLinkingEntry(r.data, r.pos, r.length)
      case Got(entry, next) =>
        Returned(true, r.(state := LinkingSectionEntry, result := entry, pos := next,
                          sectionEntriesLeft := r.sectionEntriesLeft - 1))
      case Invalid(t) =>
        Returned(true, r.(pos := ReadVarUint32(r.data, r.pos).next, error := Some(BadLinkingType(t)), state := Error))
      case NotEnough => Returned(false, r)
      case Fault(_) => Returned(false, r)
  }

  /** The entry count of a `linking` or relocation section, then the first
      entry. With `resumable`, the state records that the count was read
      before the entry is attempted. */
  function CountThenEntry(r: Reader, resumable: bool, entryState: ReaderState, linking: bool): (o: ReadOutcome)
    ensures SameInput(o.reader, r)
    ensures !HasVarIntBytes(r.data, r.pos, r.length) ==> o == Returned(false, r)
    ensures var count := ReadVarUint32(r.data, r.pos);
      HasVarIntBytes(r.data, r.pos, r.length) && count.value != 0 && o.Returned? && !o.ok ==>
        o.reader == r.(pos := count.next, sectionEntriesLeft := count.value,
                       state := if resumable then entryState else r.state)
    ensures var count := ReadVarUint32(r.data, r.pos);
      HasVarIntBytes(r.data, r.pos, r.length) && count.value == 0 ==>
        SkippedRest(r.(pos := count.next, sectionEntriesLeft := 0), o)
  {
    if !HasVarIntBytes(r.data, r.pos, r.length) then Returned(false, r)
    else
      var count := ReadVarUint32(r.data, r.pos);
      var r1 := r.(pos := count.next, sectionEntriesLeft := count.value);
      var r2 := if resumable then r1.(state := entryState) else r1;
      if linking then LinkingEntryStep(r2) else RelocEntryStep(r2)
  }

  /** `readSourceMappingURL()`. */
  function SourceMappingUrlStep(r: Reader): (o: ReadOutcome)
    ensures o.Returned? && SameInput(o.reader, r)
    ensures !o.ok <==> !HasStringBytes(r.data, r.pos, r.length)
    ensures !o.ok ==> o.reader == r
    ensures o.ok ==> o.reader.state == SourceMappingUrl && o.reader.result == SourceMappingUrlResult(ReadStringBytes(r.data, r.pos).value)
  {
    if !HasStringBytes(r.data, r.pos, r.length) then Returned(false, r)
    else
      var url := ReadStringBytes(r.data, r.pos);
      Returned(true, r.(state := SourceMappingUrl, result := SourceMappingUrlResult(url.value), pos := url.next))
  }

  /** `readSectionRawData()`: the whole payload at once. */
  function SectionRawDataStep(r: Reader): (o: ReadOutcome)
    ensures SameInput(o.reader, r)
    ensures o.Threw? <==> r.sectionRange.None?
    ensures o.Returned? && !o.ok ==> o.reader == r
    ensures o.Returned? && o.ok ==>
      var range := r.sectionRange.value;
      && o.reader.state == SectionRawData
      && o.reader.pos == r.pos + (range.end - range.start)
      && (0 <= r.pos <= o.reader.pos <= |r.data| ==> o.reader.result == RawData(r.data[r.pos..o.reader.pos]))
  {
    match r.sectionRange
    case None => Threw(TypeError, r)
    case Some(range) =>
      var payloadLength := range.end - range.start;
      if !HasBytes(r.pos, r.length, payloadLength) then Returned(false, r)
      else
        Returned(true, r.(state := SectionRawData, result := RawData(Subarray(r.data, r.pos, r.pos + payloadLength)), pos := r.pos + payloadLength))
  }

  // ---------------------------------------------------------------------------
  // Function bodies and operators

  /** `readFunctionBody()`: the body size and the local declarations; the
      operators lie in `functionRange`. */
  function FunctionBodyStep(r: Reader): (o: ReadOutcome)
    ensures SameInput(o.reader, r)
    ensures r.sectionEntriesLeft != 0 ==> o.Returned?
    ensures r.sectionEntriesLeft != 0 && !o.ok ==> o.reader == r
    ensures r.sectionEntriesLeft != 0 && o.ok ==>
      && o.reader.state == BeginFunctionBody
      && o.reader.result.FunctionInfo?
      && o.reader.functionRange == Some(DataRange(o.reader.pos,
           r.pos + |Groups(r.data, r.pos)| + ReadVarUint32(r.data, r.pos).value))
    ensures r.sectionEntriesLeft != 0 ==> (o.ok <==> ReadFunctionHeader(r.data, r.pos, r.length).Got?)
    ensures r.sectionEntriesLeft != 0 && o.ok ==>
      && o.reader.result == FunctionInfo(ReadFunctionHeader(r.data, r.pos, r.length).value.0)
      && o.reader.pos == ReadFunctionHeader(r.data, r.pos, r.length).next
      && o.reader.sectionEntriesLeft == r.sectionEntriesLeft - 1
    ensures r.sectionEntriesLeft == 0 ==> SkippedRest(r, o)
  {
    if r.sectionEntriesLeft == 0 then SkipRestOfSection(r)
    else
      var f := ReadFunctionHeader(r.data, r.pos, r.length);
      if f.Got? then
        Returned(true, r.(state := BeginFunctionBody, result := FunctionInfo(f.value.0), pos := f.next,
                          functionRange := Some(f.value.1), sectionEntriesLeft := r.sectionEntriesLeft - 1))
      else Returned(false, r)
  }

  /** `MAX_CODE_OPERATOR_SIZE`: before `eof`, an operator is read only when
      this many bytes are there. */
  const MaxCodeOperatorSize: int := 11

  /** `readCodeOperator()` reads an operator at the cursor: neither the end
      of the function body nor the `end` that closes an init expression. */
  predicate AtOperator(r: Reader)
  {
    && !(r.state == CodeOperator && (r.functionRange.None? || r.pos >= r.functionRange.value.end))
    && !(r.state == InitExpressionOperator && r.result.Operator? && r.result.op.code == OpEnd)
  }

  /** `readCodeOperator()`: at the end of the body, skip to `END_FUNCTION_BODY`;
      after `end` in an init expression, `END_INIT_EXPRESSION_BODY`;
      otherwise one operator and its immediates. */
  function ReadCodeOperator(r: Reader): (o: ReadOutcome)
    ensures SameInput(o.reader, r)
    ensures r.state == CodeOperator && r.functionRange.Some? && r.pos >= r.functionRange.value.end ==>
      o.Returned? && o.ok && o.reader.state == EndFunctionBody && o.reader.pos == r.functionRange.value.end
    ensures o.Returned? && !o.ok ==> o.reader == r
    ensures o.Returned? && o.ok && o.reader.state == r.state ==>
      o.reader.result.Operator? && o.reader.result.op.code == ByteAt(r.data, r.pos)
    ensures o.Threw? && o.exception == TypeError ==> r.state == CodeOperator && r.functionRange.None?
    ensures r.state == InitExpressionOperator && r.result.Operator? && r.result.op.code == OpEnd ==>
      o == Returned(true, r.(state := EndInitExpressionBody, result := NoResult))
    ensures AtOperator(r) ==>
      var f := ReadImmediate(ByteAt(r.data, r.pos), r.data, r.pos + 1, r.length);
      && (o == Returned(false, r) <==> (!r.eof && r.pos + MaxCodeOperatorSize > r.length) || f.NotEnough?)
      && (o.Returned? && o.ok ==>
            f.Got? && o.reader == r.(pos := f.next, result := Operator(OperatorInfo(ByteAt(r.data, r.pos), f.value))))
      && (o.Threw? ==> f.Fault? && o == Threw(f.exception, r.(pos := r.pos + 1)))
  {
    if r.state == CodeOperator && r.functionRange.None? then Threw(TypeError, r)
    else if r.state == CodeOperator && r.pos >= r.functionRange.value.end then
      SkippingFunctionBodyStep(r.(state := SkippingFunctionBody))
    else if r.state == InitExpressionOperator && r.result.Operator? && r.result.op.code == OpEnd then
      Returned(true, r.(state := EndInitExpressionBody, result := NoResult))
    else if !r.eof && r.pos + MaxCodeOperatorSize > r.length then Returned(false, r)
    else
      var code := ByteAt(r.data, r.pos);
      var f := ReadImmediate(code, r.data, r.pos + 1, r.length);
      if f.Got? then Returned(true, r.(pos := f.next, result := Operator(OperatorInfo(code, f.value))))
      else if f.Fault? then Threw(f.exception, r.(pos := r.pos + 1))
      else Returned(false, r)
  }

  // ---------------------------------------------------------------------------
  // Sections

  /** The sections whose entry count `readSectionBody()` reads only once the
      whole payload is there. */
  predicate WholePayloadSection(id: int)
  {
    id in {SectionType, SectionImport, SectionExport, SectionFunction, SectionTable, SectionMemory}
  }

  /** The sections whose entry count is read as soon as it is complete. */
  predicate StreamedSection(id: int)
  {
    id in {SectionGlobal, SectionCode, SectionElement, SectionData}
  }

  /** The first entry of a known section, once `r` holds its entry count. */
  function FirstEntryStep(r: Reader, id: int): (o: ReadOutcome)
    requires WholePayloadSection(id) || StreamedSection(id)
    ensures SameInput(o.reader, r)
    ensures o.Threw? && o.exception == TypeError ==> r.sectionRange.None?
    ensures r.sectionEntriesLeft == 0 ==> SkippedRest(r, o)
    ensures r.sectionEntriesLeft != 0 ==> o.Returned?
    ensures r.sectionEntriesLeft != 0 && o.Returned? && o.ok ==> o.reader.sectionEntriesLeft == r.sectionEntriesLeft - 1
    ensures r.sectionEntriesLeft != 0 && o.Returned? && !o.ok ==>
      o.reader.pos == r.pos && o.reader.sectionEntriesLeft == r.sectionEntriesLeft
  {
    if id == SectionType then TypeEntryStep(r)
    else if id == SectionImport then ImportEntryStep(r)
    else if id == SectionExport then ExportEntryStep(r)
    else if id == SectionFunction then FunctionEntryStep(r)
    else if id == SectionTable then TableEntryStep(r)
    else if id == SectionMemory then MemoryEntryStep(r)
    else if id == SectionGlobal then GlobalEntryStep(r)
    else if id == SectionCode then FunctionBodyStep(r.(state := ReadingFunctionHeader))
    else if id == SectionElement then ElementEntryStep(r)
    else DataEntryStep(r.(state := DataSectionEntry))
  }

  /** The name in a custom section header; a header without one reads as
      the empty name. */
  function CustomName(r: Reader): seq<Byte>
  {
    if r.result.SectionInfo? && r.result.name.Some? then r.result.name.value else []
  }

  /** A custom section, chosen by its name: `name`, `reloc.*`, `linking`,
      `sourceMappingURL`, or raw data. A header without a name reads as the
      empty name. */
  function CustomSectionStep(r: Reader, resumable: bool): (o: ReadOutcome)
    ensures SameInput(o.reader, r)
    ensures o.Threw? && o.exception == TypeError ==> r.sectionRange.None?
    ensures CustomName(r) == NameSectionName && o.Returned? && o.ok ==>
      o.reader.state in {NameSectionEntry, Error, EndSection}
    ensures RelocPrefix <= CustomName(r) ==>
      o.Returned? && (o.ok ==> o.reader.state == RelocSectionHeader) && (!o.ok ==> o.reader == r)
    ensures CustomName(r) == LinkingSectionName && o.Returned? && o.ok ==>
      o.reader.state in {LinkingSectionEntry, Error, EndSection}
    ensures CustomName(r) == SourceMappingUrlName ==>
      o.Returned? && (o.ok ==> o.reader.state == SourceMappingUrl) && (!o.ok ==> o.reader == r)
    ensures CustomName(r) !in {NameSectionName, LinkingSectionName, SourceMappingUrlName} && !(RelocPrefix <= CustomName(r)) ==>
      (o.Threw? <==> r.sectionRange.None?) && (o.Returned? && o.ok ==> o.reader.state == SectionRawData)
  {
    var name := CustomName(r);
    assert RelocPrefix[0] != LinkingSectionName[0] && RelocPrefix[0] != SourceMappingUrlName[0];
    if name == NameSectionName then NameEntryStep(r)
    else if RelocPrefix <= name then RelocHeaderStep(r)
    else if name == LinkingSectionName then CountThenEntry(r, resumable, LinkingSectionEntry, true)
    else if name == SourceMappingUrlName then SourceMappingUrlStep(r)
    else SectionRawDataStep(r)
  }

  /** `readSectionBody()`: at the end of the payload, `END_SECTION`;
      otherwise the entry count (for sections that have one) and the first
      entry, chosen by the id in the section header. Any other id, the Start
      section's included, is an error. */
  function SectionBodyStep(r: Reader, resumable: bool): (o: ReadOutcome)
    ensures SameInput(o.reader, r)
    ensures o.Threw? && o.exception == TypeError ==> r.sectionRange.None?
    ensures r.sectionRange.Some? && r.pos >= r.sectionRange.value.end ==>
      o == Returned(true, r.(result := NoResult, state := EndSection, sectionId := SectionUnknown, sectionRange := None))
    ensures r.sectionRange.Some? && r.pos < r.sectionRange.value.end && r.result.SectionInfo? &&
            r.result.id != SectionCustom && !WholePayloadSection(r.result.id) && !StreamedSection(r.result.id) ==>
      o == Returned(true, r.(error := Some(UnsupportedSection(r.sectionId)), state := Error))
  {
    match r.sectionRange
    case None => Threw(TypeError, r)
    case Some(range) =>
      if r.pos >= range.end then
        Returned(true, r.(result := NoResult, state := EndSection, sectionId := SectionUnknown, sectionRange := None))
      else
        var id := if r.result.SectionInfo? then r.result.id else SectionUnknown;
        if id == SectionCustom then CustomSectionStep(r, resumable)
        else if !WholePayloadSection(id) && !StreamedSection(id) then
          Returned(true, r.(error := Some(UnsupportedSection(r.sectionId)), state := Error))
        else if WholePayloadSection(id) && !HasBytes(r.pos, r.length, range.end - r.pos) then Returned(false, r)
        else if StreamedSection(id) && !HasVarIntBytes(r.data, r.pos, r.length) then Returned(false, r)
        else
          var count := ReadVarUint32(r.data, r.pos);
          FirstEntryStep(r.(pos := count.next, sectionEntriesLeft := count.value), id)
  }

  // ---------------------------------------------------------------------------
  // read()

  /** One call of `read()`, dispatching on the state. */
  function ReadStep(r: Reader, resumable: bool): (o: ReadOutcome)
    ensures SameInput(o.reader, r)
    ensures r.state == Error ==> o == Returned(true, r)
  {
    match r.state
    case Initial => InitialStep(r)
    case EndWasm => EndWasmStep(r)
    case Error => Returned(true, r)
    case BeginWasm => SectionHeaderStep(r)
    case EndSection => SectionHeaderStep(r)
    case BeginSection => SectionBodyStep(r, resumable)
    case SkippingSection => SkippingSectionStep(r)
    case SkippingFunctionBody => SkippingFunctionBodyStep(r)
    case TypeSectionEntry => TypeEntryStep(r)
    case ImportSectionEntry => ImportEntryStep(r)
    case ExportSectionEntry => ExportEntryStep(r)
    case FunctionSectionEntry => FunctionEntryStep(r)
    case TableSectionEntry => TableEntryStep(r)
    case MemorySectionEntry => MemoryEntryStep(r)
    case GlobalSectionEntry => GlobalEntryStep(r)
    case EndGlobalSectionEntry => GlobalEntryStep(r)
    case BeginGlobalSectionEntry => InitExpressionBodyStep(r)
    case ElementSectionEntry => ElementEntryStep(r)
    case EndElementSectionEntry => ElementEntryStep(r)
    case BeginElementSectionEntry => InitExpressionBodyStep(r)
    case ElementSectionEntryBody => Returned(true, r.(state := EndElementSectionEntry, result := NoResult))
    case DataSectionEntry => DataEntryStep(r)
    case EndDataSectionEntry => DataEntryStep(r)
    case BeginDataSectionEntry => InitExpressionBodyStep(r)
    case DataSectionEntryBody => Returned(true, r.(state := EndDataSectionEntry, result := NoResult))
    case EndInitExpressionBody => EndInitExpressionStep(r)
    case NameSectionEntry => NameEntryStep(r)
    case RelocSectionHeader => CountThenEntry(r, resumable, RelocSectionEntry, false)
    case LinkingSectionEntry => LinkingEntryStep(r)
    case SourceMappingUrl => Returned(true, r.(state := EndSection, result := NoResult))
    case RelocSectionEntry => RelocEntryStep(r)
    case ReadingFunctionHeader => FunctionBodyStep(r)
    case EndFunctionBody => FunctionBodyStep(r)
    case BeginFunctionBody => ReadCodeOperator(r.(state := CodeOperator))
    case BeginInitExpressionBody => ReadCodeOperator(r.(state := InitExpressionOperator))
    case CodeOperator => ReadCodeOperator(r)
    case InitExpressionOperator => ReadCodeOperator(r)
    case ReadingSectionRawData => SectionRawDataStep(r)
    case SectionRawData => Returned(true, r.(state := EndSection, result := NoResult))
  }

  /** `read()` with the entry count of `linking` and relocation sections
      recorded before the first entry is attempted. */
  function Read(r: Reader): (o: ReadOutcome)
    ensures SameInput(o.reader, r)
    ensures r.state == Error ==> o == Returned(true, r)
  {
    ReadStep(r, true)
  }

  /** `read()` as written. */
  function ReadAsWritten(r: Reader): (o: ReadOutcome)
    ensures SameInput(o.reader, r)
    ensures r.state == Error ==> o == Returned(true, r)
  {
    ReadStep(r, false)
  }

  // ---------------------------------------------------------------------------
  // The other public operations

  /** `skipSection()`: outside a section it does nothing. */
  function SkipSection(r: Reader): (r': Reader)
    ensures r.state in {Error, Initial, EndSection, BeginWasm, EndWasm} ==> r' == r
    ensures r.state !in {Error, Initial, EndSection, BeginWasm, EndWasm} ==> r' == r.(state := SkippingSection)
  {
    if r.state in {Error, Initial, EndSection, BeginWasm, EndWasm} then r
    else r.(state := SkippingSection)
  }

  /** `skipFunctionBody()`: only at the start of a body or between operators. */
  function SkipFunctionBody(r: Reader): (r': Reader)
    ensures r'.state == SkippingFunctionBody <==> r.state in {BeginFunctionBody, CodeOperator, SkippingFunctionBody}
    ensures r' == r.(state := r'.state)
  {
    if r.state != BeginFunctionBody && r.state != CodeOperator then r
    else r.(state := SkippingFunctionBody)
  }

  /** `fetchSectionRawData()`: only right after a section header. */
  function FetchSectionRawData(r: Reader): (r': Reader)
    ensures r.state == BeginSection ==> r' == r.(state := ReadingSectionRawData)
    ensures r.state != BeginSection ==> r' == r.(error := Some(UnsupportedState(r.state)), state := Error)
  {
    if r.state != BeginSection then r.(error := Some(UnsupportedState(r.state)), state := Error)
    else r.(state := ReadingSectionRawData)
  }

  /** `skipInitExpression()`: operators are read until the state leaves
      `INIT_EXPRESSION_OPERATOR`. A short read changes nothing, so the loop
      as written never ends then; here at most `fuel` operators are read and
      `None` reports that the bound was reached without leaving the state. */
  function SkipInitExpression(r: Reader, fuel: nat): (o: Option<ReadOutcome>)
    ensures o.Some? && o.value.Returned? ==> o.value.reader.state != InitExpressionOperator
    ensures r.state != InitExpressionOperator ==> o == Some(Returned(true, r))
    decreases fuel
  {
    if r.state != InitExpressionOperator then Some(Returned(true, r))
    else if fuel == 0 then None
    else
      match ReadCodeOperator(r)
      case Threw(e, r') => Some(Threw(e, r'))
      case Returned(_, r') => SkipInitExpression(r', fuel - 1)
  }

  /** `skipInitExpression()` that stops as `read()` does when the next
      operator is not all there: the short read is reported as `false` and
      leaves the reader as it was. */
  function SkipInitExpressionOrStop(r: Reader, fuel: nat): (o: Option<ReadOutcome>)
    ensures o.Some? && o.value.Returned? && o.value.ok ==> o.value.reader.state != InitExpressionOperator
    ensures o.Some? && o.value.Returned? && !o.value.ok ==>
      o.value.reader.state == InitExpressionOperator
    ensures (r.state == InitExpressionOperator && !(r.result.Operator? && r.result.op.code == OpEnd) &&
             !r.eof && r.pos + MaxCodeOperatorSize > r.length) ==> o == Some(Returned(false, r))
    ensures r.state != InitExpressionOperator ==> o == Some(Returned(true, r))
    decreases fuel
  {
    if r.state != InitExpressionOperator then Some(Returned(true, r))
    else
      match ReadCodeOperator(r)
      case Threw(e, r') => Some(Threw(e, r'))
      case Returned(false, _) => Some(Returned(false, r))
      case Returned(true, r') => if fuel == 0 then None else SkipInitExpressionOrStop(r', fuel - 1)
  }
}

=== FILE: reader_props.dfy ===
/** What the corrected `read()`, `Read`, promises: the module header, the
    end of a module, the sticky error state, skipping, the end of a function
    body and the invariant the reader keeps. Outside the entry count of the
    `linking` and relocation sections it is `read()` as written
    (`ReaderRetry.ReadersAgree`). */
module ReaderProps {
  import opened Common
  import opened Leb
  import opened I64
  import opened ReaderTypes
  import opened Decode
  import opened WasmReader

  /** Up to `n` successive `read()` calls, stopping at the first that does
      not return true. */
  function Pull(r: Reader, n: nat): (o: ReadOutcome)
    ensures SameInput(o.reader, r)
    decreases n
  {
    if n == 0 then Returned(true, r)
    else
      match Read(r)
      case Returned(true, r') => Pull(r', n - 1)
      case other => other
  }

  // ---------------------------------------------------------------------------
  // The module header and the end of a module

  /** In `INITIAL`, fewer than eight bytes make `read()` return false and
      leave the reader as it was. */
  lemma HeaderNeedsEightBytes(r: Reader)
    requires r.state == Initial
    ensures Read(r).Returned?
    ensures !Read(r).ok <==> r.pos + 8 > r.length
    ensures !Read(r).ok ==> Read(r).reader == r
  {
  }

  /** With eight bytes, the header is accepted exactly when the magic number
      is `\0asm` and the version is 1 or 0xd; otherwise the reader records
      which of the two was wrong and enters `ERROR`. */
  lemma HeaderVerdict(r: Reader)
    requires r.state == Initial && r.pos + 8 <= r.length
    ensures var o := Read(r);
      && o.Returned? && o.ok
      && var magic := Int32At(r.data, r.pos);
         var version := Int32At(r.data, r.pos + 4);
      && (o.reader.state == BeginWasm <==>
           magic == WasmMagicNumber && (version == WasmSupportedVersion || version == WasmSupportedExperimentalVersion))
      && (magic != WasmMagicNumber ==> o.reader.state == Error && o.reader.error == Some(BadMagicNumber))
      && (magic == WasmMagicNumber && version != WasmSupportedVersion && version != WasmSupportedExperimentalVersion ==>
           o.reader.state == Error && o.reader.error == Some(BadVersionNumber(version)))
  {
    assert Read(r) == InitialStep(r);
  }

  /** Between sections, the end of the input with `eof` ends the module. */
  lemma EndOfInputEndsModule(r: Reader)
    requires r.state == BeginWasm || r.state == EndSection
    requires r.pos >= r.length && r.eof
    ensures Read(r) == Returned(true, AtEndWasm(r))
  {
  }

  /** After `END_WASM`, `read()` returns false when no byte is left, and
      otherwise reads the header of the next module in the same call. */
  lemma AfterEndWasm(r: Reader)
    requires r.state == EndWasm
    ensures r.pos + 1 > r.length ==> Read(r) == Returned(false, r.(result := NoResult, state := BeginWasm))
    ensures r.pos + 1 <= r.length ==> Read(r) == Read(r.(result := NoResult, state := Initial))
  {
  }

  // ---------------------------------------------------------------------------
  // ERROR is sticky

  /** Once in `ERROR`, every further `read()` returns true and changes
      nothing. */
  lemma {:induction false} ErrorIsSticky(r: Reader, n: nat)
    requires r.state == Error
    ensures Pull(r, n) == Returned(true, r)
    decreases n
  {
    if n > 0 {
      ErrorIsSticky(r, n - 1);
    }
  }

  // ---------------------------------------------------------------------------
  // Entries and skipping

  /** The states in which `read()` reads the next entry of a section. */
  predicate CountedEntryState(s: ReaderState)
  {
    s in {TypeSectionEntry, ImportSectionEntry, ExportSectionEntry, FunctionSectionEntry,
          TableSectionEntry, MemorySectionEntry}
  }

  /** In the sections read as a whole, each `read()` hands out one entry and
      counts it off; with no entries left, it skips to the section's end. */
  predicate CountsDown(r: Reader)
  {
    && (r.sectionEntriesLeft != 0 ==>
          && Read(r).Returned? && Read(r).ok
          && Read(r).reader.state == r.state
          && Read(r).reader.sectionEntriesLeft == r.sectionEntriesLeft - 1)
    && (r.sectionEntriesLeft == 0 ==> Read(r) == SkippingSectionStep(r.(state := SkippingSection)))
  }

  lemma EntriesCountDown(r: Reader)
    requires CountedEntryState(r.state)
    ensures r.sectionEntriesLeft != 0 ==>
      && Read(r).Returned? && Read(r).ok
      && Read(r).reader.state == r.state
      && Read(r).reader.sectionEntriesLeft == r.sectionEntriesLeft - 1
    ensures r.sectionEntriesLeft == 0 ==> Read(r) == SkippingSectionStep(r.(state := SkippingSection))
  {
    match r.state
    case TypeSectionEntry => TypeCountsDown(r);
    case ImportSectionEntry => ImportCountsDown(r);
    case ExportSectionEntry => ExportCountsDown(r);
    case FunctionSectionEntry => FunctionCountsDown(r);
    case TableSectionEntry => TableCountsDown(r);
    case MemorySectionEntry => MemoryCountsDown(r);
  }

  lemma TypeCountsDown(r: Reader)
    requires r.state == TypeSectionEntry
    ensures CountsDown(r)
  {
  }

  lemma ImportCountsDown(r: Reader)
    requires r.state == ImportSectionEntry
    ensures CountsDown(r)
  {
  }

  lemma ExportCountsDown(r: Reader)
    requires r.state == ExportSectionEntry
    ensures CountsDown(r)
  {
  }

  lemma FunctionCountsDown(r: Reader)
    requires r.state == FunctionSectionEntry
    ensures CountsDown(r)
  {
  }

  lemma TableCountsDown(r: Reader)
    requires r.state == TableSectionEntry
    ensures CountsDown(r)
  {
  }

  lemma MemoryCountsDown(r: Reader)
    requires r.state == MemorySectionEntry
    ensures CountsDown(r)
  {
  }

  /** `skipSection()` inside a section, then `read()`: once the payload is
      all there the reader stands at its end in `END_SECTION`; before that
      it waits in `SKIPPING_SECTION`. */
  lemma SkipSectionThenRead(r: Reader)
    requires r.state !in {Error, Initial, EndSection, BeginWasm, EndWasm}
    requires r.sectionRange.Some?
    ensures var o := Read(SkipSection(r));
      && o.Returned?
      && (r.sectionRange.value.end <= r.length ==>
            o.ok && o.reader == AtEndSection(r, r.sectionRange.value.end))
      && (r.sectionRange.value.end > r.length ==>
            !o.ok && o.reader == r.(state := SkippingSection))
  {
  }

  /** `skipFunctionBody()` then `read()` lands at the end of the body. */
  lemma SkipFunctionBodyThenRead(r: Reader)
    requires r.state == BeginFunctionBody || r.state == CodeOperator
    requires r.functionRange.Some?
    ensures Read(SkipFunctionBody(r)) ==
      Returned(true, r.(state := EndFunctionBody, pos := r.functionRange.value.end, functionRange := None, result := NoResult))
  {
  }

  /** Between operators, reaching the end of the body gives
      `END_FUNCTION_BODY` at exactly the end of the body. */
  lemma CodeOperatorAtBodyEnd(r: Reader)
    requires r.state == CodeOperator && r.functionRange.Some?
    requires r.pos >= r.functionRange.value.end
    ensures Read(r) ==
      Returned(true, r.(state := EndFunctionBody, pos := r.functionRange.value.end, functionRange := None, result := NoResult))
  {
  }

  /** Before the end of the body, `read()` is `ReadCodeOperator` on an
      operator: it yields one operator whose code is the byte at the cursor,
      and stays in `CODE_OPERATOR`. */
  lemma CodeOperatorInsideBody(r: Reader)
    requires r.state == CodeOperator && r.functionRange.Some?
    requires r.pos < r.functionRange.value.end
    ensures Read(r).Returned? && Read(r).ok ==>
      Read(r).reader.state == CodeOperator && Read(r).reader.result == Operator(Read(r).reader.result.op) &&
      Read(r).reader.result.op.code == ByteAt(r.data, r.pos)
    ensures AtOperator(r) && Read(r) == ReadCodeOperator(r)
  {
  }

  /** After the header of a global, element or data entry, one `read()`
      opens the init expression without moving the cursor, and the next
      reads its first operator. */
  lemma InitExpressionOpens(r: Reader)
    requires r.state in {BeginGlobalSectionEntry, BeginElementSectionEntry, BeginDataSectionEntry}
    ensures Read(r) == Returned(true, r.(state := BeginInitExpressionBody, result := NoResult))
    ensures Read(Read(r).reader) == ReadCodeOperator(r.(state := InitExpressionOperator, result := NoResult))
  {
    InitExpressionBodyRead(r);
    FirstOperatorRead(r.(state := BeginInitExpressionBody, result := NoResult));
  }

  lemma InitExpressionBodyRead(r: Reader)
    requires r.state in {BeginGlobalSectionEntry, BeginElementSectionEntry, BeginDataSectionEntry}
    ensures Read(r) == InitExpressionBodyStep(r)
  {
  }

  lemma FirstOperatorRead(r: Reader)
    requires r.state == BeginInitExpressionBody
    ensures Read(r) == ReadCodeOperator(r.(state := InitExpressionOperator))
  {
  }

  // ---------------------------------------------------------------------------
  // The reader invariant

  /** States between a section header and the end of its payload. */
  predicate InSection(s: ReaderState)
  {
    s !in {Error, Initial, BeginWasm, EndWasm, EndSection}
  }

  /** States inside a function body. */
  predicate InFunctionBody(s: ReaderState)
  {
    s in {BeginFunctionBody, CodeOperator, SkippingFunctionBody}
  }

  /** What a reader built by `read()` always satisfies: the ranges that the
      next call dereferences are there, and `BEGIN_SECTION` holds its
      header. */
  predicate Wf(r: Reader)
  {
    && (InSection(r.state) ==> r.sectionRange.Some?)
    && (InFunctionBody(r.state) ==> r.functionRange.Some?)
    && (r.state == BeginSection ==> r.result.SectionInfo? && (r.result.name.Some? <==> r.result.id == SectionCustom))
  }

  lemma NewReaderWf()
    ensures Wf(NewReader())
    ensures Wf(SetData(NewReader(), [], 0, 0, None))
  {
  }

  /** `setData()` keeps the invariant. */
  lemma SetDataKeepsWf(r: Reader, data: seq<Byte>, pos: int, length: int, eof: Option<bool>)
    requires Wf(r)
    ensures Wf(SetData(r, data, pos, length, eof))
  {
  }

  /** The public skip operations keep the invariant. */
  lemma SkipsKeepWf(r: Reader)
    requires Wf(r)
    ensures Wf(SkipSection(r)) && Wf(SkipFunctionBody(r)) && Wf(FetchSectionRawData(r))
  {
  }

  /** The result of a step keeps the invariant and is not a `TypeError`. */
  predicate StepKeepsWf(o: ReadOutcome)
  {
    !(o.Threw? && o.exception == TypeError) && Wf(o.reader)
  }

  lemma TypeStepKeepsWf(r: Reader)
    requires Wf(r) && r.sectionRange.Some?
    ensures StepKeepsWf(TypeEntryStep(r))
  {
  }

  lemma ImportStepKeepsWf(r: Reader)
    requires Wf(r) && r.sectionRange.Some?
    ensures StepKeepsWf(ImportEntryStep(r))
  {
  }

  lemma ExportStepKeepsWf(r: Reader)
    requires Wf(r) && r.sectionRange.Some?
    ensures StepKeepsWf(ExportEntryStep(r))
  {
  }

  lemma FunctionStepKeepsWf(r: Reader)
    requires Wf(r) && r.sectionRange.Some?
    ensures StepKeepsWf(FunctionEntryStep(r))
  {
  }

  lemma TableStepKeepsWf(r: Reader)
    requires Wf(r) && r.sectionRange.Some?
    ensures StepKeepsWf(TableEntryStep(r))
  {
  }

  lemma MemoryStepKeepsWf(r: Reader)
    requires Wf(r) && r.sectionRange.Some?
    ensures StepKeepsWf(MemoryEntryStep(r))
  {
  }

  lemma GlobalStepKeepsWf(r: Reader)
    requires Wf(r) && r.sectionRange.Some?
    ensures StepKeepsWf(GlobalEntryStep(r))
  {
  }

  lemma ElementStepKeepsWf(r: Reader)
    requires Wf(r) && r.sectionRange.Some?
    ensures StepKeepsWf(ElementEntryStep(r))
  {
  }

  lemma DataStepKeepsWf(r: Reader)
    requires Wf(r) && r.sectionRange.Some?
    ensures StepKeepsWf(DataEntryStep(r))
  {
  }

  lemma InitExpressionBodyStepKeepsWf(r: Reader)
    requires Wf(r) && r.sectionRange.Some?
    ensures StepKeepsWf(InitExpressionBodyStep(r))
  {
  }

  lemma EndInitExpressionStepKeepsWf(r: Reader)
    requires Wf(r) && r.sectionRange.Some?
    ensures StepKeepsWf(EndInitExpressionStep(r))
  {
    if r.sectionId == SectionData {
      DataBodyStepKeepsWf(r);
    } else if r.sectionId == SectionElement {
      ElementBodyStepKeepsWf(r);
    }
  }

  lemma DataBodyStepKeepsWf(r: Reader)
    requires Wf(r) && r.sectionRange.Some?
    ensures StepKeepsWf(DataEntryBodyStep(r))
  {
  }

  lemma ElementBodyStepKeepsWf(r: Reader)
    requires Wf(r) && r.sectionRange.Some?
    ensures StepKeepsWf(ElementEntryBodyStep(r))
  {
  }

  lemma NameStepKeepsWf(r: Reader)
    requires Wf(r) && r.sectionRange.Some?
    ensures StepKeepsWf(NameEntryStep(r))
  {
  }

  lemma RelocHeaderStepKeepsWf(r: Reader)
    requires Wf(r) && r.sectionRange.Some?
    ensures StepKeepsWf(RelocHeaderStep(r))
  {
  }

  lemma RelocEntryStepKeepsWf(r: Reader)
    requires Wf(r) && r.sectionRange.Some?
    ensures StepKeepsWf(RelocEntryStep(r))
  {
    var o := RelocEntryStep(r);
    if r.sectionEntriesLeft != 0 {
      assert o.reader.state in {RelocSectionEntry, Error} || o.reader == r;
    }
  }

  lemma LinkingEntryStepKeepsWf(r: Reader)
    requires Wf(r) && r.sectionRange.Some?
    ensures StepKeepsWf(LinkingEntryStep(r))
  {
  }

  lemma SourceMappingUrlStepKeepsWf(r: Reader)
    requires Wf(r) && r.sectionRange.Some?
    ensures StepKeepsWf(SourceMappingUrlStep(r))
  {
  }

  lemma RawDataStepKeepsWf(r: Reader)
    requires Wf(r) && r.sectionRange.Some?
    ensures StepKeepsWf(SectionRawDataStep(r))
  {
  }

  lemma FunctionBodyStepKeepsWf(r: Reader)
    requires Wf(r) && r.sectionRange.Some?
    ensures StepKeepsWf(FunctionBodyStep(r))
  {
  }

  lemma CodeOperatorStepKeepsWf(r: Reader)
    requires Wf(r) && r.sectionRange.Some? && (r.state == CodeOperator || r.state == InitExpressionOperator)
    ensures StepKeepsWf(ReadCodeOperator(r))
  {
  }

  lemma CountThenEntryKeepsWf(r: Reader, resumable: bool, entryState: ReaderState, linking: bool)
    requires Wf(r) && r.sectionRange.Some?
    requires entryState == LinkingSectionEntry || entryState == RelocSectionEntry
    ensures StepKeepsWf(CountThenEntry(r, resumable, entryState, linking))
  {
    if HasVarIntBytes(r.data, r.pos, r.length) {
      var count := ReadVarUint32(r.data, r.pos);
      var r1 := r.(pos := count.next, sectionEntriesLeft := count.value);
      var r2 := if resumable then r1.(state := entryState) else r1;
      if linking {
        LinkingEntryStepKeepsWf(r2);
      } else {
        RelocEntryStepKeepsWf(r2);
      }
    }
  }

  lemma FirstEntryKeepsWf(r: Reader, id: int)
    requires Wf(r) && r.state == BeginSection && r.sectionRange.Some?
    requires WholePayloadSection(id) || StreamedSection(id)
    ensures StepKeepsWf(FirstEntryStep(r, id))
  {
    if id == SectionType { TypeStepKeepsWf(r); }
    else if id == SectionImport { ImportStepKeepsWf(r); }
    else if id == SectionExport { ExportStepKeepsWf(r); }
    else if id == SectionFunction { FunctionStepKeepsWf(r); }
    else if id == SectionTable { TableStepKeepsWf(r); }
    else if id == SectionMemory { MemoryStepKeepsWf(r); }
    else if id == SectionGlobal { GlobalStepKeepsWf(r); }
    else if id == SectionCode { FunctionBodyStepKeepsWf(r.(state := ReadingFunctionHeader)); }
    else if id == SectionElement { ElementStepKeepsWf(r); }
    else { DataStepKeepsWf(r.(state := DataSectionEntry)); }
  }

  lemma CustomKeepsWf(r: Reader, resumable: bool)
    requires Wf(r) && r.state == BeginSection && r.sectionRange.Some?
    ensures StepKeepsWf(CustomSectionStep(r, resumable))
  {
    var name := if r.result.SectionInfo? && r.result.name.Some? then r.result.name.value else [];
    if name == NameSectionName {
      NameStepKeepsWf(r);
    } else if RelocPrefix <= name {
      RelocHeaderStepKeepsWf(r);
    } else if name == LinkingSectionName {
      CountThenEntryKeepsWf(r, resumable, LinkingSectionEntry, true);
    } else if name == SourceMappingUrlName {
      SourceMappingUrlStepKeepsWf(r);
    } else {
      RawDataStepKeepsWf(r);
    }
  }

  lemma SectionBodyKeepsWf(r: Reader, resumable: bool)
    requires Wf(r) && r.state == BeginSection
    ensures StepKeepsWf(SectionBodyStep(r, resumable))
  {
    var range := r.sectionRange.value;
    if r.pos < range.end {
      var id := r.result.id;
      if id == SectionCustom {
        CustomKeepsWf(r, resumable);
      } else if WholePayloadSection(id) || StreamedSection(id) {
        var count := ReadVarUint32(r.data, r.pos);
        FirstEntryKeepsWf(r.(pos := count.next, sectionEntriesLeft := count.value), id);
      }
    }
  }

  /** `read()` keeps the invariant, and on a reader that satisfies it never
      dereferences a missing range. */
  lemma ReadKeepsWf(r: Reader, resumable: bool)
    requires Wf(r)
    ensures StepKeepsWf(ReadStep(r, resumable))
  {
    match r.state
    case BeginSection => SectionBodyKeepsWf(r, resumable);
    case TypeSectionEntry => TypeStepKeepsWf(r);
    case ImportSectionEntry => ImportStepKeepsWf(r);
    case ExportSectionEntry => ExportStepKeepsWf(r);
    case FunctionSectionEntry => FunctionStepKeepsWf(r);
    case TableSectionEntry => TableStepKeepsWf(r);
    case MemorySectionEntry => MemoryStepKeepsWf(r);
    case GlobalSectionEntry => GlobalStepKeepsWf(r);
    case EndGlobalSectionEntry => GlobalStepKeepsWf(r);
    case BeginGlobalSectionEntry => InitExpressionBodyStepKeepsWf(r);
    case ElementSectionEntry => ElementStepKeepsWf(r);
    case EndElementSectionEntry => ElementStepKeepsWf(r);
    case BeginElementSectionEntry => InitExpressionBodyStepKeepsWf(r);
    case DataSectionEntry => DataStepKeepsWf(r);
    case EndDataSectionEntry => DataStepKeepsWf(r);
    case BeginDataSectionEntry => InitExpressionBodyStepKeepsWf(r);
    case EndInitExpressionBody => EndInitExpressionStepKeepsWf(r);
    case NameSectionEntry => NameStepKeepsWf(r);
    case RelocSectionHeader => CountThenEntryKeepsWf(r, resumable, RelocSectionEntry, false);
    case LinkingSectionEntry => LinkingEntryStepKeepsWf(r);
    case RelocSectionEntry => RelocEntryStepKeepsWf(r);
    case ReadingFunctionHeader => FunctionBodyStepKeepsWf(r);
    case EndFunctionBody => FunctionBodyStepKeepsWf(r);
    case BeginFunctionBody => CodeOperatorStepKeepsWf(r.(state := CodeOperator));
    case BeginInitExpressionBody => CodeOperatorStepKeepsWf(r.(state := InitExpressionOperator));
    case CodeOperator => CodeOperatorStepKeepsWf(r);
    case InitExpressionOperator => CodeOperatorStepKeepsWf(r);
    case ReadingSectionRawData => RawDataStepKeepsWf(r);
    case Initial => InitialStepKeepsWf(r);
    case EndWasm => EndWasmStepKeepsWf(r);
    case BeginWasm => SectionHeaderStepKeepsWf(r);
    case EndSection => SectionHeaderStepKeepsWf(r);
    case SkippingSection => SkippingSectionStepKeepsWf(r);
    case SkippingFunctionBody => SkippingFunctionBodyStepKeepsWf(r);
    case _ =>
  }

  lemma InitialStepKeepsWf(r: Reader)
    requires Wf(r) && r.state == Initial
    ensures StepKeepsWf(InitialStep(r))
  {
  }

  lemma EndWasmStepKeepsWf(r: Reader)
    requires Wf(r) && r.state == EndWasm
    ensures StepKeepsWf(EndWasmStep(r))
  {
  }

  lemma SectionHeaderStepKeepsWf(r: Reader)
    requires Wf(r) && (r.state == BeginWasm || r.state == EndSection)
    ensures StepKeepsWf(SectionHeaderStep(r))
  {
  }

  lemma SkippingSectionStepKeepsWf(r: Reader)
    requires Wf(r) && r.state == SkippingSection
    ensures StepKeepsWf(SkippingSectionStep(r))
  {
  }

  lemma SkippingFunctionBodyStepKeepsWf(r: Reader)
    requires Wf(r) && r.state == SkippingFunctionBody
    ensures StepKeepsWf(SkippingFunctionBodyStep(r))
  {
  }

  // ---------------------------------------------------------------------------
  // Concrete runs

  const EmptyModule: seq<Byte> := [0x00, 0x61, 0x73, 0x6d, 0x01, 0x00, 0x00, 0x00]

  /** An empty module: `BEGIN_WASM` with version 1, `END_WASM`, then false. */
  lemma EmptyModuleRun()
    ensures var r0 := SetData(NewReader(), EmptyModule, 0, |EmptyModule|, None);
      && Read(r0).Returned? && Read(r0).ok
      && var r1 := Read(r0).reader;
      && r1.state == BeginWasm && r1.result == ModuleHeader(WasmMagicNumber, 1)
      && Read(r1).Returned? && Read(r1).ok
      && var r2 := Read(r1).reader;
      && r2.state == EndWasm
      && Read(r2).Returned? && !Read(r2).ok
  {
    var r0 := SetData(NewReader(), EmptyModule, 0, |EmptyModule|, None);
    EmptyModuleSteps(r0, r0.(pos := 8, result := ModuleHeader(WasmMagicNumber, 1), state := BeginWasm));
  }

  /** `EmptyModuleRun` with the reader after the header named. */
  lemma EmptyModuleSteps(r0: Reader, r1: Reader)
    requires r0 == SetData(NewReader(), EmptyModule, 0, |EmptyModule|, None)
    requires r1 == r0.(pos := 8, result := ModuleHeader(WasmMagicNumber, 1), state := BeginWasm)
    ensures Read(r0) == Returned(true, r1)
    ensures Read(r1) == Returned(true, AtEndWasm(r1))
    ensures Read(AtEndWasm(r1)) == Returned(false, AtEndWasm(r1).(result := NoResult, state := BeginWasm))
  {
    EmptyModuleHeader(r0);
    assert r1.pos >= r1.length && r1.eof;
    EndOfInputEndsModule(r1);
    AfterEndWasm(AtEndWasm(r1));
  }

  /** The empty module's first `read()` gives `BEGIN_WASM` with version 1
      and stands after the eight header bytes. */
  lemma EmptyModuleHeader(r0: Reader)
    requires r0 == SetData(NewReader(), EmptyModule, 0, |EmptyModule|, None)
    ensures Read(r0) == Returned(true, r0.(pos := 8, result := ModuleHeader(WasmMagicNumber, 1), state := BeginWasm))
  {
    HeaderStep(r0);
    assert Read(r0) == InitialStep(r0);
  }

  /** The `INITIAL` step on eight bytes that hold `\0asm` and version 1. */
  lemma HeaderStep(r: Reader)
    requires r.state == Initial && r.pos == 0 && r.length == |r.data| >= 8 && r.data[..8] == EmptyModule
    ensures InitialStep(r) == Returned(true, r.(pos := 8, result := ModuleHeader(WasmMagicNumber, 1), state := BeginWasm))
  {
    HeaderBytes();
    assert Int32At(r.data, 0) == Int32At(EmptyModule, 0);
    assert Int32At(r.data, 4) == Int32At(EmptyModule, 4);
  }

  /** The eight header bytes read as the magic number and version 1. */
  lemma HeaderBytes()
    ensures Int32At(EmptyModule, 0) == WasmMagicNumber
    ensures Int32At(EmptyModule, 4) == 1
  {
    assert [ByteAt(EmptyModule, 0), ByteAt(EmptyModule, 1), ByteAt(EmptyModule, 2), ByteAt(EmptyModule, 3)]
      == [0x00, 0x61, 0x73, 0x6d];
    assert [ByteAt(EmptyModule, 4), ByteAt(EmptyModule, 5), ByteAt(EmptyModule, 6), ByteAt(EmptyModule, 7)]
      == [0x01, 0x00, 0x00, 0x00];
    LeFour(0x00, 0x61, 0x73, 0x6d);
    LeFour(0x01, 0x00, 0x00, 0x00);
  }

  lemma LeFour(b0: Byte, b1: Byte, b2: Byte, b3: Byte)
    ensures LeValue([b0, b1, b2, b3]) == b0 + 256 * b1 + 0x1_0000 * b2 + 0x100_0000 * b3
  {
    assert LeValue([b3]) == b3 by {
      assert [b3][1..] == [];
    }
    assert LeValue([b2, b3]) == b2 + 256 * b3 by {
      assert [b2, b3][1..] == [b3];
    }
    assert LeValue([b1, b2, b3]) == b1 + 256 * b2 + 0x1_0000 * b3 by {
      assert [b1, b2, b3][1..] == [b2, b3];
    }
    assert [b0, b1, b2, b3][1..] == [b1, b2, b3];
  }

  const EmptyElementModule: seq<Byte> := EmptyModule + [0x09, 0x01, 0x00]

  /** A module whose Element section has no entries: `BEGIN_WASM`,
      `BEGIN_SECTION` with id 9, `END_SECTION`, `END_WASM`, then false. */
  lemma EmptyElementSectionRun()
    ensures var r0 := SetData(NewReader(), EmptyElementModule, 0, |EmptyElementModule|, None);
      && Read(r0).Returned? && Read(r0).ok && Read(r0).reader.state == BeginWasm
      && var r1 := Read(r0).reader;
      && Read(r1).Returned? && Read(r1).ok && Read(r1).reader.state == BeginSection
      && Read(r1).reader.result == SectionInfo(SectionElement, None)
      && var r2 := Read(r1).reader;
      && Read(r2).Returned? && Read(r2).ok && Read(r2).reader.state == EndSection
      && var r3 := Read(r2).reader;
      && Read(r3).Returned? && Read(r3).ok && Read(r3).reader.state == EndWasm
      && var r4 := Read(r3).reader;
      && Read(r4).Returned? && !Read(r4).ok
  {
    var r0 := SetData(NewReader(), EmptyElementModule, 0, |EmptyElementModule|, None);
    var r1 := r0.(pos := 8, result := ModuleHeader(WasmMagicNumber, 1), state := BeginWasm);
    ElementModuleHeader(r0);
    var r2 := r1.(pos := 10, result := SectionInfo(SectionElement, None), sectionId := SectionElement,
                  sectionRange := Some(DataRange(10, 11)), state := BeginSection);
    ElementSectionHeader(r1);
    var r3 := AtEndSection(r2, 11);
    ElementSectionBody(r2);
    var r4 := AtEndWasm(r3);
    EndOfInputEndsModule(r3);
    AfterEndWasm(r4);
    assert Read(r0) == Returned(true, r1);
    assert Read(r1) == Returned(true, r2);
    assert Read(r2) == Returned(true, r3);
    assert Read(r3) == Returned(true, r4);
    assert Read(r4) == Returned(false, r4.(result := NoResult, state := BeginWasm));
  }

  lemma ElementModuleHeader(r0: Reader)
    requires r0 == SetData(NewReader(), EmptyElementModule, 0, |EmptyElementModule|, None)
    ensures Read(r0) == Returned(true, r0.(pos := 8, result := ModuleHeader(WasmMagicNumber, 1), state := BeginWasm))
  {
    assert EmptyElementModule[..8] == EmptyModule;
    HeaderStep(r0);
    assert Read(r0) == InitialStep(r0);
  }

  lemma ElementSectionHeader(r1: Reader)
    requires r1.data == EmptyElementModule && r1.length == 11 && r1.eof && r1.pos == 8 && r1.state == BeginWasm
    ensures Read(r1) == Returned(true, r1.(pos := 10, result := SectionInfo(SectionElement, None), sectionId := SectionElement,
                                           sectionRange := Some(DataRange(10, 11)), state := BeginSection))
  {
    ElementHeaderStep(r1);
    assert Read(r1) == SectionHeaderStep(r1);
  }

  lemma ElementHeaderStep(r1: Reader)
    requires r1.data == EmptyElementModule && r1.length == 11 && r1.eof && r1.pos == 8
    ensures SectionHeaderStep(r1) == Returned(true, r1.(pos := 10, result := SectionInfo(SectionElement, None), sectionId := SectionElement,
                                                      sectionRange := Some(DataRange(10, 11)), state := BeginSection))
  {
    assert ByteAt(EmptyElementModule, 8) == 9 && ByteAt(EmptyElementModule, 9) == 1;
    SingleByteUleb(EmptyElementModule, 9);
    assert ReadVarUint32(EmptyElementModule, 9) == Decoded(1, 10);
    assert HasVarIntBytes(EmptyElementModule, 8, 11);
    assert HasVarIntBytes(EmptyElementModule, 9, 11);
  }

  lemma ElementSectionBody(r2: Reader)
    requires r2.data == EmptyElementModule && r2.length == 11 && r2.pos == 10 && r2.state == BeginSection && r2.sectionEntriesLeft == 0
    requires r2.result == SectionInfo(SectionElement, None) && r2.sectionRange == Some(DataRange(10, 11))
    ensures Read(r2) == Returned(true, AtEndSection(r2, 11))
  {
    ElementBodyStep(r2);
    assert Read(r2) == SectionBodyStep(r2, true);
  }

  lemma ElementBodyStep(r2: Reader)
    requires r2.data == EmptyElementModule && r2.length == 11 && r2.pos == 10 && r2.sectionEntriesLeft == 0
    requires r2.result == SectionInfo(SectionElement, None) && r2.sectionRange == Some(DataRange(10, 11))
    ensures SectionBodyStep(r2, true) == Returned(true, AtEndSection(r2, 11))
  {
    assert ByteAt(EmptyElementModule, 10) == 0;
    SingleByteUleb(EmptyElementModule, 10);
    assert HasVarIntBytes(EmptyElementModule, 10, 11);
    var r := r2.(pos := 11, sectionEntriesLeft := 0);
    assert ReadVarUint32(r2.data, r2.pos) == Decoded(0, 11);
    assert SectionBodyStep(r2, true) == FirstEntryStep(r, SectionElement);
    assert FirstEntryStep(r, SectionElement) == ElementEntryStep(r);
    assert ElementEntryStep(r) == SkipRestOfSection(r);
    assert AtEndSection(r.(state := SkippingSection), 11) == AtEndSection(r2, 11);
  }
}

=== FILE: reader_types.dfy ===
/** The data of `BinaryReader`: its states, the records it hands out as
    `result`, the error it records, and the reader object itself. */
module ReaderTypes {
  import opened Common
  import opened I64

  const WasmMagicNumber: int := 0x6d73_6100
  const WasmSupportedExperimentalVersion: int := 0xd
  const WasmSupportedVersion: int := 0x1

  /** `SectionCode`. */
  const SectionUnknown: int := -1
  const SectionCustom: int := 0
  const SectionType: int := 1
  const SectionImport: int := 2
  const SectionFunction: int := 3
  const SectionTable: int := 4
  const SectionMemory: int := 5
  const SectionGlobal: int := 6
  const SectionExport: int := 7
  const SectionStart: int := 8
  const SectionElement: int := 9
  const SectionCode: int := 10
  const SectionData: int := 11

  /** `ExternalKind`. */
  const KindFunction: int := 0
  const KindTable: int := 1
  const KindMemory: int := 2
  const KindGlobal: int := 3

  /** `BinaryReaderState`. */
  datatype ReaderState =
    | Error
    | Initial
    | BeginWasm
    | EndWasm
    | BeginSection
    | EndSection
    | SkippingSection
    | ReadingSectionRawData
    | SectionRawData
    | TypeSectionEntry
    | ImportSectionEntry
    | FunctionSectionEntry
    | TableSectionEntry
    | MemorySectionEntry
    | GlobalSectionEntry
    | ExportSectionEntry
    | DataSectionEntry
    | NameSectionEntry
    | ElementSectionEntry
    | LinkingSectionEntry
    | BeginInitExpressionBody
    | InitExpressionOperator
    | EndInitExpressionBody
    | BeginFunctionBody
    | ReadingFunctionHeader
    | CodeOperator
    | EndFunctionBody
    | SkippingFunctionBody
    | BeginElementSectionEntry
    | ElementSectionEntryBody
    | EndElementSectionEntry
    | BeginDataSectionEntry
    | DataSectionEntryBody
    | EndDataSectionEntry
    | BeginGlobalSectionEntry
    | EndGlobalSectionEntry
    | RelocSectionHeader
    | RelocSectionEntry
    | SourceMappingUrl

  /** `DataRange`: a half-open byte range of the current buffer. */
  datatype DataRange = DataRange(start: int, end: int)
  {
    /** `offset(delta)`: both ends move by `delta`. */
    function Offset(delta: int): (r: DataRange)
      ensures r.start - start == delta && r.end - end == delta
      ensures r.end - r.start == end - start
    {
      DataRange(start + delta, end + delta)
    }
  }

  /** `IResizableLimits`. */
  datatype Limits = Limits(flags: int, initial: int, maximum: Option<int>)
  /** `ITableType`. */
  datatype TableType = TableType(elementType: int, limits: Limits)
  /** `IGlobalType`. */
  datatype GlobalType = GlobalType(contentType: int, mutability: int)
  /** `IFunctionType`: form and the `Int8Array`s of value types. */
  datatype FuncType = FuncType(form: int, params: seq<int>, results: seq<int>)

  /** The `type` field of `IImportEntry`. */
  datatype ImportType =
    | NoImportType
    | TableImport(table: TableType)
    | MemoryImport(memory: Limits)
    /** `readGlobalType` yields `null` when the bytes are short. */
    | GlobalImport(global: Option<GlobalType>)

  /** `INaming` and `ILocalName`. */
  datatype Naming = Naming(index: int, name: seq<Byte>)
  datatype LocalName = LocalName(index: int, locals: seq<Naming>)

  /** The three kinds of `INameEntry`. */
  datatype NameEntry =
    | ModuleNameEntry(moduleNameBytes: seq<Byte>)
    | FunctionNameEntry(names: seq<Naming>)
    | LocalNameEntry(funcs: seq<LocalName>)

  /** `ILocals`: a run of `count` locals of one type. */
  datatype Locals = Locals(count: int, localType: int)

  /** `IMemoryAddress`. */
  datatype MemoryAddress = MemoryAddress(flags: int, offset: int)

  /** The immediate fields of `IOperatorInformation` that one opcode sets. */
  datatype Immediate =
    | NoImmediate
    | BlockType(blockType: int)
    | BrDepth(brDepth: int)
    | BrTable(brTable: seq<int>)
    | FuncIndex(funcIndex: int)
    | TypeIndex(typeIndex: int)
    | LocalIndex(localIndex: int)
    | GlobalIndex(globalIndex: int)
    | MemoryImmediate(memoryAddress: MemoryAddress)
    | I32Literal(i32: int)
    | I64Literal(i64: Int64)
    /** A float literal, kept as its little-endian payload. */
    | F32Literal(f32: seq<Byte>)
    | F64Literal(f64: seq<Byte>)

  /** `IOperatorInformation`. */
  datatype OperatorInfo = OperatorInfo(code: int, imm: Immediate)

  /** `BinaryReaderResult`, with `null` as `NoResult`. */
  datatype ReaderResult =
    | NoResult
    | ModuleHeader(magicNumber: int, version: int)
    | SectionInfo(id: int, name: Option<seq<Byte>>)
    | TypeEntry(funcType: FuncType)
    | ImportEntry(moduleName: seq<Byte>, fieldName: seq<Byte>, kind: int, funcTypeIndex: Option<int>, importType: ImportType)
    | ExportEntry(exportField: seq<Byte>, exportKind: int, index: int)
    | FunctionEntry(typeIndex: int)
    | TableEntry(table: TableType)
    | MemoryEntry(memory: Limits)
    | GlobalVariable(globalType: GlobalType)
    | ElementSegment(tableIndex: int)
    | ElementSegmentBody(elements: seq<int>)
    | DataSegment(memoryIndex: int)
    | DataSegmentBody(segmentData: seq<Byte>)
    | NameResult(entry: NameEntry)
    | RelocHeader(relocId: int, relocName: Option<seq<Byte>>)
    | RelocEntry(relocType: int, offset: int, relocIndex: int, addend: Option<int>)
    | LinkingEntry(linkingType: int, linkingIndex: Option<int>)
    | SourceMappingUrlResult(url: seq<Byte>)
    | FunctionInfo(locals: seq<Locals>)
    | Operator(op: OperatorInfo)
    | RawData(bytes: seq<Byte>)

  /** The `Error` objects the reader records; their message text is not
      modelled, only what it reports. */
  datatype ReaderError =
    | BadMagicNumber
    | BadVersionNumber(version: int)
    | UnsupportedSection(sectionId: int)
    | BadNameEntryType(nameType: int)
    | BadLinkingType(linkingType: int)
    | BadRelocationType(relocType: int)
    | UnexpectedSectionType(sectionId: int)
    | UnsupportedState(state: ReaderState)

  /** The fields of a `BinaryReader`. `data` is the `Uint8Array` over the
      whole buffer; `length` is where the caller says the valid bytes end. */
  datatype Reader = Reader(
    data: seq<Byte>,
    pos: int,
    length: int,
    eof: bool,
    state: ReaderState,
    result: ReaderResult,
    error: Option<ReaderError>,
    sectionEntriesLeft: int,
    sectionId: int,
    sectionRange: Option<DataRange>,
    functionRange: Option<DataRange>)

  /** The exceptions a `read()` call can raise. */
  datatype JsError =
    /** a property read on a `null` range */
    | TypeError
    /** a typed array of negative length, or a `DataView` read outside the buffer */
    | RangeError

  /** What one `read()` call does: return a boolean, or throw. Either way the
      reader is left as the call left it. */
  datatype ReadOutcome =
    | Returned(ok: bool, reader: Reader)
    | Threw(exception: JsError, reader: Reader)
}

=== FILE: retry.dfy ===
/** Retrying a `read()` that ran out of bytes. A streaming caller that gets
    `false` supplies more bytes with `setData()` and calls `read()` again;
    that only works if a `false` leaves a reader which, with no new bytes,
    returns `false` again and changes nothing. The corrected reader has that
    property in every state but `END_WASM` (whose `false` means the input is
    over). The reader as written loses it in `linking` and relocation
    sections, where the entry count is consumed but not recorded. */
module ReaderRetry {
  import opened Common
  import opened Leb
  import opened ReaderTypes
  import opened Decode
  import opened WasmReader

  /** A `false` from `read()` is a fixed point: calling again changes nothing. */
  predicate RetryStable(o: ReadOutcome)
  {
    o.Returned? && !o.ok ==> Read(o.reader) == o
  }

  // ---------------------------------------------------------------------------
  // The corrected reader

  /** Outside `END_WASM`, a `read()` that returns false can be repeated: the
      repeat returns false and leaves the reader as it is. */
  lemma ShortReadIsIdempotent(r: Reader)
    requires r.state != EndWasm
    ensures RetryStable(Read(r))
  {
    match r.state
    case BeginSection => SectionBodyRetry(r);
    case BeginFunctionBody => CodeOperatorRetry(r.(state := CodeOperator));
    case BeginInitExpressionBody => CodeOperatorRetry(r.(state := InitExpressionOperator));
    case Initial => InitialRetry(r);
    case BeginWasm => SectionHeaderRetry(r);
    case EndSection => SectionHeaderRetry(r);
    case SkippingSection => SkippingSectionRetry(r);
    case SkippingFunctionBody => SkippingFunctionBodyRetry(r);
    case TypeSectionEntry => TypeEntryRetry(r);
    case ImportSectionEntry => ImportEntryRetry(r);
    case ExportSectionEntry => ExportEntryRetry(r);
    case FunctionSectionEntry => FunctionEntryRetry(r);
    case TableSectionEntry => TableEntryRetry(r);
    case MemorySectionEntry => MemoryEntryRetry(r);
    case GlobalSectionEntry => GlobalEntryRetry(r);
    case EndGlobalSectionEntry => GlobalEntryRetry(r);
    case BeginGlobalSectionEntry => InitExpressionBodyRetry(r);
    case BeginElementSectionEntry => InitExpressionBodyRetry(r);
    case BeginDataSectionEntry => InitExpressionBodyRetry(r);
    case ElementSectionEntry => ElementEntryRetry(r);
    case EndElementSectionEntry => ElementEntryRetry(r);
    case DataSectionEntry => DataEntryRetry(r);
    case EndDataSectionEntry => DataEntryRetry(r);
    case EndInitExpressionBody => EndInitExpressionRetry(r);
    case NameSectionEntry => NameEntryRetry(r);
    case RelocSectionHeader => RelocHeaderRetry(r);
    case LinkingSectionEntry => LinkingEntryRetry(r);
    case RelocSectionEntry => RelocEntryRetry(r);
    case ReadingFunctionHeader => FunctionBodyRetry(r);
    case EndFunctionBody => FunctionBodyRetry(r);
    case CodeOperator => CodeOperatorRetry(r);
    case InitExpressionOperator => CodeOperatorRetry(r);
    case ReadingSectionRawData => RawDataRetry(r);
    case _ =>
  }

  lemma InitialRetry(r: Reader)
    requires r.state == Initial
    ensures RetryStable(InitialStep(r))
  {
  }

  lemma SectionHeaderRetry(r: Reader)
    requires r.state == BeginWasm || r.state == EndSection
    ensures RetryStable(SectionHeaderStep(r))
  {
  }

  lemma SkippingSectionRetry(r: Reader)
    requires r.state == SkippingSection
    ensures RetryStable(SkippingSectionStep(r))
  {
  }

  lemma SkippingFunctionBodyRetry(r: Reader)
    requires r.state == SkippingFunctionBody
    ensures RetryStable(SkippingFunctionBodyStep(r))
  {
  }

  lemma TypeEntryRetry(r: Reader)
    requires r.state == TypeSectionEntry
    ensures RetryStable(TypeEntryStep(r))
  {
  }

  lemma ImportEntryRetry(r: Reader)
    requires r.state == ImportSectionEntry
    ensures RetryStable(ImportEntryStep(r))
  {
  }

  lemma ExportEntryRetry(r: Reader)
    requires r.state == ExportSectionEntry
    ensures RetryStable(ExportEntryStep(r))
  {
  }

  lemma FunctionEntryRetry(r: Reader)
    requires r.state == FunctionSectionEntry
    ensures RetryStable(FunctionEntryStep(r))
  {
  }

  lemma TableEntryRetry(r: Reader)
    requires r.state == TableSectionEntry
    ensures RetryStable(TableEntryStep(r))
  {
  }

  lemma MemoryEntryRetry(r: Reader)
    requires r.state == MemorySectionEntry
    ensures RetryStable(MemoryEntryStep(r))
  {
  }

  lemma GlobalEntryRetry(r: Reader)
    requires r.state == GlobalSectionEntry || r.state == EndGlobalSectionEntry
    ensures RetryStable(GlobalEntryStep(r))
  {
  }

  lemma InitExpressionBodyRetry(r: Reader)
    requires r.state == BeginGlobalSectionEntry || r.state == BeginElementSectionEntry || r.state == BeginDataSectionEntry
    ensures RetryStable(InitExpressionBodyStep(r))
  {
  }

  lemma ElementEntryRetry(r: Reader)
    requires r.state == ElementSectionEntry || r.state == EndElementSectionEntry
    ensures RetryStable(ElementEntryStep(r))
  {
  }

  lemma DataEntryRetry(r: Reader)
    requires r.state == DataSectionEntry || r.state == EndDataSectionEntry
    ensures RetryStable(DataEntryStep(r))
  {
  }

  lemma EndInitExpressionRetry(r: Reader)
    requires r.state == EndInitExpressionBody
    ensures RetryStable(EndInitExpressionStep(r))
  {
  }

  lemma NameEntryRetry(r: Reader)
    requires r.state == NameSectionEntry
    ensures RetryStable(NameEntryStep(r))
  {
    var o := NameEntryStep(r);
    if o.Returned? && !o.ok {
      if o.reader == r {
        assert Read(r) == NameEntryStep(r);
      } else {
        SkippingSectionRetry(r.(state := SkippingSection));
      }
    }
  }

  lemma RelocHeaderRetry(r: Reader)
    requires r.state == RelocSectionHeader
    ensures RetryStable(CountThenEntry(r, true, RelocSectionEntry, false))
  {
    if HasVarIntBytes(r.data, r.pos, r.length) {
      CountThenEntryRetry(r, RelocSectionEntry, false);
    }
  }

  lemma LinkingEntryRetry(r: Reader)
    requires r.state == LinkingSectionEntry
    ensures RetryStable(LinkingEntryStep(r))
  {
  }

  lemma RelocEntryRetry(r: Reader)
    requires r.state == RelocSectionEntry
    ensures RetryStable(RelocEntryStep(r))
  {
  }

  lemma FunctionBodyRetry(r: Reader)
    requires r.state == ReadingFunctionHeader || r.state == EndFunctionBody
    ensures RetryStable(FunctionBodyStep(r))
  {
  }

  lemma CodeOperatorRetry(r: Reader)
    requires r.state == CodeOperator || r.state == InitExpressionOperator
    ensures RetryStable(ReadCodeOperator(r))
  {
  }

  lemma RawDataRetry(r: Reader)
    requires r.state == ReadingSectionRawData
    ensures RetryStable(SectionRawDataStep(r))
  {
  }

  /** With the count recorded in the state, a short first entry is retried
      from the entry, not from the count. */
  lemma CountThenEntryRetry(r: Reader, entryState: ReaderState, linking: bool)
    requires entryState == (if linking then LinkingSectionEntry else RelocSectionEntry)
    requires HasVarIntBytes(r.data, r.pos, r.length)
    ensures RetryStable(CountThenEntry(r, true, entryState, linking))
  {
  }

  lemma SectionBodyRetry(r: Reader)
    requires r.state == BeginSection
    ensures RetryStable(Read(r))
  {
    match r.sectionRange
    case None =>
    case Some(range) =>
      if r.pos < range.end {
        var id := if r.result.SectionInfo? then r.result.id else SectionUnknown;
        if id == SectionCustom {
          CustomSectionRetry(r);
        } else if (WholePayloadSection(id) && range.end <= r.length) ||
                  (StreamedSection(id) && HasVarIntBytes(r.data, r.pos, r.length)) {
          var count := ReadVarUint32(r.data, r.pos);
          FirstEntryRetry(r.(pos := count.next, sectionEntriesLeft := count.value), id, range);
        }
      }
  }

  /** A short first entry of a known section leaves a state that resumes
      at that entry. */
  lemma FirstEntryRetry(r: Reader, id: int, range: DataRange)
    requires r.state == BeginSection && r.sectionRange == Some(range)
    requires WholePayloadSection(id) || StreamedSection(id)
    requires WholePayloadSection(id) ==> range.end <= r.length
    ensures RetryStable(FirstEntryStep(r, id))
  {
    if id == SectionType {
      TypeFirstEntryRetry(r);
    } else if id == SectionImport {
      ImportFirstEntryRetry(r);
    } else if id == SectionExport {
      ExportFirstEntryRetry(r);
    } else if id == SectionFunction {
      FunctionFirstEntryRetry(r);
    } else if id == SectionTable {
      TableFirstEntryRetry(r);
    } else if id == SectionMemory {
      MemoryFirstEntryRetry(r);
    } else if id == SectionGlobal {
      GlobalFirstEntryRetry(r);
    } else if id == SectionCode {
      CodeFirstEntryRetry(r);
    } else if id == SectionElement {
      ElementFirstEntryRetry(r);
    } else {
      DataFirstEntryRetry(r);
    }
  }

  lemma TypeFirstEntryRetry(r: Reader)
    requires r.state == BeginSection && r.sectionRange.Some?
    ensures RetryStable(TypeEntryStep(r))
  {
  }

  lemma ImportFirstEntryRetry(r: Reader)
    requires r.state == BeginSection && r.sectionRange.Some?
    ensures RetryStable(ImportEntryStep(r))
  {
  }

  lemma ExportFirstEntryRetry(r: Reader)
    requires r.state == BeginSection && r.sectionRange.Some?
    ensures RetryStable(ExportEntryStep(r))
  {
  }

  lemma FunctionFirstEntryRetry(r: Reader)
    requires r.state == BeginSection && r.sectionRange.Some?
    ensures RetryStable(FunctionEntryStep(r))
  {
  }

  lemma TableFirstEntryRetry(r: Reader)
    requires r.state == BeginSection && r.sectionRange.Some?
    ensures RetryStable(TableEntryStep(r))
  {
  }

  lemma MemoryFirstEntryRetry(r: Reader)
    requires r.state == BeginSection && r.sectionRange.Some?
    ensures RetryStable(MemoryEntryStep(r))
  {
  }

  lemma GlobalFirstEntryRetry(r: Reader)
    requires r.state == BeginSection && r.sectionRange.Some?
    ensures RetryStable(GlobalEntryStep(r))
  {
  }

  lemma CodeFirstEntryRetry(r: Reader)
    requires r.state == BeginSection && r.sectionRange.Some?
    ensures RetryStable(FunctionBodyStep(r.(state := ReadingFunctionHeader)))
  {
  }

  lemma ElementFirstEntryRetry(r: Reader)
    requires r.state == BeginSection && r.sectionRange.Some?
    ensures RetryStable(ElementEntryStep(r))
  {
  }

  lemma DataFirstEntryRetry(r: Reader)
    requires r.state == BeginSection && r.sectionRange.Some?
    ensures RetryStable(DataEntryStep(r.(state := DataSectionEntry)))
  {
  }

  lemma CustomSectionRetry(r: Reader)
    requires r.state == BeginSection && r.sectionRange.Some? && r.pos < r.sectionRange.value.end
    requires r.result.SectionInfo? && r.result.id == SectionCustom
    ensures RetryStable(Read(r))
  {
    var name := if r.result.name.Some? then r.result.name.value else [];
    if name == NameSectionName {
      assert RetryStable(NameEntryStep(r));
    } else if RelocPrefix <= name {
      assert RetryStable(RelocHeaderStep(r));
    } else if name == LinkingSectionName && HasVarIntBytes(r.data, r.pos, r.length) {
      CountThenEntryRetry(r, LinkingSectionEntry, true);
    } else if name == SourceMappingUrlName {
      assert RetryStable(SourceMappingUrlStep(r));
    } else {
      assert RetryStable(SectionRawDataStep(r));
    }
  }

  // ---------------------------------------------------------------------------
  // Where the two readers differ

  /** A section header for a custom section named `linking`. */
  predicate LinkingHeader(r: Reader)
  {
    r.result.SectionInfo? && r.result.id == SectionCustom && r.result.name == Some(LinkingSectionName)
  }

  /** The corrected reader is `read()` as written everywhere except where the
      entry count of a `linking` or relocation section is read. */
  lemma ReadersAgree(r: Reader)
    requires r.state != RelocSectionHeader
    requires !(r.state == BeginSection && LinkingHeader(r))
    ensures Read(r) == ReadAsWritten(r)
  {
    if r.state == BeginSection {
      SectionBodiesAgree(r);
    }
  }

  lemma SectionBodiesAgree(r: Reader)
    requires !LinkingHeader(r)
    ensures SectionBodyStep(r, true) == SectionBodyStep(r, false)
  {
    if r.result.SectionInfo? && r.result.id == SectionCustom {
      assert CustomSectionStep(r, true) == CustomSectionStep(r, false);
    }
  }

  // ---------------------------------------------------------------------------
  // The reader as written

  /** The payload of a `linking` section: one entry of type 1 (`StackPointer`)
      with index 5. Only the first two bytes are there at first. */
  const LinkingPayload: seq<Byte> := [0x01, 0x01, 0x05]

  /** A reader right after the header of that section. */
  function LinkingReader(): (r: Reader)
    ensures r.state == BeginSection && r.pos == 0 && r.length == 2 && !r.eof
  {
    Reader(LinkingPayload, 0, 2, false, BeginSection, SectionInfo(SectionCustom, Some(LinkingSectionName)), None,
           0, SectionCustom, Some(DataRange(0, 3)), None)
  }

  /** The section's name is `linking` and none of the others. */
  lemma LinkingNameFacts()
    ensures NameSectionName != LinkingSectionName && !(RelocPrefix <= LinkingSectionName)
    ensures LinkingSectionName != SourceMappingUrlName
  {
    assert NameSectionName[0] != LinkingSectionName[0];
    assert RelocPrefix[0] != LinkingSectionName[0];
    assert SourceMappingUrlName[0] != LinkingSectionName[0];
  }

  /** The first call, as written and corrected: the count is read and the
      entry runs out of bytes. The corrected call records the state. */
  lemma LinkingFirstRead(resumable: bool)
    ensures ReadStep(LinkingReader(), resumable) ==
      Returned(false, LinkingReader().(pos := 1, sectionEntriesLeft := 1,
                                      state := if resumable then LinkingSectionEntry else BeginSection))
  {
    LinkingNameFacts();
    SingleByteUleb(LinkingPayload, 0);
    SingleByteUleb(LinkingPayload, 1);
    assert HasVarIntBytes(LinkingPayload, 0, 2);
    assert HasVarIntBytes(LinkingPayload, 1, 2);
    assert !HasVarIntBytes(LinkingPayload, 2, 2);
  }

  /** As written, the first call reads the count, runs out of bytes in the
      entry and leaves the state at `BEGIN_SECTION`. The retry reads the
      entry's type byte as the count, so it does not return the reader
      unchanged; and once the third byte arrives it reads the index as the
      type and fails with "Bad linking type: 5". */
  lemma LinkingRetryAsWritten()
    ensures var o := ReadAsWritten(LinkingReader());
      && o == Returned(false, LinkingReader().(pos := 1, sectionEntriesLeft := 1))
      && ReadAsWritten(o.reader) == Returned(false, LinkingReader().(pos := 2, sectionEntriesLeft := 1))
      && var more := SetData(o.reader, LinkingPayload, 1, 3, Some(false));
      && ReadAsWritten(more) ==
         Returned(true, more.(pos := 3, sectionEntriesLeft := 1, error := Some(BadLinkingType(5)), state := Error))
  {
    LinkingFirstRead(false);
    var r1 := LinkingReader().(pos := 1, sectionEntriesLeft := 1);
    LinkingRetryShort(r1);
    var more := SetData(r1, LinkingPayload, 1, 3, Some(false));
    LinkingRetryWithMore(more);
  }

  lemma LinkingRetryShort(r1: Reader)
    requires r1 == LinkingReader().(pos := 1, sectionEntriesLeft := 1)
    ensures ReadAsWritten(r1) == Returned(false, LinkingReader().(pos := 2, sectionEntriesLeft := 1))
  {
    LinkingNameFacts();
    SingleByteUleb(LinkingPayload, 1);
    assert HasVarIntBytes(LinkingPayload, 1, 2);
    assert !HasVarIntBytes(LinkingPayload, 2, 2);
  }

  lemma LinkingRetryWithMore(more: Reader)
    requires more == LinkingReader().(pos := 1, sectionEntriesLeft := 1, length := 3)
    ensures ReadAsWritten(more) ==
      Returned(true, more.(pos := 3, sectionEntriesLeft := 1, error := Some(BadLinkingType(5)), state := Error))
  {
    LinkingNameFacts();
    SingleByteUleb(LinkingPayload, 1);
    SingleByteUleb(LinkingPayload, 2);
    assert HasVarIntBytes(LinkingPayload, 1, 3);
    assert HasVarIntBytes(LinkingPayload, 2, 3);
  }

  /** The corrected reader resumes at the entry: after the same short read
      and the same `setData()`, it yields the entry `(1, 5)`. */
  lemma LinkingRetryCorrected()
    ensures var o := Read(LinkingReader());
      && o == Returned(false, LinkingReader().(pos := 1, sectionEntriesLeft := 1, state := LinkingSectionEntry))
      && Read(o.reader) == o
      && var more := SetData(o.reader, LinkingPayload, 1, 3, Some(false));
      && Read(more) == Returned(true, more.(state := LinkingSectionEntry, result := LinkingEntry(1, Some(5)),
                                            pos := 3, sectionEntriesLeft := 0))
  {
    var r1 := LinkingReader().(pos := 1, sectionEntriesLeft := 1, state := LinkingSectionEntry);
    LinkingFirstRead(true);
    ReadIsResumable(LinkingReader());
    LinkingEntryShort(r1);
    ReadAtLinkingEntry(r1);
    var more := r1.(length := 3);
    assert SetData(r1, LinkingPayload, 1, 3, Some(false)) == more;
    LinkingEntryWithMore(more);
    ReadAtLinkingEntry(more);
  }

  lemma ReadIsResumable(r: Reader)
    ensures Read(r) == ReadStep(r, true)
  {
  }

  lemma ReadAtLinkingEntry(r: Reader)
    requires r.state == LinkingSectionEntry
    ensures Read(r) == LinkingEntryStep(r)
  {
  }

  /** In `LINKING_SECTION_ENTRY` with two bytes, the entry is short. */
  lemma LinkingEntryShort(r1: Reader)
    requires r1 == LinkingReader().(pos := 1, sectionEntriesLeft := 1, state := LinkingSectionEntry)
    ensures LinkingEntryStep(r1) == Returned(false, r1)
  {
    assert ByteAt(LinkingPayload, 1) == 1;
    SingleByteUleb(LinkingPayload, 1);
    assert HasVarIntBytes(LinkingPayload, 1, 2);
    assert !HasVarIntBytes(LinkingPayload, 2, 2);
  }

  /** With the third byte, the entry is `(1, 5)`. */
  lemma LinkingEntryWithMore(more: Reader)
    requires more == LinkingReader().(pos := 1, sectionEntriesLeft := 1, state := LinkingSectionEntry, length := 3)
    ensures LinkingEntryStep(more) == Returned(true, more.(state := LinkingSectionEntry, result := LinkingEntry(1, Some(5)),
                                                          pos := 3, sectionEntriesLeft := 0))
  {
    assert ByteAt(LinkingPayload, 1) == 1 && ByteAt(LinkingPayload, 2) == 5;
    SingleByteUleb(LinkingPayload, 1);
    SingleByteUleb(LinkingPayload, 2);
    assert HasVarIntBytes(LinkingPayload, 1, 3);
    assert HasVarIntBytes(LinkingPayload, 2, 3);
  }

  /** A relocation section after its header: count 1, then an entry of type
      0 whose offset has not arrived. */
  const RelocPayload: seq<Byte> := [0x01, 0x00]

  function RelocReader(): (r: Reader)
    ensures r.state == RelocSectionHeader && r.pos == 0 && r.length == 2 && !r.eof
  {
    Reader(RelocPayload, 0, 2, false, RelocSectionHeader, RelocHeader(SectionCode, None), None,
           0, SectionCustom, Some(DataRange(0, 10)), None)
  }

  /** As written, the retry in `RELOC_SECTION_HEADER` reads the entry's type
      byte 0 as the count and starts skipping the section. */
  lemma RelocRetryAsWritten()
    ensures var o := ReadAsWritten(RelocReader());
      && o == Returned(false, RelocReader().(pos := 1, sectionEntriesLeft := 1))
      && ReadAsWritten(o.reader) == Returned(false, RelocReader().(pos := 2, sectionEntriesLeft := 0, state := SkippingSection))
  {
    RelocFirstReadAsWritten();
    RelocRetryReadAsWritten(RelocReader().(pos := 1, sectionEntriesLeft := 1));
  }

  lemma RelocFirstReadAsWritten()
    ensures ReadAsWritten(RelocReader()) == Returned(false, RelocReader().(pos := 1, sectionEntriesLeft := 1))
  {
    var r := RelocReader();
    var r1 := r.(pos := 1, sectionEntriesLeft := 1);
    assert ByteAt(RelocPayload, 0) == 1;
    SingleByteUleb(RelocPayload, 0);
    assert HasVarIntBytes(RelocPayload, 0, 2);
    assert CountThenEntry(r, false, RelocSectionEntry, false) == RelocEntryStep(r1);
    RelocEntryShort(r1);
    ReadAsWrittenAtRelocHeader(r);
  }

  lemma ReadAsWrittenAtRelocHeader(r: Reader)
    requires r.state == RelocSectionHeader
    ensures ReadAsWritten(r) == CountThenEntry(r, false, RelocSectionEntry, false)
  {
  }

  /** The entry's type byte is there but its offset is not. */
  lemma RelocEntryShort(r1: Reader)
    requires r1 == RelocReader().(pos := 1, sectionEntriesLeft := 1)
    ensures RelocEntryStep(r1) == Returned(false, r1)
  {
    assert ByteAt(RelocPayload, 1) == 0;
    SingleByteUleb(RelocPayload, 1);
    assert HasVarIntBytes(RelocPayload, 1, 2);
    assert !HasVarIntBytes(RelocPayload, 2, 2);
  }

  lemma RelocRetryReadAsWritten(r1: Reader)
    requires r1 == RelocReader().(pos := 1, sectionEntriesLeft := 1)
    ensures ReadAsWritten(r1) == Returned(false, RelocReader().(pos := 2, sectionEntriesLeft := 0, state := SkippingSection))
  {
    SingleByteUleb(RelocPayload, 1);
    assert HasVarIntBytes(RelocPayload, 1, 2);
    assert !HasVarIntBytes(RelocPayload, 2, 2);
  }

  // ---------------------------------------------------------------------------
  // skipInitExpression() on a short buffer

  /** A reader inside an init expression whose next operator is not all in
      the buffer yet. */
  predicate ShortInitExpression(r: Reader)
  {
    r.state == InitExpressionOperator && !(r.result.Operator? && r.result.op.code == OpEnd) &&
    !r.eof && r.pos + MaxCodeOperatorSize > r.length
  }

  /** As written, the loop of `skipInitExpression()` makes no progress on a
      short buffer: however many operators it is allowed to try, it is still
      looping when the bound runs out. */
  lemma {:induction false} SkipInitExpressionHangs(r: Reader, fuel: nat)
    requires ShortInitExpression(r)
    ensures SkipInitExpression(r, fuel) == None
    decreases fuel
  {
    if fuel > 0 {
      assert ReadCodeOperator(r) == Returned(false, r);
      SkipInitExpressionHangs(r, fuel - 1);
    }
  }

  /** Stopping at the short read ends the loop at once, with the reader as it
      was, whatever the bound. */
  lemma SkipInitExpressionStops(r: Reader, fuel: nat)
    requires ShortInitExpression(r)
    ensures SkipInitExpressionOrStop(r, fuel) == Some(Returned(false, r))
    ensures SkipInitExpression(r, fuel) != SkipInitExpressionOrStop(r, fuel)
  {
    SkipInitExpressionHangs(r, fuel);
  }
}
